=== FILE: README.md ===
# A Dafny model of the RomM iOS client core

This project models the decision-making core of the RomM iOS app, a client for a self-hosted RomM game-library server that also pushes ROMs to handheld devices over SFTP. Each part of the Swift code is a Dafny module of immutable datatypes and pure step functions. The network, the disk, the keychain, the clock and the SFTP library appear only as inputs: each step is given what they returned.

- **Private networks and trust** (`PrivateNetwork`): which hosts count as private and the TLS trust decision that follows from it.
- **Remote files** (`RemoteFiles`): file types by extension, and permission strings from octal modes.
- **Logging** (`Logging`):
  - log levels and their order;
  - the per-category gate;
  - saving and loading of the category levels;
  - the bounded log store and its filter.
- **Platform page** (`PlatformDetail`, `RomFilters`, `SortOptions`, `SectionIndex`, `CharPicker`):
  - paginated loading and the character index;
  - ROM filters and filter options;
  - sort options;
  - the alphabetical sections;
  - the character picker.
- **SFTP devices**:
  - connection records and the repository of connections and favourite folders (`SftpConnections`, `SftpRepository`);
  - the service's error classification, authentication, listing, upload progress and file operations (`SftpService`);
  - the status cache (`ConnectionManager`);
  - path joining (`Paths`);
  - the directory browser (`DirectoryBrowser`);
  - the add/edit form (`AddEditDevice`);
  - the upload screen (`UploadViewModel`).
- **Collections** (`Collections`, `CollectionPicker`): mapping the server's collections, and adding a ROM to a collection or removing it.
- **Emulator** (`Emulator`): the platform support check and the launch pre-flight checks.
- **Local ROMs** (`LocalRoms`): the repository of ROMs downloaded to the device.
- **Mapping and history** (`RomMapper`, `TransferHistory`): mapping ROM records, and the transfer history.

Shared helpers:

- `Base`: `Option`/`Result`;
- `Seqs`: filters, sums, subsequences;
- `Ordering`: a stable insertion sort and string order;
- `Strings`: ASCII case mapping, containment, split and join, trimming of Unicode whitespace and newlines, integer text.

## Model

| member | source | states |
|---|---|---|
| PrivateNetwork.ByteValues | romm/romm/Data/Services/PrivateNetworkURLSessionDelegate.swift:51 | no more values than pieces, every value in 0..255 (the exact values are stated by ByteValuesFiltered) |
| PrivateNetwork.ByteValuesFiltered | romm/romm/Data/Services/PrivateNetworkURLSessionDelegate.swift:51 | as many values as pieces that read as a byte, and the k-th value is the byte of the k-th such piece, so the byte pieces are kept in order and the others dropped |
| PrivateNetwork.ParseIPv4AsWritten | romm/romm/Data/Services/PrivateNetworkURLSessionDelegate.swift:50-54 | the address as the app reads it: some exactly when four of the dot-separated pieces read as bytes, and then four octets in 0..255 |
| PrivateNetwork.ParseIPv4 | romm/romm/Data/Services/PrivateNetworkURLSessionDelegate.swift:50-54 | the intended dotted-quad reading: some exactly when there are four pieces and every one is a byte, the octets being those bytes |
| PrivateNetwork.ParseIPv4Agrees | romm/romm/Data/Services/PrivateNetworkURLSessionDelegate.swift:50-54 | on every genuine dotted quad the lenient and the strict reading give the same octets |
| PrivateNetwork.PrivateIPv4IsCidr | romm/romm/Data/Services/PrivateNetworkURLSessionDelegate.swift:57-91 | the first-two-octet tests hold exactly for addresses in 10.0.0.0/8, 100.64.0.0/10, 172.16.0.0/12, 192.168.0.0/16 and 127.0.0.0/8, judged on the 32-bit address value |
| PrivateNetwork.IsPrivateHostAsWritten | romm/romm/Data/Services/PrivateNetworkURLSessionDelegate.swift:27-47 | the app's classification: loopback names are private, and a host that reads as four octets is private exactly when the octets fall in a private range |
| PrivateNetwork.IsPrivateHost | romm/romm/Data/Services/PrivateNetworkURLSessionDelegate.swift:27-47 | private exactly for "localhost", "::1", a dotted quad inside one of the five private blocks, or a non-IPv4 host with ':' starting "fe80:", "fc" or "fd" |
| PrivateNetwork.DomainNameIsPublic | romm/romm/Data/Services/PrivateNetworkURLSessionDelegate.swift:46 | a host that is no loopback name, no dotted quad and has no ':' is public |
| PrivateNetwork.LocalNamesArePrivate | romm/romm/Data/Services/PrivateNetworkURLSessionDelegate.swift:29-31 | "localhost" and "::1" are always private |
| PrivateNetwork.PrivateHostAgrees | romm/romm/Data/Services/PrivateNetworkURLSessionDelegate.swift:33-36 | for every genuine dotted quad the app's classification and the corrected one agree |
| PrivateNetwork.DomainWithPrivatePrefix | romm/romm/Data/Services/PrivateNetworkURLSessionDelegate.swift:51-52 | a domain name whose first four labels read as a private address ("10.0.0.1.example.com") is private as written but public as intended |
| PrivateNetwork.ExampleHost | romm/romm/Data/Services/PrivateNetworkURLSessionDelegate.swift:51-52 | "10.0.0.1.example.com" splits into "10", "0", "0", "1", "example", "com", is neither a loopback name nor an IPv6 literal, and is private under the lenient reading but public under the strict one |
| PrivateNetwork.Describe | romm/romm/Data/Services/PrivateNetworkURLSessionDelegate.swift:94-123 | the logged label, reading the address leniently as the decision does: loopback names and "127." hosts are "Localhost", and a host whose first read octet is 10 is "Private Class A (10.x.x.x)" even when it is a domain name |
| PrivateNetwork.DescribeMatchesDecision | romm/romm/Data/Services/PrivateNetworkURLSessionDelegate.swift:143-159 | away from loopback the label names a private range exactly when the host is treated as private, except for a 127 address without the "127." prefix (private, labelled public) and a host with ':' that still reads as four public octets (public, labelled IPv6) |
| PrivateNetwork.Decide | romm/romm/Data/Services/PrivateNetworkURLSessionDelegate.swift:127-162 | as the app answers: a non-server-trust challenge gets default handling; a server-trust challenge is answered with the presented trust (or none when absent) exactly when the lenient reading calls the host private, otherwise default handling |
| PrivateNetwork.DecideCorrected | romm/romm/Data/Services/PrivateNetworkURLSessionDelegate.swift:143-161 | the corrected answer: the presented trust is used exactly for a server-trust challenge from a host the strict reading calls private; otherwise no credential |
| PrivateNetwork.DecisionsAgree | romm/romm/Data/Services/PrivateNetworkURLSessionDelegate.swift:143-161 | the app's answer and the corrected one coincide on every host both readings parse alike |
| PrivateNetwork.PublicHostNeverTrusted | romm/romm/Data/Services/PrivateNetworkURLSessionDelegate.swift:157-161 | under the corrected answer a host that is not private never gets a credential, whatever challenge it sends |
| PrivateNetwork.DecideTrustsDomainAsWritten | romm/romm/Data/Services/PrivateNetworkURLSessionDelegate.swift:143-156 | the app accepts the server trust of the public domain "10.0.0.1.example.com" and logs it as a class A address, while the corrected answer leaves it to default validation |
| RemoteFiles.FromExtension | romm/romm/Domain/Models/RemoteFile.swift:28-60 | the lists are tried in order on the lower-cased extension: ROM iff on the ROM list, archive iff only on the archive list, image iff on neither but on the image list, unknown iff on no list; never a directory |
| RemoteFiles.FromExtensionIgnoresCase | romm/romm/Domain/Models/RemoteFile.swift:29 | an extension and its lower-case form are classified alike |
| RemoteFiles.ArchiveOnlyBz2Xz | romm/romm/Domain/Models/RemoteFile.swift:37-52 | because the ROM list is tried first, only "bz2" and "xz" (in any case) are ever archives; zip, 7z, rar, tar and gz are ROMs |
| RemoteFiles.MdIsRom | romm/romm/Domain/Models/RemoteFile.swift:34-49 | "md" is on the document list yet is classified as a ROM |
| RemoteFiles.OctalValue | romm/romm/Domain/Models/RemoteFile.swift:73 | the permission value is the last three characters read in base 8, 0 when they do not parse; a signed suffix such as "-77" (that is -63) parses too, so the value lies in -63..511 |
| RemoteFiles.Triple | romm/romm/Domain/Models/RemoteFile.swift:75-81 | one permission triple has exactly three characters |
| RemoteFiles.TripleRoundTrip | romm/romm/Domain/Models/RemoteFile.swift:75-81 | reading a triple back with r=4, w=2, x=1 gives the three bits it was made from |
| RemoteFiles.FromOctal | romm/romm/Domain/Models/RemoteFile.swift:69-86 | the octal text is kept, and owner, group and other are three-character triples recording bits 6-8, 3-5 and 0-2 of the value |
| RemoteFiles.DisplayShape | romm/romm/Domain/Models/RemoteFile.swift:88-90 | the display string always has nine characters drawn from r, w, x and - |
| RemoteFiles.UnparseableGrantsNothing | romm/romm/Domain/Models/RemoteFile.swift:73 | text whose last three characters do not parse in base 8 displays as nine dashes and grants nothing |
| RemoteFiles.OwnerFlags | romm/romm/Domain/Models/RemoteFile.swift:92-102 | readable, writable and executable follow the 4, 2 and 1 bits of the owner digit |
| RemoteFiles.ThreeDigits | romm/romm/Domain/Models/RemoteFile.swift:72-85 | a three-digit octal string renders digit by digit: owner, group and other are its first, second and third digit |
| RemoteFiles.Example755 | romm/romm/Domain/Models/RemoteFile.swift:72 | "755" displays as "rwxr-xr-x" |
| RemoteFiles.PathExtension | romm/romm/Domain/Models/RemoteFile.swift:120 | the extension has no '.' and is what follows the name's last '.'; a name without '.' has none |
| RemoteFiles.RemoteFile.Extension | romm/romm/Domain/Models/RemoteFile.swift:118-121 | a directory has no extension; a plain file's extension is its name's path extension, which has no '.' and, when non-empty, ends the name after a '.' |
| RemoteFiles.RemoteFile.Type | romm/romm/Domain/Models/RemoteFile.swift:123-126 | the type is directory exactly for directories; a plain file is classified by its name's extension |
| RemoteFiles.EntryType | romm/romm/Domain/Models/RemoteFile.swift:118-126 | a directory is typed as a directory with an empty extension whatever its name; a plain file is typed by its extension and is never a directory |
| Logging.LevelFromRaw | RommApp/Core/Logging/LogConfiguration.swift:137-149 | the integer initializer yields a level exactly for 0..5, and that level's value is the integer |
| Logging.LevelRawRoundTrip | RommApp/Core/Logging/LogConfiguration.swift:137-149 | reading back any level's value gives the level: the initializer inverts the value |
| Logging.RawIncreasing | RommApp/Core/Logging/LogLevel.swift:40-49 | the values increase strictly in declaration order from debug to critical, so no two levels share one |
| Logging.BelowStrictTotal | RommApp/Core/Logging/LogLevel.swift:51-53 | `<` on levels is irreflexive, transitive and total |
| Logging.MaxLevel | RommApp/Core/Logging/LogConfiguration.swift:83 | the maximum of two levels is one of them and below neither |
| Logging.OSType | RommApp/Core/Logging/LogLevel.swift:28-37 | debug, info, notice and critical each get their own log type (debug, info, default, fault) and no other level does; warning and error, and only they, are written with the error type |
| Logging.OSTypeMonotone | RommApp/Core/Logging/LogLevel.swift:28-37 | a higher level never gets a less severe log type, and the only two levels sharing a type are warning and error |
| Logging.CategoryFromName | RommApp/Core/Logging/LogConfiguration.swift:127 | a name yields a category exactly when some category has that name, and the category found has it |
| Logging.Threshold | RommApp/Core/Logging/LogConfiguration.swift:82-83 | the effective level is the global level or the category's own, and is below neither of them |
| Logging.ShouldLog | RommApp/Core/Logging/LogConfiguration.swift:73-86 | nothing is logged while logging is off, performance messages are dropped while hidden, and otherwise a message is logged iff its level reaches the effective level |
| Logging.ShouldLogUpwardClosed | RommApp/Core/Logging/LogConfiguration.swift:85 | a logged level stays logged when raised |
| Logging.DebugEverywhereLogsAll | RommApp/Core/Logging/LogConfiguration.swift:73-86 | with logging on, performance shown and every level at debug, every message is logged |
| Logging.SetLevel | RommApp/Core/Logging/LogConfiguration.swift:89-91 | only the given category's entry changes: every other category keeps its effective level, the given one gets the maximum of the new and the global level |
| Logging.AllDebug | RommApp/Core/Logging/LogConfiguration.swift:102-105 | every category is present and at debug |
| Logging.ResetToDefaults | RommApp/Core/Logging/LogConfiguration.swift:94-107 | logging off, global level debug, every category at debug, and the three display flags on |
| Logging.DefaultsLogEverythingOnceEnabled | RommApp/Core/Logging/LogConfiguration.swift:94-107 | after a reset, switching logging on logs every message |
| Logging.LoadCategoryLevels | RommApp/Core/Logging/LogConfiguration.swift:118-132 | with nothing stored every category is at debug; otherwise an entry survives exactly when its key names a category and its value names a level, and keeps that value |
| Logging.SaveCategoryLevels | RommApp/Core/Logging/LogConfiguration.swift:111-116 | each category's level is stored under its name as its integer value |
| Logging.SaveLoadRoundTrip | RommApp/Core/Logging/LogConfiguration.swift:111-132 | loading what was saved gives back exactly the saved category levels |
| Logging.InitialConfiguration | RommApp/Core/Logging/LogConfiguration.swift:56-68 | at start-up logging is off unless stored on and otherwise as stored, the global level is the stored integer's level or debug, each display flag is as stored and on when nothing is stored, and the category levels are the loaded ones |
| Logging.FreshInstallIsDefault | RommApp/Core/Logging/LogConfiguration.swift:56-68 | with nothing stored, start-up gives the same configuration as a reset |
| Logging.Add | RommApp/Core/Logging/LogStore.swift:22-36 | the entry is appended and the oldest entries are dropped so that at most 10000 remain; the result is the newest suffix of old entries plus the new one |
| Logging.AddKeepsNewest | RommApp/Core/Logging/LogStore.swift:27-33 | below the limit nothing is lost; at the limit exactly the oldest entry goes |
| Logging.Clear | RommApp/Core/Logging/LogStore.swift:39-45 | no entries remain |
| Logging.FilterEntries | RommApp/Core/Logging/LogStore.swift:48-76 | the three passes keep exactly the entries that match the text in message, file or function (ignoring case), have a chosen level and a chosen category, in their original order |
| Logging.FilterNothingIsIdentity | RommApp/Core/Logging/LogStore.swift:53-75 | with empty text and no or empty level and category choices every entry is returned in order |
| Logging.FilterByLevelsOnly | RommApp/Core/Logging/LogStore.swift:66-68 | a non-empty level choice keeps exactly the entries at the chosen levels |
| PlatformDetail.MakePage | romm/romm/Domain/Models/PaginatedRomsResponse.swift:18-25 | the ROMs, total, limit, offset and index are stored as given, and there is more exactly when offset plus limit is below the total |
| PlatformDetail.LastPage | romm/romm/Domain/Models/PaginatedRomsResponse.swift:23 | a page whose offset plus limit reaches the total is the last one |
| PlatformDetail.DefaultCharIndexEmpty | romm/romm/Domain/Models/PaginatedRomsResponse.swift:18 | without an index argument the page has an empty index |
| PlatformDetail.FoldEntry | romm/romm/UI/Platforms/PlatformDetailViewModel.swift:371-378 | one folding step adds exactly one key: "#" for a key containing a digit, the key itself otherwise |
| PlatformDetail.ProcessCharIndex | romm/romm/UI/Platforms/PlatformDetailViewModel.swift:368-381 | the folded index has no key containing a digit, and every key is "#" or a key of the raw index |
| PlatformDetail.HashHoldsDigitTotal | romm/romm/UI/Platforms/PlatformDetailViewModel.swift:371-378 | without a raw "#" key, the folded index has "#" exactly when some raw key has a digit, and then holds the sum of those keys' counts |
| PlatformDetail.NonDigitKeysKept | romm/romm/UI/Platforms/PlatformDetailViewModel.swift:375-376 | with distinct raw keys and no raw "#" key, every raw key without a digit is in the folded index with its own count |
| PlatformDetail.NonDigitKeyKept | romm/romm/UI/Platforms/PlatformDetailViewModel.swift:371-378 | a key without a digit, other than "#", that no later entry repeats keeps its count through the rest of the fold |
| PlatformDetail.ProcessCharIndexPreservesTotal | romm/romm/UI/Platforms/PlatformDetailViewModel.swift:371-378 | with distinct raw keys and no raw "#" key, the folded index's counts sum to the raw counts' sum |
| PlatformDetail.MergeCounts | romm/romm/UI/Platforms/PlatformDetailViewModel.swift:133-136 | pagination adds counts key by key: the keys are the union and each count is the sum of the two (0 when absent) |
| PlatformDetail.Initial | romm/romm/UI/Platforms/PlatformDetailViewModel.swift:22-50 | a new view model is loading, at offset 0, with more to load and an empty index |
| PlatformDetail.HasDataFor | romm/romm/UI/Platforms/PlatformDetailViewModel.swift:32-34 | data is on hand for a platform exactly when it is the current platform and some ROMs were loaded |
| PlatformDetail.ClearError | romm/romm/UI/Platforms/PlatformDetailViewModel.swift:225-229 | an error state turns into loading and nothing else changes; any other state is left alone |
| PlatformDetail.ResetForRefresh | romm/romm/UI/Platforms/PlatformDetailViewModel.swift:75-83 | a refresh resets to loading at offset 0 with more to load, no total, no index, no selected character and no cached ROMs, keeping the platform and the character |
| PlatformDetail.LoadingState | romm/romm/UI/Platforms/PlatformDetailViewModel.swift:97-106 | a first or refreshing load shows full loading; paging on from a loaded list shows the list as loading more; otherwise the state stays |
| PlatformDetail.StartLoad | romm/romm/UI/Platforms/PlatformDetailViewModel.swift:71-120 | a load returns early, changing nothing, only when not refreshing; otherwise it requests a page of 72 from the current offset for the current character, and a refresh always asks from offset 0 |
| PlatformDetail.Existing | romm/romm/UI/Platforms/PlatformDetailViewModel.swift:122-144 | the ROMs on show are kept for appending only on a true pagination call: a loaded list, not refreshing, offset above 0, no selected character |
| PlatformDetail.FinishLoad | romm/romm/UI/Platforms/PlatformDetailViewModel.swift:122-163 | a failure shows the error; a page moves the offset to its offset plus limit, takes its more-flag and total, shows all ROMs or the empty state, and adds to or replaces the folded index as pagination decides |
| PlatformDetail.LoadRoms | romm/romm/UI/Platforms/PlatformDetailViewModel.swift:71-107 | a non-refreshing load while a first load past offset 0 or a next page is in progress, or with nothing more to load, changes nothing; a refreshing load always runs, for the given platform, with no letter selected |
| PlatformDetail.RefreshReplaces | romm/romm/UI/Platforms/PlatformDetailViewModel.swift:75-163 | a refresh fetches from offset 0 and replaces the index with the page's folded index and the ROMs with the page's, clearing the selected character |
| PlatformDetail.NextPageAppends | romm/romm/UI/Platforms/PlatformDetailViewModel.swift:125-153 | paging on from a loaded list without a selected character appends the page's ROMs and adds its folded counts to the index |
| PlatformDetail.ApiChar | romm/romm/UI/Platforms/PlatformDetailViewModel.swift:314 | the "#" entry is looked up as "0"; any other character as itself |
| PlatformDetail.FilterByChar | romm/romm/UI/Platforms/PlatformDetailViewModel.swift:305-364 | no character clears the selection and refreshes; a character fetches from the offset the index gives for it (0 when absent), keeps the index and the loaded list, and on success shows the page's ROMs (or "No ROMs found for '<char>'" when there are none) and records its has-more flag, total and next offset; on failure shows the error |
| PlatformDetail.LoadKeepsNoDigitKeys | romm/romm/UI/Platforms/PlatformDetailViewModel.swift:133-143 | loading never puts a key containing a digit into the index |
| PlatformDetail.FilterKeepsNoDigitKeys | romm/romm/UI/Platforms/PlatformDetailViewModel.swift:349-350 | jumping to a character never puts a key containing a digit into the index |
| PlatformDetail.HashJumpStartsAtZero | romm/romm/UI/Platforms/PlatformDetailViewModel.swift:314-318 | since the folded index never holds "0", jumping to "#" always requests the first page |
| RomFilters.StatusSet | romm/romm/UI/Platforms/PlatformDetailView.swift:228-244 | the status set holds "Favourite" iff favourite, "RetroAchievements" iff linked, "Playable" iff playable and "Not Playable" iff not, and nothing else |
| RomFilters.OnePlayabilityLabel | romm/romm/UI/Platforms/PlatformDetailView.swift:237-241 | every status set has exactly one of "Playable" and "Not Playable" |
| RomFilters.FilteredRoms | romm/romm/UI/Platforms/PlatformDetailView.swift:185-226 | the passes, each skipped when its criterion is empty, keep exactly the ROMs the reference condition admits (all active filters at once), in order |
| RomFilters.FilteredRomsSelects | romm/romm/UI/Platforms/PlatformDetailView.swift:185-226 | the shown ROMs are an order-preserving subsequence: exactly the listed ROMs every active filter admits |
| RomFilters.NoFiltersIsIdentity | romm/romm/UI/Platforms/PlatformDetailView.swift:189-225 | with no search text and no active filter every ROM is shown, in order |
| RomFilters.YearRangeNeedsYear | romm/romm/UI/Platforms/PlatformDetailView.swift:218-222 | with a year range set, a ROM without a release year is never shown |
| RomFilters.LanguageFilterIntersects | romm/romm/UI/Platforms/PlatformDetailView.swift:196-200 | the language filter keeps a ROM exactly when one of its languages is selected |
| RomFilters.AvailableOptions | romm/romm/UI/Platforms/PlatformDetailView.swift:246-268 | languages, regions, statuses and years offered are strictly increasing (so duplicate-free) and are exactly the values some ROM has |
| RomFilters.OfferedStatusSelectsSomething | romm/romm/UI/Platforms/PlatformDetailView.swift:210-215 | choosing a status the sheet offers always leaves some ROM shown |
| RomFilters.TapDirection | romm/romm/UI/Platforms/PlatformDetailView.swift:711-714 | tapping gives descending exactly when the tapped row is selected and ascending; every other tap gives ascending |
| RomFilters.TapTwice | romm/romm/UI/Platforms/PlatformDetailView.swift:711-714 | tapping the selected ascending row twice comes back to ascending |
| SortOptions.FieldFromRaw | romm/romm/UI/Platforms/RomListWithSectionIndex.swift:811-813 | the field whose raw value matches, or name when none does |
| SortOptions.DirectionFromRaw | romm/romm/UI/Platforms/RomListWithSectionIndex.swift:815-817 | descending exactly for the raw value "desc", ascending otherwise |
| SortOptions.RawRoundTrip | romm/romm/UI/Platforms/RomListWithSectionIndex.swift:401-425 | every field and direction survives the trip through its raw value |
| SortOptions.UnknownRawDefaults | romm/romm/UI/Platforms/RomListWithSectionIndex.swift:811-817 | unknown raw values fall back to sorting by name, ascending |
| SectionIndex.SectionKey | romm/romm/UI/Platforms/RomListWithSectionIndex.swift:197-204 | a ROM is filed under its first character upper-cased when that is a letter, else under "#" |
| SectionIndex.MakeSection | romm/romm/UI/Platforms/RomListWithSectionIndex.swift:206-207 | a section holds the ROMs filed under its letter, as a permutation of them, sorted by name |
| SectionIndex.SectionMembers | romm/romm/UI/Platforms/RomListWithSectionIndex.swift:196-208 | a section's ROMs are exactly the list's ROMs filed under its letter |
| SectionIndex.Letters | romm/romm/UI/Platforms/RomListWithSectionIndex.swift:196-208 | the section letters are strictly increasing and are exactly the keys some ROM is filed under |
| SectionIndex.GroupedSections | romm/romm/UI/Platforms/RomListWithSectionIndex.swift:196-209 | one section per distinct key, in increasing letter order, each sorted by name and holding exactly the ROMs filed under its letter |
| SectionIndex.SectionsOrdered | romm/romm/UI/Platforms/RomListWithSectionIndex.swift:208 | sections are in strictly increasing letter order |
| SectionIndex.SectionsNonEmpty | romm/romm/UI/Platforms/RomListWithSectionIndex.swift:197-204 | no section is empty |
| SectionIndex.GroupedSectionsPermutation | romm/romm/UI/Platforms/RomListWithSectionIndex.swift:196-209 | the sections together hold exactly the list's ROMs, each as often as in the list |
| SectionIndex.SectionsPartition | romm/romm/UI/Platforms/RomListWithSectionIndex.swift:206-207 | sections for distinct letters together hold the ROMs filed under any of them, as a multiset |
| SectionIndex.RomHasSection | romm/romm/UI/Platforms/RomListWithSectionIndex.swift:196-204 | every ROM of the list lands in some section |
| SectionIndex.SectionUnique | romm/romm/UI/Platforms/RomListWithSectionIndex.swift:196-204 | no ROM is in two sections |
| SectionIndex.SectionTitles | romm/romm/UI/Platforms/RomListWithSectionIndex.swift:211-221 | with a server index, "ALL" then the index keys strictly increasing; without one, the section letters |
| SectionIndex.GroupedLetters | romm/romm/UI/Platforms/RomListWithSectionIndex.swift:219 | the section letters are the distinct keys in increasing order |
| SectionIndex.FallbackTitlesCoverRoms | romm/romm/UI/Platforms/RomListWithSectionIndex.swift:218-220 | without a server index the titles are strictly increasing and name every ROM's section |
| SectionIndex.TapTitle | romm/romm/UI/Platforms/RomListWithSectionIndex.swift:225-232 | tapping "ALL" asks for no character; any other title asks for itself |
| SectionIndex.IsLastRomInList | romm/romm/UI/Platforms/RomListWithSectionIndex.swift:234-239 | false on an empty list; otherwise the ROM has the last ROM's id |
| SectionIndex.AppendedIsLast | romm/romm/UI/Platforms/RomListWithSectionIndex.swift:234-239 | a ROM just appended is the last in the list |
| Seqs.FirstIndexWhereIsFirst | romm/romm/UI/Platforms/RomListWithSectionIndex.swift:892 | any position holding the id with no earlier one is the position `firstIndex(where:)` finds |
| SectionIndex.IsLastRom | romm/romm/UI/Platforms/RomListWithSectionIndex.swift:891-895 | holds exactly when the ROM's id first occurs within the last three positions |
| SectionIndex.LastThreeTrigger | romm/romm/UI/Platforms/RomListWithSectionIndex.swift:891-895 | with distinct ids, the ROM at position k triggers loading exactly when k is among the last three |
| SectionIndex.ShortListAlwaysTriggers | romm/romm/UI/Platforms/RomListWithSectionIndex.swift:891-895 | in a list of at most three ROMs every ROM triggers loading |
| SectionIndex.ToggleSort | romm/romm/UI/Platforms/RomListWithSectionIndex.swift:819-831 | the request names the tapped field; it is descending exactly when that field is the current one and the current direction is ascending |
| SectionIndex.ToggleTwice | romm/romm/UI/Platforms/RomListWithSectionIndex.swift:819-831 | tapping the same header twice restores the direction it started from |
| SectionIndex.RegionFlag | romm/romm/UI/Platforms/RomListWithSectionIndex.swift:916-931 | every listed region maps to the globe or a flag of two regional indicators |
| SectionIndex.LanguageFlag | romm/romm/UI/Platforms/RomListWithSectionIndex.swift:938-954 | every listed language maps to a flag of two regional indicators |
| SectionIndex.FlagEmoji | romm/romm/UI/Platforms/RomListWithSectionIndex.swift:914-934 | the listed flag or, for an unlisted code, the globe |
| SectionIndex.LanguageEmoji | romm/romm/UI/Platforms/RomListWithSectionIndex.swift:936-957 | the listed flag or, exactly for an unlisted code, the speaking head |
| SectionIndex.RegionFallback | romm/romm/UI/Platforms/RomListWithSectionIndex.swift:933 | region codes match exactly: "usa" and "" fall back to the globe |
| SectionIndex.LanguageAliases | romm/romm/UI/Platforms/RomListWithSectionIndex.swift:939 | "English", "EN" and "en" give the same British flag |
| CharPicker.PickedChar | romm/romm/UI/Components/CharFilterPicker.swift:63 | selecting "ALL" reports no character; any other entry reports itself |
| CharPicker.DisplayKey | romm/romm/UI/Components/CharFilterPicker.swift:115-121 | a key containing a decimal digit is shown as "#", any other key as itself |
| CharPicker.AvailableChars | romm/romm/UI/Components/CharFilterPicker.swift:112-128 | "ALL" first, then the shown keys without duplicates in increasing order, none containing a digit, never more than the index has keys |
| CharPicker.TappedIsHighlighted | romm/romm/UI/Components/CharFilterPicker.swift:62-83 | whatever is tapped is highlighted once the page adopts the reported character |
| CharPicker.NothingSelectedHighlightsAll | romm/romm/UI/Components/CharFilterPicker.swift:78-83 | with nothing selected, "ALL" is the only highlighted entry |
| CharPicker.DigitKeysCollapse | romm/romm/UI/Components/CharFilterPicker.swift:115-121 | any key containing a digit makes "#" appear among the characters |
| SftpConnections.AuthFromRaw | romm/romm/Domain/Models/SFTPConnection.swift:3-6 | a raw value decodes to exactly the authentication type whose raw value it is, and to nothing else |
| SftpConnections.NewConnection | romm/romm/Domain/Models/SFTPConnection.swift:109-133 | the defaults: port 22, password authentication, root path "/", not default, never connected, created and updated now, disconnected without error |
| SftpConnections.ConnectionStringSplits | romm/romm/Domain/Models/SFTPConnection.swift:135-137 | the connection string is the user name, '@', and "host:port": with an '@'-free user and host it splits back into exactly those two parts |
| SftpConnections.SameIsEquivalence | romm/romm/Domain/Models/SFTPConnection.swift:152-154 | equality compares ids only: it is an equivalence and survives any change of name, host, port or status |
| SftpConnections.UpdateStatus | romm/romm/Domain/Models/SFTPConnection.swift:143-150 | status and error are set and the update time is now; the last-connected time moves to now only when connected; no other field changes |
| SftpConnections.UpdateToConnected | romm/romm/Domain/Models/SFTPConnection.swift:143-150 | connecting makes the connection report itself connected, last connected now |
| SftpConnections.Encode | romm/romm/Domain/Models/SFTPConnection.swift:91-107 | every coding key's field is written; status and last error are not |
| SftpConnections.Decode | romm/romm/Domain/Models/SFTPConnection.swift:71-89 | a decoded connection is disconnected without error, and encoding it gives back what was decoded |
| SftpConnections.DecodeEncode | romm/romm/Domain/Models/SFTPConnection.swift:67-107 | a saved connection comes back with every persisted field, disconnected and without an error |
| SftpConnections.StatusNotPersisted | romm/romm/Domain/Models/SFTPConnection.swift:61-69 | status and error changes never change the stored form |
| Seqs.FirstIndexWhere | romm/romm/Data/Repositories/SFTPRepository.swift:63 | `firstIndex(where:)` on ids: a position whose id matches with no earlier match, and none exactly when no element has the id |
| SftpRepository.GetConnection | romm/romm/Data/Repositories/SFTPRepository.swift:27-29 | a listed connection with the id, none exactly when no listed connection has it |
| SftpRepository.SaveSshKey | romm/romm/Data/Services/SFTPKeychainService.swift:36-46 | the private key is always written; the passphrase is written only when given and non-empty, so otherwise the passphrase stored before stays; the save fails exactly when the key write, or a passphrase write it makes, is refused; a refused key write leaves no key and no passphrase change, a refused passphrase write keeps the new key and leaves no passphrase; passwords, connections and favourites never change |
| SftpRepository.KeychainSave | romm/romm/Data/Services/KeychainService.swift:42-66 | an accepted write stores the value under the id; a refused one leaves no entry for the id, because the old item is deleted before the add; other ids keep their entries |
| SftpRepository.GetSshKey | romm/romm/Data/Services/SFTPKeychainService.swift:48-58 | nothing exactly when no private key is stored; otherwise the stored key with the stored passphrase, if any |
| SftpRepository.SaveSshKeyThenGet | romm/romm/Data/Services/SFTPKeychainService.swift:36-58 | after a save that does not fail, the key reads back with the new passphrase when one was given, and with the previously stored passphrase when none was |
| SftpRepository.OldPassphraseSurvives | romm/romm/Data/Services/SFTPKeychainService.swift:40-43 | when the key write is accepted, re-saving it with a missing or empty passphrase leaves the stored passphrase readable |
| SftpRepository.RefusedKeyForgetsOld | romm/romm/Data/Services/SFTPKeychainService.swift:36-38 | a refused key write makes the save fail and leaves no key to read back, even when one was stored before |
| SftpRepository.SaveCredentials | romm/romm/Data/Repositories/SFTPRepository.swift:31-60 | only the credentials the authentication type uses are written, and only when non-empty (both for the combined type), the password before the key; the save fails exactly when one of the writes it makes is refused; a refused password leaves no password and writes no key; on success a key save keeps the old passphrase unless a non-empty one is given; the connection list and favourites stay |
| SftpRepository.PlaceConnection | romm/romm/Data/Repositories/SFTPRepository.swift:63-67 | the first entry with the same id is replaced in place, else the connection is appended; the connection is then found first under its id and every other connection stays |
| SftpRepository.SaveConnection | romm/romm/Data/Repositories/SFTPRepository.swift:31-70 | it fails exactly when the credential writes fail, and then the connection list is untouched; otherwise the first entry with the same id is replaced in place, else the connection is appended, and the saved one is found by its id; the list grows by at most one and every other connection stays either way |
| SftpRepository.SaveTwice | romm/romm/Data/Repositories/SFTPRepository.swift:31-70 | saving the same connection again, with the same keychain behaviour, leaves the connection list as after the first save |
| SftpRepository.DeleteConnection | romm/romm/Data/Repositories/SFTPRepository.swift:72-86 | every entry with the id goes, with its favourites and credentials; every other connection and favourite list stays, in order |
| SftpRepository.DeletedIsGone | romm/romm/Data/Repositories/SFTPRepository.swift:72-86 | after deletion the connection cannot be found and has no favourites |
| SftpRepository.SetDefault | romm/romm/Data/Repositories/SFTPRepository.swift:88-98 | exactly the entries with the id are marked default; nothing else changes |
| SftpRepository.GetDefault | romm/romm/Data/Repositories/SFTPRepository.swift:100-102 | the first entry marked default, none exactly when no entry is |
| SftpRepository.FirstDefault | romm/romm/Data/Repositories/SFTPRepository.swift:101 | the result is marked default and no earlier entry is |
| SftpRepository.SetDefaultThenGet | romm/romm/Data/Repositories/SFTPRepository.swift:88-102 | after choosing a saved connection as default, it is the one reported as default |
| SftpRepository.GetCredentials | romm/romm/Data/Repositories/SFTPRepository.swift:104-133 | none exactly for an unknown id; otherwise the connection's host and the stored secrets its authentication type reads (the passphrase only alongside a stored key), and no secret it does not read |
| SftpRepository.SavedPasswordIsReturned | romm/romm/Data/Repositories/SFTPRepository.swift:31-133 | a non-empty password saved for a password connection, with the password write accepted, makes the save succeed and is what its credentials report afterwards |
| SftpRepository.AddFavorite | romm/romm/Data/Repositories/SFTPRepository.swift:140-150 | a listed path changes nothing; a new one is appended; other connections' favourites stay |
| SftpRepository.AddFavoriteIdempotent | romm/romm/Data/Repositories/SFTPRepository.swift:146-149 | adding twice is adding once, the path is then listed, and no duplicate is ever created |
| SftpRepository.RemoveFavorite | romm/romm/Data/Repositories/SFTPRepository.swift:152-160 | every occurrence of the path goes and the other paths stay in order; other connections' favourites stay |
| SftpRepository.AddThenRemove | romm/romm/Data/Repositories/SFTPRepository.swift:140-160 | adding a new favourite and removing it again restores the list |
| SftpRepository.Persist | romm/romm/Data/Repositories/SFTPRepository.swift:180-191 | every connection's stored form, in order |
| SftpRepository.Load | romm/romm/Data/Repositories/SFTPRepository.swift:162-178 | nothing stored gives no connections; stored data gives one connection per record, each encoding back to it |
| SftpRepository.PersistLoadRoundTrip | romm/romm/Data/Repositories/SFTPRepository.swift:162-191 | reloading persisted connections gives them back in order, disconnected and without errors |
| SftpService.Classify | romm/romm/Data/Services/SFTPService.swift:490-504 | the lower-cased description is checked for "connect" (which "connection" contains), then "auth", then "timeout", then "path" or "directory", each result stated as an iff over those tests; exactly when none of the five keywords occurs the result is a network error carrying the description |
| SftpService.ConnectionContainsConnect | romm/romm/Data/Services/SFTPService.swift:493 | a description containing "connection" contains "connect", so the second half of the first test adds nothing |
| SftpService.MapErrorAsWritten | romm/romm/Data/Services/SFTPService.swift:490-504 | as written, a foreign failure is classified by its description, and so are the service's own errors: a connection failure, an authentication failure and a missing path keep their meaning, a timeout becomes a connection failure, and invalid credentials, a failed upload and a failed download become network errors carrying their description |
| SftpService.MapError | romm/romm/Data/Services/SFTPService.swift:490-504 | corrected: the service's own errors pass through unchanged, foreign ones are classified by their description |
| SftpService.InvalidCredentialsRemapped | romm/romm/Data/Services/SFTPService.swift:490-504 | as written a missing password becomes the network error "Invalid credentials"; corrected it stays invalid credentials |
| SftpService.InvalidCredentialsClassified | romm/romm/Data/Services/SFTPService.swift:490-504 | "Invalid credentials" mentions none of the keywords, so it classifies as a network error carrying it |
| SftpService.Authenticate | romm/romm/Data/Services/SFTPService.swift:219-247 | succeeds exactly for a password login with a non-empty password the server accepts; invalid credentials exactly when the type's password or key is missing or empty; otherwise authentication failed, key-based logins included |
| SftpService.KeyLoginsNeverSucceed | romm/romm/Data/Services/SFTPService.swift:229-246 | key and password-plus-key logins never succeed, whatever the server says |
| SftpService.TestConnectionAsWritten | romm/romm/Data/Services/SFTPService.swift:249-266 | as written the test succeeds exactly when the server connects and the login succeeds, and only reports true |
| SftpService.TestConnection | romm/romm/Data/Services/SFTPService.swift:249-266 | corrected: a refused connection is a connection failure, and otherwise the login's own error is reported unchanged |
| SftpService.MissingPasswordReport | romm/romm/Data/Services/SFTPService.swift:249-266 | a password device without a stored password is reported as a network error as written and as invalid credentials when corrected |
| SftpService.InvalidCredentialsExactly | romm/romm/Data/Services/SFTPService.swift:219-266 | the corrected test reports invalid credentials exactly when the credentials the type needs are missing or empty |
| SftpService.ConnectionTimeoutIsConnectionFailure | romm/romm/Data/Services/SFTPService.swift:490-504 | the timeout's description mentions the connection, so it classifies as a connection failure |
| SftpService.ConnectionFailedAsWritten | romm/romm/Data/Services/SFTPService.swift:490-504 | the connection failure's description classifies as a connection failure |
| SftpService.AuthenticationFailedAsWritten | romm/romm/Data/Services/SFTPService.swift:490-504 | the authentication failure's description classifies as an authentication failure |
| SftpService.PathNotFoundAsWritten | romm/romm/Data/Services/SFTPService.swift:490-504 | the missing path's description classifies as a missing path |
| SftpService.NoAuthInPathMessage | romm/romm/Data/Services/SFTPService.swift:148-179 | the missing-path description does not mention "auth" |
| SftpService.UploadFailedAsWritten | romm/romm/Data/Services/SFTPService.swift:490-504 | the failed upload's description classifies as a network error carrying it |
| SftpService.DownloadFailedAsWritten | romm/romm/Data/Services/SFTPService.swift:490-504 | the failed download's description classifies as a network error carrying it |
| SftpService.OpenSession | romm/romm/Data/Services/SFTPService.swift:208-247 | a session opens exactly when the server connects and accepts the login; otherwise connection or authentication failure, in that order |
| SftpService.ItemOf | romm/romm/Data/Services/SFTPService.swift:61-87 | an entry becomes an item exactly when it has a file name, with the path joined by one '/'; it is a directory only when the library says so, its size defaults to 0 and its date to the current time |
| SftpService.ItemsOf | romm/romm/Data/Services/SFTPService.swift:287-328 | at most one item per entry, every item's path is its name joined to the listed path, and every named entry yields an item (order and correspondence are stated by ItemsOfFiltered) |
| SftpService.ItemsOfFiltered | romm/romm/Data/Services/SFTPService.swift:61-87 | the items follow the entries that have a file name one to one and in order: the k-th item is the reading of the k-th named entry |
| SftpService.ListDirectory | romm/romm/Data/Services/SFTPService.swift:287-328 | a failed session is reported as is (the handler keeps its meaning); a listing the library cannot produce is a missing path; with an open session and a listing, the result is exactly the items of the listing |
| SftpService.RootListingPaths | romm/romm/Data/Services/SFTPService.swift:311 | items listed under "/" have the path "/" plus their name |
| SftpService.OnProgress | romm/romm/Data/Services/SFTPService.swift:355-384 | once complete a callback changes nothing and asks to stop; otherwise it reports the count clamped to the file size, completes at the size or the 0.999 ratio, and asks for more until complete |
| SftpService.RunProgress | romm/romm/Data/Services/SFTPService.swift:355-384 | one answer per callback; a completed run answers stop to every callback and ends with a stop |
| SftpService.ReportsBounded | romm/romm/Data/Services/SFTPService.swift:370 | every reported count lies between 0 and the file size, and every reported total is the file size |
| SftpService.InitialReportsBounded | romm/romm/Data/Services/SFTPService.swift:370 | from a fresh start every reported count lies between 0 and the file size, and every total is the file size |
| SftpService.StopIsFinal | romm/romm/Data/Services/SFTPService.swift:357-360 | once a callback has asked to stop, every later one does too |
| SftpService.UploadFile | romm/romm/Data/Services/SFTPService.swift:330-412 | session failures are passed on, an unreadable file is an upload failure; a success ends with a (size, size) report and every report is bounded; a transfer failure is forgiven once progress has completed, and otherwise comes out of the handler as the network error "Failed to upload file" |
| SftpService.CompletedTransferSucceeds | romm/romm/Data/Services/SFTPService.swift:388-398 | a transfer whose library call fails still succeeds when its progress reached the file size |
| SftpService.MakeDirectory | romm/romm/Data/Services/SFTPService.swift:117-123 | the library creates a directory exactly where nothing exists, and refuses otherwise |
| SftpService.RemoveFileAsWritten | romm/romm/Data/Services/SFTPService.swift:125-131 | as written the facade's removal succeeds exactly where nothing exists and then puts a directory at the path; elsewhere it reports a missing path |
| SftpService.RemoveFile | romm/romm/Data/Services/SFTPService.swift:125-131 | corrected: removal succeeds exactly for an existing file and takes away only that path |
| SftpService.CreateDirectory | romm/romm/Data/Services/SFTPService.swift:448-467 | session failures are passed on; otherwise the library's directory creation, whose missing-path failure the handler keeps |
| SftpService.DeleteFileAsWritten | romm/romm/Data/Services/SFTPService.swift:469-488 | as written a successful deletion leaves something at the path |
| SftpService.DeleteFile | romm/romm/Data/Services/SFTPService.swift:469-488 | corrected: session failures are passed on, otherwise the removal; a success leaves nothing at the path and every other path as it was |
| SftpService.DeleteExistingFile | romm/romm/Data/Services/SFTPService.swift:469-488 | deleting an existing file fails as written and removes it when corrected |
| SftpService.DeleteMissingCreatesDirectory | romm/romm/Data/Services/SFTPService.swift:469-488 | deleting a missing path creates a directory there as written, and reports a missing path when corrected |
| SftpService.DownloadFile | romm/romm/Data/Services/SFTPService.swift:414-446 | every download fails: session failures as they are, otherwise (the library's read is not implemented) with the network error "Failed to download file" that the handler makes of it |
| Paths.DropTrailingSlash | romm/romm/Data/Services/SFTPService.swift:311 | a directory ending in '/' loses exactly that character; any other is kept |
| Paths.JoinPath | romm/romm/Data/Services/SFTPService.swift:311 | the joined path is the directory without a trailing '/', one '/', and the name, so it ends with the name |
| Paths.JoinPathSingleSeparator | romm/romm/Data/Services/SFTPService.swift:76 | unless the directory already ends in "//", the join never produces a doubled '/' at the seam |
| Paths.JoinRoot | romm/romm/Data/Services/SFTPService.swift:311 | entries of the root are "/" followed by their name |
| Paths.JoinIgnoresTrailingSlash | romm/romm/Data/Services/SFTPService.swift:76 | a directory given with or without its trailing '/' joins to the same path |
| ConnectionManager.Initial | romm/romm/Data/Services/SFTPConnectionManager.swift:28-48 | before configuration there is no service and nothing is cached or published |
| ConnectionManager.Configure | romm/romm/Data/Services/SFTPConnectionManager.swift:46-48 | configuring installs the service and keeps the cache |
| ConnectionManager.TestedStatus | romm/romm/Data/Services/SFTPConnectionManager.swift:70-87 | a test gives connected exactly when a service exists and the test answered true; everything else is an error status |
| ConnectionManager.CheckStatus | romm/romm/Data/Services/SFTPConnectionManager.swift:50-95 | not forced and younger than 60 seconds, the cached status answers and the cache stays; otherwise the tested status is cached with the check's finishing time; either way it is published for that connection only |
| ConnectionManager.ForcedCheckTests | romm/romm/Data/Services/SFTPConnectionManager.swift:54 | a forced check always reports the test's verdict, whatever is cached |
| ConnectionManager.RecheckWithinValidity | romm/romm/Data/Services/SFTPConnectionManager.swift:54-62 | an unforced check within 60 seconds of a test repeats that test's answer, whatever the server now says |
| ConnectionManager.CheckIsLocal | romm/romm/Data/Services/SFTPConnectionManager.swift:80-87 | checking one connection leaves every other connection's cache entry alone |
| ConnectionManager.UnconfiguredIsError | romm/romm/Data/Services/SFTPConnectionManager.swift:73-75 | without a service every forced check reports an error |
| ConnectionManager.ClearCache | romm/romm/Data/Services/SFTPConnectionManager.swift:155-160 | every cached and published status is forgotten; the service stays |
| ConnectionManager.ClearCacheFor | romm/romm/Data/Services/SFTPConnectionManager.swift:162-168 | only the given connection's cached and published status is forgotten |
| ConnectionManager.ClearedConnectionIsTested | romm/romm/Data/Services/SFTPConnectionManager.swift:155-168 | after clearing, the next unforced check tests the connection afresh |
| ConnectionManager.ListDirectory | romm/romm/Data/Services/SFTPConnectionManager.swift:107-112 | refused as not configured without a service, else the service's listing |
| ConnectionManager.UploadFile | romm/romm/Data/Services/SFTPConnectionManager.swift:114-129 | refused as not configured without a service, else the service's upload |
| ConnectionManager.DownloadFile | romm/romm/Data/Services/SFTPConnectionManager.swift:131-146 | always a failure: not configured without a service, else the service's failed download |
| ConnectionManager.CreateDirectory | romm/romm/Data/Services/SFTPConnectionManager.swift:148-153 | refused as not configured without a service, else the service's directory creation |
| DirectoryBrowser.Initial | romm/romm/UI/Devices/SFTP/SFTPDirectoryBrowserViewModel.swift:6-35 | a new browser is at the root with a one-entry history, so it can go neither back nor up |
| DirectoryBrowser.Directories | romm/romm/UI/Devices/SFTP/SFTPDirectoryBrowserViewModel.swift:41-43 | the directories of the listing, each as often as listed, ordered by lower-cased name |
| DirectoryBrowser.Files | romm/romm/UI/Devices/SFTP/SFTPDirectoryBrowserViewModel.swift:45-47 | the non-directories of the listing, each as often as listed, ordered by lower-cased name |
| DirectoryBrowser.DirectoriesAndFilesPartition | romm/romm/UI/Devices/SFTP/SFTPDirectoryBrowserViewModel.swift:41-47 | directories and files together are the listing, nothing lost or repeated |
| DirectoryBrowser.Load | romm/romm/UI/Devices/SFTP/SFTPDirectoryBrowserViewModel.swift:49-69 | a failed listing only records its error; a successful one replaces the items, and when a path was named it becomes current and joins the history; the history stays non-empty and ends at the current path |
| DirectoryBrowser.NavigateToDirectory | romm/romm/UI/Devices/SFTP/SFTPDirectoryBrowserViewModel.swift:71-74 | a file is ignored; a directory is loaded by its path |
| DirectoryBrowser.GoBack | romm/romm/UI/Devices/SFTP/SFTPDirectoryBrowserViewModel.swift:76-83 | with one history entry nothing happens; otherwise the newest entry is dropped and the one before becomes current |
| DirectoryBrowser.EnterThenBack | romm/romm/UI/Devices/SFTP/SFTPDirectoryBrowserViewModel.swift:60-83 | entering a directory and going back restores the path and the history from before |
| DirectoryBrowser.NormalizeParent | romm/romm/UI/Devices/SFTP/SFTPDirectoryBrowserViewModel.swift:89 | an empty parent or "/" is the root; any other parent is kept |
| DirectoryBrowser.GoUp | romm/romm/UI/Devices/SFTP/SFTPDirectoryBrowserViewModel.swift:85-92 | at the root nothing happens; elsewhere the normalised parent is loaded |
| DirectoryBrowser.GoToRoot | romm/romm/UI/Devices/SFTP/SFTPDirectoryBrowserViewModel.swift:94-96 | the root is loaded; once loaded, going up is impossible and going back is possible |
| DirectoryBrowser.SelectCurrentPath | romm/romm/UI/Devices/SFTP/SFTPDirectoryBrowserViewModel.swift:98-100 | the current path becomes the selection and nothing else changes |
| DirectoryBrowser.PathComponents | romm/romm/UI/Devices/SFTP/SFTPDirectoryBrowserViewModel.swift:151-156 | "Root" first, then the path's non-empty '/'-separated segments; just "Root" for the root |
| DirectoryBrowser.ComponentTarget | romm/romm/UI/Devices/SFTP/SFTPDirectoryBrowserViewModel.swift:158-167 | breadcrumb 0 leads to the root; every target is an absolute path |
| DirectoryBrowser.ComponentRoundTrip | romm/romm/UI/Devices/SFTP/SFTPDirectoryBrowserViewModel.swift:151-170 | following breadcrumb i leads to a path whose breadcrumbs are the first i+1 of the original |
| DirectoryBrowser.LastComponentIsCurrent | romm/romm/UI/Devices/SFTP/SFTPDirectoryBrowserViewModel.swift:151-170 | the last breadcrumb leads to a path with the same breadcrumbs as the current one |
| DirectoryBrowser.NavigateToComponent | romm/romm/UI/Devices/SFTP/SFTPDirectoryBrowserViewModel.swift:158-170 | breadcrumb 0 is the root navigation; a successful load makes the breadcrumb's target current |
| DirectoryBrowser.CreateDirectory | romm/romm/UI/Devices/SFTP/SFTPDirectoryBrowserViewModel.swift:131-145 | a blank name is refused with "Directory name cannot be empty"; otherwise the directory path joined with the name is created and, on success, the current directory is reloaded, on failure the error is shown; the current path never changes |
| DirectoryBrowser.UnicodeBlankNameRefused | romm/romm/UI/Devices/SFTP/SFTPDirectoryBrowserViewModel.swift:132 | a name of a no-break space and an ideographic space counts as blank, so no directory is requested |
| DirectoryBrowser.AddToFavorites | romm/romm/UI/Devices/SFTP/SFTPDirectoryBrowserViewModel.swift:102-116 | the path is stored for the connection and the shown favourites are the stored ones, now including it |
| DirectoryBrowser.RemoveFromFavorites | romm/romm/UI/Devices/SFTP/SFTPDirectoryBrowserViewModel.swift:118-125 | the path is removed for the connection and the shown favourites, the stored ones, no longer include it |
| DirectoryBrowser.AddThenRemoveFavorite | romm/romm/UI/Devices/SFTP/SFTPDirectoryBrowserViewModel.swift:102-125 | adding a new favourite and removing it shows the favourites from before |
| DirectoryBrowser.NavigateToFavorite | romm/romm/UI/Devices/SFTP/SFTPDirectoryBrowserViewModel.swift:127-129 | a successful load makes the favourite current and appends it to the history |
| AddEditDevice.EmptyForm | romm/romm/UI/SFTP/AddEditSFTPDeviceViewModel.swift:6-20 | a blank form has port "22", root path "/", password authentication, empty fields and no error or test result |
| AddEditDevice.NonEmptyOrNone | romm/romm/UI/SFTP/AddEditSFTPDeviceViewModel.swift:134-136 | an empty secret becomes a missing one; any other is kept as typed |
| AddEditDevice.CreateCredentials | romm/romm/UI/SFTP/AddEditSFTPDeviceViewModel.swift:128-138 | host and user name trimmed, the port read from the field or 22, the authentication type kept, only non-empty secrets |
| AddEditDevice.CreateConnection | romm/romm/UI/SFTP/AddEditSFTPDeviceViewModel.swift:140-157 | an edit keeps the connection's id, creation time and last-connected time, a new device gets the fresh id and the clock; names trimmed, port read or 22, an empty root path becomes "/" |
| AddEditDevice.SaveConnection | romm/romm/UI/SFTP/AddEditSFTPDeviceViewModel.swift:110-126 | an invalid form yields nothing and the invalid-form message; a valid one yields the built connection and credentials, with a port between 1 and 65535 in both, and clears the error |
| AddEditDevice.PortErrorUnreachable | romm/romm/UI/SFTP/AddEditSFTPDeviceViewModel.swift:111-119 | the port-range message can never appear: validity already demands a port between 1 and 65535 |
| AddEditDevice.SavedPasswordDeviceHasPassword | romm/romm/UI/SFTP/AddEditSFTPDeviceViewModel.swift:30-49 | whatever device the form saves, the service's credential check never rejects it for a missing password or key |
| AddEditDevice.LoadConnection | romm/romm/UI/SFTP/AddEditSFTPDeviceViewModel.swift:65-80 | the stored fields fill the form with the port as text; the stored password, key and passphrase fill their fields, missing ones as empty; without stored credentials the secret fields stay |
| AddEditDevice.Open | romm/romm/UI/SFTP/AddEditSFTPDeviceViewModel.swift:51-63 | the form remembers the connection being edited; for a new device it is the blank form |
| AddEditDevice.EditRoundTrip | romm/romm/UI/SFTP/AddEditSFTPDeviceViewModel.swift:60-80 | opening a stored connection and saving it unedited gives it back, except the update time and runtime status, when its texts are trimmed, its root path non-empty and its port fits Int |
| AddEditDevice.CredentialsRoundTrip | romm/romm/UI/SFTP/AddEditSFTPDeviceViewModel.swift:75-79 | stored non-empty secrets come back unchanged after opening and rebuilding the credentials |
| AddEditDevice.TestConnection | romm/romm/UI/SFTP/AddEditSFTPDeviceViewModel.swift:82-108 | an invalid form is refused with the invalid-form message; otherwise the result is connected exactly when the test answers true, an error message appears exactly otherwise, and a thrown error is described in it; no other field changes |
| AddEditDevice.ClearForm | romm/romm/UI/SFTP/AddEditSFTPDeviceViewModel.swift:159-173 | every field returns to the blank form's value, which is never valid; the edited connection is kept |
| UploadViewModel.VisibleError | romm/romm/UI/Devices/SFTP/SFTPUploadViewModel.swift:62-66 | after a successful upload no error is shown; otherwise the stored one |
| UploadViewModel.SetError | romm/romm/UI/Devices/SFTP/SFTPUploadViewModel.swift:67-73 | a message written after a success is dropped; clearing, or any write before a success, is stored |
| UploadViewModel.SetThenRead | romm/romm/UI/Devices/SFTP/SFTPUploadViewModel.swift:61-76 | reading back a written error gives it, or nothing after a success |
| UploadViewModel.LoadConnections | romm/romm/UI/Devices/SFTP/SFTPUploadViewModel.swift:131-142 | exactly one target is chosen: the local device when there are no connections, else the default connection or the first |
| UploadViewModel.SelectConnection | romm/romm/UI/Devices/SFTP/SFTPUploadViewModel.swift:211-215 | the connection becomes the only target and the chosen folder is forgotten; nothing else changes |
| UploadViewModel.SelectLocalDevice | romm/romm/UI/Devices/SFTP/SFTPUploadViewModel.swift:217-221 | the local device becomes the only target and the chosen folder is forgotten; nothing else changes |
| UploadViewModel.BrowseDirectories | romm/romm/UI/Devices/SFTP/SFTPUploadViewModel.swift:223-226 | the folder browser opens only when a connection is chosen; nothing else changes |
| UploadViewModel.SelectTargetPath | romm/romm/UI/Devices/SFTP/SFTPUploadViewModel.swift:228-236 | the folder is chosen and the browser closes; nothing else changes |
| UploadViewModel.LoadAvailableFiles | romm/romm/UI/Devices/SFTP/SFTPUploadViewModel.swift:144-209 | the ROM's listed files with the first selected; when the details fail, a single file named by the ROM's file name or its name plus ".rom", sized by the ROM or 0, and selected; either way the error is cleared and nothing else changes |
| UploadViewModel.ToggleFileSelection | romm/romm/UI/Devices/SFTP/SFTPUploadViewModel.swift:240-251 | the file's membership in the selection flips and no other file's does |
| UploadViewModel.ToggleTwice | romm/romm/UI/Devices/SFTP/SFTPUploadViewModel.swift:240-251 | toggling a file twice restores the screen |
| UploadViewModel.SelectAllFiles | romm/romm/UI/Devices/SFTP/SFTPUploadViewModel.swift:253-258 | the selection is exactly the ids of the available files |
| UploadViewModel.DeselectAllFiles | romm/romm/UI/Devices/SFTP/SFTPUploadViewModel.swift:260-265 | the selection becomes empty and nothing else changes |
| UploadViewModel.SelectedFilesList | romm/romm/UI/Devices/SFTP/SFTPUploadViewModel.swift:267-269 | exactly the available files whose id is selected, in their listed order |
| UploadViewModel.SelectAllListsEverything | romm/romm/UI/Devices/SFTP/SFTPUploadViewModel.swift:253-269 | after selecting all, the selected list is the whole available list |
| UploadViewModel.NewConnectionNeedsFolder | romm/romm/UI/Devices/SFTP/SFTPUploadViewModel.swift:682-690 | after choosing a connection no upload is possible until a folder is chosen; the local device needs only a selection and an idle screen |
| UploadViewModel.RemotePaths | romm/romm/UI/Devices/SFTP/SFTPUploadViewModel.swift:322 | each file goes to the folder joined with its name by a single '/' |
| UploadViewModel.StartUpload | romm/romm/UI/Devices/SFTP/SFTPUploadViewModel.swift:271-384 | with no connection or folder, or while busy, nothing happens; with nothing selected the no-files message is set; otherwise the selected files go in order to their remote paths, the total is the sum of their sizes, and either everything succeeds with all bytes counted or the first failure is shown |
| UploadViewModel.FailureAfterSuccessIsSilent | romm/romm/UI/Devices/SFTP/SFTPUploadViewModel.swift:62-73 | once an upload has succeeded, a later failing upload shows no error |
| UploadViewModel.StartLocalDownload | romm/romm/UI/Devices/SFTP/SFTPUploadViewModel.swift:386-446 | while busy nothing happens; with nothing selected the no-files message for download is set; otherwise the total is the selected sizes' sum, a success counts every byte and completes, and a failure leaves the transfer incomplete, keeps an earlier success, and shows the failure unless that earlier success hides it |
| UploadViewModel.LocalDownloadMatchesUpload | romm/romm/UI/Devices/SFTP/SFTPUploadViewModel.swift:271-384 | for the same non-empty selection and outcome the local download and the remote upload leave the screen in the same state; with nothing selected they differ only in the message set |
| UploadViewModel.ResetUpload | romm/romm/UI/Devices/SFTP/SFTPUploadViewModel.swift:448-468 | the success, completion and busy flags clear, no error shows, the selection and the folder are forgotten and the byte counts are zero; connections and files stay |
| UploadViewModel.ResetRestoresErrors | romm/romm/UI/Devices/SFTP/SFTPUploadViewModel.swift:448-455 | after a reset, a failure's message is shown again |
| UploadViewModel.EstimateRomSize | romm/romm/UI/Devices/SFTP/SFTPUploadViewModel.swift:663-679 | a name containing "cd", "iso" or "chd" in any case is a 700 MiB disc; otherwise "dvd", "wii" or "ps2" is a 4 GiB disc; anything else a 32 MiB cartridge |
| UploadViewModel.EstimateIgnoresCase | romm/romm/UI/Devices/SFTP/SFTPUploadViewModel.swift:663-679 | the estimate of a name equals that of its lower-case and of its upper-case form |
| UploadViewModel.EstimateKeepsDiscs | romm/romm/UI/Devices/SFTP/SFTPUploadViewModel.swift:663-679 | adding text before or after a name keeps a CD estimate a CD, and never turns a disc estimate into a cartridge |
| UploadViewModel.DiscNamesAreCds | romm/romm/UI/Devices/SFTP/SFTPUploadViewModel.swift:668-670 | a name tagged "(CD)" is estimated as a CD image |
| UploadViewModel.RequiredBytes | romm/romm/UI/Devices/SFTP/SFTPUploadViewModel.swift:641-651 | the selected files' total size, or the name's estimate when nothing is selected |
| UploadViewModel.ValidateDownloadedFile | romm/romm/UI/Devices/SFTP/SFTPUploadViewModel.swift:802-838 | a file whose size cannot be read is invalid with size 0, no expected size and the message "Validation failed: " followed by the read error's description; a readable one is invalid exactly when a positive expected size differs from its size, and then the message is "File size mismatch: expected X, got Y" with both sizes; an error message appears exactly when invalid |
| UploadViewModel.FailureMessagesDistinguish | romm/romm/UI/Devices/SFTP/SFTPUploadViewModel.swift:818-835 | a rejected file's message starts with "Validation failed: " exactly when its size could not be read, and then ends with the read error's description |
| UploadViewModel.MatchingSizePasses | romm/romm/UI/Devices/SFTP/SFTPUploadViewModel.swift:806-826 | a file of the expected size, or with no positive expected size, always passes |
| LocalRoms.CreateRomDirectoryPath | romm/romm/Data/Repositories/LocalROMRepository.swift:231-235 | the platform and ROM names with every '/' turned into '-', joined by one '/', the only '/' in the path |
| LocalRoms.DirectoryPathSplits | romm/romm/Data/Repositories/LocalROMRepository.swift:229-235 | splitting the path at '/' gives back the two sanitised names when both are non-empty |
| LocalRoms.PlainNamesRoundTrip | romm/romm/Data/Repositories/LocalROMRepository.swift:229-235 | names without '/' come back unchanged from the path |
| LocalRoms.RemoveAll | romm/romm/Data/Repositories/LocalROMRepository.swift:212-215 | removing every occurrence never lengthens the text, and shortens it by at least the pattern's length whenever the pattern occurs |
| LocalRoms.RemoveAllAbsent | romm/romm/Data/Repositories/LocalROMRepository.swift:212-215 | text without the pattern is left unchanged |
| LocalRoms.RelativePathRoundTrip | romm/romm/Data/Repositories/LocalROMRepository.swift:211-215 | a directory base/rel is found again at rel, unless rel itself contains "base/" |
| LocalRoms.LoadedFiles | romm/romm/Data/Repositories/LocalROMRepository.swift:189-209 | each recorded file keeps its name and hash and takes its size on disk when present, else its recorded size |
| LocalRoms.LoadedRom | romm/romm/Data/Repositories/LocalROMRepository.swift:172-227 | a directory without metadata yields nothing; otherwise the recorded identity, the recorded whole-second date on a whole second, the files at their actual sizes, their total, and the path relative to the base |
| LocalRoms.LoadRomMetadata | romm/romm/Data/Repositories/LocalROMRepository.swift:172-227 | the loop that adds up the actual sizes yields exactly that loaded ROM |
| LocalRoms.SaveMetadata | romm/romm/Data/Repositories/LocalROMRepository.swift:108-142 | the record keeps the ROM's id, names, slug and each file's name, size and hash in order, and its download time cut down to the whole second (ISO 8601 encoding) |
| LocalRoms.SaveThenLoad | romm/romm/Data/Repositories/LocalROMRepository.swift:108-227 | a saved ROM loads back as itself, its download time cut down to the whole second, when the disk sizes agree with the recorded ones and its total is its files' sum; one saved on a whole second loads back unchanged |
| LocalRoms.LoadedRoms | romm/romm/Data/Repositories/LocalROMRepository.swift:58-83 | every directory with metadata contributes its ROM and nothing else is loaded |
| LocalRoms.GetAllDownloadedRoms | romm/romm/Data/Repositories/LocalROMRepository.swift:48-86 | every loaded ROM, each as often as found, most recently downloaded first |
| LocalRoms.GroupByPlatform | romm/romm/Data/Repositories/LocalROMRepository.swift:91-100 | one bucket per platform name, holding exactly that platform's ROMs in list order |
| LocalRoms.GetDownloadedRomsByPlatform | romm/romm/Data/Repositories/LocalROMRepository.swift:88-101 | every loaded ROM is in its platform's bucket and no other; buckets are most recent first |
| LocalRoms.FirstWithId | romm/romm/Data/Repositories/LocalROMRepository.swift:105 | nothing when no ROM has the id, else a listed ROM with the id |
| LocalRoms.GetDownloadedRom | romm/romm/Data/Repositories/LocalROMRepository.swift:103-106 | nothing exactly when no loaded ROM has the id; otherwise a loaded ROM with it, the most recently downloaded of them |
| LocalRoms.FirstIsMostRecent | romm/romm/Data/Repositories/LocalROMRepository.swift:85-106 | in the most-recent-first list the first ROM with an id is the latest download with it |
| LocalRoms.RomsTotalPermutation | romm/romm/Data/Repositories/LocalROMRepository.swift:151-154 | the total size does not depend on the order of the ROMs |
| LocalRoms.GetTotalDownloadedSize | romm/romm/Data/Repositories/LocalROMRepository.swift:151-154 | the sum of every loaded ROM's total size |
| LocalRoms.GetDownloadedRomsCount | romm/romm/Data/Repositories/LocalROMRepository.swift:156-158 | the number of ROM directories with metadata, never more than the directories scanned |
| LocalRoms.DeleteDownloadedRom | romm/romm/Data/Repositories/LocalROMRepository.swift:144-149 | removing a ROM whose directory is not there fails with "no such directory"; an existing one whose removal the file manager refuses fails with "refused"; otherwise the ROM's directory is gone, every other directory stays in order, and the list shrinks |
| LocalRoms.DeleteTwiceFails | romm/romm/Data/Repositories/LocalROMRepository.swift:144-149 | deleting a ROM again after a successful deletion fails, because its directory is no longer there |
| Collections.MapFromApi | romm/romm/Data/Mappers/CollectionMapper.swift:22-39 | id, name, ROM ids and count kept; a missing description is empty; each flag is set only when the server says true |
| Collections.MapVirtualFromApi | romm/romm/Data/Mappers/CollectionMapper.swift:41-56 | the large cover when present, else the small; public and virtual unless the server says false; favourite only when it says true |
| Collections.VirtualRoundTrip | romm/romm/Data/Mappers/CollectionMapper.swift:41-56 | every virtual collection is read back unchanged from a record that states its flags and its cover as the large one |
| Collections.VirtualDefaults | romm/romm/Data/Mappers/CollectionMapper.swift:22-56 | a virtual record without flags reads as if it said public, virtual and not a favourite, while a regular record without flags reads as private, not virtual and not a favourite |
| Collections.MapToDomain | romm/romm/Data/Mappers/CollectionMapper.swift:59-63 | each record mapped, in order |
| Collections.MapVirtualToDomain | romm/romm/Data/Mappers/CollectionMapper.swift:65-69 | each virtual record mapped, in order |
| Collections.MappingKeepsIds | romm/romm/Data/Mappers/CollectionMapper.swift:59-63 | the mapped collections carry the records' ids in their order |
| Collections.CoverPreference | romm/romm/Data/Mappers/CollectionMapper.swift:48 | a virtual collection shows its large cover when it has one, else its small one |
| CollectionPicker.AddRomRequest | romm/romm/Domain/UseCases/Collections/UpdateCollectionUseCase.swift:33-51 | the ROM ids sent are the current ones plus the ROM; name, description and visibility are kept |
| CollectionPicker.RemoveRomRequest | romm/romm/Domain/UseCases/Collections/UpdateCollectionUseCase.swift:53-69 | the ROM ids sent are the current ones without the ROM; name, description and visibility are kept |
| CollectionPicker.AddIdempotent | romm/romm/Domain/UseCases/Collections/UpdateCollectionUseCase.swift:38-42 | adding a ROM already present asks for the same ids |
| CollectionPicker.AddThenRemove | romm/romm/Domain/UseCases/Collections/UpdateCollectionUseCase.swift:33-69 | adding an absent ROM then removing it asks for the original ids |
| CollectionPicker.RemoveThenAdd | romm/romm/Domain/UseCases/Collections/UpdateCollectionUseCase.swift:33-69 | removing a present ROM then adding it asks for the original ids |
| CollectionPicker.LoadCollections | romm/romm/UI/Collection/CollectionPickerViewModel.swift:31-47 | ignored while a load runs; otherwise the list becomes the server's with no error, or stays with the error shown |
| CollectionPicker.ReplaceFirst | romm/romm/UI/Collection/CollectionPickerViewModel.swift:69-72 | the first collection with the id is replaced by the new version; without one the list is unchanged |
| CollectionPicker.ToggleRomInCollection | romm/romm/UI/Collection/CollectionPickerViewModel.swift:49-113 | a held ROM is removed and another added; the answer is true exactly on success; success replaces the collection in the list, names it in the message and leaves the error, the error toast and the loading flag as they were; failure shows the error and keeps the list |
| CollectionPicker.ToggleFlipsMembership | romm/romm/UI/Collection/CollectionPickerViewModel.swift:49-57 | when the server applies the request, the ROM's membership flips and no other ROM's changes |
| CollectionPicker.CollectionsContainingRom | romm/romm/UI/Collection/CollectionPickerViewModel.swift:119-121 | exactly the listed collections that hold the ROM, in list order |
| CollectionPicker.ClearMessages | romm/romm/UI/Collection/CollectionPickerViewModel.swift:123-128 | both messages and both toasts are reset and the list stays |
| Emulator.SupportIgnoresCase | romm/romm/Domain/UseCases/Emulator/CheckEmulatorSupportUseCase.swift:47-54 | upper- or lower-casing a slug never changes whether it is supported |
| Emulator.SupportIsMonotone | romm/romm/Domain/UseCases/Emulator/CheckEmulatorSupportUseCase.swift:51-53 | any text containing a supported slug is supported |
| Emulator.EmptyUnsupported | romm/romm/Domain/UseCases/Emulator/CheckEmulatorSupportUseCase.swift:19-42 | the empty slug is not supported |
| Emulator.SupportExamples | romm/romm/Domain/UseCases/Emulator/CheckEmulatorSupportUseCase.swift:47-54 | "SNES" and "Sega Saturn" are supported, and so is "PlayStation 2" because it contains "playstation" |
| Emulator.LaunchErrorDescription | romm/romm/Domain/UseCases/Emulator/LaunchEmulatorUseCase.swift:24-37 | the unsupported-platform message names the platform; an unknown error is its own message; the others are non-empty |
| Emulator.LaunchErrorDescriptionInjective | romm/romm/Domain/UseCases/Emulator/LaunchEmulatorUseCase.swift:24-37 | apart from unknown errors, two launch errors have the same message exactly when they are the same error; in particular two unsupported-platform messages agree exactly when the platforms do |
| Emulator.DescriptionHead | romm/romm/Domain/UseCases/Emulator/LaunchEmulatorUseCase.swift:24-37 | each fixed message is non-empty and starts with its own letter (N, P, R, C), so no two kinds of error share a message |
| Emulator.Launch | romm/romm/Domain/UseCases/Emulator/LaunchEmulatorUseCase.swift:61-90 | no stored server fails first; then a missing slug is an unsupported "Unknown" platform; then an unsupported slug is named; success exactly when a server is stored and the slug supported; never a missing-file or unreachable failure |
| Emulator.FileNameIrrelevant | romm/romm/Domain/UseCases/Emulator/LaunchEmulatorUseCase.swift:83-89 | the ROM's file name never changes the outcome |
| Emulator.SaturnLaunches | romm/romm/Domain/UseCases/Emulator/LaunchEmulatorUseCase.swift:61-90 | with a server stored, a Sega Saturn ROM launches even without a file name |
| RomMapper.FirstCompany | romm/romm/Data/Mappers/RomMapper.swift:57 | the first listed company, or nothing when there is no list or it is empty |
| RomMapper.MapFromApi | romm/romm/Data/Mappers/RomMapper.swift:11-40 | a nameless ROM is "Unknown ROM"; favourite exactly when rated or being played; achievements exactly when linked; playable exactly when not missing; the file name is the first file's, or empty |
| RomMapper.MapDetailsFromApi | romm/romm/Data/Mappers/RomMapper.swift:42-69 | never a favourite; developer and publisher are both the first company; genres default to none; hashes and sizes kept |
| RomMapper.ListAndDetailAgree | romm/romm/Data/Mappers/RomMapper.swift:11-69 | for a list record and a detail record of the same ROM, the two mappings agree on id, name, summary, cover, platform, achievements and size, the list's release year is the year of the detail's release date, and they differ at most in the list marking a favourite |
| RomMapper.MapToDomain | romm/romm/Data/Mappers/RomMapper.swift:72-76 | each record mapped, in order |
| RomMapper.MapToDomainKeepsIds | romm/romm/Data/Mappers/RomMapper.swift:72-76 | the mapped ROMs carry the records' ids in their order |
| RomMapper.MappedRomsHaveFileNames | romm/romm/Data/Mappers/RomMapper.swift:38 | every mapped ROM has a file name, possibly empty, so a launch never finds it missing |
| TransferHistory.NewTransfer | romm/romm/Domain/Models/TransferHistory.swift:41-67 | every field of the record is the argument given for it: id, device id, name and type, transfer type, ROM id and name, platform name and slug, size, date and success |
| TransferHistory.NewTransferRebuilds | romm/romm/Domain/Models/TransferHistory.swift:41-67 | passing a record's own fields back to the initializer rebuilds that record, so the initializer loses and mixes up no field |
| TransferHistory.DefaultsToSuccess | romm/romm/Domain/Models/TransferHistory.swift:50-53 | a record built without saying otherwise is a success with no platform slug |
| TransferHistory.EqualityIsById | romm/romm/Domain/Models/TransferHistory.swift:69-71 | records are equal exactly when their ids are, whatever else differs; this is an equivalence |
| TransferHistory.TotalSizeIsSum | romm/romm/Domain/Models/TransferHistory.swift:81-83 | a group's total is the sum of its transfers' sizes, and adding a transfer adds its size |
| TransferHistory.TotalSizeBounds | romm/romm/Domain/Models/TransferHistory.swift:81-83 | with non-negative sizes the total is non-negative and at least each transfer's size |
| TransferHistory.TransferCount | romm/romm/Domain/Models/TransferHistory.swift:89-91 | a group with no transfers totals 0 |
| TransferHistory.TotalWithinCount | romm/romm/Domain/Models/TransferHistory.swift:81-91 | when every size lies in 0..maxSize, the group's total lies between 0 and its transfer count times maxSize |
| TransferHistory.SumWithinCount | romm/romm/Domain/Models/TransferHistory.swift:81-83 | sizes in 0..maxSize add up to between 0 and their number times maxSize |

## Left out

- SwiftUI views, layout, animation and navigation are not modelled. Only the pure helpers the views compute with are.
- Networking is not modelled: the RomM API client, URL sessions, multipart uploads and token refresh. Each step that uses them takes their result as an input.
- The SFTP library is not modelled. Whether a server connects, accepts the login, opens a file, and the sequence of byte counts it reports are inputs, and the remote file system is a map from path to "is a directory".
- SftpService.MakeDirectory: the library's directory creation succeeds wherever nothing exists at the path, even when its parent directory is missing, which a real server would refuse. DeleteMissingCreatesDirectory relies on this.
- Keychain and UserDefaults are not modelled as such. Keychain credentials and stored settings are maps or optional inputs.
- FileManager is not modelled. The scan of the ROMs directory is given as a list of ROM directories with their decoded metadata and on-disk sizes. Hidden-file skipping, JSON encoding and directory creation are not modelled.
- Concurrency is not modelled: Tasks, MainActor hops, `withTimeout`, task groups (`checkAllConnectionStatuses`) and cancellation. Each asynchronous step is one transition.
- Loading flags that exist only for the duration of an await (`isLoading`, `isTestingConnection`, `isLoadingFiles`) are left out.
- Floating-point progress and storage arithmetic are left out:
  - progress fractions and percentages;
  - the 1.1 and 1.2 storage buffers;
  - the 98% and 1 MiB completion tolerance.
  Byte counts are modelled exactly instead.
- Storage-capacity checks, duplicate detection, temporary files and the ROM download behind an upload are left out. Their outcome is a single failure input.
- Foundation formatting is given as parameters: `ByteCountFormatter`, `DateFormatter`, `RelativeDateTimeFormatter`, and calendar years of timestamps.
- URL normalisation is not modelled. In `goUp` the parent path Foundation computes is an input, and only the app's own "" / "/" normalisation is modelled.
- Case mapping is ASCII only. `lowercased`/`uppercased` map only A-Z, `CharacterSet.letters` and `decimalDigits` are ASCII letters and digits, and `localizedCaseInsensitiveContains` is lower-casing followed by containment. No Unicode normalisation or locale is modelled.
- UUIDs and Dates are integers (a downloaded ROM's date in milliseconds, finer parts of a `Date` not modelled), and durations in the connection manager are exact reals.
- Int64 and Int overflow of sums and counts is not modelled.
- The generated API schemas are not part of this model. Their optional fields are inferred from how the mappers unwrap them.
- Some of PlatformDetailViewModel.swift is not modelled:
  - `searchRoms`, `sortRoms`, `applyFilters` and `refreshRoms` build API queries over `loadRoms`;
  - `loadMoreRomsIfNeeded` is a guard over `loadRoms`;
  - `updateViewMode` and `loadViewMode` persist a UI setting;
  - `loadMockRoms` is preview data.
  Of these, only the `loadRoms` transitions they rely on are modelled.
- The favourite-folder error branches of the directory browser ("Failed to add favorite", "Failed to remove favorite") are left out. The favourite methods never throw, so they cannot be reached.
- SftpRepository.DeleteConnection: ignores each keychain deletion failure, as the source does. It treats the JSON encoding of the connection list, the one remaining `throws` step of `persistConnections`, as total, because plain string, number and flag records always encode.
- SftpRepository.SaveCredentials: models a refused keychain add, not the `saveFailed(-1)` thrown when a value cannot be turned into UTF-8 data, which a Swift string always can.
- SftpRepository.SaveConnection: treats the final `persistConnections` as total, for the same reason as DeleteConnection.
- SftpRepository.SetDefault: treats `persistConnections` as total, for the same reason as DeleteConnection.
- The legacy duplicates are not part of this model: romm/romm/UI/SFTP/SFTPUploadViewModel.swift, romm/romm/UI/SFTP/SFTPDirectoryBrowserViewModel.swift, the second detail views and view models.
- The Python script add_emulator_files.py is not modelled. It is a load/add/save wrapper over an external project-file library.
- `Rom` (Rom.swift) has no platform slug. `Emulator.Launch` therefore takes the slug, and the server URL, as inputs.
- Emulator.LaunchErrorDescription: states that the unsupported-platform message names the platform, that an unknown error is its own message and that the others are non-empty, not the exact English texts.
- RemoteFiles.PathExtension: approximates `NSString.pathExtension` as the text after the last '.' of the name. Leading-dot names and '/' inside names are not treated specially.
- UploadViewModel.StartUpload: models the byte totals and the outcome, not the progress fraction or the per-file index.
- UploadViewModel.LoadAvailableFiles: the file extension of the fallback file comes from a given `extensionOf` function.
- LocalRoms.GetTotalDownloadedSize: an exact sum, without Int64 overflow.
- TransferHistory.TotalSizeIsSum: an exact sum, without Int64 overflow.
- AddEditDevice.EditRoundTrip: needs the stored port to fit in a 64-bit Int, because `Int(String(port))` is only the identity there.

## Findings

| source | as written | input that shows it | evidently intended | confidence | as-written member | corrected member |
|---|---|---|---|---|---|---|
| romm/romm/Data/Services/PrivateNetworkURLSessionDelegate.swift:51-52 | `parseIPv4` drops every dot-separated label that is not a byte (`compactMap`) and accepts the host when four remain | the domain "10.0.0.1.example.com" has four byte labels, so it is classified as private and its certificate is trusted | a host is an IPv4 address only when it has exactly four labels and every one is a byte | not executed | PrivateNetwork.DomainWithPrivatePrefix | PrivateNetwork.IsPrivateHost |
| romm/romm/Data/Services/PrivateNetworkURLSessionDelegate.swift:143-156 | the trust handler accepts any server-trust challenge whose host the lenient `parseIPv4` reads as a private address | a server-trust challenge from "10.0.0.1.example.com" is answered with `.useCredential` and the presented trust, so any certificate is accepted for that public domain | only genuine private addresses skip the default certificate validation | not executed | PrivateNetwork.DecideTrustsDomainAsWritten | PrivateNetwork.DecideCorrected |
| romm/romm/Data/Services/SFTPService.swift:125-131 | the library facade's `removeFile` calls `createDirectory` | deleting the existing file "/roms/game.zip" fails with "path not found", and the file stays | remove the file at the path | not executed | SftpService.DeleteExistingFile | SftpService.DeleteFile |
| romm/romm/Data/Services/SFTPService.swift:490-504 | `mapMFTError` also reclassifies the service's own `SFTPError`s by their description | testing a password device with no stored password reports `networkError("Invalid credentials")` instead of `invalidCredentials` | errors that are already `SFTPError`s pass through unchanged | not executed | SftpService.MissingPasswordReport | SftpService.MapError |

=== FILE: add_edit_device.dfy ===
/**
 * The form that adds or edits an SFTP device: its validation, the
 * connection and credentials it builds, loading a stored connection into
 * it, saving, testing and clearing. Fresh identifiers, clock readings and
 * the outcome of a connection test are inputs.
 */
module AddEditDevice {
  import opened Base
  import opened Strings
  import opened SftpConnections
  import opened SftpRepository
  import opened SftpService

  const InvalidFormError: string := "Please fill in all required fields correctly"
  const PortRangeError: string := "Port must be a number between 1 and 65535"
  const TestFailedError: string := "Connection test failed. Please check your credentials and network connection."
  const DefaultPort: string := "22"
  const MaxPort: int := 65535

  /** The form's fields as typed, plus the connection being edited, if any. */
  datatype Form = Form(
    name: string,
    host: string,
    port: string,
    username: string,
    authenticationType: AuthenticationType,
    password: string,
    privateKey: string,
    passphrase: string,
    rootPath: string,
    isDefault: bool,
    error: Option<string>,
    testResult: Option<ConnectionStatus>,
    editing: Option<SftpConnection>)

  /** The empty form, with port 22, the root path and password authentication. */
  function EmptyForm(editing: Option<SftpConnection>): (r: Form)
    ensures r.port == DefaultPort && r.rootPath == "/" && r.authenticationType == Password
    ensures r.name == "" && r.host == "" && r.username == "" && !r.isDefault
    ensures r.password == "" && r.privateKey == "" && r.passphrase == ""
    ensures r.error.None? && r.testResult.None? && r.editing == editing
  {
    Form("", "", DefaultPort, "", Password, "", "", "", "/", false, None, None, editing)
  }

  predicate IsEditing(f: Form) {
    f.editing.Some?
  }

  /** The port field as a number in the valid range. */
  predicate PortInRange(port: string) {
    ParseInt(port).Some? && 0 < ParseInt(port).value <= MaxPort
  }

  /** `isAuthenticationValid`: the secrets the authentication type needs are filled in. */
  predicate IsAuthenticationValid(f: Form) {
    match f.authenticationType
    case Password => f.password != ""
    case SshKey => f.privateKey != ""
    case PasswordWithKey => f.password != "" && f.privateKey != ""
  }

  /** `isValid`. */
  predicate IsValid(f: Form) {
    && !AllWhitespace(f.name)
    && !AllWhitespace(f.host)
    && !AllWhitespace(f.username)
    && PortInRange(f.port)
    && IsAuthenticationValid(f)
  }

  /** An empty field becomes a missing credential. */
  function NonEmptyOrNone(s: string): (r: Option<string>)
    ensures r.None? <==> s == ""
    ensures r.Some? ==> r.value == s
  {
    if s == "" then None else Some(s)
  }

  /** `createCredentials`: trimmed host and user, the port (22 when unreadable), and the non-empty secrets. */
  function CreateCredentials(f: Form): (r: Credentials)
    ensures r.host == Trim(f.host) && r.username == Trim(f.username)
    ensures r.port == ParseInt(f.port).GetOr(22)
    ensures r.authenticationType == f.authenticationType
    ensures r.password == NonEmptyOrNone(f.password) && r.privateKey == NonEmptyOrNone(f.privateKey)
    ensures r.passphrase == NonEmptyOrNone(f.passphrase)
  {
    Credentials(Trim(f.host), ParseInt(f.port).GetOr(22), Trim(f.username), f.authenticationType,
                NonEmptyOrNone(f.password), NonEmptyOrNone(f.privateKey), NonEmptyOrNone(f.passphrase))
  }

  /**
   * `createConnection`: an edited connection keeps its identifier,
   * creation time and last connection time; a new one takes `newId` and
   * `now`. An empty root path becomes "/".
   */
  function CreateConnection(f: Form, newId: int, now: int): (r: SftpConnection)
    ensures r.id == (if f.editing.Some? then f.editing.value.id else newId)
    ensures r.createdAt == (if f.editing.Some? then f.editing.value.createdAt else now)
    ensures r.lastConnectedAt == (if f.editing.Some? then f.editing.value.lastConnectedAt else None)
    ensures r.rootPath != "" && (f.rootPath != "" ==> r.rootPath == f.rootPath)
    ensures r.name == Trim(f.name) && r.host == Trim(f.host) && r.username == Trim(f.username)
    ensures r.port == ParseInt(f.port).GetOr(22) && r.updatedAt == now
    ensures r.status == Disconnected && r.lastError.None?
  {
    var id := if f.editing.Some? then f.editing.value.id else newId;
    var createdAt := if f.editing.Some? then f.editing.value.createdAt else now;
    var lastConnectedAt := if f.editing.Some? then f.editing.value.lastConnectedAt else None;
    SftpConnection(id, Trim(f.name), Trim(f.host), ParseInt(f.port).GetOr(22), Trim(f.username),
                   f.authenticationType, if f.rootPath == "" then "/" else f.rootPath, f.isDefault,
                   lastConnectedAt, createdAt, now, Disconnected, None)
  }

  /**
   * `saveConnection`: an invalid form yields nothing and an error;
   * otherwise the built connection and credentials, with the error
   * cleared. The port range is checked a second time, but the first check
   * has already covered it.
   */
  function SaveConnection(f: Form, newId: int, now: int): (r: (Form, Option<(SftpConnection, Credentials)>))
    ensures r.1.None? <==> !IsValid(f)
    ensures r.1.None? ==> r.0 == f.(error := Some(InvalidFormError))
    ensures r.1.Some? ==> r.0 == f.(error := None)
    ensures r.1.Some? ==> r.1.value == (CreateConnection(f, newId, now), CreateCredentials(f))
    ensures r.1.Some? ==> 1 <= r.1.value.0.port <= MaxPort && r.1.value.1.port == r.1.value.0.port
  {
    if !IsValid(f) then (f.(error := Some(InvalidFormError)), None)
    else if !PortInRange(f.port) then (f.(error := Some(PortRangeError)), None)
    else (f.(error := None), Some((CreateConnection(f, newId, now), CreateCredentials(f))))
  }

  /** The port message is never shown: saving leaves no error or the invalid-form one. */
  lemma PortErrorUnreachable(f: Form, newId: int, now: int)
    ensures SaveConnection(f, newId, now).0.error != Some(PortRangeError)
  {
  }

  /** A saved password device always has the password the service asks for. */
  lemma SavedPasswordDeviceHasPassword(f: Form, newId: int, now: int, accepts: bool)
    requires SaveConnection(f, newId, now).1.Some?
    ensures var saved := SaveConnection(f, newId, now).1.value;
            Authenticate(saved.0.authenticationType, Some(saved.1), accepts) != Err(InvalidCredentials)
  {
  }

  /** `loadConnection`: the stored fields, the port as text and the stored secrets (empty when missing). */
  function LoadConnection(f: Form, c: SftpConnection, creds: Option<Credentials>): (r: Form)
    ensures r.name == c.name && r.host == c.host && r.username == c.username && r.port == IntToString(c.port)
    ensures r.authenticationType == c.authenticationType && r.rootPath == c.rootPath && r.isDefault == c.isDefault
    ensures creds.Some? ==> r.password == creds.value.password.GetOr("") && r.privateKey == creds.value.privateKey.GetOr("")
                            && r.passphrase == creds.value.passphrase.GetOr("")
    ensures creds.None? ==> r.password == f.password && r.privateKey == f.privateKey && r.passphrase == f.passphrase
  {
    var loaded := f.(name := c.name, host := c.host, port := IntToString(c.port), username := c.username,
                     authenticationType := c.authenticationType, rootPath := c.rootPath, isDefault := c.isDefault);
    match creds
    case None => loaded
    case Some(cr) =>
      loaded.(password := cr.password.GetOr(""), privateKey := cr.privateKey.GetOr(""), passphrase := cr.passphrase.GetOr(""))
  }

  /** The form opened for a connection (or for a new one). */
  function Open(editing: Option<SftpConnection>, creds: Option<Credentials>): (r: Form)
    ensures r.editing == editing
    ensures editing.None? ==> r == EmptyForm(None)
  {
    match editing
    case None => EmptyForm(None)
    case Some(c) => LoadConnection(EmptyForm(editing), c, creds)
  }

  predicate Trimmed(s: string) {
    Trim(s) == s
  }

  /**
   * Opening a stored connection and saving it unchanged gives the same
   * connection back, apart from the update time and the runtime status,
   * provided its text fields carry no surrounding blanks, its root path is
   * not empty and its port fits in 64 bits.
   */
  lemma EditRoundTrip(c: SftpConnection, creds: Option<Credentials>, newId: int, now: int)
    requires Trimmed(c.name) && Trimmed(c.host) && Trimmed(c.username) && c.rootPath != ""
    requires -0x8000_0000_0000_0000 <= c.port < 0x8000_0000_0000_0000
    ensures CreateConnection(Open(Some(c), creds), newId, now) == c.(updatedAt := now, status := Disconnected, lastError := None)
  {
    ParseIntIntToString(c.port);
  }

  /** Stored secrets survive an edit: non-empty ones come back, empty ones become missing. */
  lemma CredentialsRoundTrip(c: SftpConnection, cr: Credentials)
    requires cr.password != Some("") && cr.privateKey != Some("") && cr.passphrase != Some("")
    ensures var r := CreateCredentials(Open(Some(c), Some(cr)));
            r.password == cr.password && r.privateKey == cr.privateKey && r.passphrase == cr.passphrase
  {
  }

  /**
   * `testConnection`: an invalid form is refused with an error; otherwise
   * the outcome of testing the built connection decides the result and
   * the message.
   */
  function TestConnection(f: Form, outcome: Result<bool, SftpError>): (r: Form)
    ensures !IsValid(f) ==> r == f.(error := Some(InvalidFormError))
    ensures IsValid(f) ==> (r.testResult == Some(Connected) <==> outcome == Ok(true))
    ensures IsValid(f) ==> (r.error.None? <==> outcome == Ok(true))
    ensures IsValid(f) && outcome.Err? ==>
              r.error == Some("Connection test failed: " + FailureDescription(Own(outcome.error)))
    ensures r.(error := f.error, testResult := f.testResult) == f
  {
    if !IsValid(f) then f.(error := Some(InvalidFormError))
    else match outcome
      case Ok(true) => f.(testResult := Some(Connected), error := None)
      case Ok(false) => f.(testResult := Some(Error), error := Some(TestFailedError))
      case Err(e) => f.(testResult := Some(Error), error := Some("Connection test failed: " + FailureDescription(Own(e))))
  }

  /** `clearForm`: every field back to its default; the edited connection is kept. */
  function ClearForm(f: Form): (r: Form)
    ensures r == EmptyForm(f.editing)
    ensures !IsValid(r)
  {
    EmptyForm(f.editing)
  }
}

=== FILE: base.dfy ===
/** Optional values and error-carrying results shared by every module. */
module Base {

  /** Swift's `Optional`: a value that may be absent. */
  datatype Option<+T> = None | Some(value: T) {

    /** The wrapped value, or `default` when absent (Swift's `??`). */
    function GetOr(default: T): T {
      match this
      case Some(v) => v
      case None => default
    }
  }

  /** The outcome of an operation that can throw: a value or an error. */
  datatype Result<+T, +E> = Ok(value: T) | Err(error: E)
}

=== FILE: char_picker.dfy ===
/**
 * The platform page's character picker: the characters it offers for a
 * server-side character index and what tapping one reports.
 */
module CharPicker {
  import opened Base
  import opened Strings
  import opened Ordering

  /** The entry that clears the character filter. */
  const AllTitle := "ALL"

  /** The character a tap reports: none for "ALL", otherwise the title itself. */
  function PickedChar(title: string): (r: Option<string>)
    ensures r.None? <==> title == AllTitle
    ensures r.Some? ==> r.value == title
  {
    if title == AllTitle then None else Some(title)
  }

  /** A key holding a decimal digit is shown as "#". */
  function DisplayKey(key: string): (r: string)
    ensures !HasDigit(r)
    ensures !HasDigit(key) ==> r == key
  {
    if HasDigit(key) then "#" else key
  }

  /**
   * `availableChars`: "ALL", then the displayed keys of the index,
   * without duplicates and in increasing order.
   */
  function AvailableChars(charIndex: map<string, int>): (r: seq<string>)
    ensures |r| >= 1 && r[0] == AllTitle
    ensures StrictlySorted(r[1..], StrLt)
    ensures forall c :: c in r[1..] <==> exists k | k in charIndex :: DisplayKey(k) == c
    ensures forall c | c in r[1..] :: !HasDigit(c)
    ensures |r| <= |charIndex| + 1
  {
    var shown := set k | k in charIndex :: DisplayKey(k);
    assert |shown| <= |charIndex.Keys| by { ImageSize(charIndex.Keys); }
    [AllTitle] + SortedStrings(shown)
  }

  /** The image of a set under `DisplayKey` is no larger than the set. */
  lemma {:induction false} ImageSize(keys: set<string>)
    ensures |set k | k in keys :: DisplayKey(k)| <= |keys|
    decreases |keys|
  {
    if keys != {} {
      var k :| k in keys;
      var rest := keys - {k};
      ImageSize(rest);
      assert (set x | x in keys :: DisplayKey(x)) == (set x | x in rest :: DisplayKey(x)) + {DisplayKey(k)};
    }
  }

  /** A character is highlighted when it is the selection, or it is "ALL" and nothing is selected. */
  predicate IsHighlighted(selected: Option<string>, title: string) {
    selected == Some(title) || (selected.None? && title == AllTitle)
  }

  /** Whatever is tapped is highlighted once the page adopts the reported character. */
  lemma TappedIsHighlighted(title: string)
    ensures IsHighlighted(PickedChar(title), title)
  {
  }

  /** With nothing selected, "ALL" is the only highlighted entry. */
  lemma NothingSelectedHighlightsAll(charIndex: map<string, int>)
    ensures forall i | 0 <= i < |AvailableChars(charIndex)| ::
      IsHighlighted(None, AvailableChars(charIndex)[i]) <==> AvailableChars(charIndex)[i] == AllTitle
  {
  }

  /** Digit keys are shown together as the single entry "#". */
  lemma DigitKeysCollapse(charIndex: map<string, int>, k: string)
    requires k in charIndex && HasDigit(k)
    ensures "#" in AvailableChars(charIndex)[1..]
  {
  }
}

=== FILE: collection_picker.dfy ===
/**
 * Adding a ROM to a collection or removing it from one: the update the
 * app asks of the server, and the picker screen that toggles membership
 * and keeps its list in step with the server's answers. The server's
 * answer to each request is an input.
 */
module CollectionPicker {
  import opened Base
  import opened Seqs
  import opened Collections

  /** The update sent to the server: the collection's id, its kept details and the new ROM ids. */
  datatype UpdateRequest = UpdateRequest(id: int, name: string, description: string, isPublic: bool, romIds: set<int>)

  /** `addRomToCollection` of the update use case: the ROM joins the set. */
  function AddRomRequest(collectionId: int, romId: int, current: Collection): (r: UpdateRequest)
    ensures r.romIds == current.romIds + {romId}
    ensures r.id == collectionId && r.name == current.name && r.description == current.description
    ensures r.isPublic == current.isPublic
  {
    UpdateRequest(collectionId, current.name, current.description, current.isPublic,
                  if romId in current.romIds then current.romIds else current.romIds + {romId})
  }

  /** `removeRomFromCollection` of the update use case: the ROM leaves the set. */
  function RemoveRomRequest(collectionId: int, romId: int, current: Collection): (r: UpdateRequest)
    ensures r.romIds == current.romIds - {romId}
    ensures r.id == collectionId && r.name == current.name && r.description == current.description
    ensures r.isPublic == current.isPublic
  {
    UpdateRequest(collectionId, current.name, current.description, current.isPublic, current.romIds - {romId})
  }

  /** Adding twice asks for the same ids as adding once. */
  lemma AddIdempotent(collectionId: int, romId: int, current: Collection)
    ensures var once := AddRomRequest(collectionId, romId, current);
            AddRomRequest(collectionId, romId, current.(romIds := once.romIds)).romIds == once.romIds
  {
  }

  /** Adding an absent ROM and removing it again asks for the original ids. */
  lemma AddThenRemove(collectionId: int, romId: int, current: Collection)
    requires romId !in current.romIds
    ensures var added := AddRomRequest(collectionId, romId, current);
            RemoveRomRequest(collectionId, romId, current.(romIds := added.romIds)).romIds == current.romIds
  {
  }

  /** Removing a present ROM and adding it back asks for the original ids. */
  lemma RemoveThenAdd(collectionId: int, romId: int, current: Collection)
    requires romId in current.romIds
    ensures var removed := RemoveRomRequest(collectionId, romId, current);
            AddRomRequest(collectionId, romId, current.(romIds := removed.romIds)).romIds == current.romIds
  {
  }

  // ---------------------------------------------------------------------
  // The picker
  // ---------------------------------------------------------------------

  datatype Picker = Picker(
    availableCollections: seq<Collection>,
    isLoadingCollections: bool,
    errorMessage: Option<string>,
    successMessage: Option<string>,
    showSuccessToast: bool,
    showErrorToast: bool)

  /** `loadCollections`: the server's list, or its error; ignored while a load is running. */
  function LoadCollections(p: Picker, outcome: Result<seq<Collection>, string>): (r: Picker)
    ensures p.isLoadingCollections ==> r == p
    ensures !p.isLoadingCollections && outcome.Ok? ==> r.availableCollections == outcome.value && r.errorMessage.None?
    ensures !p.isLoadingCollections && outcome.Err? ==>
              r.availableCollections == p.availableCollections && r.errorMessage == Some(outcome.error)
    ensures !r.isLoadingCollections || p.isLoadingCollections
  {
    if p.isLoadingCollections then p
    else match outcome
      case Ok(collections) => p.(availableCollections := collections, errorMessage := None)
      case Err(message) => p.(errorMessage := Some(message))
  }

  function CollectionId(c: Collection): int {
    c.id
  }

  /** The position of the first collection with the id, if any. */
  function FirstIndexOfId(cs: seq<Collection>, id: int): Option<nat> {
    FirstIndexWhere(cs, CollectionId, id)
  }

  /** The list with its first collection of `id` replaced by `c`; unchanged when there is none. */
  function ReplaceFirst(cs: seq<Collection>, id: int, c: Collection): (r: seq<Collection>)
    ensures |r| == |cs|
    ensures FirstIndexOfId(cs, id).None? ==> r == cs
    ensures FirstIndexOfId(cs, id).Some? ==> r == cs[FirstIndexOfId(cs, id).value := c]
  {
    match FirstIndexOfId(cs, id)
    case None => cs
    case Some(k) => cs[k := c]
  }

  /**
   * `toggleRomInCollection`: removes the ROM when the collection holds
   * it and adds it otherwise. On success the collection is replaced in
   * the list by the server's version and a message names it; on failure
   * the list stays and the error is shown. The second component is the
   * returned flag, the third the request sent.
   */
  function ToggleRomInCollection(p: Picker, romId: int, collection: Collection, response: Result<Collection, string>)
    : (r: (Picker, bool, UpdateRequest))
    ensures romId in collection.romIds ==> r.2 == RemoveRomRequest(collection.id, romId, collection)
    ensures romId !in collection.romIds ==> r.2 == AddRomRequest(collection.id, romId, collection)
    ensures r.1 <==> response.Ok?
    ensures response.Ok? ==> r.0.availableCollections == ReplaceFirst(p.availableCollections, collection.id, response.value)
    ensures response.Ok? ==> r.0.showSuccessToast
    ensures response.Ok? ==>
              r.0.successMessage == Some((if romId in collection.romIds then "ROM removed from '" else "ROM added to '")
                                         + response.value.name + "'")
    ensures response.Ok? ==>
              r.0.errorMessage == p.errorMessage && r.0.showErrorToast == p.showErrorToast
              && r.0.isLoadingCollections == p.isLoadingCollections
    ensures response.Err? ==> r.0 == p.(errorMessage := Some(response.error), showErrorToast := true)
  {
    var request := if romId in collection.romIds then RemoveRomRequest(collection.id, romId, collection)
                   else AddRomRequest(collection.id, romId, collection);
    match response
    case Err(message) => (p.(errorMessage := Some(message), showErrorToast := true), false, request)
    case Ok(updated) =>
      var verb := if romId in collection.romIds then "ROM removed from '" else "ROM added to '";
      (p.(availableCollections := ReplaceFirst(p.availableCollections, collection.id, updated),
          successMessage := Some(verb + updated.name + "'"), showSuccessToast := true), true, request)
  }

  /** When the server applies the request, the toggled ROM's membership is flipped and nothing else in the set changes. */
  lemma ToggleFlipsMembership(p: Picker, romId: int, collection: Collection, updated: Collection)
    requires updated.romIds == ToggleRomInCollection(p, romId, collection, Ok(updated)).2.romIds
    ensures romId in updated.romIds <==> romId !in collection.romIds
    ensures forall other | other != romId :: other in updated.romIds <==> other in collection.romIds
  {
  }

  /** `isRomInCollection`. */
  predicate IsRomInCollection(romId: int, collection: Collection) {
    romId in collection.romIds
  }

  function Holds(romId: int): Collection -> bool {
    (c: Collection) => IsRomInCollection(romId, c)
  }

  /** `getCollectionsContainingRom`: exactly the listed collections holding the ROM, in list order. */
  function CollectionsContainingRom(p: Picker, romId: int): (r: seq<Collection>)
    ensures forall c :: c in r <==> c in p.availableCollections && romId in c.romIds
    ensures SubsequenceOf(r, p.availableCollections)
  {
    Filter(p.availableCollections, Holds(romId))
  }

  /** `clearMessages`: both messages and both toasts are reset; the list stays. */
  function ClearMessages(p: Picker): (r: Picker)
    ensures r.errorMessage.None? && r.successMessage.None? && !r.showSuccessToast && !r.showErrorToast
    ensures r.availableCollections == p.availableCollections && r.isLoadingCollections == p.isLoadingCollections
  {
    p.(errorMessage := None, successMessage := None, showSuccessToast := false, showErrorToast := false)
  }
}

=== FILE: collections.dfy ===
/**
 * Collections of ROMs as the app keeps them, the server's records they
 * are read from, and the mapping between the two. Dates arrive as
 * seconds and are rendered by the date formatter given.
 */
module Collections {
  import opened Base

  /** `Collection`: a user's collection; the ROMs are a set of ids. */
  datatype Collection = Collection(
    id: int,
    name: string,
    description: string,
    romIds: set<int>,
    romCount: int,
    urlCover: Option<string>,
    userId: int,
    userUsername: string,
    isPublic: bool,
    isFavorite: bool,
    isVirtual: bool,
    isSmart: bool,
    createdAt: string,
    updatedAt: string)

  /** `VirtualCollection`: a collection the server computes, named by a string id. */
  datatype VirtualCollection = VirtualCollection(
    id: string,
    name: string,
    description: string,
    romIds: set<int>,
    romCount: int,
    urlCover: Option<string>,
    kind: string,
    isPublic: bool,
    isFavorite: bool,
    isVirtual: bool,
    createdAt: string,
    updatedAt: string)

  /** The server's record of a collection, with its optional fields. */
  datatype CollectionSchema = CollectionSchema(
    id: int,
    name: string,
    description: Option<string>,
    romIds: set<int>,
    romCount: int,
    urlCover: Option<string>,
    userId: int,
    userUsername: string,
    isPublic: Option<bool>,
    isFavorite: Option<bool>,
    isVirtual: Option<bool>,
    isSmart: Option<bool>,
    createdAt: int,
    updatedAt: int)

  /** The server's record of a virtual collection, with both cover sizes. */
  datatype VirtualCollectionSchema = VirtualCollectionSchema(
    id: string,
    name: string,
    description: string,
    romIds: set<int>,
    romCount: int,
    pathCoverLarge: Option<string>,
    pathCoverSmall: Option<string>,
    kind: string,
    isPublic: Option<bool>,
    isFavorite: Option<bool>,
    isVirtual: Option<bool>,
    createdAt: int,
    updatedAt: int)

  /**
   * `mapFromAPI`: a missing description is empty and every missing flag
   * is false; everything else is carried over.
   */
  function MapFromApi(s: CollectionSchema, formatDate: int -> string): (r: Collection)
    ensures r.id == s.id && r.name == s.name && r.romIds == s.romIds && r.romCount == s.romCount
    ensures r.description == (if s.description.Some? then s.description.value else "")
    ensures r.isPublic <==> s.isPublic == Some(true)
    ensures r.isFavorite <==> s.isFavorite == Some(true)
    ensures r.isVirtual <==> s.isVirtual == Some(true)
    ensures r.isSmart <==> s.isSmart == Some(true)
    ensures r.urlCover == s.urlCover && r.userId == s.userId && r.userUsername == s.userUsername
    ensures r.createdAt == formatDate(s.createdAt) && r.updatedAt == formatDate(s.updatedAt)
  {
    Collection(s.id, s.name, s.description.GetOr(""), s.romIds, s.romCount, s.urlCover, s.userId, s.userUsername,
               s.isPublic.GetOr(false), s.isFavorite.GetOr(false), s.isVirtual.GetOr(false), s.isSmart.GetOr(false),
               formatDate(s.createdAt), formatDate(s.updatedAt))
  }

  /**
   * `mapVirtualFromAPI`: the large cover is preferred over the small
   * one; a virtual collection is public and virtual unless the server
   * says otherwise, and not a favourite unless it says so.
   */
  function MapVirtualFromApi(s: VirtualCollectionSchema, formatDate: int -> string): (r: VirtualCollection)
    ensures r.urlCover == (if s.pathCoverLarge.Some? then s.pathCoverLarge else s.pathCoverSmall)
    ensures r.isPublic <==> s.isPublic != Some(false)
    ensures r.isVirtual <==> s.isVirtual != Some(false)
    ensures r.isFavorite <==> s.isFavorite == Some(true)
    ensures r.id == s.id && r.name == s.name && r.description == s.description && r.romIds == s.romIds
    ensures r.romCount == s.romCount && r.kind == s.kind
    ensures r.createdAt == formatDate(s.createdAt) && r.updatedAt == formatDate(s.updatedAt)
  {
    VirtualCollection(s.id, s.name, s.description, s.romIds, s.romCount,
                      if s.pathCoverLarge.Some? then s.pathCoverLarge else s.pathCoverSmall,
                      s.kind, s.isPublic.GetOr(true), s.isFavorite.GetOr(false), s.isVirtual.GetOr(true),
                      formatDate(s.createdAt), formatDate(s.updatedAt))
  }

  /** A server record stating every flag and only the large cover: what the app would need to read `c` back. */
  function ToVirtualSchema(c: VirtualCollection, createdAt: int, updatedAt: int): (r: VirtualCollectionSchema)
    ensures r.isPublic.Some? && r.isFavorite.Some? && r.isVirtual.Some? && r.pathCoverSmall.None?
  {
    VirtualCollectionSchema(c.id, c.name, c.description, c.romIds, c.romCount, c.urlCover, None, c.kind,
                            Some(c.isPublic), Some(c.isFavorite), Some(c.isVirtual), createdAt, updatedAt)
  }

  /** Every virtual collection is the mapping of a record that states it in full. */
  lemma VirtualRoundTrip(c: VirtualCollection, createdAt: int, updatedAt: int, formatDate: int -> string)
    requires formatDate(createdAt) == c.createdAt && formatDate(updatedAt) == c.updatedAt
    ensures MapVirtualFromApi(ToVirtualSchema(c, createdAt, updatedAt), formatDate) == c
  {
  }

  /**
   * Leaving a flag out of a virtual record reads as public, virtual and not
   * a favourite, the opposite of a regular collection's default for public
   * and virtual.
   */
  lemma VirtualDefaults(s: VirtualCollectionSchema, t: CollectionSchema, formatDate: int -> string)
    requires s.isPublic.None? && s.isFavorite.None? && s.isVirtual.None?
    requires t.isPublic.None? && t.isFavorite.None? && t.isVirtual.None?
    ensures MapVirtualFromApi(s, formatDate)
            == MapVirtualFromApi(s.(isPublic := Some(true), isFavorite := Some(false), isVirtual := Some(true)), formatDate)
    ensures MapVirtualFromApi(s, formatDate).isPublic && !MapFromApi(t, formatDate).isPublic
    ensures MapVirtualFromApi(s, formatDate).isVirtual && !MapFromApi(t, formatDate).isVirtual
    ensures !MapVirtualFromApi(s, formatDate).isFavorite && !MapFromApi(t, formatDate).isFavorite
  {
  }

  /** `mapToDomain`: each record mapped, in order. */
  function MapToDomain(schemas: seq<CollectionSchema>, formatDate: int -> string): (r: seq<Collection>)
    ensures |r| == |schemas|
    ensures forall i | 0 <= i < |schemas| :: r[i] == MapFromApi(schemas[i], formatDate)
  {
    seq(|schemas|, i requires 0 <= i < |schemas| => MapFromApi(schemas[i], formatDate))
  }

  /** `mapVirtualToDomain`: each record mapped, in order. */
  function MapVirtualToDomain(schemas: seq<VirtualCollectionSchema>, formatDate: int -> string): (r: seq<VirtualCollection>)
    ensures |r| == |schemas|
    ensures forall i | 0 <= i < |schemas| :: r[i] == MapVirtualFromApi(schemas[i], formatDate)
  {
    seq(|schemas|, i requires 0 <= i < |schemas| => MapVirtualFromApi(schemas[i], formatDate))
  }

  /** Mapping keeps each collection's id at its position, so ids and order survive. */
  lemma MappingKeepsIds(schemas: seq<CollectionSchema>, formatDate: int -> string)
    ensures var r := MapToDomain(schemas, formatDate);
            forall i | 0 <= i < |r| :: r[i].id == schemas[i].id && r[i].romIds == schemas[i].romIds
  {
  }

  /** A virtual collection with only a small cover shows it; with both, the large one. */
  lemma CoverPreference(s: VirtualCollectionSchema, formatDate: int -> string)
    ensures s.pathCoverLarge.None? ==> MapVirtualFromApi(s, formatDate).urlCover == s.pathCoverSmall
    ensures s.pathCoverLarge.Some? ==> MapVirtualFromApi(s, formatDate).urlCover == s.pathCoverLarge
  {
  }
}

=== FILE: connection_manager.dfy ===
/**
 * The connection manager: a per-connection cache of tested statuses that
 * stays valid for sixty seconds, the statuses published to the interface,
 * and the remote operations it forwards to the SFTP service once one is
 * configured. Clock readings and the outcome of each connection test are
 * inputs; times are seconds.
 */
module ConnectionManager {
  import opened Base
  import opened SftpConnections
  import opened SftpService

  /** `cacheValidityDuration`. */
  const CacheValidity: real := 60.0

  datatype CacheEntry = CacheEntry(status: ConnectionStatus, lastChecked: real)

  datatype Manager = Manager(
    configured: bool,
    cache: map<int, CacheEntry>,
    statuses: map<int, ConnectionStatus>)

  /** A manager before any service is configured. */
  function Initial(): (r: Manager)
    ensures !r.configured && r.cache == map[] && r.statuses == map[]
  {
    Manager(false, map[], map[])
  }

  /** `configure(with:)`: the cache is kept. */
  function Configure(m: Manager): (r: Manager)
    ensures r.configured && r.cache == m.cache && r.statuses == m.statuses
  {
    m.(configured := true)
  }

  /** Whether the cached status for `id` may answer a check made at `now`. */
  predicate Fresh(m: Manager, id: int, now: real) {
    id in m.cache && now - m.cache[id].lastChecked < CacheValidity
  }

  /** The status a test yields: connected for a positive answer, an error for anything else, and an error without a service. */
  function TestedStatus(configured: bool, outcome: Result<bool, SftpError>): (r: ConnectionStatus)
    ensures r == Connected <==> configured && outcome == Ok(true)
    ensures r == Connected || r == Error
  {
    if configured && outcome == Ok(true) then Connected else Error
  }

  /**
   * `checkConnectionStatus(for:forceRefresh:)`: answers from the cache
   * when not forced and the entry is younger than the validity period;
   * otherwise tests the connection (timeouts included in `outcome`) and
   * caches the result stamped with `finishedAt`. Either way the answer is
   * published for the connection.
   */
  function CheckStatus(m: Manager, id: int, forceRefresh: bool, now: real, outcome: Result<bool, SftpError>, finishedAt: real)
    : (r: (Manager, ConnectionStatus))
    ensures !forceRefresh && Fresh(m, id, now) ==> r.1 == m.cache[id].status && r.0.cache == m.cache
    ensures forceRefresh || !Fresh(m, id, now) ==>
              r.1 == TestedStatus(m.configured, outcome) && r.0.cache == m.cache[id := CacheEntry(r.1, finishedAt)]
    ensures r.0.statuses == m.statuses[id := r.1]
    ensures r.0.configured == m.configured
  {
    if !forceRefresh && Fresh(m, id, now) then
      var status := m.cache[id].status;
      (m.(statuses := m.statuses[id := status]), status)
    else
      var status := TestedStatus(m.configured, outcome);
      (m.(cache := m.cache[id := CacheEntry(status, finishedAt)], statuses := m.statuses[id := status]), status)
  }

  /** A forced check always reports the test's verdict, whatever is cached. */
  lemma ForcedCheckTests(m: Manager, id: int, now: real, outcome: Result<bool, SftpError>, finishedAt: real)
    ensures CheckStatus(m, id, true, now, outcome, finishedAt).1 == Connected <==> m.configured && outcome == Ok(true)
  {
  }

  /** A check within the validity period of a test repeats that test's answer, whatever the server now says. */
  lemma RecheckWithinValidity(m: Manager, id: int, force: bool, now: real, outcome: Result<bool, SftpError>, finishedAt: real,
                              later: real, outcome2: Result<bool, SftpError>, finishedAt2: real)
    requires force || !Fresh(m, id, now)
    requires later - finishedAt < CacheValidity
    ensures var first := CheckStatus(m, id, force, now, outcome, finishedAt);
            CheckStatus(first.0, id, false, later, outcome2, finishedAt2).1 == first.1
  {
  }

  /** Checking one connection leaves every other connection's cache entry alone. */
  lemma CheckIsLocal(m: Manager, id: int, force: bool, now: real, outcome: Result<bool, SftpError>, finishedAt: real, other: int)
    requires other != id
    ensures var r := CheckStatus(m, id, force, now, outcome, finishedAt).0;
            (other in r.cache <==> other in m.cache) && (other in m.cache ==> r.cache[other] == m.cache[other])
  {
  }

  /** Without a service every test fails. */
  lemma UnconfiguredIsError(m: Manager, id: int, now: real, outcome: Result<bool, SftpError>, finishedAt: real)
    requires !m.configured
    ensures CheckStatus(m, id, true, now, outcome, finishedAt).1 == Error
  {
  }

  /** `clearCache()`: forgets every cached and published status. */
  function ClearCache(m: Manager): (r: Manager)
    ensures r.cache == map[] && r.statuses == map[] && r.configured == m.configured
  {
    m.(cache := map[], statuses := map[])
  }

  /** `clearCache(for:)`: forgets one connection's status and nothing else. */
  function ClearCacheFor(m: Manager, id: int): (r: Manager)
    ensures id !in r.cache && id !in r.statuses
    ensures forall k | k in m.cache && k != id :: k in r.cache && r.cache[k] == m.cache[k]
    ensures forall k | k in r.cache :: k in m.cache
    ensures forall k | k in m.statuses && k != id :: k in r.statuses && r.statuses[k] == m.statuses[k]
    ensures r.configured == m.configured
  {
    m.(cache := m.cache - {id}, statuses := m.statuses - {id})
  }

  /** After clearing a connection's entry the next check tests it afresh. */
  lemma ClearedConnectionIsTested(m: Manager, id: int, now: real, outcome: Result<bool, SftpError>, finishedAt: real)
    ensures CheckStatus(ClearCacheFor(m, id), id, false, now, outcome, finishedAt).1 == TestedStatus(m.configured, outcome)
    ensures CheckStatus(ClearCache(m), id, false, now, outcome, finishedAt).1 == TestedStatus(m.configured, outcome)
  {
  }

  // ---------------------------------------------------------------------
  // Forwarded operations
  // ---------------------------------------------------------------------

  /** `listDirectory(at:connection:)`: refused without a service, else the service's answer. */
  function ListDirectory(m: Manager, path: string, server: Server, listing: Option<seq<RawEntry>>, now: int)
    : (r: Result<seq<DirectoryItem>, SftpError>)
    ensures !m.configured ==> r == Err(ServiceNotConfigured)
    ensures m.configured ==> r == SftpService.ListDirectory(path, server, listing, now)
  {
    if !m.configured then Err(ServiceNotConfigured) else SftpService.ListDirectory(path, server, listing, now)
  }

  /** `uploadFile(from:to:connection:progressHandler:)`: refused without a service, else the service's answer. */
  function UploadFile(m: Manager, server: Server, fileReadable: bool, fileSize: nat, writes: seq<nat>, transferFails: bool)
    : (r: Result<seq<(int, int)>, SftpError>)
    ensures !m.configured ==> r == Err(ServiceNotConfigured)
    ensures m.configured ==> r == SftpService.UploadFile(server, fileReadable, fileSize, writes, transferFails)
  {
    if !m.configured then Err(ServiceNotConfigured)
    else SftpService.UploadFile(server, fileReadable, fileSize, writes, transferFails)
  }

  /** `downloadFile(from:to:connection:progressHandler:)`: fails with or without a service. */
  function DownloadFile(m: Manager, server: Server, streamOpens: bool): (r: Result<(), SftpError>)
    ensures r.Err?
    ensures !m.configured ==> r == Err(ServiceNotConfigured)
    ensures m.configured ==> r == SftpService.DownloadFile(server, streamOpens)
  {
    if !m.configured then Err(ServiceNotConfigured) else SftpService.DownloadFile(server, streamOpens)
  }

  /** `createDirectory(at:connection:)`: refused without a service, else the service's answer. */
  function CreateDirectory(m: Manager, tree: RemoteTree, path: string, server: Server): (r: Result<RemoteTree, SftpError>)
    ensures !m.configured ==> r == Err(ServiceNotConfigured)
    ensures m.configured ==> r == SftpService.CreateDirectory(tree, path, server)
  {
    if !m.configured then Err(ServiceNotConfigured) else SftpService.CreateDirectory(tree, path, server)
  }
}

=== FILE: directory_browser.dfy ===
/**
 * The remote directory browser: the current path and the history of
 * visited paths, the breadcrumb components and their targets, the split
 * of a listing into sorted directories and files, directory creation and
 * the favourite directories. What a listing or a creation returns from
 * the server is an input to each step.
 */
module DirectoryBrowser {
  import opened Base
  import opened Strings
  import opened Seqs
  import opened Ordering
  import opened Paths
  import opened SftpRepository
  import opened SftpService

  const Root: string := "/"
  const RootComponent: string := "Root"
  const EmptyNameError: string := "Directory name cannot be empty"

  /** The browser's observable state; the loading flag is left out. */
  datatype Browser = Browser(
    items: seq<DirectoryItem>,
    currentPath: string,
    history: seq<string>,
    error: Option<string>,
    selectedPath: Option<string>,
    favorites: seq<string>)

  /** A fresh browser at the root, showing the connection's favourites. */
  function Initial(favorites: seq<string>): (r: Browser)
    ensures Valid(r) && r.currentPath == Root && !CanGoBack(r) && !CanGoUp(r)
  {
    Browser([], Root, [Root], None, None, favorites)
  }

  /** The history is never empty and ends with the current path. */
  predicate Valid(b: Browser) {
    |b.history| >= 1 && b.currentPath == b.history[|b.history| - 1]
  }

  predicate CanGoBack(b: Browser) {
    |b.history| > 1
  }

  predicate CanGoUp(b: Browser) {
    b.currentPath != Root
  }

  // ---------------------------------------------------------------------
  // Directories and files
  // ---------------------------------------------------------------------

  function LowerName(it: DirectoryItem): string {
    Lower(it.name)
  }

  predicate IsDirectory(it: DirectoryItem) {
    it.isDirectory
  }

  predicate IsFile(it: DirectoryItem) {
    !it.isDirectory
  }

  predicate AnyItem(it: DirectoryItem) {
    true
  }

  /** The listed directories, ordered by lower-cased name. */
  function Directories(items: seq<DirectoryItem>): (r: seq<DirectoryItem>)
    ensures SortedBy(r, LowerName, StrLt)
    ensures multiset(r) == multiset(Filter(items, IsDirectory))
    ensures forall it | it in r :: it.isDirectory && it in items
  {
    StrLtStrictTotal();
    var f := Filter(items, IsDirectory);
    var r := SortBy(f, LowerName, StrLt);
    assert forall it | it in r :: it in multiset(r) && it in multiset(f) && it in f;
    r
  }

  /** The listed files, ordered by lower-cased name. */
  function Files(items: seq<DirectoryItem>): (r: seq<DirectoryItem>)
    ensures SortedBy(r, LowerName, StrLt)
    ensures multiset(r) == multiset(Filter(items, IsFile))
    ensures forall it | it in r :: !it.isDirectory && it in items
  {
    StrLtStrictTotal();
    var f := Filter(items, IsFile);
    var r := SortBy(f, LowerName, StrLt);
    assert forall it | it in r :: it in multiset(r) && it in multiset(f) && it in f;
    r
  }

  /** Directories and files together hold every listed item exactly as often as the listing does. */
  lemma DirectoriesAndFilesPartition(items: seq<DirectoryItem>)
    ensures multiset(Directories(items)) + multiset(Files(items)) == multiset(items)
  {
    FilterUnion(items, IsDirectory, IsFile, AnyItem);
    FilterAll(items, AnyItem);
  }

  // ---------------------------------------------------------------------
  // Loading and navigation
  // ---------------------------------------------------------------------

  /**
   * `loadDirectory(path:)`: lists `path`, or the current path when none
   * is given. On success the items are replaced and an explicit path
   * becomes current and is pushed on the history; on failure only the
   * error changes.
   */
  function Load(b: Browser, path: Option<string>, outcome: Result<seq<DirectoryItem>, string>): (r: Browser)
    ensures Valid(b) ==> Valid(r)
    ensures outcome.Err? ==> r == b.(error := Some(outcome.error))
    ensures outcome.Ok? ==> r.items == outcome.value && r.error.None?
    ensures outcome.Ok? && path.Some? ==> r.currentPath == path.value && r.history == b.history + [path.value]
    ensures path.None? || outcome.Err? ==> r.currentPath == b.currentPath && r.history == b.history
    ensures r.selectedPath == b.selectedPath && r.favorites == b.favorites
  {
    match outcome
    case Err(message) => b.(error := Some(message))
    case Ok(items) =>
      var loaded := b.(items := items, error := None);
      if path.Some? then loaded.(currentPath := path.value, history := b.history + [path.value])
      else loaded
  }

  /** `navigateToDirectory`: only directories are entered. */
  function NavigateToDirectory(b: Browser, item: DirectoryItem, outcome: Result<seq<DirectoryItem>, string>): (r: Browser)
    ensures !item.isDirectory ==> r == b
    ensures item.isDirectory ==> r == Load(b, Some(item.path), outcome)
  {
    if item.isDirectory then Load(b, Some(item.path), outcome) else b
  }

  /**
   * `goBack`: drops the newest history entry, makes the one before it
   * current and reloads it; nothing happens with a single entry.
   */
  function GoBack(b: Browser, outcome: Result<seq<DirectoryItem>, string>): (r: Browser)
    requires Valid(b)
    ensures Valid(r)
    ensures !CanGoBack(b) ==> r == b
    ensures CanGoBack(b) ==> r.history == b.history[..|b.history| - 1]
  {
    if |b.history| <= 1 then b
    else
      var h := b.history[..|b.history| - 1];
      Load(b.(history := h, currentPath := h[|h| - 1]), None, outcome)
  }

  /** Entering a directory and going back returns to the path and history before. */
  lemma EnterThenBack(b: Browser, path: string, items: seq<DirectoryItem>, outcome: Result<seq<DirectoryItem>, string>)
    requires Valid(b)
    ensures var back := GoBack(Load(b, Some(path), Ok(items)), outcome);
            back.currentPath == b.currentPath && back.history == b.history
  {
    var entered := Load(b, Some(path), Ok(items));
    assert entered.history[..|entered.history| - 1] == b.history;
  }

  /** The parent path as Foundation reports it, with "" and "/" both meaning the root. */
  function NormalizeParent(parentPath: string): (r: string)
    ensures r == Root <==> parentPath == "" || parentPath == Root
    ensures r != Root ==> r == parentPath
  {
    if parentPath == "" || parentPath == Root then Root else parentPath
  }

  /**
   * `goUp`: loads the parent of the current path, which URL arithmetic
   * computes and is given here; nothing happens at the root.
   */
  function GoUp(b: Browser, parentPath: string, outcome: Result<seq<DirectoryItem>, string>): (r: Browser)
    ensures !CanGoUp(b) ==> r == b
    ensures CanGoUp(b) ==> r == Load(b, Some(NormalizeParent(parentPath)), outcome)
  {
    if b.currentPath == Root then b else Load(b, Some(NormalizeParent(parentPath)), outcome)
  }

  /** `goToRoot`: a successful load makes the root current, and going up is then impossible. */
  function GoToRoot(b: Browser, outcome: Result<seq<DirectoryItem>, string>): (r: Browser)
    ensures r == Load(b, Some(Root), outcome)
    ensures outcome.Ok? && Valid(b) ==> !CanGoUp(r) && CanGoBack(r)
  {
    Load(b, Some(Root), outcome)
  }

  /** `selectCurrentPath`: the current path becomes the selection; nothing else changes. */
  function SelectCurrentPath(b: Browser): (r: Browser)
    ensures r.selectedPath == Some(b.currentPath)
    ensures r.(selectedPath := b.selectedPath) == b
  {
    b.(selectedPath := Some(b.currentPath))
  }

  // ---------------------------------------------------------------------
  // Breadcrumbs
  // ---------------------------------------------------------------------

  /** `currentPathComponents`: "Root" followed by the path's non-empty segments. */
  function PathComponents(path: string): (r: seq<string>)
    ensures |r| >= 1 && r[0] == RootComponent
    ensures path == Root ==> r == [RootComponent]
    ensures path != Root ==> r[1..] == Split(path, '/')
    ensures ValidPieces(r[1..], '/')
  {
    SplitValid(path, '/');
    if path == Root then [RootComponent] else [RootComponent] + Split(path, '/')
  }

  /**
   * The path a breadcrumb leads to: the root for index 0, otherwise "/"
   * followed by the first `index` segments (all of them when there are
   * fewer).
   */
  function ComponentTarget(path: string, index: nat): (r: string)
    ensures index == 0 ==> r == Root
    ensures |r| >= 1 && r[0] == '/'
  {
    if index == 0 then Root
    else
      var segments := Split(path, '/');
      var n := if index < |segments| then index else |segments|;
      "/" + Join(segments[..n], "/")
  }

  lemma {:induction false} JoinNonEmpty(pieces: seq<string>, sep: string)
    requires |pieces| >= 1 && pieces[0] != []
    ensures |Join(pieces, sep)| >= 1
  {
  }

  /**
   * Following breadcrumb `index` of a path leads to a path whose own
   * breadcrumbs are the first `index + 1` of the original.
   */
  lemma ComponentRoundTrip(path: string, index: nat)
    requires 1 <= index < |PathComponents(path)|
    ensures PathComponents(ComponentTarget(path, index)) == PathComponents(path)[..index + 1]
  {
    var segments := Split(path, '/');
    SplitValid(path, '/');
    assert path != Root;
    var prefix := segments[..index];
    assert ValidPieces(prefix, '/');
    SplitJoin(prefix, '/');
    JoinNonEmpty(prefix, "/");
    var target := ComponentTarget(path, index);
    assert target == ['/'] + Join(prefix, ['/']);
    SplitLeadingSeparator(Join(prefix, ['/']), '/');
    assert target != Root;
    assert PathComponents(path)[..index + 1] == [RootComponent] + prefix;
  }

  /** The last breadcrumb leads back to the current path's own breadcrumbs. */
  lemma LastComponentIsCurrent(path: string)
    ensures PathComponents(ComponentTarget(path, |PathComponents(path)| - 1)) == PathComponents(path)
  {
    var n := |PathComponents(path)| - 1;
    if n >= 1 {
      ComponentRoundTrip(path, n);
    }
  }

  /** `navigateToPathComponent(at:)`: loads the breadcrumb's target. */
  function NavigateToComponent(b: Browser, index: nat, outcome: Result<seq<DirectoryItem>, string>): (r: Browser)
    ensures Valid(b) ==> Valid(r)
    ensures outcome.Ok? ==> r.currentPath == ComponentTarget(b.currentPath, index)
    ensures index == 0 ==> r == GoToRoot(b, outcome)
  {
    if index == 0 then GoToRoot(b, outcome)
    else Load(b, Some(ComponentTarget(b.currentPath, index)), outcome)
  }

  // ---------------------------------------------------------------------
  // Creating directories
  // ---------------------------------------------------------------------

  /**
   * `createDirectory(name:)`: a blank name is refused with an error;
   * otherwise the new directory's path is asked of the server (the
   * second component) and, once created, the current directory is
   * reloaded.
   */
  function CreateDirectory(b: Browser, name: string, created: Result<(), string>, reload: Result<seq<DirectoryItem>, string>)
    : (r: (Browser, Option<string>))
    ensures r.1.None? <==> AllWhitespace(name)
    ensures r.1.None? ==> r.0 == b.(error := Some(EmptyNameError))
    ensures r.1.Some? ==> r.1.value == JoinPath(b.currentPath, name) && HasSuffix(r.1.value, name)
    ensures r.1.Some? && created.Err? ==> r.0 == b.(error := Some("Failed to create directory: " + created.error))
    ensures r.1.Some? && created.Ok? ==> r.0 == Load(b, None, reload)
    ensures Valid(b) ==> Valid(r.0) && r.0.currentPath == b.currentPath
  {
    TrimEmptyIffBlank(name);
    if Trim(name) == [] then (b.(error := Some(EmptyNameError)), None)
    else
      var path := JoinPath(b.currentPath, name);
      match created
      case Err(message) => (b.(error := Some("Failed to create directory: " + message)), Some(path))
      case Ok(_) => (Load(b, None, reload), Some(path))
  }

  /** A name made only of no-break and ideographic spaces is blank, so no directory is asked for. */
  lemma UnicodeBlankNameRefused(b: Browser, created: Result<(), string>, reload: Result<seq<DirectoryItem>, string>)
    ensures CreateDirectory(b, "\U{A0}\U{3000}", created, reload).1.None?
  {
    var name := "\U{A0}\U{3000}";
    assert IsWhitespace(name[0]) && IsWhitespace(name[1]);
  }

  // ---------------------------------------------------------------------
  // Favourites
  // ---------------------------------------------------------------------

  /** `addToFavorites`: the path is stored for the connection and the list reloaded. */
  function AddToFavorites(b: Browser, store: Store, id: int, path: string): (r: (Browser, Store))
    ensures r.1 == AddFavorite(store, path, id)
    ensures r.0.favorites == GetFavorites(r.1, id)
    ensures path in r.0.favorites
    ensures r.0.(favorites := b.favorites) == b
  {
    AddFavoriteIdempotent(store, path, id);
    var s := AddFavorite(store, path, id);
    (b.(favorites := GetFavorites(s, id)), s)
  }

  /** `removeFromFavorites`: every copy of the path goes; the others stay in order. */
  function RemoveFromFavorites(b: Browser, store: Store, id: int, path: string): (r: (Browser, Store))
    ensures r.1 == RemoveFavorite(store, path, id)
    ensures r.0.favorites == GetFavorites(r.1, id)
    ensures path !in r.0.favorites
    ensures r.0.(favorites := b.favorites) == b
  {
    var s := RemoveFavorite(store, path, id);
    (b.(favorites := GetFavorites(s, id)), s)
  }

  /** Adding a new favourite and removing it again shows the list from before. */
  lemma AddThenRemoveFavorite(b: Browser, store: Store, id: int, path: string)
    requires path !in GetFavorites(store, id)
    ensures var added := AddToFavorites(b, store, id, path);
            RemoveFromFavorites(added.0, added.1, id, path).0.favorites == GetFavorites(store, id)
  {
    AddThenRemove(store, path, id);
  }

  /** `navigateToFavorite`: loads the favourite's path. */
  function NavigateToFavorite(b: Browser, path: string, outcome: Result<seq<DirectoryItem>, string>): (r: Browser)
    ensures Valid(b) ==> Valid(r)
    ensures outcome.Ok? ==> r.currentPath == path && r.history == b.history + [path]
  {
    Load(b, Some(path), outcome)
  }
}

=== FILE: emulator.dfy ===
/**
 * The checks made before a ROM is opened in the in-app emulator: which
 * platforms the emulator supports, and the ordered pre-flight checks of
 * the launch. Whether a server address is stored is an input.
 */
module Emulator {
  import opened Base
  import opened Strings

  /** The platform slugs and display names the emulator accepts, in lower case. */
  const SupportedPlatforms: set<string> := {
    "nes", "nintendo entertainment system",
    "snes", "super nintendo", "super nintendo entertainment system",
    "n64", "nintendo 64",
    "gba", "game boy advance",
    "gbc", "game boy color",
    "gb", "game boy",
    "nds", "nintendo ds",
    "genesis", "mega drive", "sega genesis", "sega mega drive",
    "master system", "sega master system",
    "game gear", "sega game gear",
    "saturn", "sega saturn",
    "dreamcast", "sega dreamcast",
    "psx", "ps1", "playstation", "playstation 1",
    "psp", "playstation portable",
    "arcade"
  }

  /**
   * `CheckEmulatorSupportUseCase.execute`: the slug or name, in lower
   * case, contains one of the supported entries.
   */
  predicate IsPlatformSupported(platformSlug: string) {
    exists p | p in SupportedPlatforms :: Contains(Lower(platformSlug), p)
  }

  /** Case does not matter: a slug, its lower-case and its upper-case forms are all supported or all not. */
  lemma SupportIgnoresCase(s: string)
    ensures IsPlatformSupported(Lower(s)) <==> IsPlatformSupported(s)
    ensures IsPlatformSupported(Upper(s)) <==> IsPlatformSupported(s)
  {
    LowerIdempotent(s);
    assert Lower(Upper(s)) == Lower(s);
  }

  /** Support is monotone: any text containing a supported slug is supported. */
  lemma SupportIsMonotone(s: string, t: string)
    requires Contains(t, s) && IsPlatformSupported(s)
    ensures IsPlatformSupported(t)
  {
    var p :| p in SupportedPlatforms && Contains(Lower(s), p);
    LowerContainsPreserved(t, s);
    ContainsTransitive(Lower(t), Lower(s), p);
  }

  /** Every supported entry is non-empty, so the empty slug is not supported. */
  lemma EmptyUnsupported()
    ensures !IsPlatformSupported("")
  {
    assert forall p | p in SupportedPlatforms :: |p| > 0;
    forall p | p in SupportedPlatforms ensures !Contains(Lower(""), p) {
      AbsentCharNotContained(Lower(""), p, 0);
    }
  }

  /** Display names are accepted whatever their case; so is any later console whose name extends a supported one. */
  lemma SupportExamples()
    ensures IsPlatformSupported("SNES")
    ensures IsPlatformSupported("Sega Saturn")
    ensures IsPlatformSupported("PlayStation 2")
  {
    var snes := Lower("SNES");
    assert snes == "snes";
    ContainsSelf("snes");

    var saturn := Lower("Sega Saturn");
    assert saturn[5] == 's' && saturn[6] == 'a' && saturn[7] == 't' && saturn[8] == 'u' && saturn[9] == 'r' && saturn[10] == 'n';
    assert saturn[5..11] == "saturn";
    assert OccursAt(saturn, "saturn", 5);

    var ps2 := Lower("PlayStation 2");
    assert ps2[0] == 'p' && ps2[1] == 'l' && ps2[2] == 'a' && ps2[3] == 'y' && ps2[4] == 's' && ps2[5] == 't';
    assert ps2[6] == 'a' && ps2[7] == 't' && ps2[8] == 'i' && ps2[9] == 'o' && ps2[10] == 'n';
    assert ps2[0..11] == "playstation";
    assert OccursAt(ps2, "playstation", 0);
  }

  // ---------------------------------------------------------------------
  // Launch pre-flight checks
  // ---------------------------------------------------------------------

  /** `EmulatorLaunchError`. */
  datatype LaunchError =
    | NoServerConfigured
    | UnsupportedPlatform(platform: string)
    | RomNotAvailable
    | ServerUnreachable
    | Unknown(message: string)

  /** `EmulatorLaunchResult`. */
  datatype LaunchResult = Success | Failure(error: LaunchError)

  /** `errorDescription`: the unsupported-platform message names the platform; an unknown error is its own message. */
  function LaunchErrorDescription(e: LaunchError): (r: string)
    ensures e.UnsupportedPlatform? ==> Contains(r, e.platform)
    ensures e.Unknown? ==> r == e.message
    ensures !e.Unknown? ==> r != ""
  {
    match e
    case NoServerConfigured => "No server configured. " + "Please set up your ROMM server in Settings."
    case UnsupportedPlatform(platform) =>
      var r := "Platform '" + platform + "' is not supported for emulation.";
      assert r[10..10 + |platform|] == platform;
      assert OccursAt(r, platform, 10);
      r
    case RomNotAvailable => "ROM file is not available. " + "Please download it first or check your server connection."
    case ServerUnreachable => "Cannot reach ROMM server. " + "Please check your connection."
    case Unknown(message) => message
  }

  /**
   * Apart from free-form unknown errors, the messages tell the errors apart:
   * two errors read alike exactly when they are the same error, so two
   * unsupported-platform messages differ exactly when the platforms do.
   */
  lemma {:induction false} LaunchErrorDescriptionInjective(a: LaunchError, b: LaunchError)
    requires !a.Unknown? && !b.Unknown?
    ensures LaunchErrorDescription(a) == LaunchErrorDescription(b) <==> a == b
  {
    var da, db := LaunchErrorDescription(a), LaunchErrorDescription(b);
    if da == db {
      DescriptionHead(a);
      DescriptionHead(b);
      if a.UnsupportedPlatform? && b.UnsupportedPlatform? {
        assert |a.platform| == |b.platform|;
        assert a.platform == da[10..10 + |a.platform|];
        assert b.platform == db[10..10 + |b.platform|];
      }
    }
  }

  /** The first character of each fixed message; each kind of error starts differently. */
  lemma DescriptionHead(e: LaunchError)
    requires !e.Unknown?
    ensures LaunchErrorDescription(e) != []
    ensures LaunchErrorDescription(e)[0] == match e
      case NoServerConfigured => 'N'
      case UnsupportedPlatform(_) => 'P'
      case RomNotAvailable => 'R'
      case ServerUnreachable => 'C'
  {
    match e
    case NoServerConfigured =>
      assert "No server configured. "[0] == 'N';
    case UnsupportedPlatform(p) =>
      assert LaunchErrorDescription(e) == "Platform '" + p + "' is not supported for emulation.";
    case RomNotAvailable =>
      assert "ROM file is not available. "[0] == 'R';
    case ServerUnreachable =>
      assert "Cannot reach ROMM server. "[0] == 'C';
  }

  /**
   * `LaunchEmulatorUseCase.execute`: first a server must be stored, then
   * the ROM must name a platform, then the platform must be supported.
   * A missing file name is only logged.
   */
  function Launch(serverUrl: Option<string>, platformSlug: Option<string>, fileName: Option<string>): (r: LaunchResult)
    ensures serverUrl.None? ==> r == Failure(NoServerConfigured)
    ensures serverUrl.Some? && platformSlug.None? ==> r == Failure(UnsupportedPlatform("Unknown"))
    ensures serverUrl.Some? && platformSlug.Some? && !IsPlatformSupported(platformSlug.value) ==>
              r == Failure(UnsupportedPlatform(platformSlug.value))
    ensures r == Success <==> serverUrl.Some? && platformSlug.Some? && IsPlatformSupported(platformSlug.value)
    ensures r != Failure(RomNotAvailable) && r != Failure(ServerUnreachable)
  {
    if serverUrl.None? then Failure(NoServerConfigured)
    else if platformSlug.None? then Failure(UnsupportedPlatform("Unknown"))
    else if !IsPlatformSupported(platformSlug.value) then Failure(UnsupportedPlatform(platformSlug.value))
    else Success
  }

  /** The file name never changes the outcome. */
  lemma FileNameIrrelevant(serverUrl: Option<string>, platformSlug: Option<string>, a: Option<string>, b: Option<string>)
    ensures Launch(serverUrl, platformSlug, a) == Launch(serverUrl, platformSlug, b)
  {
  }

  /** A ROM on a supported platform, with a server stored, launches even without a file name. */
  lemma SaturnLaunches(serverUrl: string)
    ensures Launch(Some(serverUrl), Some("Sega Saturn"), None) == Success
  {
    SupportExamples();
  }
}

=== FILE: local_roms.dfy ===
/**
 * ROMs downloaded to the device: each sits in its own directory
 * `<platform>/<rom>` under the ROMs base directory, with a metadata record
 * listing its files. The scan of the base directory is an input: the ROM
 * directories found, each with its decoded metadata (none when missing or
 * unreadable) and the sizes the file system reports for the files in it.
 * A ROM's download time is in milliseconds; the metadata record keeps it
 * in whole seconds, as the ISO 8601 text it is written as does.
 */
module LocalRoms {
  import opened Base
  import opened Strings
  import opened Seqs
  import opened Ordering

  datatype DownloadedRomFile = DownloadedRomFile(fileName: string, fileSizeBytes: int, md5Hash: Option<string>)

  /** `DownloadedROM`; `localDirectory` is relative to the ROMs base directory. */
  datatype DownloadedRom = DownloadedRom(
    id: int,
    name: string,
    platformName: string,
    platformSlug: string,
    downloadedAt: int,
    totalSizeBytes: int,
    localDirectory: string,
    files: seq<DownloadedRomFile>)

  datatype RomFileMetadata = RomFileMetadata(fileName: string, fileSizeBytes: int, md5Hash: Option<string>)

  /** `ROMMetadata`: the record kept beside the files; `downloadedAt` is in whole seconds. */
  datatype RomMetadata = RomMetadata(
    romId: int,
    romName: string,
    platformName: string,
    platformSlug: string,
    downloadedAt: int,
    files: seq<RomFileMetadata>)

  /** Milliseconds per second: the ISO 8601 date of the metadata drops the part below one. */
  const MillisPerSecond: int := 1000

  /** A ROM directory as found on disk: its full path, its metadata and the sizes of the files present. */
  datatype RomDirectory = RomDirectory(path: string, metadata: Option<RomMetadata>, sizes: map<string, int>)

  // ---------------------------------------------------------------------
  // Directory names
  // ---------------------------------------------------------------------

  /** A name with every '/' replaced by '-'. */
  function Sanitize(name: string): string {
    ReplaceChar(name, '/', '-')
  }

  /**
   * `createROMDirectoryPath`: the platform and ROM names, each with '/'
   * replaced by '-', joined by a single '/', the only one in the path.
   */
  function CreateRomDirectoryPath(platformName: string, romName: string): (r: string)
    ensures |r| == |platformName| + 1 + |romName|
    ensures r[|platformName|] == '/'
    ensures forall i | 0 <= i < |r| && i != |platformName| :: r[i] != '/'
    ensures forall i | 0 <= i < |platformName| :: r[i] == (if platformName[i] == '/' then '-' else platformName[i])
    ensures forall i | 0 <= i < |romName| ::
              r[|platformName| + 1 + i] == (if romName[i] == '/' then '-' else romName[i])
  {
    Sanitize(platformName) + "/" + Sanitize(romName)
  }

  /** Splitting the path at '/' gives back the two sanitized names, when both are non-empty. */
  lemma DirectoryPathSplits(platformName: string, romName: string)
    requires platformName != "" && romName != ""
    ensures Split(CreateRomDirectoryPath(platformName, romName), '/') == [Sanitize(platformName), Sanitize(romName)]
  {
    var p := Sanitize(platformName);
    var n := Sanitize(romName);
    SplitCons(p, n, '/');
    SplitSingle(n, '/');
    assert p + "/" + n == p + ['/'] + n;
  }

  /** Names without a '/' come back unchanged. */
  lemma PlainNamesRoundTrip(platformName: string, romName: string)
    requires platformName != "" && romName != ""
    requires Free(platformName, '/') && Free(romName, '/')
    ensures Split(CreateRomDirectoryPath(platformName, romName), '/') == [platformName, romName]
  {
    assert Sanitize(platformName) == platformName;
    assert Sanitize(romName) == romName;
    DirectoryPathSplits(platformName, romName);
  }

  /**
   * `replacingOccurrences(of:with: "")`: every occurrence of `pat`,
   * found left to right without overlap, removed.
   */
  function RemoveAll(s: string, pat: string): (r: string)
    requires pat != []
    ensures |r| <= |s|
    ensures Contains(s, pat) ==> |r| <= |s| - |pat|
    decreases |s|
  {
    if s == [] then []
    else if HasPrefix(s, pat) then RemoveAll(s[|pat|..], pat)
    else
      ContainedPastHead(s, pat);
      [s[0]] + RemoveAll(s[1..], pat)
  }

  /** An occurrence that does not start at the head starts in the tail. */
  lemma ContainedPastHead(s: string, pat: string)
    requires s != [] && !HasPrefix(s, pat)
    ensures Contains(s, pat) ==> Contains(s[1..], pat)
  {
    if Contains(s, pat) {
      var i :| 0 <= i <= |s| && OccursAt(s, pat, i);
      assert i != 0;
      assert s[1..][i - 1..i - 1 + |pat|] == s[i..i + |pat|];
      assert OccursAt(s[1..], pat, i - 1);
    }
  }

  lemma {:induction false} RemoveAllAbsent(s: string, pat: string)
    requires pat != [] && !Contains(s, pat)
    ensures RemoveAll(s, pat) == s
    decreases |s|
  {
    if s != [] {
      assert !OccursAt(s, pat, 0);
      forall i | 0 <= i <= |s[1..]| ensures !OccursAt(s[1..], pat, i) {
        if OccursAt(s[1..], pat, i) {
          assert s[i + 1..i + 1 + |pat|] == s[1..][i..i + |pat|];
          assert OccursAt(s, pat, i + 1);
        }
      }
      RemoveAllAbsent(s[1..], pat);
      assert [s[0]] + s[1..] == s;
    }
  }

  /** The path of a ROM directory relative to the base directory. */
  function RelativePath(path: string, base: string): string {
    RemoveAll(path, base + "/")
  }

  /** A directory `base/rel` is found again at `rel`, when `rel` does not itself hold `base/`. */
  lemma RelativePathRoundTrip(base: string, rel: string)
    requires !Contains(rel, base + "/")
    ensures RelativePath(base + "/" + rel, base) == rel
  {
    var pat := base + "/";
    var s := pat + rel;
    assert s[..|pat|] == pat;
    assert s[|pat|..] == rel;
    RemoveAllAbsent(rel, pat);
  }

  // ---------------------------------------------------------------------
  // Loading one ROM
  // ---------------------------------------------------------------------

  /** The size of a listed file: the size on disk when the file is there, else the recorded one. */
  function ActualSize(f: RomFileMetadata, sizes: map<string, int>): int {
    if f.fileName in sizes then sizes[f.fileName] else f.fileSizeBytes
  }

  /** The files of a ROM as loaded: the recorded names and hashes with their actual sizes. */
  function LoadedFiles(files: seq<RomFileMetadata>, sizes: map<string, int>): (r: seq<DownloadedRomFile>)
    ensures |r| == |files|
    ensures forall i | 0 <= i < |files| ::
              r[i].fileName == files[i].fileName && r[i].md5Hash == files[i].md5Hash
              && r[i].fileSizeBytes == ActualSize(files[i], sizes)
  {
    seq(|files|, i requires 0 <= i < |files| =>
      DownloadedRomFile(files[i].fileName, ActualSize(files[i], sizes), files[i].md5Hash))
  }

  /** The sum of the files' sizes. */
  function FilesTotal(files: seq<DownloadedRomFile>): int
    decreases |files|
  {
    if files == [] then 0 else FilesTotal(files[..|files| - 1]) + files[|files| - 1].fileSizeBytes
  }

  /**
   * What loading a ROM directory yields: nothing without metadata;
   * otherwise the recorded identity, the files with their actual sizes,
   * their total, and the directory's path relative to the base.
   */
  function LoadedRom(dir: RomDirectory, base: string): (r: Option<DownloadedRom>)
    ensures r.None? <==> dir.metadata.None?
    ensures r.Some? ==> r.value.files == LoadedFiles(dir.metadata.value.files, dir.sizes)
    ensures r.Some? ==> r.value.totalSizeBytes == FilesTotal(r.value.files)
    ensures r.Some? ==> r.value.localDirectory == RelativePath(dir.path, base)
    ensures r.Some? ==> r.value.id == dir.metadata.value.romId && r.value.platformName == dir.metadata.value.platformName
    ensures r.Some? ==> r.value.downloadedAt % MillisPerSecond == 0
                        && r.value.downloadedAt / MillisPerSecond == dir.metadata.value.downloadedAt
  {
    match dir.metadata
    case None => None
    case Some(m) =>
      var files := LoadedFiles(m.files, dir.sizes);
      Some(DownloadedRom(m.romId, m.romName, m.platformName, m.platformSlug, m.downloadedAt * MillisPerSecond,
                         FilesTotal(files), RelativePath(dir.path, base), files))
  }

  /** `loadROMMetadata(from:)`: walks the recorded files, adding up their actual sizes. */
  method LoadRomMetadata(dir: RomDirectory, base: string) returns (r: Option<DownloadedRom>)
    ensures r == LoadedRom(dir, base)
  {
    if dir.metadata.None? {
      return None;
    }
    var m := dir.metadata.value;
    var total := 0;
    var files: seq<DownloadedRomFile> := [];
    var i := 0;
    while i < |m.files|
      invariant 0 <= i <= |m.files|
      invariant files == LoadedFiles(m.files[..i], dir.sizes)
      invariant total == FilesTotal(files)
    {
      var f := m.files[i];
      var actualSize := f.fileSizeBytes;
      if f.fileName in dir.sizes {
        actualSize := dir.sizes[f.fileName];
      }
      total := total + actualSize;
      var next := files + [DownloadedRomFile(f.fileName, actualSize, f.md5Hash)];
      assert next[..|files|] == files;
      assert m.files[..i + 1] == m.files[..i] + [f];
      files := next;
      i := i + 1;
    }
    assert m.files[..i] == m.files;
    return Some(DownloadedRom(m.romId, m.romName, m.platformName, m.platformSlug, m.downloadedAt * MillisPerSecond,
                              total, RelativePath(dir.path, base), files));
  }

  /** `saveDownloadedROM`: the metadata recorded for a ROM, its download time cut to the whole second. */
  function SaveMetadata(rom: DownloadedRom): (r: RomMetadata)
    ensures r.romId == rom.id && r.romName == rom.name && r.platformName == rom.platformName
    ensures r.platformSlug == rom.platformSlug
    ensures r.downloadedAt * MillisPerSecond <= rom.downloadedAt < (r.downloadedAt + 1) * MillisPerSecond
    ensures |r.files| == |rom.files|
    ensures forall i | 0 <= i < |rom.files| ::
              r.files[i] == RomFileMetadata(rom.files[i].fileName, rom.files[i].fileSizeBytes, rom.files[i].md5Hash)
  {
    RomMetadata(rom.id, rom.name, rom.platformName, rom.platformSlug, rom.downloadedAt / MillisPerSecond,
                seq(|rom.files|, i requires 0 <= i < |rom.files| =>
                  RomFileMetadata(rom.files[i].fileName, rom.files[i].fileSizeBytes, rom.files[i].md5Hash)))
  }

  /**
   * A ROM saved into `base/localDirectory` loads back as the same ROM,
   * when the sizes on disk agree with the recorded ones and its total is
   * the sum of its files, except that its download time loses the part
   * below a whole second; one already on a whole second comes back
   * unchanged.
   */
  lemma SaveThenLoad(rom: DownloadedRom, base: string, sizes: map<string, int>)
    requires !Contains(rom.localDirectory, base + "/")
    requires rom.totalSizeBytes == FilesTotal(rom.files)
    requires forall f | f in rom.files :: f.fileName in sizes ==> sizes[f.fileName] == f.fileSizeBytes
    ensures LoadedRom(RomDirectory(base + "/" + rom.localDirectory, Some(SaveMetadata(rom)), sizes), base)
            == Some(rom.(downloadedAt := rom.downloadedAt - rom.downloadedAt % MillisPerSecond))
    ensures rom.downloadedAt % MillisPerSecond == 0 ==>
              LoadedRom(RomDirectory(base + "/" + rom.localDirectory, Some(SaveMetadata(rom)), sizes), base) == Some(rom)
  {
    var m := SaveMetadata(rom);
    var files := LoadedFiles(m.files, sizes);
    forall i | 0 <= i < |files| ensures files[i] == rom.files[i] {
      assert rom.files[i] in rom.files;
    }
    assert files == rom.files;
    RelativePathRoundTrip(base, rom.localDirectory);
  }

  // ---------------------------------------------------------------------
  // Listing, grouping, lookup and totals
  // ---------------------------------------------------------------------

  /** The ROMs loaded from the directories, in scan order, skipping those without metadata. */
  function LoadedRoms(dirs: seq<RomDirectory>, base: string): (r: seq<DownloadedRom>)
    ensures |r| <= |dirs|
    ensures forall rom | rom in r :: exists d | d in dirs :: LoadedRom(d, base) == Some(rom)
    ensures forall d | d in dirs && d.metadata.Some? :: LoadedRom(d, base).value in r
    decreases |dirs|
  {
    if dirs == [] then []
    else
      var front := dirs[..|dirs| - 1];
      var last := dirs[|dirs| - 1];
      assert forall d | d in dirs :: d in front || d == last;
      assert forall d | d in front :: d in dirs;
      LoadedRoms(front, base) + (match LoadedRom(last, base) case None => [] case Some(rom) => [rom])
  }

  function DownloadedAt(rom: DownloadedRom): int {
    rom.downloadedAt
  }

  /** `getAllDownloadedROMs`: every ROM with metadata, most recently downloaded first. */
  method GetAllDownloadedRoms(dirs: seq<RomDirectory>, base: string) returns (r: seq<DownloadedRom>)
    ensures SortedBy(r, DownloadedAt, IntGt)
    ensures multiset(r) == multiset(LoadedRoms(dirs, base))
  {
    var loaded: seq<DownloadedRom> := [];
    var i := 0;
    while i < |dirs|
      invariant 0 <= i <= |dirs|
      invariant loaded == LoadedRoms(dirs[..i], base)
    {
      var rom := LoadRomMetadata(dirs[i], base);
      assert dirs[..i + 1][..i] == dirs[..i];
      if rom.Some? {
        loaded := loaded + [rom.value];
      }
      i := i + 1;
    }
    assert dirs[..i] == dirs;
    IntGtStrictOrder();
    r := SortBy(loaded, DownloadedAt, IntGt);
  }

  /** The number of ROMs with metadata. */
  method GetDownloadedRomsCount(dirs: seq<RomDirectory>, base: string) returns (count: int)
    ensures count == |LoadedRoms(dirs, base)|
    ensures count <= |dirs|
  {
    var all := GetAllDownloadedRoms(dirs, base);
    assert |all| == |multiset(all)|;
    count := |all|;
  }

  function PlatformNames(roms: seq<DownloadedRom>): set<string> {
    set rom | rom in roms :: rom.platformName
  }

  function OnPlatform(platformName: string): DownloadedRom -> bool {
    (rom: DownloadedRom) => rom.platformName == platformName
  }

  /**
   * The grouping loop of `getDownloadedROMsByPlatform`: one bucket per
   * platform name, holding that platform's ROMs in list order.
   */
  method GroupByPlatform(roms: seq<DownloadedRom>) returns (m: map<string, seq<DownloadedRom>>)
    ensures m.Keys == PlatformNames(roms)
    ensures forall k | k in m :: m[k] == Filter(roms, OnPlatform(k))
    ensures forall rom | rom in roms :: rom.platformName in m && rom in m[rom.platformName]
    ensures forall k, rom | k in m && rom in m[k] :: rom.platformName == k
  {
    m := map[];
    var i := 0;
    while i < |roms|
      invariant 0 <= i <= |roms|
      invariant m.Keys == PlatformNames(roms[..i])
      invariant forall k | k in m :: m[k] == Filter(roms[..i], OnPlatform(k))
    {
      var rom := roms[i];
      assert roms[..i + 1] == roms[..i] + [rom];
      GroupStep(roms[..i], rom, m);
      var bucket := if rom.platformName in m then m[rom.platformName] else [];
      m := m[rom.platformName := bucket + [rom]];
      i := i + 1;
    }
    assert roms[..i] == roms;
  }

  /** One pass of the grouping loop: the ROM joins the end of its platform's bucket, opened if new. */
  lemma GroupStep(prefix: seq<DownloadedRom>, rom: DownloadedRom, m: map<string, seq<DownloadedRom>>)
    requires m.Keys == PlatformNames(prefix)
    requires forall k | k in m :: m[k] == Filter(prefix, OnPlatform(k))
    ensures var bucket := if rom.platformName in m then m[rom.platformName] else [];
            var next := m[rom.platformName := bucket + [rom]];
            && next.Keys == PlatformNames(prefix + [rom])
            && forall k | k in next :: next[k] == Filter(prefix + [rom], OnPlatform(k))
  {
    var bucket := if rom.platformName in m then m[rom.platformName] else [];
    var next := m[rom.platformName := bucket + [rom]];
    PlatformNamesAppend(prefix, rom);
    forall k | k in next ensures next[k] == Filter(prefix + [rom], OnPlatform(k)) {
      if k in m {
        BucketStep(prefix, rom, k);
      } else {
        EmptyBucket(prefix, k);
        BucketStep(prefix, rom, k);
      }
    }
  }

  /** A platform's bucket grows by the ROM exactly when the ROM is on that platform. */
  lemma BucketStep(prefix: seq<DownloadedRom>, rom: DownloadedRom, k: string)
    ensures Filter(prefix + [rom], OnPlatform(k)) == Filter(prefix, OnPlatform(k)) + (if rom.platformName == k then [rom] else [])
  {
    FilterAppendLast(prefix, rom, OnPlatform(k));
  }

  /** A platform no ROM is on has an empty bucket. */
  lemma EmptyBucket(prefix: seq<DownloadedRom>, k: string)
    requires k !in PlatformNames(prefix)
    ensures Filter(prefix, OnPlatform(k)) == []
  {
    assert forall x | x in prefix :: x.platformName in PlatformNames(prefix);
    FilterNoMatch(prefix, OnPlatform(k));
  }

  lemma PlatformNamesAppend(prefix: seq<DownloadedRom>, rom: DownloadedRom)
    ensures PlatformNames(prefix + [rom]) == PlatformNames(prefix) + {rom.platformName}
  {
    assert forall x | x in prefix + [rom] :: x in prefix || x == rom;
    assert forall x | x in prefix :: x in prefix + [rom];
    assert rom in prefix + [rom];
  }

  /** Nothing passes a filter no element satisfies. */
  lemma {:induction false} FilterNoMatch<T>(s: seq<T>, p: T -> bool)
    requires forall x | x in s :: !p(x)
    ensures Filter(s, p) == []
    decreases |s|
  {
    if s != [] {
      assert forall x | x in s[1..] :: x in s;
      FilterNoMatch(s[1..], p);
    }
  }

  /**
   * `getDownloadedROMsByPlatform`: every loaded ROM in the bucket of its
   * platform and nowhere else, each bucket most recent first.
   */
  method GetDownloadedRomsByPlatform(dirs: seq<RomDirectory>, base: string) returns (m: map<string, seq<DownloadedRom>>)
    ensures m.Keys == PlatformNames(LoadedRoms(dirs, base))
    ensures forall k | k in m :: SortedBy(m[k], DownloadedAt, IntGt)
    ensures forall k, rom | k in m :: rom in m[k] <==> rom in LoadedRoms(dirs, base) && rom.platformName == k
  {
    var all := GetAllDownloadedRoms(dirs, base);
    SameMultisetSameMembers(all, LoadedRoms(dirs, base));
    m := GroupByPlatform(all);
    forall k | k in m ensures SortedBy(m[k], DownloadedAt, IntGt) {
      FilterSorted(all, OnPlatform(k), DownloadedAt, IntGt);
    }
  }

  /** Two listings with the same ROMs, counted with multiplicity, hold the same ROMs and platform names. */
  lemma SameMultisetSameMembers(a: seq<DownloadedRom>, b: seq<DownloadedRom>)
    requires multiset(a) == multiset(b)
    ensures forall rom :: rom in a <==> rom in b
    ensures PlatformNames(a) == PlatformNames(b)
  {
    forall rom ensures rom in a <==> rom in b {
      assert rom in a <==> rom in multiset(a);
      assert rom in b <==> rom in multiset(b);
    }
  }

  /** Filtering keeps a sorted sequence sorted. */
  lemma {:induction false} FilterSorted<T, K(!new)>(s: seq<T>, p: T -> bool, key: T -> K, lt: (K, K) -> bool)
    requires SortedBy(s, key, lt)
    ensures SortedBy(Filter(s, p), key, lt)
    decreases |s|
  {
    if s != [] {
      assert SortedBy(s[1..], key, lt) by {
        forall i, j | 0 <= i < j < |s[1..]| ensures !lt(key(s[1..][j]), key(s[1..][i])) {
          assert s[1..][j] == s[j + 1] && s[1..][i] == s[i + 1];
        }
      }
      FilterSorted(s[1..], p, key, lt);
      var rest := Filter(s[1..], p);
      if p(s[0]) {
        forall y | y in rest ensures !lt(key(y), key(s[0])) {
          var j :| 0 <= j < |s[1..]| && s[1..][j] == y;
          assert s[j + 1] == y;
        }
        ConsSorted(s[0], rest, key, lt);
      }
    }
  }

  /** The first ROM with the id, if any. */
  function FirstWithId(roms: seq<DownloadedRom>, id: int): (r: Option<DownloadedRom>)
    ensures r.None? <==> forall rom | rom in roms :: rom.id != id
    ensures r.Some? ==> exists i | 0 <= i < |roms| :: roms[i] == r.value && r.value.id == id
                                   && forall j | 0 <= j < i :: roms[j].id != id
    decreases |roms|
  {
    if roms == [] then None
    else if roms[0].id == id then Some(roms[0])
    else
      var r := FirstWithId(roms[1..], id);
      assert forall rom | rom in roms :: rom == roms[0] || rom in roms[1..];
      if r.Some? then
        var i :| 0 <= i < |roms[1..]| && roms[1..][i] == r.value && r.value.id == id
                 && forall j | 0 <= j < i :: roms[1..][j].id != id;
        assert roms[i + 1] == r.value;
        assert forall j | 0 <= j < i + 1 :: roms[j].id != id by {
          forall j | 0 <= j < i + 1 ensures roms[j].id != id {
            if j > 0 {
              assert roms[j] == roms[1..][j - 1];
            }
          }
        }
        r
      else r
  }

  /**
   * `getDownloadedROM(byId:)`: a loaded ROM with the id, the most
   * recently downloaded of those, or nothing when no loaded ROM has it.
   */
  method GetDownloadedRom(dirs: seq<RomDirectory>, base: string, id: int) returns (r: Option<DownloadedRom>)
    ensures r.None? <==> forall rom | rom in LoadedRoms(dirs, base) :: rom.id != id
    ensures r.Some? ==> r.value in LoadedRoms(dirs, base) && r.value.id == id
    ensures r.Some? ==> forall rom | rom in LoadedRoms(dirs, base) && rom.id == id :: rom.downloadedAt <= r.value.downloadedAt
  {
    var all := GetAllDownloadedRoms(dirs, base);
    assert forall rom :: rom in all <==> rom in LoadedRoms(dirs, base) by {
      forall rom ensures rom in all <==> rom in LoadedRoms(dirs, base) {
        assert rom in all <==> rom in multiset(all);
        assert rom in LoadedRoms(dirs, base) <==> rom in multiset(LoadedRoms(dirs, base));
      }
    }
    r := FirstWithId(all, id);
    if r.Some? {
      FirstIsMostRecent(all, id);
    }
  }

  /** In a list sorted most recent first, the first ROM with an id is the most recent with it. */
  lemma FirstIsMostRecent(all: seq<DownloadedRom>, id: int)
    requires SortedBy(all, DownloadedAt, IntGt)
    requires FirstWithId(all, id).Some?
    ensures forall rom | rom in all && rom.id == id :: rom.downloadedAt <= FirstWithId(all, id).value.downloadedAt
  {
    var first := FirstWithId(all, id).value;
    var i :| 0 <= i < |all| && all[i] == first && first.id == id && forall j | 0 <= j < i :: all[j].id != id;
    forall rom | rom in all && rom.id == id ensures rom.downloadedAt <= first.downloadedAt {
      NoLaterWithId(all, i, rom);
    }
  }

  /** Every ROM sharing the id of the first one with it was downloaded no later. */
  lemma NoLaterWithId(all: seq<DownloadedRom>, i: nat, rom: DownloadedRom)
    requires SortedBy(all, DownloadedAt, IntGt)
    requires i < |all| && forall j | 0 <= j < i :: all[j].id != all[i].id
    requires rom in all && rom.id == all[i].id
    ensures rom.downloadedAt <= all[i].downloadedAt
  {
    var j :| 0 <= j < |all| && all[j] == rom;
    if j > i {
      SortedPair(all, i, j);
    }
  }

  /** In a list sorted most recent first, a later ROM was downloaded no later than an earlier one. */
  lemma SortedPair(all: seq<DownloadedRom>, i: nat, j: nat)
    requires SortedBy(all, DownloadedAt, IntGt)
    requires i < j < |all|
    ensures all[j].downloadedAt <= all[i].downloadedAt
  {
    assert !IntGt(DownloadedAt(all[j]), DownloadedAt(all[i]));
  }

  /** The sum of the ROMs' total sizes. */
  function RomsTotal(roms: seq<DownloadedRom>): int
    decreases |roms|
  {
    if roms == [] then 0 else RomsTotal(roms[..|roms| - 1]) + roms[|roms| - 1].totalSizeBytes
  }

  lemma {:induction false} RomsTotalAppend(a: seq<DownloadedRom>, b: seq<DownloadedRom>)
    ensures RomsTotal(a + b) == RomsTotal(a) + RomsTotal(b)
    decreases |b|
  {
    if b == [] {
      assert a + b == a;
    } else {
      assert (a + b)[..|a + b| - 1] == a + b[..|b| - 1];
      RomsTotalAppend(a, b[..|b| - 1]);
    }
  }

  /** The total does not depend on the order of the ROMs. */
  lemma {:induction false} RomsTotalPermutation(a: seq<DownloadedRom>, b: seq<DownloadedRom>)
    requires multiset(a) == multiset(b)
    ensures RomsTotal(a) == RomsTotal(b)
    decreases |a|
  {
    if a == [] {
      assert |b| == |multiset(b)| == 0;
    } else {
      var x := a[|a| - 1];
      var front := a[..|a| - 1];
      assert a == front + [x];
      assert x in multiset(b);
      var j :| 0 <= j < |b| && b[j] == x;
      var rest := b[..j] + b[j + 1..];
      RemoveAtMultiset(b, j);
      assert multiset(front) == multiset(a) - multiset{x};
      RomsTotalPermutation(front, rest);
      RomsTotalRemoveAt(b, j);
    }
  }

  /** Taking out the ROM at `j` takes one copy of it out of the multiset. */
  lemma RemoveAtMultiset(b: seq<DownloadedRom>, j: nat)
    requires j < |b|
    ensures multiset(b[..j] + b[j + 1..]) == multiset(b) - multiset{b[j]}
  {
    assert b == b[..j] + [b[j]] + b[j + 1..];
  }

  /** Taking out the ROM at `j` takes its size out of the total. */
  lemma RomsTotalRemoveAt(b: seq<DownloadedRom>, j: nat)
    requires j < |b|
    ensures RomsTotal(b) == RomsTotal(b[..j] + b[j + 1..]) + b[j].totalSizeBytes
  {
    var x := b[j];
    assert b == b[..j] + [x] + b[j + 1..];
    RomsTotalAppend(b[..j] + [x], b[j + 1..]);
    RomsTotalAppend(b[..j], [x]);
    RomsTotalAppend(b[..j], b[j + 1..]);
    assert RomsTotal([x]) == x.totalSizeBytes by {
      assert [x][..0] == [];
    }
  }

  /** `getTotalDownloadedSize`: the sum of the loaded ROMs' totals, whatever the listing order. */
  method GetTotalDownloadedSize(dirs: seq<RomDirectory>, base: string) returns (total: int)
    ensures total == RomsTotal(LoadedRoms(dirs, base))
  {
    var all := GetAllDownloadedRoms(dirs, base);
    RomsTotalPermutation(all, LoadedRoms(dirs, base));
    total := RomsTotal(all);
  }

  /** Why the file manager does not remove a ROM's directory. */
  datatype RemoveError = NoSuchDirectory | RemovalRefused

  /** The full path of a ROM's directory under the base. */
  function RomPath(rom: DownloadedRom, base: string): string {
    base + "/" + rom.localDirectory
  }

  /**
   * `deleteDownloadedROM`: the file manager removes the ROM's directory;
   * it throws when no such directory exists, or when it refuses the
   * removal (`refused`). On success the directory goes and every other
   * one stays, in order.
   */
  function DeleteDownloadedRom(dirs: seq<RomDirectory>, rom: DownloadedRom, base: string, refused: bool)
    : (r: Result<seq<RomDirectory>, RemoveError>)
    ensures r == Err(NoSuchDirectory) <==> forall d | d in dirs :: d.path != RomPath(rom, base)
    ensures r == Err(RemovalRefused) <==> refused && exists d | d in dirs :: d.path == RomPath(rom, base)
    ensures r.Ok? ==> forall d | d in r.value :: d.path != RomPath(rom, base)
    ensures r.Ok? ==> forall d | d in dirs && d.path != RomPath(rom, base) :: d in r.value
    ensures r.Ok? ==> SubsequenceOf(r.value, dirs) && |r.value| < |dirs|
  {
    var target := RomPath(rom, base);
    if forall d | d in dirs :: d.path != target then Err(NoSuchDirectory)
    else if refused then Err(RemovalRefused)
    else
      var keep := (d: RomDirectory) => d.path != target;
      var gone :| gone in dirs && gone.path == target;
      FilterShorter(dirs, keep, gone);
      Ok(Filter(dirs, keep))
  }

  /** Deleting a ROM that was just deleted fails: its directory is no longer there. */
  lemma DeleteTwiceFails(dirs: seq<RomDirectory>, rom: DownloadedRom, base: string, refused: bool)
    requires DeleteDownloadedRom(dirs, rom, base, false).Ok?
    ensures DeleteDownloadedRom(DeleteDownloadedRom(dirs, rom, base, false).value, rom, base, refused) == Err(NoSuchDirectory)
  {
  }
}

=== FILE: logging.dfy ===
/**
 * The in-app logging system: six ordered levels, eight categories, the
 * configuration deciding whether a message is logged, and the bounded
 * in-memory store with its search filter.
 */
module Logging {
  import opened Base
  import opened Strings
  import opened Seqs

  // ---------------------------------------------------------------------
  // Levels
  // ---------------------------------------------------------------------

  datatype LogLevel = Debug | Info | Notice | Warning | Error | Critical
  {
    /** The numeric value levels are compared by. */
    function Raw(): (r: int)
      ensures 0 <= r <= 5
    {
      match this
      case Debug => 0
      case Info => 1
      case Notice => 2
      case Warning => 3
      case Error => 4
      case Critical => 5
    }
  }

  const AllLevels: seq<LogLevel> := [Debug, Info, Notice, Warning, Error, Critical]

  /** `LogLevel(rawValue:)` on integers: the level with that value, none outside 0 to 5. */
  function LevelFromRaw(n: int): (r: Option<LogLevel>)
    ensures r.Some? <==> 0 <= n <= 5
    ensures r.Some? ==> r.value.Raw() == n
  {
    if n == 0 then Some(Debug)
    else if n == 1 then Some(Info)
    else if n == 2 then Some(Notice)
    else if n == 3 then Some(Warning)
    else if n == 4 then Some(Error)
    else if n == 5 then Some(Critical)
    else None
  }

  /** Reading back a level's value gives the level. */
  lemma LevelRawRoundTrip(l: LogLevel)
    ensures LevelFromRaw(l.Raw()) == Some(l)
  {
  }

  /** The values run 0 to 5 in declaration order, so no two levels share one. */
  lemma RawIncreasing()
    ensures forall i, j | 0 <= i < j < |AllLevels| :: AllLevels[i].Raw() < AllLevels[j].Raw()
    ensures forall a: LogLevel, b: LogLevel :: a.Raw() == b.Raw() ==> a == b
  {
    forall a: LogLevel, b: LogLevel | a.Raw() == b.Raw() ensures a == b {
      LevelRawRoundTrip(a);
      LevelRawRoundTrip(b);
    }
  }

  /** `<` on levels. */
  predicate Below(a: LogLevel, b: LogLevel) {
    a.Raw() < b.Raw()
  }

  /** `<` on levels is a strict total order. */
  lemma BelowStrictTotal(a: LogLevel, b: LogLevel, c: LogLevel)
    ensures !Below(a, a)
    ensures Below(a, b) && Below(b, c) ==> Below(a, c)
    ensures a == b || Below(a, b) || Below(b, a)
  {
    RawIncreasing();
  }

  /** `max` under `<`. */
  function MaxLevel(a: LogLevel, b: LogLevel): (r: LogLevel)
    ensures !Below(r, a) && !Below(r, b)
    ensures r == a || r == b
  {
    if Below(a, b) then b else a
  }

  datatype OSLogType = OSDebug | OSInfo | OSDefault | OSError | OSFault

  /** The unified-logging type a level is written with. */
  function OSType(l: LogLevel): (r: OSLogType)
    ensures r == OSError <==> l == Warning || l == Error
    ensures r == OSDefault <==> l == Notice
    ensures r == OSFault <==> l == Critical
    ensures r == OSDebug <==> l == Debug
    ensures r == OSInfo <==> l == Info
  {
    match l
    case Debug => OSDebug
    case Info => OSInfo
    case Notice => OSDefault
    case Warning => OSError
    case Error => OSError
    case Critical => OSFault
  }

  /** The unified-logging types in increasing severity. */
  function OSRank(t: OSLogType): (r: nat)
    ensures r <= 4
  {
    match t
    case OSDebug => 0
    case OSInfo => 1
    case OSDefault => 2
    case OSError => 3
    case OSFault => 4
  }

  /**
   * The level-to-type mapping keeps severity order: a higher level never
   * gets a less severe type, and the only levels sharing a type are warning
   * and error.
   */
  lemma OSTypeMonotone(a: LogLevel, b: LogLevel)
    ensures !Below(b, a) ==> OSRank(OSType(a)) <= OSRank(OSType(b))
    ensures OSType(a) == OSType(b) <==> a == b || ({a, b} == {Warning, Error})
  {
  }

  // ---------------------------------------------------------------------
  // Categories
  // ---------------------------------------------------------------------

  datatype LogCategory = Network | UI | Data | Auth | Performance | General | Manual | ViewModel

  const AllCategories: set<LogCategory> := {Network, UI, Data, Auth, Performance, General, Manual, ViewModel}

  function CategoryName(c: LogCategory): string {
    match c
    case Network => "Network"
    case UI => "UI"
    case Data => "Data"
    case Auth => "Auth"
    case Performance => "Performance"
    case General => "General"
    case Manual => "Manual"
    case ViewModel => "ViewModel"
  }

  /** `LogCategory(rawValue:)`: the category with that name, if any. */
  function CategoryFromName(s: string): (r: Option<LogCategory>)
    ensures r.Some? ==> CategoryName(r.value) == s
    ensures (exists c: LogCategory :: CategoryName(c) == s) ==> r.Some?
  {
    if s == "Network" then Some(Network)
    else if s == "UI" then Some(UI)
    else if s == "Data" then Some(Data)
    else if s == "Auth" then Some(Auth)
    else if s == "Performance" then Some(Performance)
    else if s == "General" then Some(General)
    else if s == "Manual" then Some(Manual)
    else if s == "ViewModel" then Some(ViewModel)
    else None
  }

  lemma EveryCategoryListed(c: LogCategory)
    ensures c in AllCategories
  {
  }

  // ---------------------------------------------------------------------
  // Configuration
  // ---------------------------------------------------------------------

  datatype LogConfiguration = LogConfiguration(
    enabled: bool,
    globalLevel: LogLevel,
    categoryLevels: map<LogCategory, LogLevel>,
    showPerformance: bool,
    showTimestamps: bool,
    includeSourceLocation: bool)

  /** The level a category's messages must reach: the stricter of its own level (if set) and the global one. */
  function Threshold(cfg: LogConfiguration, category: LogCategory): (r: LogLevel)
    ensures !Below(r, cfg.globalLevel)
    ensures category in cfg.categoryLevels ==> !Below(r, cfg.categoryLevels[category])
    ensures r == cfg.globalLevel || (category in cfg.categoryLevels && r == cfg.categoryLevels[category])
  {
    var own := if category in cfg.categoryLevels then cfg.categoryLevels[category] else cfg.globalLevel;
    MaxLevel(own, cfg.globalLevel)
  }

  /** Whether a message of `level` in `category` is logged. */
  function ShouldLog(cfg: LogConfiguration, level: LogLevel, category: LogCategory): (r: bool)
    ensures !cfg.enabled ==> !r
    ensures category == Performance && !cfg.showPerformance ==> !r
    ensures r <==> cfg.enabled && !(category == Performance && !cfg.showPerformance)
                   && !Below(level, Threshold(cfg, category))
  {
    if !cfg.enabled then false
    else if category == Performance && !cfg.showPerformance then false
    else !Below(level, Threshold(cfg, category))
  }

  /** A logged level stays logged when raised. */
  lemma ShouldLogUpwardClosed(cfg: LogConfiguration, a: LogLevel, b: LogLevel, category: LogCategory)
    requires ShouldLog(cfg, a, category) && !Below(b, a)
    ensures ShouldLog(cfg, b, category)
  {
  }

  /** With everything enabled and at Debug, every message is logged. */
  lemma DebugEverywhereLogsAll(cfg: LogConfiguration, level: LogLevel, category: LogCategory)
    requires cfg.enabled && cfg.showPerformance && cfg.globalLevel == Debug
    requires forall c | c in cfg.categoryLevels :: cfg.categoryLevels[c] == Debug
    ensures ShouldLog(cfg, level, category)
  {
  }

  /** `setLevel(_:for:)`: only that category's entry changes. */
  function SetLevel(cfg: LogConfiguration, level: LogLevel, category: LogCategory): (r: LogConfiguration)
    ensures r.categoryLevels == cfg.categoryLevels[category := level]
    ensures forall c | c != category :: Threshold(r, c) == Threshold(cfg, c)
    ensures Threshold(r, category) == MaxLevel(level, cfg.globalLevel)
    ensures r.(categoryLevels := cfg.categoryLevels) == cfg
  {
    cfg.(categoryLevels := cfg.categoryLevels[category := level])
  }

  /** Every category at Debug. */
  function AllDebug(): (r: map<LogCategory, LogLevel>)
    ensures forall c: LogCategory :: c in r && r[c] == Debug
  {
    AllCategoriesComplete();
    map c | c in AllCategories :: Debug
  }

  /** The category list names every category, so a map over it covers them all. */
  lemma AllCategoriesComplete()
    ensures forall c: LogCategory :: c in AllCategories
  {
    forall c: LogCategory ensures c in AllCategories {
      EveryCategoryListed(c);
    }
  }

  /** `resetToDefaults()` */
  function ResetToDefaults(): (r: LogConfiguration)
    ensures !r.enabled && r.globalLevel == Debug
    ensures r.showPerformance && r.showTimestamps && r.includeSourceLocation
    ensures forall c: LogCategory :: c in r.categoryLevels && r.categoryLevels[c] == Debug
  {
    LogConfiguration(false, Debug, AllDebug(), true, true, true)
  }

  /** Once enabled again, the defaults log every message. */
  lemma DefaultsLogEverythingOnceEnabled(level: LogLevel, category: LogCategory)
    ensures ShouldLog(ResetToDefaults().(enabled := true), level, category)
  {
  }

  /**
   * The category levels read back from storage: with nothing stored every
   * category is at Debug; otherwise an entry is kept only when its key
   * names a category and its value names a level.
   */
  function LoadCategoryLevels(stored: Option<map<string, int>>): (r: map<LogCategory, LogLevel>)
    ensures stored.None? ==> r == AllDebug()
    ensures stored.Some? ==> forall c: LogCategory ::
      (c in r <==> CategoryName(c) in stored.value && LevelFromRaw(stored.value[CategoryName(c)]).Some?)
    ensures stored.Some? ==> forall c | c in r :: r[c].Raw() == stored.value[CategoryName(c)]
  {
    match stored
    case None => AllDebug()
    case Some(dict) =>
      map c | c in AllCategories && CategoryName(c) in dict && LevelFromRaw(dict[CategoryName(c)]).Some?
        :: LevelFromRaw(dict[CategoryName(c)]).value
  }

  /** The values stored when saving. */
  function SaveCategoryLevels(levels: map<LogCategory, LogLevel>): (r: map<string, int>)
    ensures forall c | c in levels :: CategoryName(c) in r && r[CategoryName(c)] == levels[c].Raw()
  {
    map c | c in levels :: CategoryName(c) := levels[c].Raw()
  }

  lemma CategoryNameInjective(a: LogCategory, b: LogCategory)
    ensures CategoryName(a) == CategoryName(b) ==> a == b
  {
  }

  /** Saving and loading the category levels gives them back. */
  lemma SaveLoadRoundTrip(levels: map<LogCategory, LogLevel>)
    ensures LoadCategoryLevels(Some(SaveCategoryLevels(levels))) == levels
  {
    var loaded := LoadCategoryLevels(Some(SaveCategoryLevels(levels)));
    forall c: LogCategory ensures (c in loaded <==> c in levels) && (c in levels ==> loaded[c] == levels[c]) {
      SaveLoadEntry(levels, c);
    }
  }

  /** One category through saving and loading: present exactly when it was, with the same level. */
  lemma SaveLoadEntry(levels: map<LogCategory, LogLevel>, c: LogCategory)
    ensures var loaded := LoadCategoryLevels(Some(SaveCategoryLevels(levels)));
            && (c in loaded <==> c in levels)
            && (c in levels ==> loaded[c] == levels[c])
  {
    var saved := SaveCategoryLevels(levels);
    if c in levels {
      LevelRawRoundTrip(levels[c]);
    } else if CategoryName(c) in saved {
      var d :| d in levels && CategoryName(d) == CategoryName(c);
      CategoryNameInjective(c, d);
    }
  }

  /**
   * The configuration at start-up from what is stored: logging off unless
   * stored on, the global level read from an integer that is 0 when absent,
   * the display flags on unless stored off.
   */
  function InitialConfiguration(
    storedEnabled: Option<bool>, storedGlobal: int, storedPerformance: Option<bool>,
    storedTimestamps: Option<bool>, storedSourceLocation: Option<bool>,
    storedLevels: Option<map<string, int>>): (r: LogConfiguration)
    ensures storedEnabled.None? ==> !r.enabled
    ensures storedEnabled.Some? ==> r.enabled == storedEnabled.value
    ensures r.globalLevel == LevelFromRaw(storedGlobal).GetOr(Debug)
    ensures storedPerformance.None? ==> r.showPerformance
    ensures storedPerformance.Some? ==> r.showPerformance == storedPerformance.value
    ensures storedTimestamps.None? ==> r.showTimestamps
    ensures storedTimestamps.Some? ==> r.showTimestamps == storedTimestamps.value
    ensures storedSourceLocation.None? ==> r.includeSourceLocation
    ensures storedSourceLocation.Some? ==> r.includeSourceLocation == storedSourceLocation.value
    ensures r.categoryLevels == LoadCategoryLevels(storedLevels)
  {
    LogConfiguration(
      storedEnabled.GetOr(false),
      LevelFromRaw(storedGlobal).GetOr(Debug),
      LoadCategoryLevels(storedLevels),
      storedPerformance.GetOr(true),
      storedTimestamps.GetOr(true),
      storedSourceLocation.GetOr(true))
  }

  /** A fresh install starts with the defaults `resetToDefaults()` restores. */
  lemma FreshInstallIsDefault()
    ensures InitialConfiguration(None, 0, None, None, None, None) == ResetToDefaults()
  {
  }

  // ---------------------------------------------------------------------
  // The store
  // ---------------------------------------------------------------------

  datatype LogEntry = LogEntry(
    id: int, level: LogLevel, category: LogCategory,
    message: string, file: string, functionName: string, line: int)

  const MaxLogCount: nat := 10000

  /** `add(_:)`: append, then drop the oldest entries beyond the limit. */
  function Add(entries: seq<LogEntry>, e: LogEntry): (r: seq<LogEntry>)
    ensures |r| == if |entries| + 1 > MaxLogCount then MaxLogCount else |entries| + 1
    ensures r != [] && r[|r| - 1] == e
    ensures r == (entries + [e])[|entries| + 1 - |r|..]
  {
    var appended := entries + [e];
    if |appended| > MaxLogCount then DropFirst(appended, |appended| - MaxLogCount) else appended
  }

  /** Below the limit nothing is lost; at it, exactly the oldest entry goes. */
  lemma AddKeepsNewest(entries: seq<LogEntry>, e: LogEntry)
    requires |entries| <= MaxLogCount
    ensures |entries| < MaxLogCount ==> Add(entries, e) == entries + [e]
    ensures |entries| == MaxLogCount ==> Add(entries, e) == entries[1..] + [e]
  {
  }

  /** `clear()` */
  function Clear(entries: seq<LogEntry>): (r: seq<LogEntry>)
    ensures |r| == 0
  {
    []
  }

  /** Whether an entry matches the search text: lower-case containment in message, file or function. */
  predicate MatchesText(e: LogEntry, text: string) {
    text == [] ||
    Contains(Lower(e.message), Lower(text)) ||
    Contains(Lower(e.file), Lower(text)) ||
    Contains(Lower(e.functionName), Lower(text))
  }

  /** A level or category filter that is absent or empty lets everything through. */
  predicate Admits<T>(chosen: Option<set<T>>, x: T) {
    chosen.None? || chosen.value == {} || x in chosen.value
  }

  /** The reference condition: all three filters at once. */
  predicate Matches(e: LogEntry, text: string, levels: Option<set<LogLevel>>, categories: Option<set<LogCategory>>) {
    MatchesText(e, text) && Admits(levels, e.level) && Admits(categories, e.category)
  }

  /**
   * `filter(searchText:levels:categories:)`: three passes, by text, level
   * and category, each skipped when its criterion is empty. The result is
   * the entries meeting all three conditions, in their order.
   */
  function FilterEntries(entries: seq<LogEntry>, text: string,
                         levels: Option<set<LogLevel>>, categories: Option<set<LogCategory>>): (r: seq<LogEntry>)
    ensures r == Filter(entries, e => Matches(e, text, levels, categories))
    ensures SubsequenceOf(r, entries)
    ensures forall e | e in r :: e in entries && Matches(e, text, levels, categories)
    ensures forall e | e in entries && Matches(e, text, levels, categories) :: e in r
  {
    var pt := e => MatchesText(e, text);
    var pl := (e: LogEntry) => Admits(levels, e.level);
    var pc := (e: LogEntry) => Admits(categories, e.category);
    var byText := FilterPass(entries, text != [], pt);
    var byLevel := FilterPass(byText, levels.Some? && levels.value != {}, pl);
    var byCategory := FilterPass(byLevel, categories.Some? && categories.value != {}, pc);
    var ptl := (e: LogEntry) => pt(e) && pl(e);
    var all := (e: LogEntry) => Matches(e, text, levels, categories);
    FilterFilter(entries, pt, pl, ptl);
    FilterFilter(entries, ptl, pc, all);
    byCategory
  }

  /** With no text and no level or category choice, the filter returns every entry in order. */
  lemma FilterNothingIsIdentity(entries: seq<LogEntry>, levels: Option<set<LogLevel>>, categories: Option<set<LogCategory>>)
    requires levels.None? || levels.value == {}
    requires categories.None? || categories.value == {}
    ensures FilterEntries(entries, "", levels, categories) == entries
  {
    FilterAll(entries, e => Matches(e, "", levels, categories));
  }

  /** A non-empty level choice keeps exactly the entries at the chosen levels (and likewise for categories). */
  lemma FilterByLevelsOnly(entries: seq<LogEntry>, levels: set<LogLevel>)
    requires levels != {}
    ensures forall e | e in FilterEntries(entries, "", Some(levels), None) :: e.level in levels
    ensures forall e | e in entries && e.level in levels :: e in FilterEntries(entries, "", Some(levels), None)
  {
  }
}

=== FILE: ordering.dfy ===
/**
 * Orders and sorts: Swift's `String` `<` as a lexicographic order on
 * characters, stable sorting by a key (`sorted(by:)`), and the sorted,
 * duplicate-free listing of a collection (`Array(Set(xs)).sorted()`).
 */
module Ordering {

  /** Lexicographic `<` on strings, comparing character codes. */
  predicate StrLt(a: string, b: string)
    decreases |a|
  {
    if a == [] then b != []
    else if b == [] then false
    else if a[0] != b[0] then a[0] < b[0]
    else StrLt(a[1..], b[1..])
  }

  ghost predicate Transitive<K(!new)>(lt: (K, K) -> bool) {
    forall x, y, z :: lt(x, y) && lt(y, z) ==> lt(x, z)
  }

  /** Irreflexive and transitive: a strict partial order. */
  ghost predicate StrictOrder<K(!new)>(lt: (K, K) -> bool) {
    (forall x :: !lt(x, x)) && Transitive(lt)
  }

  /** Irreflexive, transitive and connected: a strict total order. */
  ghost predicate StrictTotal<K(!new)>(lt: (K, K) -> bool) {
    && (forall x :: !lt(x, x))
    && Transitive(lt)
    && (forall x, y :: x == y || lt(x, y) || lt(y, x))
  }

  lemma {:induction false} StrLtIrreflexive(a: string)
    ensures !StrLt(a, a)
    decreases |a|
  {
    if a != [] {
      StrLtIrreflexive(a[1..]);
    }
  }

  lemma {:induction false} StrLtTransitive(a: string, b: string, c: string)
    requires StrLt(a, b) && StrLt(b, c)
    ensures StrLt(a, c)
    decreases |a|
  {
    if a != [] && b != [] && c != [] && a[0] == b[0] && b[0] == c[0] {
      StrLtTransitive(a[1..], b[1..], c[1..]);
    }
  }

  lemma {:induction false} StrLtConnected(a: string, b: string)
    ensures a == b || StrLt(a, b) || StrLt(b, a)
    decreases |a|
  {
    if a != [] && b != [] && a[0] == b[0] {
      StrLtConnected(a[1..], b[1..]);
      if a[1..] == b[1..] {
        assert a == [a[0]] + a[1..] && b == [b[0]] + b[1..];
      }
    }
  }

  /** String `<` is a strict total order. */
  lemma StrLtStrictTotal()
    ensures StrictTotal(StrLt)
  {
    forall x: string ensures !StrLt(x, x) {
      StrLtIrreflexive(x);
    }
    forall x: string, y: string, z: string | StrLt(x, y) && StrLt(y, z)
      ensures StrLt(x, z)
    {
      StrLtTransitive(x, y, z);
    }
    forall x: string, y: string ensures x == y || StrLt(x, y) || StrLt(y, x) {
      StrLtConnected(x, y);
    }
  }

  // ---------------------------------------------------------------------
  // Stable sort by key
  // ---------------------------------------------------------------------

  /** No element is strictly before an earlier one under `lt` on keys. */
  predicate SortedBy<T, K>(s: seq<T>, key: T -> K, lt: (K, K) -> bool) {
    forall i, j | 0 <= i < j < |s| :: !lt(key(s[j]), key(s[i]))
  }

  /** Inserts `x` after every element whose key is not after `x`'s key. */
  function InsertBy<T, K(!new)>(x: T, s: seq<T>, key: T -> K, lt: (K, K) -> bool): (r: seq<T>)
    requires StrictOrder(lt)
    requires SortedBy(s, key, lt)
    ensures SortedBy(r, key, lt)
    ensures multiset(r) == multiset(s) + multiset{x}
    decreases |s|
  {
    if s == [] then [x]
    else if lt(key(x), key(s[0])) then
      FrontInsertSorted(x, s, key, lt);
      [x] + s
    else
      var rest := InsertBy(x, s[1..], key, lt);
      assert s == [s[0]] + s[1..];
      NotBeforeHead(x, s, rest, key, lt);
      ConsSorted(s[0], rest, key, lt);
      [s[0]] + rest
  }

  lemma FrontInsertSorted<T, K(!new)>(x: T, s: seq<T>, key: T -> K, lt: (K, K) -> bool)
    requires StrictOrder(lt)
    requires SortedBy(s, key, lt)
    requires s != [] && lt(key(x), key(s[0]))
    ensures SortedBy([x] + s, key, lt)
  {
    forall j | 0 <= j < |s| ensures !lt(key(s[j]), key(x)) {
      var kj, k0, kx := key(s[j]), key(s[0]), key(x);
      assert lt(kj, kx) ==> lt(kj, k0);
      assert !lt(kj, k0);
    }
  }

  lemma NotBeforeHead<T, K(!new)>(x: T, s: seq<T>, rest: seq<T>, key: T -> K, lt: (K, K) -> bool)
    requires SortedBy(s, key, lt)
    requires s != [] && !lt(key(x), key(s[0]))
    requires multiset(rest) == multiset(s[1..]) + multiset{x}
    ensures forall y | y in rest :: !lt(key(y), key(s[0]))
  {
    forall y | y in rest ensures !lt(key(y), key(s[0])) {
      assert y in multiset(rest);
      if y != x {
        assert y in multiset(s[1..]);
        var j :| 0 <= j < |s[1..]| && s[1..][j] == y;
        assert s[j + 1] == y;
      }
    }
  }

  lemma ConsSorted<T, K(!new)>(h: T, rest: seq<T>, key: T -> K, lt: (K, K) -> bool)
    requires SortedBy(rest, key, lt)
    requires forall y | y in rest :: !lt(key(y), key(h))
    ensures SortedBy([h] + rest, key, lt)
  {
    var r := [h] + rest;
    forall i, j | 0 <= i < j < |r| ensures !lt(key(r[j]), key(r[i])) {
      if i == 0 {
        assert r[j] == rest[j - 1];
      } else {
        assert r[i] == rest[i - 1] && r[j] == rest[j - 1];
      }
    }
  }

  /** Insertion sort by key: sorted, a permutation of the input. */
  function SortBy<T, K(!new)>(s: seq<T>, key: T -> K, lt: (K, K) -> bool): (r: seq<T>)
    requires StrictOrder(lt)
    ensures SortedBy(r, key, lt)
    ensures multiset(r) == multiset(s)
    decreases |s|
  {
    if s == [] then []
    else
      assert s == s[..|s| - 1] + [s[|s| - 1]];
      InsertBy(s[|s| - 1], SortBy(s[..|s| - 1], key, lt), key, lt)
  }

  // ---------------------------------------------------------------------
  // Sorted, duplicate-free listings
  // ---------------------------------------------------------------------

  /** Strictly increasing under `lt`: sorted and free of duplicates. */
  predicate StrictlySorted<K>(s: seq<K>, lt: (K, K) -> bool) {
    forall i, j | 0 <= i < j < |s| :: lt(s[i], s[j])
  }

  function InsertUnique<K(!new,==)>(x: K, s: seq<K>, lt: (K, K) -> bool): (r: seq<K>)
    requires StrictTotal(lt)
    requires StrictlySorted(s, lt)
    ensures StrictlySorted(r, lt)
    ensures forall y :: y in r <==> y == x || y in s
    decreases |s|
  {
    if s == [] then [x]
    else if x == s[0] then s
    else if lt(x, s[0]) then [x] + s
    else
      var rest := InsertUnique(x, s[1..], lt);
      assert lt(s[0], x);
      assert forall y | y in rest :: lt(s[0], y);
      [s[0]] + rest
  }

  /** The elements of `xs`, each once, in increasing order. */
  function SortedUnique<K(!new,==)>(xs: seq<K>, lt: (K, K) -> bool): (r: seq<K>)
    requires StrictTotal(lt)
    ensures StrictlySorted(r, lt)
    ensures forall y :: y in r <==> y in xs
    decreases |xs|
  {
    if xs == [] then []
    else InsertUnique(xs[|xs| - 1], SortedUnique(xs[..|xs| - 1], lt), lt)
  }

  lemma StrictlySortedUniqueLength<K(!new)>(s: seq<K>, lt: (K, K) -> bool)
    requires StrictTotal(lt)
    requires StrictlySorted(s, lt)
    ensures forall i, j | 0 <= i < |s| && 0 <= j < |s| && s[i] == s[j] :: i == j
  {
  }

  /** The elements of a finite set in increasing order: `Array(set).sorted()`. */
  function SortedElements<K(!new,==)>(s: set<K>, lt: (K, K) -> bool): (r: seq<K>)
    requires StrictTotal(lt)
    ensures StrictlySorted(r, lt)
    ensures forall y :: y in r <==> y in s
    ensures |r| == |s|
    decreases |s|
  {
    if s == {} then []
    else
      MinimumExists(s, lt);
      var m :| IsMinimum(m, s, lt);
      var rest := SortedElements(s - {m}, lt);
      assert forall y | y in rest :: lt(m, y);
      [m] + rest
  }

  /** `m` is in `s` and nothing in `s` is below it. */
  predicate IsMinimum<K(==)>(m: K, s: set<K>, lt: (K, K) -> bool) {
    m in s && forall y | y in s :: !lt(y, m)
  }

  lemma {:induction false} MinimumExists<K(!new)>(s: set<K>, lt: (K, K) -> bool)
    requires StrictTotal(lt)
    requires s != {}
    ensures exists m :: IsMinimum(m, s, lt)
    decreases |s|
  {
    var x :| x in s;
    if s != {x} {
      MinimumExists(s - {x}, lt);
      var m :| IsMinimum(m, s - {x}, lt);
      MinimumStep(s, x, m, lt);
    } else {
      assert IsMinimum(x, s, lt);
    }
  }

  /** Adding `x` back to a set whose minimum is `m` leaves the smaller of the two as the minimum. */
  lemma MinimumStep<K(!new)>(s: set<K>, x: K, m: K, lt: (K, K) -> bool)
    requires StrictTotal(lt)
    requires x in s && IsMinimum(m, s - {x}, lt)
    ensures IsMinimum(if lt(x, m) then x else m, s, lt)
  {
    if lt(x, m) {
      forall y | y in s ensures !lt(y, x) {
        if y != x { assert y in s - {x}; }
      }
    } else {
      forall y | y in s ensures !lt(y, m) {
        if y != x { assert y in s - {x}; }
      }
    }
  }

  /** `Array(Set(strings)).sorted()` */
  function SortedStrings(s: set<string>): (r: seq<string>)
    ensures StrictlySorted(r, StrLt)
    ensures forall y :: y in r <==> y in s
    ensures |r| == |s|
  {
    StrLtStrictTotal();
    SortedElements(s, StrLt)
  }

  predicate IntLt(a: int, b: int) {
    a < b
  }

  predicate IntGt(a: int, b: int) {
    a > b
  }

  lemma IntGtStrictOrder()
    ensures StrictOrder(IntGt)
  {
  }

  /** `Array(Set(ints)).sorted()` */
  function SortedInts(s: set<int>): (r: seq<int>)
    ensures StrictlySorted(r, IntLt)
    ensures forall y :: y in r <==> y in s
    ensures |r| == |s|
  {
    SortedElements(s, IntLt)
  }
}

=== FILE: paths.dfy ===
/** Remote paths: joining a directory and an entry name with one separator. */
module Paths {
  import opened Strings

  /** The directory without its trailing '/', if it has one. */
  function DropTrailingSlash(dir: string): (r: string)
    ensures HasSuffix(dir, "/") ==> r + "/" == dir
    ensures !HasSuffix(dir, "/") ==> r == dir
  {
    if HasSuffix(dir, "/") then dir[..|dir| - 1] else dir
  }

  /**
   * `path.hasSuffix("/") ? path + name : path + "/" + name`: the entry
   * below a directory, with exactly the one '/' of the directory's own
   * trailing separator, or a new one.
   */
  function JoinPath(dir: string, name: string): (r: string)
    ensures r == DropTrailingSlash(dir) + "/" + name
    ensures HasSuffix(r, name)
  {
    if HasSuffix(dir, "/") then dir + name else dir + "/" + name
  }

  /** Joining never doubles the separator unless the directory already ends in "//". */
  lemma JoinPathSingleSeparator(dir: string, name: string)
    requires !HasSuffix(dir, "//")
    ensures var r := JoinPath(dir, name);
            var head := r[..|r| - |name|];
            HasSuffix(head, "/") && !HasSuffix(head, "//")
  {
    var r := JoinPath(dir, name);
    var d := DropTrailingSlash(dir);
    assert r[..|r| - |name|] == d + "/";
    if |d| >= 1 && d[|d| - 1] == '/' {
      assert dir == d + "/";
      assert dir[|dir| - 2..] == "//";
    }
  }

  /** Entries of the root are "/" followed by their name. */
  lemma JoinRoot(name: string)
    ensures JoinPath("/", name) == "/" + name
  {
  }

  /** A directory given with or without its trailing '/' joins to the same path. */
  lemma JoinIgnoresTrailingSlash(dir: string, name: string)
    requires !HasSuffix(dir, "/")
    ensures JoinPath(dir + "/", name) == JoinPath(dir, name)
  {
    assert HasSuffix(dir + "/", "/");
  }
}

=== FILE: platform_detail.dfy ===
/**
 * Paging through a platform's ROMs: the server's page record, the folding
 * of its per-character index, and the view model's state machine for
 * loading pages, jumping to a letter and clearing an error.
 */
module PlatformDetail {
  import opened Base
  import opened Strings
  import opened Seqs
  import opened Roms

  // ---------------------------------------------------------------------
  // Pages
  // ---------------------------------------------------------------------

  /** One entry of a dictionary, in the order iteration visits it. */
  type Entry = (string, int)

  /**
   * `PaginatedRomsResponse`: a page of ROMs with the paging figures the
   * server reported. The character index arrives as a dictionary whose
   * iteration order is not fixed, so it is kept as a sequence of entries.
   */
  datatype Page = Page(
    roms: seq<Rom>, total: int, limit: int, offset: int, hasMore: bool, charIndex: seq<Entry>)

  /** The page initialiser: the figures are stored, `hasMore` is derived. */
  function MakePage(roms: seq<Rom>, total: int, limit: int, offset: int, charIndex: seq<Entry>): (r: Page)
    ensures r.roms == roms && r.total == total && r.limit == limit && r.offset == offset
    ensures r.charIndex == charIndex
    ensures r.hasMore <==> offset + limit < total
  {
    Page(roms, total, limit, offset, offset + limit < total, charIndex)
  }

  /** A page reaching the total is the last one. */
  lemma LastPage(roms: seq<Rom>, total: int, limit: int, offset: int)
    requires total <= offset + limit
    ensures !MakePage(roms, total, limit, offset, []).hasMore
  {
  }

  /** The default argument: no character index. */
  lemma DefaultCharIndexEmpty(roms: seq<Rom>, total: int, limit: int, offset: int)
    ensures MakePage(roms, total, limit, offset, []).charIndex == []
  {
  }

  // ---------------------------------------------------------------------
  // Folding the character index
  // ---------------------------------------------------------------------

  predicate NoDigitKeys(m: map<string, int>) {
    forall k | k in m :: !HasDigit(k)
  }

  /** One step of `processCharIndex`: keys with a digit are added into "#", others are set. */
  function FoldEntry(m: map<string, int>, e: Entry): (r: map<string, int>)
    ensures r.Keys == m.Keys + {if HasDigit(e.0) then "#" else e.0}
  {
    if HasDigit(e.0) then m["#" := (if "#" in m then m["#"] else 0) + e.1]
    else m[e.0 := e.1]
  }

  /** `processCharIndex`: the entries folded in iteration order. */
  function ProcessCharIndex(entries: seq<Entry>): (r: map<string, int>)
    ensures NoDigitKeys(r)
    ensures forall k | k in r :: k == "#" || exists i | 0 <= i < |entries| :: entries[i].0 == k
    decreases |entries|
  {
    if entries == [] then map[]
    else
      var front := entries[..|entries| - 1];
      var m := ProcessCharIndex(front);
      assert forall i | 0 <= i < |front| :: front[i] == entries[i];
      assert !HasDigit("#");
      FoldEntry(m, entries[|entries| - 1])
  }

  predicate DigitKey(e: Entry) { HasDigit(e.0) }

  /** The counts of the entries whose key has a digit. */
  function DigitTotal(entries: seq<Entry>): int
    decreases |entries|
  {
    if entries == [] then 0
    else DigitTotal(entries[..|entries| - 1]) + (if DigitKey(entries[|entries| - 1]) then entries[|entries| - 1].1 else 0)
  }

  predicate AnyDigitKey(entries: seq<Entry>) {
    exists i | 0 <= i < |entries| :: DigitKey(entries[i])
  }

  predicate NoHashKey(entries: seq<Entry>) {
    forall i | 0 <= i < |entries| :: entries[i].0 != "#"
  }

  predicate UniqueKeys(entries: seq<Entry>) {
    forall i, j | 0 <= i < j < |entries| :: entries[i].0 != entries[j].0
  }

  /**
   * Without a "#" key of its own, the folded index has "#" exactly when
   * some key has a digit, holding the sum of those keys' counts.
   */
  lemma {:induction false} HashHoldsDigitTotal(entries: seq<Entry>)
    requires NoHashKey(entries)
    ensures "#" in ProcessCharIndex(entries) <==> exists i | 0 <= i < |entries| :: DigitKey(entries[i])
    ensures "#" in ProcessCharIndex(entries) ==> ProcessCharIndex(entries)["#"] == DigitTotal(entries)
    ensures "#" !in ProcessCharIndex(entries) ==> DigitTotal(entries) == 0
    decreases |entries|
  {
    if entries != [] {
      var front := entries[..|entries| - 1];
      var last := entries[|entries| - 1];
      SnocFacts(entries);
      HashHoldsDigitTotal(front);
      assert ProcessCharIndex(entries) == FoldEntry(ProcessCharIndex(front), last);
      assert DigitTotal(entries) == DigitTotal(front) + (if DigitKey(last) then last.1 else 0);
    }
  }

  /**
   * With distinct keys and no "#" key of its own, every key without a digit
   * keeps its own count in the folded index.
   */
  lemma NonDigitKeysKept(entries: seq<Entry>)
    requires UniqueKeys(entries) && NoHashKey(entries)
    ensures forall i | 0 <= i < |entries| && !DigitKey(entries[i]) ::
              entries[i].0 in ProcessCharIndex(entries) && ProcessCharIndex(entries)[entries[i].0] == entries[i].1
  {
    forall i | 0 <= i < |entries| && !DigitKey(entries[i])
      ensures entries[i].0 in ProcessCharIndex(entries) && ProcessCharIndex(entries)[entries[i].0] == entries[i].1
    {
      NonDigitKeyKept(entries, i);
    }
  }

  /** The entry at `i` keeps its count while later entries with other keys are folded in. */
  lemma {:induction false} NonDigitKeyKept(entries: seq<Entry>, i: nat)
    requires i < |entries| && !DigitKey(entries[i]) && entries[i].0 != "#"
    requires forall j | i < j < |entries| :: entries[j].0 != entries[i].0
    ensures entries[i].0 in ProcessCharIndex(entries) && ProcessCharIndex(entries)[entries[i].0] == entries[i].1
    decreases |entries|
  {
    var front := entries[..|entries| - 1];
    var last := entries[|entries| - 1];
    ProcessCharIndexSnoc(entries);
    if i < |front| {
      assert front[i] == entries[i];
      assert forall j | i < j < |front| :: front[j] == entries[j];
      NonDigitKeyKept(front, i);
      FoldKeeps(ProcessCharIndex(front), last, entries[i].0);
    }
  }

  /** The index of a list is the index of its front with the last entry folded in. */
  lemma ProcessCharIndexSnoc(entries: seq<Entry>)
    requires entries != []
    ensures ProcessCharIndex(entries) == FoldEntry(ProcessCharIndex(entries[..|entries| - 1]), entries[|entries| - 1])
  {
  }

  /** Folding an entry with another key leaves every key other than "#" as it was. */
  lemma FoldKeeps(m: map<string, int>, e: Entry, k: string)
    requires k in m && k != "#" && k != e.0
    ensures k in FoldEntry(m, e) && FoldEntry(m, e)[k] == m[k]
  {
  }

  /** Dropping the last entry keeps the front free of "#", and a digit key is in the front or is the last. */
  lemma SnocFacts(entries: seq<Entry>)
    requires entries != [] && NoHashKey(entries)
    ensures NoHashKey(entries[..|entries| - 1]) && entries[|entries| - 1].0 != "#"
    ensures AnyDigitKey(entries) <==> AnyDigitKey(entries[..|entries| - 1]) || DigitKey(entries[|entries| - 1])
  {
    var front := entries[..|entries| - 1];
    assert forall i | 0 <= i < |front| :: front[i] == entries[i];
    if exists i | 0 <= i < |entries| :: DigitKey(entries[i]) {
      var i :| 0 <= i < |entries| && DigitKey(entries[i]);
      if i < |front| { assert DigitKey(front[i]); }
    }
  }

  /** The sum of a map's values, taken key by key. */
  ghost function MapSum(m: map<string, int>): int
    decreases |m.Keys|
  {
    if m == map[] then 0
    else
      var k :| k in m.Keys;
      m[k] + MapSum(m - {k})
  }

  /** Any key may be taken first. */
  lemma {:induction false} MapSumRemove(m: map<string, int>, k: string)
    requires k in m
    ensures MapSum(m) == m[k] + MapSum(m - {k})
    decreases |m.Keys|
  {
    var j :| j in m.Keys && MapSum(m) == m[j] + MapSum(m - {j});
    if j != k {
      MapSumRemove(m - {j}, k);
      MapSumRemove(m - {k}, j);
      assert m - {j} - {k} == m - {k} - {j};
    }
  }

  lemma MapSumUpdate(m: map<string, int>, k: string, v: int)
    ensures MapSum(m[k := v]) == MapSum(m) - (if k in m then m[k] else 0) + v
  {
    MapSumRemove(m[k := v], k);
    assert m[k := v] - {k} == m - {k};
    if k in m {
      MapSumRemove(m, k);
    } else {
      assert m - {k} == m;
    }
  }

  function Counts(entries: seq<Entry>): (r: seq<int>)
    ensures |r| == |entries|
  {
    seq(|entries|, i requires 0 <= i < |entries| => entries[i].1)
  }

  /**
   * With distinct keys and no "#" key of its own, folding loses no count:
   * the folded index sums to the same total as the raw one.
   */
  lemma {:induction false} ProcessCharIndexPreservesTotal(entries: seq<Entry>)
    requires NoHashKey(entries) && UniqueKeys(entries)
    ensures MapSum(ProcessCharIndex(entries)) == Sum(Counts(entries))
    decreases |entries|
  {
    if entries != [] {
      var front := entries[..|entries| - 1];
      var last := entries[|entries| - 1];
      FrontKeys(entries);
      ProcessCharIndexPreservesTotal(front);
      CountsSnoc(entries);
      var m := ProcessCharIndex(front);
      assert ProcessCharIndex(entries) == FoldEntry(m, last);
      FoldEntrySum(m, last);
    }
  }

  /** The last entry's key is new to the folded front, unless it goes into "#". */
  lemma FrontKeys(entries: seq<Entry>)
    requires entries != [] && NoHashKey(entries) && UniqueKeys(entries)
    ensures NoHashKey(entries[..|entries| - 1]) && UniqueKeys(entries[..|entries| - 1])
    ensures entries[|entries| - 1].0 != "#"
    ensures DigitKey(entries[|entries| - 1]) || entries[|entries| - 1].0 !in ProcessCharIndex(entries[..|entries| - 1])
  {
    var front := entries[..|entries| - 1];
    var k := entries[|entries| - 1].0;
    assert forall i | 0 <= i < |front| :: front[i] == entries[i];
    KeyAbsent(front, k);
  }

  /** Folding one entry whose key is new or goes into "#" adds its count to the total. */
  lemma FoldEntrySum(m: map<string, int>, e: Entry)
    requires e.0 != "#" && (HasDigit(e.0) || e.0 !in m)
    ensures MapSum(FoldEntry(m, e)) == MapSum(m) + e.1
  {
    if HasDigit(e.0) {
      MapSumUpdate(m, "#", (if "#" in m then m["#"] else 0) + e.1);
    } else {
      MapSumUpdate(m, e.0, e.1);
    }
  }

  lemma CountsSnoc(entries: seq<Entry>)
    requires entries != []
    ensures Sum(Counts(entries)) == Sum(Counts(entries[..|entries| - 1])) + entries[|entries| - 1].1
  {
    var front := entries[..|entries| - 1];
    assert Counts(entries) == Counts(front) + [entries[|entries| - 1].1];
    SumAppend(Counts(front), [entries[|entries| - 1].1]);
    assert Sum([entries[|entries| - 1].1]) == entries[|entries| - 1].1 by {
      assert [entries[|entries| - 1].1][..0] == [];
    }
  }

  /** A key no entry has, other than "#", is not in the folded index. */
  lemma KeyAbsent(entries: seq<Entry>, k: string)
    requires k != "#"
    requires forall i | 0 <= i < |entries| :: entries[i].0 != k
    ensures k !in ProcessCharIndex(entries)
  {
  }

  /** `charIndex[char, default: 0] += count` for every entry of `more`. */
  function MergeCounts(m: map<string, int>, more: map<string, int>): (r: map<string, int>)
    ensures r.Keys == m.Keys + more.Keys
    ensures forall k | k in r :: r[k] == (if k in m then m[k] else 0) + (if k in more then more[k] else 0)
  {
    map k | k in m.Keys + more.Keys :: (if k in m then m[k] else 0) + (if k in more then more[k] else 0)
  }

  // ---------------------------------------------------------------------
  // The view model
  // ---------------------------------------------------------------------

  const PageSize: int := 72

  datatype ViewState =
    | Loading
    | Loaded(roms: seq<Rom>)
    | LoadingMore(roms: seq<Rom>)
    | Empty(message: string)
    | Error(message: string)

  datatype PlatformDetailViewModel = PlatformDetailViewModel(
    viewState: ViewState,
    charIndex: map<string, int>,
    selectedChar: Option<string>,
    lastLoadedRoms: seq<Rom>,
    currentOffset: int,
    hasMoreRoms: bool,
    totalRoms: int,
    currentPlatformId: Option<int>,
    currentChar: Option<string>)

  function Initial(): (r: PlatformDetailViewModel)
    ensures r.viewState == Loading && r.charIndex == map[] && r.hasMoreRoms && r.currentOffset == 0
  {
    PlatformDetailViewModel(Loading, map[], None, [], 0, true, 0, None, None)
  }

  /** The request sent to the server for a page. */
  datatype Request = Request(platformId: int, limit: int, offset: int, letter: Option<string>)

  /** `hasDataFor(platformId:)` */
  function HasDataFor(vm: PlatformDetailViewModel, platformId: int): (r: bool)
    ensures r <==> vm.currentPlatformId == Some(platformId) && vm.lastLoadedRoms != []
  {
    vm.currentPlatformId == Some(platformId) && |vm.lastLoadedRoms| > 0
  }

  /** `clearError()`: an error goes back to loading; any other state is kept. */
  function ClearError(vm: PlatformDetailViewModel): (r: PlatformDetailViewModel)
    ensures vm.viewState.Error? ==> r == vm.(viewState := Loading)
    ensures !vm.viewState.Error? ==> r == vm
  {
    if vm.viewState.Error? then vm.(viewState := Loading) else vm
  }

  /** The fields a refreshing load resets before anything else. */
  function ResetForRefresh(vm: PlatformDetailViewModel): (r: PlatformDetailViewModel)
    ensures r.viewState == Loading && r.currentOffset == 0 && r.hasMoreRoms && r.totalRoms == 0
    ensures r.charIndex == map[] && r.selectedChar == None && r.lastLoadedRoms == []
    ensures r.currentPlatformId == vm.currentPlatformId && r.currentChar == vm.currentChar
  {
    vm.(viewState := Loading, currentOffset := 0, hasMoreRoms := true, totalRoms := 0,
        charIndex := map[], selectedChar := None, lastLoadedRoms := [])
  }

  /** Whether a non-refreshing load is dropped: one is under way, or there is nothing more. */
  predicate Skips(vm: PlatformDetailViewModel, refresh: bool) {
    (!refresh && ((vm.viewState.Loading? && vm.currentOffset > 0) || vm.viewState.LoadingMore?))
    || !vm.hasMoreRoms
  }

  /** The state shown while a page is fetched: full loading at the start, "more" while paging a loaded list. */
  function LoadingState(vm: PlatformDetailViewModel, refresh: bool): (r: ViewState)
    ensures vm.currentOffset == 0 || refresh ==> r == Loading
    ensures vm.currentOffset != 0 && !refresh && vm.viewState.Loaded? ==> r == LoadingMore(vm.viewState.roms)
    ensures vm.currentOffset != 0 && !refresh && !vm.viewState.Loaded? ==> r == vm.viewState
  {
    if (vm.currentOffset == 0 || refresh) && |vm.lastLoadedRoms| == 0 then Loading
    else if |vm.lastLoadedRoms| > 0 && (vm.currentOffset == 0 || refresh) then Loading
    else if vm.viewState.Loaded? then LoadingMore(vm.viewState.roms)
    else vm.viewState
  }

  /**
   * The first half of `loadRoms(for:refresh:)`, up to the fetch: the
   * refresh reset, the guards, the loading state. `None` when the call
   * returns early; otherwise the request made.
   */
  function StartLoad(vm: PlatformDetailViewModel, platformId: int, refresh: bool): (r: (PlatformDetailViewModel, Option<Request>))
    ensures r.1.None? ==> r.0 == vm && !refresh
    ensures r.1.Some? ==> r.1.value == Request(platformId, PageSize, r.0.currentOffset, r.0.currentChar)
    ensures r.1.Some? ==> r.0.currentPlatformId == Some(platformId)
    ensures refresh ==> r.1.Some? && r.1.value.offset == 0 && r.0.viewState == Loading
  {
    var v := if refresh then ResetForRefresh(vm) else vm;
    if Skips(v, refresh) then (v, None)
    else
      var w := v.(viewState := LoadingState(v, refresh), currentPlatformId := Some(platformId));
      (w, Some(Request(platformId, PageSize, w.currentOffset, w.currentChar)))
  }

  /** Whether a fetched page is appended to the ROMs on show, rather than replacing them. */
  predicate Appends(vm: PlatformDetailViewModel, refresh: bool) {
    (vm.viewState.Loaded? || vm.viewState.LoadingMore?) &&
    !refresh && vm.currentOffset > 0 && vm.selectedChar.None?
  }

  /** The ROMs on show before a fetched page arrives. */
  function Existing(vm: PlatformDetailViewModel, refresh: bool): (r: seq<Rom>)
    ensures Appends(vm, refresh) ==> r == vm.viewState.roms
    ensures !Appends(vm, refresh) ==> r == []
  {
    if Appends(vm, refresh) then vm.viewState.roms else []
  }

  /**
   * The second half of `loadRoms`: the fetched page (or the failure) is
   * folded into the state.
   */
  function FinishLoad(vm: PlatformDetailViewModel, refresh: bool, outcome: Result<Page, string>): (r: PlatformDetailViewModel)
    ensures outcome.Err? ==> r == vm.(viewState := Error(outcome.error))
    ensures outcome.Ok? ==>
      var page := outcome.value;
      var all := Existing(vm, refresh) + page.roms;
      && r.currentOffset == page.offset + page.limit
      && r.hasMoreRoms == page.hasMore
      && r.totalRoms == page.total
      && (all == [] ==> r.viewState.Empty? && r.lastLoadedRoms == vm.lastLoadedRoms)
      && (all != [] ==> r.viewState == Loaded(all) && r.lastLoadedRoms == all)
      && r.charIndex == (if Appends(vm, refresh) then MergeCounts(vm.charIndex, ProcessCharIndex(page.charIndex))
                         else ProcessCharIndex(page.charIndex))
      && r.selectedChar == vm.selectedChar && r.currentPlatformId == vm.currentPlatformId
  {
    match outcome
    case Err(message) => vm.(viewState := Error(message))
    case Ok(page) =>
      var processed := ProcessCharIndex(page.charIndex);
      var index := if Appends(vm, refresh) then MergeCounts(vm.charIndex, processed) else processed;
      var all := Existing(vm, refresh) + page.roms;
      var shown := if all == [] then vm.(viewState := Empty("No ROMs found for this platform"))
                   else vm.(viewState := Loaded(all), lastLoadedRoms := all);
      shown.(charIndex := index, currentOffset := page.offset + page.limit,
             hasMoreRoms := page.hasMore, totalRoms := page.total)
  }

  /** `loadRoms(for:refresh:)` with the server's answer to the request it makes. */
  function LoadRoms(vm: PlatformDetailViewModel, platformId: int, refresh: bool, outcome: Result<Page, string>): (r: PlatformDetailViewModel)
    ensures !refresh && !vm.hasMoreRoms ==> r == vm
    ensures !refresh && vm.viewState.LoadingMore? ==> r == vm
    ensures !refresh && vm.viewState.Loading? && vm.currentOffset > 0 ==> r == vm
    ensures refresh ==> r.currentPlatformId == Some(platformId) && r.selectedChar.None?
  {
    var (started, request) := StartLoad(vm, platformId, refresh);
    if request.None? then started else FinishLoad(started, refresh, outcome)
  }

  /** A refreshing load always fetches the first page and replaces everything shown. */
  lemma RefreshReplaces(vm: PlatformDetailViewModel, platformId: int, page: Page)
    ensures var r := LoadRoms(vm, platformId, true, Ok(page));
      && r.charIndex == ProcessCharIndex(page.charIndex)
      && (page.roms != [] ==> r.viewState == Loaded(page.roms))
      && r.selectedChar == None
      && r.currentPlatformId == Some(platformId)
  {
  }

  /**
   * Paging on from a loaded list without a letter selected appends the new
   * page's ROMs and adds its character counts to the index.
   */
  lemma NextPageAppends(vm: PlatformDetailViewModel, platformId: int, page: Page)
    requires vm.viewState.Loaded? && vm.currentOffset > 0 && vm.hasMoreRoms && vm.selectedChar.None?
    ensures var r := LoadRoms(vm, platformId, false, Ok(page));
      && (r.viewState == Loaded(vm.viewState.roms + page.roms) || (vm.viewState.roms + page.roms == [] && r.viewState.Empty?))
      && r.charIndex == MergeCounts(vm.charIndex, ProcessCharIndex(page.charIndex))
  {
    var (started, request) := StartLoad(vm, platformId, false);
    assert started.viewState == LoadingMore(vm.viewState.roms);
    assert Appends(started, false);
  }

  // ---------------------------------------------------------------------
  // Jumping to a letter
  // ---------------------------------------------------------------------

  /** The key a selected character is looked up under: "#" stands for the digits, sent as "0". */
  function ApiChar(c: string): (r: string)
    ensures c == "#" ==> r == "0"
    ensures c != "#" ==> r == c
  {
    if c == "#" then "0" else c
  }

  /**
   * `filterByChar(_:platformId:)`. Without a character it clears the
   * selection and reloads from the start. With one, it fetches from the
   * offset the index gives for it (0 when absent), keeping the index as it
   * is for later jumps.
   */
  function FilterByChar(vm: PlatformDetailViewModel, c: Option<string>, platformId: int, outcome: Result<Page, string>): (r: (PlatformDetailViewModel, Option<Request>))
    ensures c.None? ==> r.0 == LoadRoms(vm.(currentChar := None, selectedChar := None), platformId, true, outcome)
    ensures c.Some? ==> r.1.Some? && r.1.value.offset == (if ApiChar(c.value) in vm.charIndex then vm.charIndex[ApiChar(c.value)] else 0)
    ensures c.Some? ==> r.0.charIndex == vm.charIndex && r.0.selectedChar == c && r.0.currentChar == None
    ensures c.Some? && outcome.Ok? ==> r.0.currentOffset == outcome.value.offset + outcome.value.limit
    ensures c.Some? && outcome.Ok? ==> r.0.lastLoadedRoms == vm.lastLoadedRoms
    ensures c.Some? && outcome.Ok? ==>
              && r.0.viewState == (if outcome.value.roms == [] then Empty("No ROMs found for '" + c.value + "'")
                                   else Loaded(outcome.value.roms))
              && r.0.hasMoreRoms == outcome.value.hasMore && r.0.totalRoms == outcome.value.total
    ensures c.Some? && outcome.Err? ==> r.0.viewState == Error(outcome.error)
  {
    match c
    case None =>
      var cleared := vm.(currentChar := None, selectedChar := None);
      var (_, request) := StartLoad(cleared, platformId, true);
      (LoadRoms(cleared, platformId, true, outcome), request)
    case Some(ch) =>
      var key := ApiChar(ch);
      var target := if key in vm.charIndex then vm.charIndex[key] else 0;
      var started := vm.(currentChar := None, selectedChar := Some(ch), currentPlatformId := Some(platformId),
                         viewState := Loading, currentOffset := target);
      var request := Request(platformId, PageSize, target, None);
      match outcome
      case Err(message) => (started.(viewState := Error(message)), Some(request))
      case Ok(page) =>
        var shown := if page.roms == [] then Empty("No ROMs found for '" + ch + "'") else Loaded(page.roms);
        (started.(viewState := shown, hasMoreRoms := page.hasMore, totalRoms := page.total,
                  currentOffset := page.offset + page.limit), Some(request))
  }

  /** Loading keeps the index free of digit keys. */
  lemma LoadKeepsNoDigitKeys(vm: PlatformDetailViewModel, platformId: int, refresh: bool, outcome: Result<Page, string>)
    requires NoDigitKeys(vm.charIndex)
    ensures NoDigitKeys(LoadRoms(vm, platformId, refresh, outcome).charIndex)
  {
  }

  /** Jumping keeps the index free of digit keys. */
  lemma FilterKeepsNoDigitKeys(vm: PlatformDetailViewModel, c: Option<string>, platformId: int, outcome: Result<Page, string>)
    requires NoDigitKeys(vm.charIndex)
    ensures NoDigitKeys(FilterByChar(vm, c, platformId, outcome).0.charIndex)
  {
    if c.None? {
      LoadKeepsNoDigitKeys(vm.(currentChar := None, selectedChar := None), platformId, true, outcome);
    }
  }

  /**
   * The digits entry of the picker is looked up as "0", a key the folded
   * index never holds: jumping to "#" always starts from offset 0.
   */
  lemma HashJumpStartsAtZero(vm: PlatformDetailViewModel, platformId: int, outcome: Result<Page, string>)
    requires NoDigitKeys(vm.charIndex)
    ensures FilterByChar(vm, Some("#"), platformId, outcome).1 == Some(Request(platformId, PageSize, 0, None))
  {
    assert HasDigit("0") by { assert IsDigit("0"[0]); }
  }
}

=== FILE: private_network.dfy ===
/**
 * Which hosts the app treats as private, and the TLS trust decision that
 * follows: a private host (loopback, RFC 1918, carrier-grade NAT as used by
 * Tailscale, IPv6 link-local or unique-local) has its server certificate
 * accepted whatever it is, every other host gets the system's default
 * validation.
 */
module PrivateNetwork {
  import opened Base
  import opened Strings
  import opened Seqs

  // ---------------------------------------------------------------------
  // IPv4 parsing
  // ---------------------------------------------------------------------

  predicate IsByte(piece: string) {
    ParseByte(piece).Some?
  }

  /** The pieces of `pieces` that read as a byte, in order (`compactMap { UInt8($0) }`). */
  function ByteValues(pieces: seq<string>): (r: seq<int>)
    ensures |r| <= |pieces|
    ensures forall k | 0 <= k < |r| :: 0 <= r[k] < 256
    decreases |pieces|
  {
    if pieces == [] then []
    else
      var rest := ByteValues(pieces[1..]);
      match ParseByte(pieces[0])
      case Some(b) => [b] + rest
      case None => rest
  }

  /**
   * The bytes kept are exactly those of the pieces the byte filter
   * passes: the k-th value is the byte of the k-th such piece.
   */
  lemma {:induction false} ByteValuesFiltered(pieces: seq<string>)
    ensures |ByteValues(pieces)| == |Filter(pieces, IsByte)|
    ensures forall k | 0 <= k < |ByteValues(pieces)| :: Some(ByteValues(pieces)[k]) == ParseByte(Filter(pieces, IsByte)[k])
    decreases |pieces|
  {
    if pieces != [] {
      ByteValuesFiltered(pieces[1..]);
    }
  }

  predicate AllBytes(pieces: seq<string>) {
    forall k | 0 <= k < |pieces| :: ParseByte(pieces[k]).Some?
  }

  /** When every piece is a byte, nothing is dropped. */
  lemma {:induction false} ByteValuesAllBytes(pieces: seq<string>)
    requires AllBytes(pieces)
    ensures |ByteValues(pieces)| == |pieces|
    ensures forall k | 0 <= k < |pieces| :: ByteValues(pieces)[k] == ParseByte(pieces[k]).value
    decreases |pieces|
  {
    if pieces != [] {
      assert AllBytes(pieces[1..]) by {
        forall k | 0 <= k < |pieces[1..]| ensures ParseByte(pieces[1..][k]).Some? {
          assert pieces[1..][k] == pieces[k + 1];
        }
      }
      ByteValuesAllBytes(pieces[1..]);
    }
  }

  /**
   * The octets of `host` as the app reads them: the dot-separated pieces
   * that parse as bytes, provided there are exactly four of them. Pieces
   * that are not bytes are skipped rather than rejected.
   */
  function ParseIPv4AsWritten(host: string): (r: Option<seq<int>>)
    ensures r.Some? ==> |r.value| == 4 && forall k | 0 <= k < 4 :: 0 <= r.value[k] < 256
    ensures r.Some? <==> |ByteValues(Split(host, '.'))| == 4
  {
    var octets := ByteValues(Split(host, '.'));
    if |octets| == 4 then Some(octets) else None
  }

  /**
   * The octets of `host` when it is a dotted quad: exactly four
   * dot-separated pieces, every one of them a byte.
   */
  function ParseIPv4(host: string): (r: Option<seq<int>>)
    ensures r.Some? <==> |Split(host, '.')| == 4 && AllBytes(Split(host, '.'))
    ensures r.Some? ==> |r.value| == 4
    ensures r.Some? ==> forall k | 0 <= k < 4 :: r.value[k] == ParseByte(Split(host, '.')[k]).value
  {
    var pieces := Split(host, '.');
    if |pieces| == 4 && AllBytes(pieces) then
      ByteValuesAllBytes(pieces);
      Some(ByteValues(pieces))
    else None
  }

  /** Whatever the strict parse accepts, the lenient one accepts with the same octets. */
  lemma ParseIPv4Agrees(host: string)
    requires ParseIPv4(host).Some?
    ensures ParseIPv4AsWritten(host) == ParseIPv4(host)
  {
    ByteValuesAllBytes(Split(host, '.'));
  }

  // ---------------------------------------------------------------------
  // Private ranges
  // ---------------------------------------------------------------------

  /** The private IPv4 ranges, judged from the first two octets. */
  predicate IsPrivateIPv4(octets: seq<int>) {
    |octets| == 4 &&
    var a, b := octets[0], octets[1];
    a == 10 ||
    (a == 100 && 64 <= b <= 127) ||
    (a == 172 && 16 <= b <= 31) ||
    (a == 192 && b == 168) ||
    a == 127
  }

  /** The 32-bit value of a dotted quad. */
  function AddressValue(octets: seq<int>): nat
    requires |octets| == 4 && forall k | 0 <= k < 4 :: 0 <= octets[k] < 256
  {
    ((octets[0] * 256 + octets[1]) * 256 + octets[2]) * 256 + octets[3]
  }

  /** `v` lies in the block of `size` addresses starting at the aligned `base`. */
  predicate InBlock(v: nat, base: nat, size: nat)
    requires size > 0
  {
    v / size == base / size
  }

  /** The reference definition: membership of one of the five CIDR blocks. */
  predicate InPrivateBlock(v: nat) {
    InBlock(v, 0x0A00_0000, 0x100_0000) ||    // 10.0.0.0/8
    InBlock(v, 0x6440_0000, 0x40_0000) ||     // 100.64.0.0/10
    InBlock(v, 0xAC10_0000, 0x10_0000) ||     // 172.16.0.0/12
    InBlock(v, 0xC0A8_0000, 0x1_0000) ||      // 192.168.0.0/16
    InBlock(v, 0x7F00_0000, 0x100_0000)       // 127.0.0.0/8
  }

  lemma TopBits(a: int, b: int, c: int, d: int)
    requires 0 <= a < 256 && 0 <= b < 256 && 0 <= c < 256 && 0 <= d < 256
    ensures (((a * 256 + b) * 256 + c) * 256 + d) / 0x100_0000 == a
    ensures (((a * 256 + b) * 256 + c) * 256 + d) / 0x40_0000 == a * 4 + b / 64
    ensures (((a * 256 + b) * 256 + c) * 256 + d) / 0x10_0000 == a * 16 + b / 16
    ensures (((a * 256 + b) * 256 + c) * 256 + d) / 0x1_0000 == a * 256 + b
  {
    var low := (c * 256 + d);
    assert 0 <= low < 0x1_0000;
    var v := (((a * 256 + b) * 256 + c) * 256 + d);
    assert v == (a * 256 + b) * 0x1_0000 + low;
    assert v / 0x1_0000 == a * 256 + b;
    assert v == (a * 4 + b / 64) * 0x40_0000 + ((b % 64) * 0x1_0000 + low);
    assert v == (a * 16 + b / 16) * 0x10_0000 + ((b % 16) * 0x1_0000 + low);
    assert v == a * 0x100_0000 + (b * 0x1_0000 + low);
  }

  /** The octet tests pick out exactly the five CIDR blocks the comments name. */
  lemma PrivateIPv4IsCidr(octets: seq<int>)
    requires |octets| == 4 && forall k | 0 <= k < 4 :: 0 <= octets[k] < 256
    ensures IsPrivateIPv4(octets) <==> InPrivateBlock(AddressValue(octets))
  {
    TopBits(octets[0], octets[1], octets[2], octets[3]);
  }

  // ---------------------------------------------------------------------
  // Hosts
  // ---------------------------------------------------------------------

  predicate IsLocalName(host: string) {
    host == "localhost" || host == "::1"
  }

  predicate PrivateIPv6Prefix(host: string) {
    HasPrefix(host, "fe80:") || HasPrefix(host, "fc") || HasPrefix(host, "fd")
  }

  /** Whether the host is private, reading the address leniently as the app does. */
  function IsPrivateHostAsWritten(host: string): (r: bool)
    ensures IsLocalName(host) ==> r
    ensures !IsLocalName(host) && ParseIPv4AsWritten(host).Some? ==>
              (r <==> IsPrivateIPv4(ParseIPv4AsWritten(host).value))
  {
    if IsLocalName(host) then true
    else if ParseIPv4AsWritten(host).Some? then IsPrivateIPv4(ParseIPv4AsWritten(host).value)
    else if ':' in host then PrivateIPv6Prefix(host)
    else false
  }

  /**
   * Whether the host is private: a loopback name, a dotted quad in a
   * private block, or an IPv6 literal with a link-local or unique-local
   * prefix. Everything else, every domain name included, is public.
   */
  function IsPrivateHost(host: string): (r: bool)
    ensures r <==>
      || IsLocalName(host)
      || (ParseIPv4(host).Some? && InPrivateBlock(AddressValue(ParseIPv4(host).value)))
      || (ParseIPv4(host).None? && ':' in host && PrivateIPv6Prefix(host))
  {
    if IsLocalName(host) then true
    else if ParseIPv4(host).Some? then
      var octets := ParseIPv4(host).value;
      PrivateIPv4IsCidr(octets);
      IsPrivateIPv4(octets)
    else if ':' in host then PrivateIPv6Prefix(host)
    else false
  }

  /** A host without digits-and-dots shape and without ':' is public. */
  lemma DomainNameIsPublic(host: string)
    requires !IsLocalName(host) && ':' !in host && ParseIPv4(host).None?
    ensures !IsPrivateHost(host)
  {
  }

  lemma LocalNamesArePrivate()
    ensures IsPrivateHost("localhost") && IsPrivateHost("::1")
  {
  }

  /** Both readings agree on every host the strict parse accepts. */
  lemma PrivateHostAgrees(host: string)
    requires ParseIPv4(host).Some?
    ensures IsPrivateHostAsWritten(host) == IsPrivateHost(host)
  {
    ParseIPv4Agrees(host);
  }

  /**
   * The lenient reading makes a public domain name whose first labels look
   * like a private address private: the labels "example" and "com" are
   * dropped and four bytes remain. `ExampleHost` shows that
   * "10.0.0.1.example.com" is such a host.
   */
  lemma DomainWithPrivatePrefix(host: string)
    requires Split(host, '.') == ["10", "0", "0", "1", "example", "com"]
    requires !IsLocalName(host) && ':' !in host
    ensures IsPrivateHostAsWritten(host)
    ensures !IsPrivateHost(host)
  {
    ExampleBytes();
  }

  /** "10.0.0.1.example.com" meets the conditions of `DomainWithPrivatePrefix`: the lenient reading calls it private. */
  lemma ExampleHost(host: string)
    requires host == "10.0.0.1.example.com"
    ensures Split(host, '.') == ["10", "0", "0", "1", "example", "com"]
    ensures !IsLocalName(host) && ':' !in host
    ensures IsPrivateHostAsWritten(host) && !IsPrivateHost(host)
  {
    ExampleSplit(host);
    ExampleNoColon(host);
    DomainWithPrivatePrefix(host);
  }

  lemma ExampleNoColon(host: string)
    requires host == "10.0.0.1.example.com"
    ensures !IsLocalName(host) && ':' !in host
  {
    assert host[0] == '1';
    assert forall i | 0 <= i < |host| :: host[i] != ':';
  }

  /** The host split label by label. */
  lemma ExampleSplit(host: string)
    requires host == "10.0.0.1.example.com"
    ensures Split(host, '.') == ["10", "0", "0", "1", "example", "com"]
  {
    var ten, zero, one, example, com := "10", "0", "1", "example", "com";
    assert host == ten + ['.'] + (zero + ['.'] + (zero + ['.'] + (one + ['.'] + (example + ['.'] + com))));
    SplitLabels(ten, zero, one, example, com);
  }

  /** Six separator-free labels joined by dots split back into the labels. */
  lemma SplitLabels(a: string, b: string, c: string, d: string, e: string)
    requires a != [] && b != [] && c != [] && d != [] && e != []
    requires Free(a, '.') && Free(b, '.') && Free(c, '.') && Free(d, '.') && Free(e, '.')
    ensures Split(a + ['.'] + (b + ['.'] + (b + ['.'] + (c + ['.'] + (d + ['.'] + e)))), '.') == [a, b, b, c, d, e]
  {
    var s1 := d + ['.'] + e;
    var s2 := c + ['.'] + s1;
    var s3 := b + ['.'] + s2;
    var s4 := b + ['.'] + s3;
    SplitSingle(e, '.');
    SplitCons(d, e, '.');
    SplitCons(c, s1, '.');
    SplitCons(b, s2, '.');
    SplitCons(b, s3, '.');
    SplitCons(a, s4, '.');
  }

  lemma ExampleBytes()
    ensures ByteValues(["10", "0", "0", "1", "example", "com"]) == [10, 0, 0, 1]
  {
    var pieces := ["10", "0", "0", "1", "example", "com"];
    assert ParseByte("example") == None;
    assert ParseByte("com") == None;
    assert ByteValues(pieces[5..]) == [];
    assert ByteValues(pieces[4..]) == [];
    assert ParseByte("1") == Some(1);
    assert ParseByte("0") == Some(0);
    assert ParseByte("10") == Some(10);
    assert ByteValues(pieces[3..]) == [1];
    assert ByteValues(pieces[2..]) == [0, 1];
    assert ByteValues(pieces[1..]) == [0, 0, 1];
  }

  // ---------------------------------------------------------------------
  // Descriptions and the trust decision
  // ---------------------------------------------------------------------

  /** The label logged next to the decision; the address is read leniently, as in the decision itself. */
  function Describe(host: string): (r: string)
    ensures IsLocalName(host) || HasPrefix(host, "127.") ==> r == "Localhost"
    ensures (&& !IsLocalName(host) && !HasPrefix(host, "127.")
             && ParseIPv4AsWritten(host).Some? && ParseIPv4AsWritten(host).value[0] == 10)
            ==> r == "Private Class A (10.x.x.x)"
  {
    if IsLocalName(host) || HasPrefix(host, "127.") then "Localhost"
    else
      var parsed := ParseIPv4AsWritten(host);
      if parsed.Some? && parsed.value[0] == 10 then "Private Class A (10.x.x.x)"
      else if parsed.Some? && parsed.value[0] == 100 && 64 <= parsed.value[1] <= 127 then "Tailscale VPN (100.x.x.x)"
      else if parsed.Some? && parsed.value[0] == 172 && 16 <= parsed.value[1] <= 31 then "Private Class B (172.x.x.x)"
      else if parsed.Some? && parsed.value[0] == 192 && parsed.value[1] == 168 then "Private Class C (192.168.x.x)"
      else if ':' in host && HasPrefix(host, "fe80:") then "IPv6 Link-Local"
      else if ':' in host && (HasPrefix(host, "fc") || HasPrefix(host, "fd")) then "IPv6 Unique Local"
      else "Public IP/Domain"
  }

  /** The labels that name a private range. */
  predicate PrivateLabel(text: string) {
    text in {"Private Class A (10.x.x.x)", "Tailscale VPN (100.x.x.x)", "Private Class B (172.x.x.x)",
              "Private Class C (192.168.x.x)", "IPv6 Link-Local", "IPv6 Unique Local"}
  }

  /**
   * Away from loopback, the label names a private range exactly when the
   * host is treated as private, with two exceptions: an address read as
   * 127.x.x.x without the "127." prefix is private but labelled public,
   * and a host with ':' that still reads as four public octets is public
   * but labelled as an IPv6 range.
   */
  lemma DescribeMatchesDecision(host: string)
    requires !IsLocalName(host) && !HasPrefix(host, "127.")
    ensures ParseIPv4AsWritten(host).None? ==> (PrivateLabel(Describe(host)) <==> IsPrivateHostAsWritten(host))
    ensures ParseIPv4AsWritten(host).Some? && ParseIPv4AsWritten(host).value[0] != 127 && ':' !in host ==>
              (PrivateLabel(Describe(host)) <==> IsPrivateHostAsWritten(host))
    ensures IsPrivateHostAsWritten(host) && !PrivateLabel(Describe(host)) ==>
              ParseIPv4AsWritten(host).Some? && ParseIPv4AsWritten(host).value[0] == 127
    ensures !IsPrivateHostAsWritten(host) && PrivateLabel(Describe(host)) ==>
              ParseIPv4AsWritten(host).Some? && ':' in host
  {
  }

  datatype Disposition = UseCredential | PerformDefaultHandling

  /** An authentication challenge: the host, whether it asks about server trust, and the trust object if any. */
  datatype Challenge = Challenge(host: string, isServerTrust: bool, serverTrust: Option<int>)

  /** The handler's answer: a disposition and the credential handed back, if any. */
  datatype Answer = Answer(disposition: Disposition, credential: Option<int>)

  /**
   * The session delegate's answer to a challenge, as the app gives it:
   * only a server-trust challenge for a host the lenient reading calls
   * private is accepted, with a credential built from the presented trust
   * when there is one.
   */
  function Decide(c: Challenge): (r: Answer)
    ensures !c.isServerTrust ==> r == Answer(PerformDefaultHandling, None)
    ensures c.isServerTrust && IsPrivateHostAsWritten(c.host) ==> r == Answer(UseCredential, c.serverTrust)
    ensures c.isServerTrust && !IsPrivateHostAsWritten(c.host) ==> r == Answer(PerformDefaultHandling, None)
    ensures r.disposition == UseCredential <==> c.isServerTrust && IsPrivateHostAsWritten(c.host)
  {
    if !c.isServerTrust then Answer(PerformDefaultHandling, None)
    else if IsPrivateHostAsWritten(c.host) then Answer(UseCredential, c.serverTrust)
    else Answer(PerformDefaultHandling, None)
  }

  /** The corrected answer: the same handler over the strict reading of the host. */
  function DecideCorrected(c: Challenge): (r: Answer)
    ensures r.disposition == UseCredential <==> c.isServerTrust && IsPrivateHost(c.host)
    ensures r.disposition == UseCredential ==> r.credential == c.serverTrust
    ensures r.disposition == PerformDefaultHandling ==> r.credential == None
  {
    if !c.isServerTrust then Answer(PerformDefaultHandling, None)
    else if IsPrivateHost(c.host) then Answer(UseCredential, c.serverTrust)
    else Answer(PerformDefaultHandling, None)
  }

  /** Both answers coincide on every host the two readings parse alike, every genuine dotted quad among them. */
  lemma DecisionsAgree(c: Challenge)
    requires ParseIPv4AsWritten(c.host) == ParseIPv4(c.host)
    ensures Decide(c) == DecideCorrected(c)
  {
  }

  /** Under the corrected answer a public host never gets a credential, whatever challenge it sends. */
  lemma PublicHostNeverTrusted(c: Challenge)
    requires !IsPrivateHost(c.host)
    ensures DecideCorrected(c).disposition == PerformDefaultHandling && DecideCorrected(c).credential == None
  {
  }

  /**
   * As written, the public domain "10.0.0.1.example.com" has its server
   * trust accepted, and is logged as a class A address; the corrected
   * answer leaves it to the default validation.
   */
  lemma DecideTrustsDomainAsWritten(host: string, trust: Option<int>)
    requires host == "10.0.0.1.example.com"
    ensures Decide(Challenge(host, true, trust)) == Answer(UseCredential, trust)
    ensures DecideCorrected(Challenge(host, true, trust)) == Answer(PerformDefaultHandling, None)
    ensures Describe(host) == "Private Class A (10.x.x.x)"
  {
    ExampleHost(host);
    assert !HasPrefix(host, "127.") by {
      assert host[1] == '0';
    }
    ExampleBytes();
  }
}

=== FILE: remote_file.dfy ===
/**
 * Files listed on a remote SFTP server: the kind of a file judged from its
 * extension, and the `rwxr-xr-x` rendering of an octal permission string.
 */
module RemoteFiles {
  import opened Base
  import opened Strings

  datatype FileType = Directory | Rom | Archive | Image | Document | Unknown

  const RomExtensions: seq<string> := [
    "nes", "snes", "smc", "sfc", "gb", "gbc", "gba", "nds", "3ds",
    "n64", "z64", "v64", "gcm", "iso", "wbfs", "rvz", "nkit",
    "md", "smd", "gen", "32x", "sms", "gg", "sg", "sc",
    "pce", "sgx", "tg16", "ws", "wsc", "ngp", "ngc",
    "lynx", "jag", "7z", "zip", "rar", "tar", "gz"
  ]
  const ArchiveExtensions: seq<string> := ["zip", "7z", "rar", "tar", "gz", "bz2", "xz"]
  const ImageExtensions: seq<string> := ["jpg", "jpeg", "png", "gif", "bmp", "tiff", "webp"]
  const DocumentExtensions: seq<string> := ["txt", "pdf", "doc", "docx", "rtf", "md"]

  /**
   * The kind of a file with extension `ext`, compared without regard to
   * case. The lists are consulted in order ROM, archive, image, document,
   * so an extension on two lists gets the earlier kind.
   */
  function FromExtension(ext: string): (r: FileType)
    ensures r != Directory
    ensures r == Rom <==> Lower(ext) in RomExtensions
    ensures r == Archive <==> Lower(ext) !in RomExtensions && Lower(ext) in ArchiveExtensions
    ensures r == Image <==> Lower(ext) !in RomExtensions + ArchiveExtensions && Lower(ext) in ImageExtensions
    ensures r == Unknown <==> Lower(ext) !in RomExtensions + ArchiveExtensions + ImageExtensions + DocumentExtensions
  {
    var e := Lower(ext);
    if e in RomExtensions then Rom
    else if e in ArchiveExtensions then Archive
    else if e in ImageExtensions then Image
    else if e in DocumentExtensions then Document
    else Unknown
  }

  /** Case does not matter: an extension and its lower-case form get the same kind. */
  lemma FromExtensionIgnoresCase(ext: string)
    ensures FromExtension(Lower(ext)) == FromExtension(ext)
  {
    LowerIdempotent(ext);
  }

  /** Only "bz2" and "xz" are ever archives: the other archive extensions are on the ROM list. */
  lemma ArchiveOnlyBz2Xz(ext: string)
    ensures FromExtension(ext) == Archive <==> Lower(ext) == "bz2" || Lower(ext) == "xz"
  {
  }

  /** "md" is a Mega Drive ROM, though it is also on the document list. */
  lemma MdIsRom()
    ensures FromExtension("md") == Rom && "md" in DocumentExtensions
  {
    assert Lower("md") == "md";
  }

  // ---------------------------------------------------------------------
  // Permissions
  // ---------------------------------------------------------------------

  datatype Permissions = Permissions(owner: string, group: string, other: string, octal: string)
  {
    /** The nine-character `rwxr-xr-x` form. */
    function Display(): string {
      owner + group + other
    }

    predicate IsReadable() { 'r' in owner }
    predicate IsWritable() { 'w' in owner }
    predicate IsExecutable() { 'x' in owner }
  }

  /** The last three characters of `s`, or all of it when shorter. */
  function Suffix3(s: string): (r: string)
    ensures |r| == if |s| < 3 then |s| else 3
    ensures r == s[|s| - |r|..]
  {
    if |s| <= 3 then s else s[|s| - 3..]
  }

  /** The value the permission bits are read from: the last three characters in octal, else 0. */
  function OctalValue(octal: string): (r: int)
    ensures -63 <= r <= 511
    ensures ParseSigned(Suffix3(octal), 8).Some? ==> r == ParseSigned(Suffix3(octal), 8).value
    ensures ParseSigned(Suffix3(octal), 8).None? ==> r == 0
  {
    var parsed := ParseSigned(Suffix3(octal), 8);
    if parsed.Some? then
      SmallOctalBound(Suffix3(octal));
      parsed.value
    else 0
  }

  /** A signed suffix keeps at most two octal digits, so the least value is "-77", that is -63. */
  lemma SmallOctalBound(s: string)
    requires |s| <= 3
    ensures ParseSigned(s, 8).Some? ==> -63 <= ParseSigned(s, 8).value <= 511
  {
    if ParseSigned(s, 8).Some? {
      if s[0] == '+' || s[0] == '-' {
        DigitsBound(s[1..]);
      } else {
        DigitsBound(s);
      }
    }
  }

  lemma DigitsBound(s: string)
    requires AllDigitsIn(s, 8) && |s| <= 3
    ensures DigitsValue(s, 8) < if |s| == 3 then 512 else if |s| == 2 then 64 else 8
  {
    if |s| > 0 {
      DigitsBound(s[..|s| - 1]);
    }
  }

  /** One `rwx` triple for the low three bits of `v`. */
  function Triple(v: int): (r: string)
    requires 0 <= v < 8
    ensures |r| == 3
  {
    [if v / 4 % 2 == 1 then 'r' else '-',
     if v / 2 % 2 == 1 then 'w' else '-',
     if v % 2 == 1 then 'x' else '-']
  }

  /** Reads a triple back: 4 for `r`, 2 for `w`, 1 for `x`. */
  function TripleValue(t: string): (r: nat)
    requires |t| == 3
    ensures r < 8
  {
    (if t[0] == 'r' then 4 else 0) + (if t[1] == 'w' then 2 else 0) + (if t[2] == 'x' then 1 else 0)
  }

  /** A triple records its three bits faithfully. */
  lemma TripleRoundTrip(v: int)
    requires 0 <= v < 8
    ensures TripleValue(Triple(v)) == v
  {
  }

  /**
   * `FilePermissions(octalString:)`: owner, group and other are the bits
   * of the value at shifts 6, 3 and 0, as an arithmetic right shift and a
   * mask by 7 give them (floor division and a non-negative remainder, also
   * for a negative value).
   */
  function FromOctal(octal: string): (r: Permissions)
    ensures r.octal == octal
    ensures |r.owner| == 3 && |r.group| == 3 && |r.other| == 3
    ensures TripleValue(r.owner) == OctalValue(octal) / 64 % 8
    ensures TripleValue(r.group) == OctalValue(octal) / 8 % 8
    ensures TripleValue(r.other) == OctalValue(octal) % 8
  {
    var v := OctalValue(octal);
    TripleRoundTrip(v / 64 % 8);
    TripleRoundTrip(v / 8 % 8);
    TripleRoundTrip(v % 8);
    Permissions(Triple(v / 64 % 8), Triple(v / 8 % 8), Triple(v % 8), octal)
  }

  /** Every rendering has nine characters drawn from `r`, `w`, `x` and `-`. */
  lemma DisplayShape(octal: string)
    ensures |FromOctal(octal).Display()| == 9
    ensures forall i | 0 <= i < 9 :: FromOctal(octal).Display()[i] in "rwx-"
  {
  }

  /** Input that does not parse renders as all dashes and grants nothing. */
  lemma UnparseableGrantsNothing(octal: string)
    requires ParseSigned(Suffix3(octal), 8).None?
    ensures FromOctal(octal).Display() == "---------"
    ensures !FromOctal(octal).IsReadable() && !FromOctal(octal).IsWritable() && !FromOctal(octal).IsExecutable()
  {
    assert OctalValue(octal) == 0;
    assert Triple(0) == "---";
    assert FromOctal(octal) == Permissions("---", "---", "---", octal);
  }

  /** The owner flags follow the 4, 2 and 1 bits of the owner digit. */
  lemma OwnerFlags(octal: string)
    ensures FromOctal(octal).IsReadable() <==> OctalValue(octal) / 64 % 8 / 4 % 2 == 1
    ensures FromOctal(octal).IsWritable() <==> OctalValue(octal) / 64 % 8 / 2 % 2 == 1
    ensures FromOctal(octal).IsExecutable() <==> OctalValue(octal) / 64 % 8 % 2 == 1
  {
  }

  /** Three octal digits render digit by digit. */
  lemma ThreeDigits(octal: string)
    requires |octal| == 3 && AllDigitsIn(octal, 8)
    ensures TripleValue(FromOctal(octal).owner) == octal[0] as int - '0' as int
    ensures TripleValue(FromOctal(octal).group) == octal[1] as int - '0' as int
    ensures TripleValue(FromOctal(octal).other) == octal[2] as int - '0' as int
  {
    var d0, d1, d2 := octal[0] as int - '0' as int, octal[1] as int - '0' as int, octal[2] as int - '0' as int;
    ThreeDigitValue(octal);
    assert Suffix3(octal) == octal;
    var v := OctalValue(octal);
    assert v == d0 * 64 + d1 * 8 + d2;
    OctalDigitsOf(d0, d1, d2);
  }

  lemma OctalDigitsOf(d0: int, d1: int, d2: int)
    requires 0 <= d0 < 8 && 0 <= d1 < 8 && 0 <= d2 < 8
    ensures (d0 * 64 + d1 * 8 + d2) / 64 % 8 == d0
    ensures (d0 * 64 + d1 * 8 + d2) / 8 % 8 == d1
    ensures (d0 * 64 + d1 * 8 + d2) % 8 == d2
  {
    var v := d0 * 64 + d1 * 8 + d2;
    assert v == d0 * 64 + (d1 * 8 + d2) && 0 <= d1 * 8 + d2 < 64;
    assert v == (d0 * 8 + d1) * 8 + d2;
  }

  lemma ThreeDigitValue(octal: string)
    requires |octal| == 3 && AllDigitsIn(octal, 8)
    ensures DigitsValue(octal, 8) == (octal[0] as int - '0' as int) * 64
              + (octal[1] as int - '0' as int) * 8 + (octal[2] as int - '0' as int)
  {
    assert octal[..2][..1] == octal[..1];
    assert octal[..1][..0] == [];
    assert DigitsValue(octal[..1], 8) == octal[0] as int - '0' as int;
  }

  lemma Example755()
    ensures FromOctal("755").Display() == "rwxr-xr-x"
  {
    ThreeDigits("755");
  }

  // ---------------------------------------------------------------------
  // Remote files
  // ---------------------------------------------------------------------

  datatype RemoteFile = RemoteFile(
    id: int,
    name: string,
    path: string,
    size: int,
    isDirectory: bool,
    permissions: Option<Permissions>)
  {
    /** The extension of a plain file; a directory has none. */
    function Extension(): (r: string)
      ensures isDirectory ==> r == ""
      ensures !isDirectory ==> r == PathExtension(name)
      ensures '.' !in r && (r != "" ==> HasSuffix(name, "." + r))
    {
      if isDirectory then "" else PathExtension(name)
    }

    function Type(): (r: FileType)
      ensures isDirectory <==> r == Directory
      ensures !isDirectory ==> r == FromExtension(PathExtension(name))
    {
      if isDirectory then Directory else FromExtension(Extension())
    }
  }

  /** Whatever its name, a directory is typed as one and has no extension; a plain file is typed by its name's extension. */
  lemma EntryType(f: RemoteFile, name: string)
    ensures f.isDirectory ==> f.(name := name).Type() == Directory && f.(name := name).Extension() == ""
    ensures !f.isDirectory ==> f.Type() == FromExtension(PathExtension(f.name)) && f.Type() != Directory
  {
  }

  /** The text after the last '.' of a name, or "" when it has none. */
  function PathExtension(name: string): (r: string)
    ensures '.' !in r
    ensures r != "" ==> HasSuffix(name, "." + r)
    ensures '.' !in name ==> r == ""
    ensures r == "" ==> name == [] || name[|name| - 1] == '.' || '.' !in name
    decreases |name|
  {
    if name == [] then ""
    else if name[|name| - 1] == '.' then ""
    else
      var front := name[..|name| - 1];
      if '.' !in front then ""
      else
        var e := PathExtension(front);
        assert name == front + [name[|name| - 1]];
        e + [name[|name| - 1]]
  }
}

=== FILE: rom_filters.dfy ===
/**
 * The platform page's client-side filters over the loaded ROMs: search
 * text, languages, regions, statuses and a release-year range; the filter
 * options offered; and the sort row's tap rule.
 */
module RomFilters {
  import opened Base
  import opened Strings
  import opened Seqs
  import opened Ordering
  import opened Roms
  import opened SortOptions

  /** `getStatusSet(for:)`: the status labels of a ROM. */
  function StatusSet(rom: Rom): (r: set<string>)
    ensures "Playable" in r <==> rom.isPlayable
    ensures "Not Playable" in r <==> !rom.isPlayable
    ensures "Favourite" in r <==> rom.isFavourite
    ensures "RetroAchievements" in r <==> rom.hasRetroAchievements
    ensures r <= {"Favourite", "RetroAchievements", "Playable", "Not Playable"}
  {
    (if rom.isFavourite then {"Favourite"} else {}) +
    (if rom.hasRetroAchievements then {"RetroAchievements"} else {}) +
    (if rom.isPlayable then {"Playable"} else {"Not Playable"})
  }

  /** Exactly one of the two playability labels is present. */
  lemma OnePlayabilityLabel(rom: Rom)
    ensures ("Playable" in StatusSet(rom)) != ("Not Playable" in StatusSet(rom))
  {
  }

  /** The filter sheet's selection; an inclusive year range when set. */
  datatype Selection = Selection(
    searchText: string,
    languages: set<string>,
    regions: set<string>,
    statuses: set<string>,
    years: Option<(int, int)>)

  /** Whether any list element is selected: the list is non-empty and meets the selection. */
  predicate Meets(values: seq<string>, chosen: set<string>) {
    exists v | v in values :: v in chosen
  }

  predicate InRange(year: Option<int>, range: (int, int)) {
    year.Some? && range.0 <= year.value <= range.1
  }

  /** The reference condition: every active filter admits the ROM. */
  predicate Admits(sel: Selection, rom: Rom) {
    && (sel.searchText == [] || Contains(Lower(rom.name), Lower(sel.searchText)))
    && (sel.languages == {} || Meets(rom.languages, sel.languages))
    && (sel.regions == {} || Meets(rom.regions, sel.regions))
    && (sel.statuses == {} || StatusSet(rom) * sel.statuses != {})
    && (sel.years.None? || InRange(rom.releaseYear, sel.years.value))
  }

  predicate HasActiveFilters(sel: Selection) {
    sel.languages != {} || sel.regions != {} || sel.statuses != {} || sel.years.Some?
  }

  /**
   * `filteredRoms(from:)`: the passes by text, language, region, status
   * and year in turn. The result is exactly the ROMs every active filter
   * admits, in their order.
   */
  function FilteredRoms(roms: seq<Rom>, sel: Selection): (r: seq<Rom>)
    ensures r == Filter(roms, rom => Admits(sel, rom))
  {
    var p1 := (rom: Rom) => sel.searchText == [] || Contains(Lower(rom.name), Lower(sel.searchText));
    var p2 := (rom: Rom) => sel.languages == {} || Meets(rom.languages, sel.languages);
    var p3 := (rom: Rom) => sel.regions == {} || Meets(rom.regions, sel.regions);
    var p4 := (rom: Rom) => sel.statuses == {} || StatusSet(rom) * sel.statuses != {};
    var p5 := (rom: Rom) => sel.years.None? || InRange(rom.releaseYear, sel.years.value);
    var a := FilterPass(roms, sel.searchText != [], p1);
    var b := FilterPass(a, sel.languages != {}, p2);
    var c := FilterPass(b, sel.regions != {}, p3);
    var d := FilterPass(c, sel.statuses != {}, p4);
    var e := FilterPass(d, sel.years.Some?, p5);
    FilterFive(roms, p1, p2, p3, p4, p5, rom => Admits(sel, rom));
    e
  }

  /** The shown ROMs are an order-preserving selection: exactly those every active filter admits. */
  lemma FilteredRomsSelects(roms: seq<Rom>, sel: Selection)
    ensures SubsequenceOf(FilteredRoms(roms, sel), roms)
    ensures forall rom | rom in FilteredRoms(roms, sel) :: rom in roms && Admits(sel, rom)
    ensures forall rom | rom in roms && Admits(sel, rom) :: rom in FilteredRoms(roms, sel)
  {
    var admits := rom => Admits(sel, rom);
    var r := Filter(roms, admits);
    assert forall rom | rom in r :: rom in roms && admits(rom);
  }

  /** With no search text and no active filter, every ROM is shown in order. */
  lemma NoFiltersIsIdentity(roms: seq<Rom>, sel: Selection)
    requires sel.searchText == [] && !HasActiveFilters(sel)
    ensures FilteredRoms(roms, sel) == roms
  {
    FilterAll(roms, rom => Admits(sel, rom));
  }

  /** A year range shuts out every ROM without a release year. */
  lemma YearRangeNeedsYear(roms: seq<Rom>, sel: Selection, rom: Rom)
    requires sel.years.Some? && rom.releaseYear.None?
    ensures rom !in FilteredRoms(roms, sel)
  {
  }

  /** The language filter keeps a ROM exactly when one of its languages is selected. */
  lemma LanguageFilterIntersects(roms: seq<Rom>, languages: set<string>, rom: Rom)
    requires languages != {} && rom in roms
    ensures rom in FilteredRoms(roms, Selection("", languages, {}, {}, None))
            <==> exists l | l in rom.languages :: l in languages
  {
  }

  // ---------------------------------------------------------------------
  // Filter options
  // ---------------------------------------------------------------------

  datatype FilterOptions = FilterOptions(
    languages: seq<string>, regions: seq<string>, statuses: seq<string>, releaseYears: seq<int>)

  function AllLanguages(roms: seq<Rom>): set<string> {
    set rom, l | rom in roms && l in rom.languages :: l
  }

  function AllRegions(roms: seq<Rom>): set<string> {
    set rom, g | rom in roms && g in rom.regions :: g
  }

  function AllStatuses(roms: seq<Rom>): set<string> {
    set rom, s | rom in roms && s in StatusSet(rom) :: s
  }

  function AllYears(roms: seq<Rom>): set<int> {
    set rom | rom in roms && rom.releaseYear.Some? :: rom.releaseYear.value
  }

  /**
   * `getAvailableFilterOptions(from:)`: each list is the union over the
   * ROMs, without duplicates, in increasing order.
   */
  function AvailableOptions(roms: seq<Rom>): (r: FilterOptions)
    ensures StrictlySorted(r.languages, StrLt) && StrictlySorted(r.regions, StrLt)
    ensures StrictlySorted(r.statuses, StrLt) && StrictlySorted(r.releaseYears, IntLt)
    ensures forall l :: l in r.languages <==> exists rom | rom in roms :: l in rom.languages
    ensures forall g :: g in r.regions <==> exists rom | rom in roms :: g in rom.regions
    ensures forall s :: s in r.statuses <==> exists rom | rom in roms :: s in StatusSet(rom)
    ensures forall y :: y in r.releaseYears <==> exists rom | rom in roms :: rom.releaseYear == Some(y)
  {
    FilterOptions(SortedStrings(AllLanguages(roms)), SortedStrings(AllRegions(roms)),
                  SortedStrings(AllStatuses(roms)), SortedInts(AllYears(roms)))
  }

  /** Offering a status the ROMs have can only ever keep some ROM. */
  lemma OfferedStatusSelectsSomething(roms: seq<Rom>, s: string)
    requires s in AvailableOptions(roms).statuses
    ensures FilteredRoms(roms, Selection("", {}, {}, {s}, None)) != []
  {
    var sel := Selection("", {}, {}, {s}, None);
    var rom :| rom in roms && s in StatusSet(rom);
    assert Admits(sel, rom);
    FilteredRomsSelects(roms, sel);
    assert rom in FilteredRoms(roms, sel);
  }

  // ---------------------------------------------------------------------
  // The sort row
  // ---------------------------------------------------------------------

  /** Tapping a sort row: the selected ascending row turns descending, every other tap sorts ascending. */
  function TapDirection(isSelected: bool, current: SortDirection): (r: SortDirection)
    ensures r == Desc <==> isSelected && current == Asc
  {
    if isSelected && current == Asc then Desc else Asc
  }

  /** Tapping the selected row twice from ascending comes back to ascending. */
  lemma TapTwice()
    ensures TapDirection(true, TapDirection(true, Asc)) == Asc
  {
  }
}

=== FILE: rom_mapper.dfy ===
/**
 * Mapping the server's ROM records to the app's `Rom` and `RomDetails`.
 * The records come from a generated API client; the fields the mapper
 * treats as optional are optional here. Calendar and date formatting are
 * inputs: `yearOf` gives the calendar year of a release timestamp and
 * `formatDate` renders the creation date.
 */
module RomMapper {
  import opened Base
  import opened Roms

  datatype RomUserSchema = RomUserSchema(rating: int, nowPlaying: bool)
  datatype RomFileSchema = RomFileSchema(fileName: string)
  datatype IgdbMetadata = IgdbMetadata(firstReleaseDate: Option<int>, genres: Option<seq<string>>, companies: Option<seq<string>>)

  /** The list view's record of a ROM. */
  datatype SimpleRomSchema = SimpleRomSchema(
    id: int,
    name: Option<string>,
    slug: Option<string>,
    summary: Option<string>,
    platformId: int,
    urlCover: Option<string>,
    igdbMetadata: Option<IgdbMetadata>,
    romUser: RomUserSchema,
    raId: Option<int>,
    missingFromFs: bool,
    fsSizeBytes: Option<int>,
    createdAt: int,
    averageRating: Option<real>,
    languages: seq<string>,
    regions: seq<string>,
    files: seq<RomFileSchema>)

  /** The detail view's record of a ROM. */
  datatype DetailedRomSchema = DetailedRomSchema(
    id: int,
    name: Option<string>,
    fsName: Option<string>,
    summary: Option<string>,
    urlCover: Option<string>,
    platformId: int,
    raId: Option<int>,
    igdbMetadata: Option<IgdbMetadata>,
    pathManual: Option<string>,
    fsSizeBytes: Option<int>,
    sha1Hash: Option<string>,
    md5Hash: Option<string>,
    crcHash: Option<string>)

  const UnknownRomName: string := "Unknown ROM"

  /** The first release timestamp in the metadata, if any. */
  function ReleaseTimestamp(m: Option<IgdbMetadata>): Option<int> {
    if m.Some? then m.value.firstReleaseDate else None
  }

  /** The first listed company, if any. */
  function FirstCompany(m: Option<IgdbMetadata>): (r: Option<string>)
    ensures r.Some? <==> m.Some? && m.value.companies.Some? && m.value.companies.value != []
    ensures r.Some? ==> r.value == m.value.companies.value[0]
  {
    if m.Some? && m.value.companies.Some? && m.value.companies.value != [] then Some(m.value.companies.value[0]) else None
  }

  /**
   * `mapFromAPI`: a nameless ROM is "Unknown ROM"; it is a favourite when
   * rated or being played, has achievements when linked to
   * RetroAchievements, is playable unless missing from the file system,
   * and its file name is its first file's or empty.
   */
  function MapFromApi(s: SimpleRomSchema, yearOf: int -> int, formatDate: int -> string): (r: Rom)
    ensures r.id == s.id && r.platformId == s.platformId
    ensures r.name == (if s.name.Some? then s.name.value else UnknownRomName)
    ensures r.slug == (if s.slug.Some? then s.slug.value else "")
    ensures r.isFavourite <==> s.romUser.rating > 0 || s.romUser.nowPlaying
    ensures r.hasRetroAchievements <==> s.raId.Some?
    ensures r.isPlayable <==> !s.missingFromFs
    ensures r.fileName.Some?
    ensures s.files != [] ==> r.fileName.value == s.files[0].fileName
    ensures s.files == [] ==> r.fileName.value == ""
    ensures r.releaseYear.Some? <==> ReleaseTimestamp(s.igdbMetadata).Some?
    ensures r.releaseYear.Some? ==> r.releaseYear.value == yearOf(ReleaseTimestamp(s.igdbMetadata).value)
    ensures r.createdAt == Some(formatDate(s.createdAt))
    ensures r.summary == s.summary && r.urlCover == s.urlCover && r.sizeBytes == s.fsSizeBytes
    ensures r.rating == s.averageRating && r.languages == s.languages && r.regions == s.regions
  {
    var releaseYear := match ReleaseTimestamp(s.igdbMetadata) case None => None case Some(t) => Some(yearOf(t));
    Rom(s.id, s.name.GetOr(UnknownRomName), s.slug.GetOr(""), s.summary, s.platformId, s.urlCover, releaseYear,
        s.romUser.rating > 0 || s.romUser.nowPlaying, s.raId.Some?, !s.missingFromFs, s.fsSizeBytes,
        Some(formatDate(s.createdAt)), s.averageRating, s.languages, s.regions,
        Some(if s.files != [] then s.files[0].fileName else ""))
  }

  /**
   * `mapDetailsFromAPI`: never a favourite (loaded separately); developer
   * and publisher are both the first listed company; genres default to
   * none; the release date is the first release timestamp.
   */
  function MapDetailsFromApi(s: DetailedRomSchema): (r: RomDetails)
    ensures r.id == s.id && r.platformId == s.platformId
    ensures r.name == (if s.name.Some? then s.name.value else UnknownRomName)
    ensures !r.isFavourite
    ensures r.hasRetroAchievements <==> s.raId.Some?
    ensures r.developer == r.publisher == FirstCompany(s.igdbMetadata)
    ensures r.genre == (if s.igdbMetadata.Some? && s.igdbMetadata.value.genres.Some? then s.igdbMetadata.value.genres.value else [])
    ensures r.releaseDate == ReleaseTimestamp(s.igdbMetadata)
    ensures r.fileName == s.fsName && r.sizeBytes == s.fsSizeBytes
    ensures r.sha1Hash == s.sha1Hash && r.md5Hash == s.md5Hash && r.crcHash == s.crcHash
  {
    var genres := if s.igdbMetadata.Some? && s.igdbMetadata.value.genres.Some? then s.igdbMetadata.value.genres.value else [];
    RomDetails(s.id, s.name.GetOr(UnknownRomName), s.fsName, s.summary, s.urlCover, s.platformId, false,
               s.raId.Some?, genres, FirstCompany(s.igdbMetadata), FirstCompany(s.igdbMetadata),
               ReleaseTimestamp(s.igdbMetadata), s.pathManual, s.fsSizeBytes, s.sha1Hash, s.md5Hash, s.crcHash)
  }

  /** The list record and the detail record describe the same ROM wherever their fields overlap. */
  predicate SameRom(s: SimpleRomSchema, d: DetailedRomSchema) {
    && s.id == d.id && s.name == d.name && s.summary == d.summary && s.urlCover == d.urlCover
    && s.platformId == d.platformId && s.raId == d.raId && s.igdbMetadata == d.igdbMetadata
    && s.fsSizeBytes == d.fsSizeBytes
  }

  /**
   * The list view and the detail view of one ROM agree on everything both
   * show: identity, name, summary, cover, platform, achievements and size,
   * and the list's release year is the year of the detail's release date.
   * They differ only on favourites, which the detail mapping leaves unset.
   */
  lemma ListAndDetailAgree(s: SimpleRomSchema, d: DetailedRomSchema, yearOf: int -> int, formatDate: int -> string)
    requires SameRom(s, d)
    ensures var rom, details := MapFromApi(s, yearOf, formatDate), MapDetailsFromApi(d);
      && rom.id == details.id && rom.name == details.name && rom.summary == details.summary
      && rom.urlCover == details.urlCover && rom.platformId == details.platformId
      && rom.hasRetroAchievements == details.hasRetroAchievements && rom.sizeBytes == details.sizeBytes
      && rom.releaseYear.Some? == details.releaseDate.Some?
      && (rom.releaseYear.Some? ==> rom.releaseYear.value == yearOf(details.releaseDate.value))
      && (rom.isFavourite != details.isFavourite ==> rom.isFavourite)
  {
  }

  /** `mapToDomain`: each record mapped, in order. */
  function MapToDomain(schemas: seq<SimpleRomSchema>, yearOf: int -> int, formatDate: int -> string): (r: seq<Rom>)
    ensures |r| == |schemas|
    ensures forall i | 0 <= i < |schemas| :: r[i] == MapFromApi(schemas[i], yearOf, formatDate)
  {
    seq(|schemas|, i requires 0 <= i < |schemas| => MapFromApi(schemas[i], yearOf, formatDate))
  }

  /** The mapped list carries the records' ids in their order. */
  lemma MapToDomainKeepsIds(schemas: seq<SimpleRomSchema>, yearOf: int -> int, formatDate: int -> string)
    ensures Ids(MapToDomain(schemas, yearOf, formatDate)) == seq(|schemas|, i requires 0 <= i < |schemas| => schemas[i].id)
  {
  }

  /** A mapped ROM always has a file name, so the launch's missing-file-name case never arises for it. */
  lemma MappedRomsHaveFileNames(schemas: seq<SimpleRomSchema>, yearOf: int -> int, formatDate: int -> string)
    ensures forall rom | rom in MapToDomain(schemas, yearOf, formatDate) :: rom.fileName.Some?
  {
  }
}

=== FILE: roms.dfy ===
/** The app's domain records for games (ROMs) and their details. */
module Roms {
  import opened Base

  /** A ROM as listed on a platform page. Ratings are kept as exact reals. */
  datatype Rom = Rom(
    id: int,
    name: string,
    slug: string,
    summary: Option<string>,
    platformId: int,
    urlCover: Option<string>,
    releaseYear: Option<int>,
    isFavourite: bool,
    hasRetroAchievements: bool,
    isPlayable: bool,
    sizeBytes: Option<int>,
    createdAt: Option<string>,
    rating: Option<real>,
    languages: seq<string>,
    regions: seq<string>,
    fileName: Option<string>)

  /** The detail page's record of one ROM; dates are kept as seconds since 1970. */
  datatype RomDetails = RomDetails(
    id: int,
    name: string,
    fileName: Option<string>,
    summary: Option<string>,
    urlCover: Option<string>,
    platformId: int,
    isFavourite: bool,
    hasRetroAchievements: bool,
    genre: seq<string>,
    developer: Option<string>,
    publisher: Option<string>,
    releaseDate: Option<int>,
    pathManual: Option<string>,
    sizeBytes: Option<int>,
    sha1Hash: Option<string>,
    md5Hash: Option<string>,
    crcHash: Option<string>)

  /** The ids of a list of ROMs, in order. */
  function Ids(roms: seq<Rom>): (r: seq<int>)
    ensures |r| == |roms|
    ensures forall i | 0 <= i < |roms| :: r[i] == roms[i].id
  {
    seq(|roms|, i requires 0 <= i < |roms| => roms[i].id)
  }
}

=== FILE: section_index.dfy ===
/**
 * The ROM list with its section index: grouping by first letter, the
 * index titles, the load-more triggers, the table's sort toggle and the
 * region and language emoji.
 */
module SectionIndex {
  import opened Base
  import opened Strings
  import opened Seqs
  import opened Ordering
  import opened Roms
  import opened SortOptions
  import opened CharPicker

  // ---------------------------------------------------------------------
  // Sections
  // ---------------------------------------------------------------------

  /** The section a ROM name is filed under: its first character uppercased when a letter, else "#". */
  function SectionKey(name: string): (r: string)
    ensures r == "#" || (|r| == 1 && 'A' <= r[0] <= 'Z')
    ensures r == "#" <==> name == [] || !IsAsciiLetter(name[0])
    ensures r != "#" ==> LowerChar(r[0]) == LowerChar(name[0])
  {
    if name != [] && IsAsciiLetter(name[0]) then [UpperChar(name[0])] else "#"
  }

  datatype RomSection = RomSection(letter: string, roms: seq<Rom>)

  function NameOf(rom: Rom): string { rom.name }

  /** Whether a ROM belongs under `letter`. */
  function FiledUnder(letter: string): Rom -> bool {
    (rom: Rom) => SectionKey(rom.name) == letter
  }

  /** Whether a ROM belongs under one of `letters`. */
  function FiledUnderAny(letters: seq<string>): Rom -> bool {
    (rom: Rom) => SectionKey(rom.name) in letters
  }

  /** The section for `letter`: the ROMs filed under it, sorted by name. */
  function MakeSection(roms: seq<Rom>, letter: string): (r: RomSection)
    ensures r.letter == letter
    ensures SortedBy(r.roms, NameOf, StrLt)
    ensures multiset(r.roms) == multiset(Filter(roms, FiledUnder(letter)))
  {
    StrLtStrictTotal();
    RomSection(letter, SortBy(Filter(roms, FiledUnder(letter)), NameOf, StrLt))
  }

  function SectionsFor(roms: seq<Rom>, letters: seq<string>): (r: seq<RomSection>)
    ensures |r| == |letters|
    ensures forall i | 0 <= i < |r| :: r[i] == MakeSection(roms, letters[i])
  {
    if letters == [] then [] else [MakeSection(roms, letters[0])] + SectionsFor(roms, letters[1..])
  }

  /** All the ROMs of the sections, in section order. */
  function Flatten(sections: seq<RomSection>): seq<Rom> {
    if sections == [] then [] else sections[0].roms + Flatten(sections[1..])
  }

  /** A section's ROMs are exactly the list's ROMs filed under its letter. */
  lemma SectionMembers(roms: seq<Rom>, letter: string)
    ensures forall rom :: rom in MakeSection(roms, letter).roms <==> rom in roms && SectionKey(rom.name) == letter
  {
    var s := MakeSection(roms, letter);
    var f := Filter(roms, FiledUnder(letter));
    forall rom ensures rom in s.roms <==> rom in f {
      assert rom in s.roms <==> rom in multiset(s.roms);
      assert rom in f <==> rom in multiset(f);
    }
  }

  /** The letters of the sections: one per distinct key among the ROMs, in increasing order. */
  function Letters(roms: seq<Rom>): (r: seq<string>)
    ensures StrictlySorted(r, StrLt)
    ensures forall l :: l in r <==> exists rom | rom in roms :: SectionKey(rom.name) == l
  {
    SortedStrings(set rom | rom in roms :: SectionKey(rom.name))
  }

  /**
   * `groupedSections`: one section per distinct key among the ROMs, in
   * increasing letter order, each holding its ROMs sorted by name.
   */
  function GroupedSections(roms: seq<Rom>): (r: seq<RomSection>)
    ensures |r| == |Letters(roms)|
    ensures forall i | 0 <= i < |r| :: r[i].letter == Letters(roms)[i]
    ensures forall i | 0 <= i < |r| :: SortedBy(r[i].roms, NameOf, StrLt)
    ensures forall i, rom | 0 <= i < |r| :: rom in r[i].roms <==> rom in roms && SectionKey(rom.name) == r[i].letter
  {
    var r := SectionsFor(roms, Letters(roms));
    forall i | 0 <= i < |r|
      ensures forall rom :: rom in r[i].roms <==> rom in roms && SectionKey(rom.name) == r[i].letter
    {
      SectionMembers(roms, Letters(roms)[i]);
    }
    r
  }

  /** Sections are in strictly increasing letter order. */
  lemma SectionsOrdered(roms: seq<Rom>)
    ensures forall i, j | 0 <= i < j < |GroupedSections(roms)| ::
      StrLt(GroupedSections(roms)[i].letter, GroupedSections(roms)[j].letter)
  {
    var r := GroupedSections(roms);
    var letters := Letters(roms);
    assert forall i | 0 <= i < |r| :: r[i].letter == letters[i];
  }

  /** No section is empty. */
  lemma SectionsNonEmpty(roms: seq<Rom>, i: nat)
    requires i < |GroupedSections(roms)|
    ensures GroupedSections(roms)[i].roms != []
  {
    var letters := Letters(roms);
    assert letters[i] in letters;
    var rom :| rom in roms && SectionKey(rom.name) == letters[i];
    assert rom in GroupedSections(roms)[i].roms;
  }

  /** The sections hold exactly the list's ROMs, each as often as in the list. */
  lemma GroupedSectionsPermutation(roms: seq<Rom>)
    ensures multiset(Flatten(GroupedSections(roms))) == multiset(roms)
  {
    var letters := Letters(roms);
    StrLtStrictTotal();
    StrictlySortedUniqueLength(letters, StrLt);
    SectionsPartition(roms, letters);
    FilterAll(roms, FiledUnderAny(letters));
  }

  /** Sections for distinct letters hold, together, the ROMs filed under any of them. */
  lemma {:induction false} SectionsPartition(roms: seq<Rom>, letters: seq<string>)
    requires forall i, j | 0 <= i < |letters| && 0 <= j < |letters| && letters[i] == letters[j] :: i == j
    ensures multiset(Flatten(SectionsFor(roms, letters))) == multiset(Filter(roms, FiledUnderAny(letters)))
    decreases |letters|
  {
    if letters == [] {
      FilterNone(roms, FiledUnderAny(letters));
    } else {
      var tail := letters[1..];
      assert forall i, j | 0 <= i < |tail| && 0 <= j < |tail| && tail[i] == tail[j] :: i == j by {
        forall i, j | 0 <= i < |tail| && 0 <= j < |tail| && tail[i] == tail[j] ensures i == j {
          assert letters[i + 1] == letters[j + 1];
        }
      }
      SectionsPartition(roms, tail);
      forall k | 0 <= k < |tail| ensures tail[k] != letters[0] {
        assert tail[k] == letters[k + 1];
      }
      assert forall x | x in letters :: x == letters[0] || x in tail;
      FilterUnion(roms, FiledUnder(letters[0]), FiledUnderAny(tail), FiledUnderAny(letters));
    }
  }

  /** Filtering with a predicate no element satisfies leaves nothing. */
  lemma {:induction false} FilterNone<T>(s: seq<T>, p: T -> bool)
    requires forall x | x in s :: !p(x)
    ensures Filter(s, p) == []
    decreases |s|
  {
    if s != [] {
      assert s[0] in s;
      assert forall x | x in s[1..] :: x in s;
      FilterNone(s[1..], p);
    }
  }

  /** Every ROM of the list lands in the section for its key. */
  lemma RomHasSection(roms: seq<Rom>, rom: Rom)
    requires rom in roms
    ensures exists i | 0 <= i < |GroupedSections(roms)| :: rom in GroupedSections(roms)[i].roms
  {
    var letters := Letters(roms);
    assert SectionKey(rom.name) in letters;
    var i :| 0 <= i < |letters| && letters[i] == SectionKey(rom.name);
    assert rom in GroupedSections(roms)[i].roms;
  }

  /** No ROM is in two sections. */
  lemma SectionUnique(roms: seq<Rom>, rom: Rom, a: nat, b: nat)
    requires a < |GroupedSections(roms)| && b < |GroupedSections(roms)|
    requires rom in GroupedSections(roms)[a].roms && rom in GroupedSections(roms)[b].roms
    ensures a == b
  {
    var letters := Letters(roms);
    assert letters[a] == SectionKey(rom.name) == letters[b];
    StrLtIrreflexive(letters[a]);
    assert !(a < b) && !(b < a);
  }

  // ---------------------------------------------------------------------
  // Titles and taps
  // ---------------------------------------------------------------------

  /**
   * `sectionTitles`: with a server character index, "ALL" and then its
   * keys in increasing order; otherwise the letters of the sections.
   */
  function SectionTitles(charIndex: map<string, int>, roms: seq<Rom>): (r: seq<string>)
    ensures |charIndex| > 0 ==> |r| == |charIndex| + 1 && r[0] == AllTitle
    ensures |charIndex| > 0 ==> StrictlySorted(r[1..], StrLt)
    ensures |charIndex| > 0 ==> forall k :: k in r[1..] <==> k in charIndex
    ensures |charIndex| == 0 ==> r == Letters(roms)
  {
    if |charIndex| > 0 then [AllTitle] + SortedStrings(charIndex.Keys)
    else
      GroupedLetters(roms);
      LettersOf(GroupedSections(roms))
  }

  function LettersOf(sections: seq<RomSection>): (r: seq<string>)
    ensures |r| == |sections|
    ensures forall i | 0 <= i < |r| :: r[i] == sections[i].letter
  {
    seq(|sections|, i requires 0 <= i < |sections| => sections[i].letter)
  }

  /** The section letters are the distinct keys in increasing order. */
  lemma GroupedLetters(roms: seq<Rom>)
    ensures LettersOf(GroupedSections(roms)) == Letters(roms)
  {
    var r := GroupedSections(roms);
    assert |r| == |Letters(roms)|;
    assert forall i | 0 <= i < |r| :: r[i].letter == Letters(roms)[i];
  }

  /** Without a character index the titles are strictly increasing and name every ROM's section. */
  lemma FallbackTitlesCoverRoms(roms: seq<Rom>, rom: Rom)
    requires rom in roms
    ensures StrictlySorted(SectionTitles(map[], roms), StrLt)
    ensures SectionKey(rom.name) in SectionTitles(map[], roms)
  {
    var letters := Letters(roms);
    assert SectionKey(rom.name) in letters;
    var i :| 0 <= i < |letters| && letters[i] == SectionKey(rom.name);
    assert SectionTitles(map[], roms)[i] == SectionKey(rom.name);
  }

  /** `scrollToSection`: tapping a title asks for its character, or for none on "ALL". */
  function TapTitle(title: string): (r: Option<string>)
    ensures r == PickedChar(title)
    ensures r.None? <==> title == AllTitle
  {
    if title == AllTitle then None else Some(title)
  }

  // ---------------------------------------------------------------------
  // Load-more triggers
  // ---------------------------------------------------------------------

  /** `isLastRomInList`: the ROM has the id of the list's last ROM. */
  function IsLastRomInList(roms: seq<Rom>, rom: Rom): (r: bool)
    ensures roms == [] ==> !r
    ensures r <==> exists i | 0 <= i < |roms| :: i == |roms| - 1 && roms[i].id == rom.id
  {
    if roms == [] then false else rom.id == roms[|roms| - 1].id
  }

  /** A freshly appended ROM is the last in the list. */
  lemma AppendedIsLast(roms: seq<Rom>, rom: Rom)
    ensures IsLastRomInList(roms + [rom], rom)
  {
    assert (roms + [rom])[|roms|] == rom;
  }

  function RomId(rom: Rom): int {
    rom.id
  }

  /** The position of the first ROM with `id`, if any. */
  function FirstIndexOf(roms: seq<Rom>, id: int): Option<nat> {
    FirstIndexWhere(roms, RomId, id)
  }

  /** `isLastRom`: the ROM's first position is within the list's last three. */
  function IsLastRom(roms: seq<Rom>, rom: Rom): (r: bool)
    ensures r <==> exists i | 0 <= i < |roms| :: roms[i].id == rom.id
                     && (forall j | 0 <= j < i :: roms[j].id != rom.id) && i >= |roms| - 3
  {
    match FirstIndexOf(roms, rom.id)
    case None => false
    case Some(i) => i >= |roms| - 3
  }

  /** With distinct ids, the ROM at position k triggers loading exactly when k is among the last three. */
  lemma LastThreeTrigger(roms: seq<Rom>, k: nat)
    requires k < |roms|
    requires forall i, j | 0 <= i < j < |roms| :: roms[i].id != roms[j].id
    ensures IsLastRom(roms, roms[k]) <==> k + 3 >= |roms|
  {
    var r := FirstIndexOf(roms, roms[k].id);
    assert r == Some(k);
  }

  /** In a list of at most three ROMs every ROM triggers loading. */
  lemma ShortListAlwaysTriggers(roms: seq<Rom>, rom: Rom)
    requires |roms| <= 3 && rom in roms
    ensures IsLastRom(roms, rom)
  {
    var k :| 0 <= k < |roms| && roms[k] == rom;
    assert FirstIndexOf(roms, rom.id).Some?;
  }

  // ---------------------------------------------------------------------
  // The table's sort toggle
  // ---------------------------------------------------------------------

  /**
   * `toggleSort`: the requested `order_by` and `order_dir`. The current
   * field flips direction; any other field starts ascending.
   */
  function ToggleSort(currentOrderBy: string, currentOrderDir: string, field: SortField): (r: (string, string))
    ensures r.0 == field.Raw()
    ensures r.1 == Desc.Raw() <==> FieldFromRaw(currentOrderBy) == field && DirectionFromRaw(currentOrderDir) == Asc
    ensures r.1 == Asc.Raw() || r.1 == Desc.Raw()
  {
    var newDirection :=
      if FieldFromRaw(currentOrderBy) == field then
        (if DirectionFromRaw(currentOrderDir) == Asc then Desc else Asc)
      else Asc;
    (field.Raw(), newDirection.Raw())
  }

  /** Tapping the same header twice restores the direction it started from. */
  lemma ToggleTwice(field: SortField, d: SortDirection)
    ensures var once := ToggleSort(field.Raw(), d.Raw(), field);
            ToggleSort(once.0, once.1, field) == (field.Raw(), d.Raw())
  {
    RawRoundTrip(field, d);
  }

  // ---------------------------------------------------------------------
  // Emoji
  // ---------------------------------------------------------------------

  const Globe := "\U{1F30D}"
  const SpeakingHead := "\U{1F5E3}\U{FE0F}"

  /** Flags: pairs of regional indicator symbols. */
  const FlagAU := "\U{1F1E6}\U{1F1FA}"
  const FlagBR := "\U{1F1E7}\U{1F1F7}"
  const FlagCA := "\U{1F1E8}\U{1F1E6}"
  const FlagCN := "\U{1F1E8}\U{1F1F3}"
  const FlagDE := "\U{1F1E9}\U{1F1EA}"
  const FlagDK := "\U{1F1E9}\U{1F1F0}"
  const FlagES := "\U{1F1EA}\U{1F1F8}"
  const FlagEU := "\U{1F1EA}\U{1F1FA}"
  const FlagFI := "\U{1F1EB}\U{1F1EE}"
  const FlagFR := "\U{1F1EB}\U{1F1F7}"
  const FlagGB := "\U{1F1EC}\U{1F1E7}"
  const FlagIT := "\U{1F1EE}\U{1F1F9}"
  const FlagJP := "\U{1F1EF}\U{1F1F5}"
  const FlagKR := "\U{1F1F0}\U{1F1F7}"
  const FlagNL := "\U{1F1F3}\U{1F1F1}"
  const FlagNO := "\U{1F1F3}\U{1F1F4}"
  const FlagPT := "\U{1F1F5}\U{1F1F9}"
  const FlagRU := "\U{1F1F7}\U{1F1FA}"
  const FlagSE := "\U{1F1F8}\U{1F1EA}"
  const FlagUS := "\U{1F1FA}\U{1F1F8}"

  predicate IsRegionalFlag(s: string) {
    |s| == 2 && 0x1F1E6 <= s[0] as int <= 0x1F1FF && 0x1F1E6 <= s[1] as int <= 0x1F1FF
  }

  /** The region table of `flagEmoji(for:)`. */
  function RegionFlag(code: string): (r: Option<string>)
    ensures r.Some? ==> r.value == Globe || IsRegionalFlag(r.value)
  {
    match code
    case "USA" => Some(FlagUS)
    case "US" => Some(FlagUS)
    case "NTSC" => Some(FlagUS)
    case "Europe" => Some(FlagEU)
    case "EUR" => Some(FlagEU)
    case "PAL" => Some(FlagEU)
    case "Japan" => Some(FlagJP)
    case "JPN" => Some(FlagJP)
    case "JP" => Some(FlagJP)
    case "Germany" => Some(FlagDE)
    case "GER" => Some(FlagDE)
    case "DE" => Some(FlagDE)
    case "France" => Some(FlagFR)
    case "FR" => Some(FlagFR)
    case "FRA" => Some(FlagFR)
    case "Spain" => Some(FlagES)
    case "ES" => Some(FlagES)
    case "ESP" => Some(FlagES)
    case "Italy" => Some(FlagIT)
    case "IT" => Some(FlagIT)
    case "ITA" => Some(FlagIT)
    case "UK" => Some(FlagGB)
    case "GB" => Some(FlagGB)
    case "United Kingdom" => Some(FlagGB)
    case "Canada" => Some(FlagCA)
    case "CA" => Some(FlagCA)
    case "CAN" => Some(FlagCA)
    case "Australia" => Some(FlagAU)
    case "AU" => Some(FlagAU)
    case "AUS" => Some(FlagAU)
    case "Korea" => Some(FlagKR)
    case "KR" => Some(FlagKR)
    case "KOR" => Some(FlagKR)
    case "Brazil" => Some(FlagBR)
    case "BR" => Some(FlagBR)
    case "BRA" => Some(FlagBR)
    case "World" => Some(Globe)
    case "WW" => Some(Globe)
    case "WORLD" => Some(Globe)
    case _ => None
  }

  /** The language table of `languageEmoji(for:)`. */
  function LanguageFlag(code: string): (r: Option<string>)
    ensures r.Some? ==> IsRegionalFlag(r.value)
  {
    match code
    case "English" => Some(FlagGB)
    case "EN" => Some(FlagGB)
    case "en" => Some(FlagGB)
    case "German" => Some(FlagDE)
    case "DE" => Some(FlagDE)
    case "de" => Some(FlagDE)
    case "French" => Some(FlagFR)
    case "FR" => Some(FlagFR)
    case "fr" => Some(FlagFR)
    case "Spanish" => Some(FlagES)
    case "ES" => Some(FlagES)
    case "es" => Some(FlagES)
    case "Italian" => Some(FlagIT)
    case "IT" => Some(FlagIT)
    case "it" => Some(FlagIT)
    case "Japanese" => Some(FlagJP)
    case "JP" => Some(FlagJP)
    case "ja" => Some(FlagJP)
    case "Korean" => Some(FlagKR)
    case "KR" => Some(FlagKR)
    case "ko" => Some(FlagKR)
    case "Portuguese" => Some(FlagPT)
    case "PT" => Some(FlagPT)
    case "pt" => Some(FlagPT)
    case "Dutch" => Some(FlagNL)
    case "NL" => Some(FlagNL)
    case "nl" => Some(FlagNL)
    case "Russian" => Some(FlagRU)
    case "RU" => Some(FlagRU)
    case "ru" => Some(FlagRU)
    case "Chinese" => Some(FlagCN)
    case "CN" => Some(FlagCN)
    case "zh" => Some(FlagCN)
    case "Swedish" => Some(FlagSE)
    case "SE" => Some(FlagSE)
    case "sv" => Some(FlagSE)
    case "Norwegian" => Some(FlagNO)
    case "NO" => Some(FlagNO)
    case "nb" => Some(FlagNO)
    case "Finnish" => Some(FlagFI)
    case "FI" => Some(FlagFI)
    case "fi" => Some(FlagFI)
    case "Danish" => Some(FlagDK)
    case "DK" => Some(FlagDK)
    case "da" => Some(FlagDK)
    case _ => None
  }

  /** `flagEmoji(for:)`: the listed flag, or the globe for an unlisted code. */
  function FlagEmoji(regionCode: string): (r: string)
    ensures r == Globe || IsRegionalFlag(r)
    ensures RegionFlag(regionCode).None? ==> r == Globe
  {
    RegionFlag(regionCode).GetOr(Globe)
  }

  /** `languageEmoji(for:)`: the listed flag, or the speaking head for an unlisted code. */
  function LanguageEmoji(languageCode: string): (r: string)
    ensures r == SpeakingHead || IsRegionalFlag(r)
    ensures r == SpeakingHead <==> LanguageFlag(languageCode).None?
  {
    LanguageFlag(languageCode).GetOr(SpeakingHead)
  }

  /** Region codes are matched exactly: an unlisted spelling falls back to the globe. */
  lemma RegionFallback()
    ensures FlagEmoji("usa") == Globe && FlagEmoji("") == Globe
  {
  }

  /** The aliases of one language give the same flag. */
  lemma LanguageAliases()
    ensures LanguageEmoji("English") == LanguageEmoji("EN") == LanguageEmoji("en") == FlagGB
  {
  }
}

=== FILE: seqs.dfy ===
/**
 * Sequence helpers in the style of Swift's `filter`, `map`, `reduce(0, +)`
 * and `removeFirst(k)`.
 */
module Seqs {
  import opened Base

  /** `a` is `b` with some elements left out, the rest in their order. */
  predicate SubsequenceOf<T(==)>(a: seq<T>, b: seq<T>)
    decreases |b|
  {
    if a == [] then true
    else if b == [] then false
    else if a[0] == b[0] then SubsequenceOf(a[1..], b[1..])
    else SubsequenceOf(a, b[1..])
  }

  lemma {:induction false} SubsequenceOfSelf<T>(s: seq<T>)
    ensures SubsequenceOf(s, s)
    decreases |s|
  {
    if s != [] {
      SubsequenceOfSelf(s[1..]);
    }
  }

  lemma {:induction false} SubsequenceMembers<T>(a: seq<T>, b: seq<T>)
    requires SubsequenceOf(a, b)
    ensures forall x | x in a :: x in b
    decreases |b|
  {
    if a != [] && b != [] {
      if a[0] == b[0] {
        SubsequenceMembers(a[1..], b[1..]);
        assert forall x | x in a :: x == a[0] || x in a[1..];
      } else {
        SubsequenceMembers(a, b[1..]);
      }
    }
  }

  /** `filter`: the elements satisfying `p`, in their original order. */
  function Filter<T>(s: seq<T>, p: T -> bool): (r: seq<T>)
    ensures |r| <= |s|
    ensures forall x | x in r :: x in s && p(x)
    ensures forall x | x in s && p(x) :: x in r
    ensures SubsequenceOf(r, s)
    decreases |s|
  {
    if s == [] then []
    else
      var rest := Filter(s[1..], p);
      assert forall x | x in s :: x == s[0] || x in s[1..];
      if p(s[0]) then [s[0]] + rest
      else
        SkipHead(rest, s);
        rest
  }

  lemma {:induction false} SkipHead<T>(a: seq<T>, s: seq<T>)
    requires s != [] && SubsequenceOf(a, s[1..])
    ensures SubsequenceOf(a, s)
    decreases |s|, 1
  {
    if a != [] && a[0] == s[0] {
      SubsequenceDropHead(a, s[1..]);
    }
  }

  lemma {:induction false} SubsequenceDropHead<T>(a: seq<T>, b: seq<T>)
    requires a != [] && SubsequenceOf(a, b)
    ensures SubsequenceOf(a[1..], b)
    decreases |b|
  {
    if b != [] {
      if a[0] == b[0] {
        SkipHead(a[1..], b);
      } else {
        SubsequenceDropHead(a, b[1..]);
        SkipHead(a[1..], b);
      }
    }
  }

  /** Filtering with a predicate every element satisfies changes nothing. */
  lemma {:induction false} FilterAll<T>(s: seq<T>, p: T -> bool)
    requires forall x | x in s :: p(x)
    ensures Filter(s, p) == s
    decreases |s|
  {
    if s != [] {
      assert s[0] in s;
      FilterAll(s[1..], p);
      assert [s[0]] + s[1..] == s;
    }
  }

  /**
   * One pass of a chain of filters, skipped when `active` is false; callers
   * skip a pass only when `p` holds throughout, so skipping filters nothing.
   */
  function FilterPass<T>(s: seq<T>, active: bool, p: T -> bool): (r: seq<T>)
    requires !active ==> forall x | x in s :: p(x)
    ensures r == Filter(s, p)
  {
    if active then Filter(s, p)
    else
      FilterAll(s, p);
      s
  }

  /** A filter that rejects some element of `s` keeps fewer elements than `s` has. */
  lemma {:induction false} FilterShorter<T>(s: seq<T>, p: T -> bool, x: T)
    requires x in s && !p(x)
    ensures |Filter(s, p)| < |s|
    decreases |s|
  {
    if p(s[0]) {
      assert x in s[1..];
      FilterShorter(s[1..], p, x);
    }
  }

  /** Two filters in a row are one filter by the conjunction `r`. */
  lemma {:induction false} FilterFilter<T>(s: seq<T>, p: T -> bool, q: T -> bool, r: T -> bool)
    requires forall x | x in s :: r(x) == (p(x) && q(x))
    ensures Filter(Filter(s, p), q) == Filter(s, r)
    decreases |s|
  {
    if s != [] {
      assert s[0] in s;
      assert forall x | x in s[1..] :: x in s;
      FilterFilter(s[1..], p, q, r);
    }
  }

  /** Five filters in a row are one filter by their conjunction `all`. */
  lemma FilterFive<T>(s: seq<T>, p1: T -> bool, p2: T -> bool, p3: T -> bool, p4: T -> bool, p5: T -> bool,
                      all: T -> bool)
    requires forall x | x in s :: all(x) == (p1(x) && p2(x) && p3(x) && p4(x) && p5(x))
    ensures Filter(Filter(Filter(Filter(Filter(s, p1), p2), p3), p4), p5) == Filter(s, all)
  {
    var q2 := (x: T) => p1(x) && p2(x);
    var q3 := (x: T) => p1(x) && p2(x) && p3(x);
    var q4 := (x: T) => p1(x) && p2(x) && p3(x) && p4(x);
    FilterFilter(s, p1, p2, q2);
    FilterFilter(s, q2, p3, q3);
    FilterFilter(s, q3, p4, q4);
    FilterFilter(s, q4, p5, all);
  }

  /** Filters by predicates that agree on the elements give the same result. */
  lemma {:induction false} FilterExt<T>(s: seq<T>, p: T -> bool, q: T -> bool)
    requires forall x | x in s :: p(x) == q(x)
    ensures Filter(s, p) == Filter(s, q)
    decreases |s|
  {
    if s != [] {
      assert s[0] in s;
      assert forall x | x in s[1..] :: x in s;
      FilterExt(s[1..], p, q);
    }
  }

  /** Filtering by a disjoint union splits the filtered elements between the two parts. */
  lemma {:induction false} FilterUnion<T>(s: seq<T>, p: T -> bool, q: T -> bool, pq: T -> bool)
    requires forall x | x in s :: pq(x) == (p(x) || q(x)) && !(p(x) && q(x))
    ensures multiset(Filter(s, pq)) == multiset(Filter(s, p)) + multiset(Filter(s, q))
    decreases |s|
  {
    if s != [] {
      assert s[0] in s;
      assert forall x | x in s[1..] :: x in s;
      FilterUnion(s[1..], p, q, pq);
    }
  }

  /** Filtering a sequence extended by one element extends the filtered sequence by that element when it passes. */
  lemma {:induction false} FilterAppendLast<T>(s: seq<T>, x: T, p: T -> bool)
    ensures Filter(s + [x], p) == Filter(s, p) + (if p(x) then [x] else [])
    decreases |s|
  {
    if s == [] {
      assert [] + [x] == [x];
      assert [x][1..] == [];
    } else {
      assert (s + [x])[0] == s[0];
      assert (s + [x])[1..] == s[1..] + [x];
      FilterAppendLast(s[1..], x, p);
    }
  }

  function Sum(s: seq<int>): int
    decreases |s|
  {
    if s == [] then 0 else Sum(s[..|s| - 1]) + s[|s| - 1]
  }

  lemma {:induction false} SumAppend(a: seq<int>, b: seq<int>)
    ensures Sum(a + b) == Sum(a) + Sum(b)
    decreases |b|
  {
    if b == [] {
      assert a + b == a;
    } else {
      assert (a + b)[..|a + b| - 1] == a + b[..|b| - 1];
      SumAppend(a, b[..|b| - 1]);
    }
  }

  /** `removeFirst(k)` keeps the last `|s| - k` elements. */
  function DropFirst<T>(s: seq<T>, k: nat): (r: seq<T>)
    requires k <= |s|
    ensures |r| == |s| - k
    ensures forall i | 0 <= i < |r| :: r[i] == s[i + k]
  {
    s[k..]
  }

  /** `firstIndex(where: { key($0) == k })`: the first position whose key is `k`, if any. */
  function FirstIndexWhere<T>(s: seq<T>, key: T -> int, k: int): (r: Option<nat>)
    ensures r.Some? ==> r.value < |s| && key(s[r.value]) == k
    ensures r.Some? ==> forall j | 0 <= j < r.value :: key(s[j]) != k
    ensures r.None? <==> forall j | 0 <= j < |s| :: key(s[j]) != k
    decreases |s|
  {
    if s == [] then None
    else if key(s[0]) == k then Some(0)
    else match FirstIndexWhere(s[1..], key, k)
      case None => None
      case Some(i) => Some(i + 1)
  }

  /** A position holding the key with no earlier one is the position found. */
  lemma {:induction false} FirstIndexWhereIsFirst<T>(s: seq<T>, key: T -> int, k: int, i: nat)
    requires i < |s| && key(s[i]) == k
    requires forall j | 0 <= j < i :: key(s[j]) != k
    ensures FirstIndexWhere(s, key, k) == Some(i)
    decreases i
  {
    if i > 0 {
      FirstIndexWhereIsFirst(s[1..], key, k, i - 1);
    }
  }
}

=== FILE: sftp_connection.dfy ===
/**
 * A saved SFTP device: its record, the parts that are persisted, its
 * display string and its run-time status.
 */
module SftpConnections {
  import opened Base
  import opened Strings

  datatype AuthenticationType = Password | SshKey | PasswordWithKey
  {
    function Raw(): string {
      match this
      case Password => "password"
      case SshKey => "ssh_key"
      case PasswordWithKey => "password_with_key"
    }
  }

  /** Decoding an authentication type from its raw value; unknown values do not decode. */
  function AuthFromRaw(raw: string): (r: Option<AuthenticationType>)
    ensures forall t: AuthenticationType :: r == Some(t) <==> t.Raw() == raw
  {
    if raw == "password" then Some(Password)
    else if raw == "ssh_key" then Some(SshKey)
    else if raw == "password_with_key" then Some(PasswordWithKey)
    else None
  }

  datatype ConnectionStatus = Disconnected | Connecting | Connected | Authenticating | Error

  /** Dates are seconds since the reference date; ids stand for UUIDs. */
  datatype SftpConnection = SftpConnection(
    id: int,
    name: string,
    host: string,
    port: int,
    username: string,
    authenticationType: AuthenticationType,
    rootPath: string,
    isDefault: bool,
    lastConnectedAt: Option<int>,
    createdAt: int,
    updatedAt: int,
    status: ConnectionStatus,
    lastError: Option<string>)

  /** The memberwise initialiser with its defaults, created at `now`. */
  function NewConnection(id: int, name: string, host: string, username: string, now: int): (r: SftpConnection)
    ensures r.port == 22 && r.authenticationType == Password && r.rootPath == "/" && !r.isDefault
    ensures r.lastConnectedAt.None? && r.createdAt == now && r.updatedAt == now
    ensures r.status == Disconnected && r.lastError.None?
    ensures r.id == id && r.name == name && r.host == host && r.username == username
  {
    SftpConnection(id, name, host, 22, username, Password, "/", false, None, now, now, Disconnected, None)
  }

  /** `connectionString`: "username@host:port". */
  function ConnectionString(c: SftpConnection): string {
    c.username + "@" + c.host + ":" + IntToString(c.port)
  }

  /** With an '@'-free user and host, the string splits back at '@' into the user and "host:port". */
  lemma ConnectionStringSplits(c: SftpConnection)
    requires c.username != [] && Free(c.username, '@') && Free(c.host, '@')
    ensures Split(ConnectionString(c), '@') == [c.username, c.host + ":" + IntToString(c.port)]
  {
    var tail := c.host + ":" + IntToString(c.port);
    IntToStringChars(c.port);
    assert Free(tail, '@') by {
      forall i | 0 <= i < |tail| ensures tail[i] != '@' {
        if i < |c.host| {
          assert tail[i] == c.host[i];
        } else if i > |c.host| {
          assert tail[i] == IntToString(c.port)[i - |c.host| - 1];
        }
      }
    }
    var pieces := [c.username, tail];
    assert ValidPieces(pieces, '@');
    SplitJoin(pieces, '@');
    assert Join(pieces, "@") == ConnectionString(c);
  }

  /** `==`: connections are the same exactly when their ids are. */
  predicate Same(a: SftpConnection, b: SftpConnection) {
    a.id == b.id
  }

  /** Sameness is an equivalence that ignores every field but the id. */
  lemma SameIsEquivalence(a: SftpConnection, b: SftpConnection, c: SftpConnection)
    ensures Same(a, a)
    ensures Same(a, b) ==> Same(b, a)
    ensures Same(a, b) && Same(b, c) ==> Same(a, c)
    ensures Same(a, a.(name := b.name, host := b.host, port := b.port, status := b.status))
  {
  }

  predicate IsConnected(c: SftpConnection) {
    c.status == Connected
  }

  /** `updateStatus(_:error:)` at time `now`. */
  function UpdateStatus(c: SftpConnection, newStatus: ConnectionStatus, error: Option<string>, now: int): (r: SftpConnection)
    ensures r.status == newStatus && r.lastError == error && r.updatedAt == now
    ensures r.lastConnectedAt == if newStatus == Connected then Some(now) else c.lastConnectedAt
    ensures r.(status := c.status, lastError := c.lastError, lastConnectedAt := c.lastConnectedAt, updatedAt := c.updatedAt) == c
  {
    var touched := if newStatus == Connected then c.(lastConnectedAt := Some(now)) else c;
    touched.(status := newStatus, lastError := error, updatedAt := now)
  }

  /** Connecting makes the connection report itself connected. */
  lemma UpdateToConnected(c: SftpConnection, now: int)
    ensures IsConnected(UpdateStatus(c, Connected, None, now))
    ensures UpdateStatus(c, Connected, None, now).lastConnectedAt == Some(now)
  {
  }

  /** The persisted fields: the coding keys, without status and last error. */
  datatype StoredConnection = StoredConnection(
    id: int, name: string, host: string, port: int, username: string,
    authenticationType: AuthenticationType, rootPath: string, isDefault: bool,
    lastConnectedAt: Option<int>, createdAt: int, updatedAt: int)

  /** `encode(to:)`: the run-time fields are not written. */
  function Encode(c: SftpConnection): (r: StoredConnection)
    ensures r.id == c.id && r.name == c.name && r.host == c.host && r.port == c.port
    ensures r.username == c.username && r.authenticationType == c.authenticationType
    ensures r.rootPath == c.rootPath && r.isDefault == c.isDefault
    ensures r.lastConnectedAt == c.lastConnectedAt && r.createdAt == c.createdAt && r.updatedAt == c.updatedAt
  {
    StoredConnection(c.id, c.name, c.host, c.port, c.username, c.authenticationType, c.rootPath,
                     c.isDefault, c.lastConnectedAt, c.createdAt, c.updatedAt)
  }

  /** `init(from:)`: the stored fields, with the status disconnected and no error. */
  function Decode(s: StoredConnection): (r: SftpConnection)
    ensures r.status == Disconnected && r.lastError.None?
    ensures Encode(r) == s
  {
    SftpConnection(s.id, s.name, s.host, s.port, s.username, s.authenticationType, s.rootPath,
                   s.isDefault, s.lastConnectedAt, s.createdAt, s.updatedAt, Disconnected, None)
  }

  /** A saved connection comes back with every persisted field, disconnected and without an error. */
  lemma DecodeEncode(c: SftpConnection)
    ensures Decode(Encode(c)) == c.(status := Disconnected, lastError := None)
  {
  }

  /** Status changes are never persisted. */
  lemma StatusNotPersisted(c: SftpConnection, status: ConnectionStatus, error: Option<string>)
    ensures Encode(c.(status := status, lastError := error)) == Encode(c)
  {
  }
}

=== FILE: sftp_repository.dfy ===
/**
 * The SFTP connection store: the saved connections, the default device,
 * the credentials kept in the keychain and each device's favourite
 * directories. The keychain and the user defaults are modelled as maps.
 */
module SftpRepository {
  import opened Base
  import opened Seqs
  import opened SftpConnections

  /** `SFTPCredentials` */
  datatype Credentials = Credentials(
    host: string, port: int, username: string, authenticationType: AuthenticationType,
    password: Option<string>, privateKey: Option<string>, passphrase: Option<string>)

  /** The saved connections, each device's favourites, and the keychain's three entries per connection. */
  datatype Store = Store(
    connections: seq<SftpConnection>,
    favorites: map<int, seq<string>>,
    passwords: map<int, string>,
    privateKeys: map<int, string>,
    passphrases: map<int, string>)

  function ConnectionId(c: SftpConnection): int {
    c.id
  }

  /** The position of the first connection with `id`, if any. */
  function IndexOf(cs: seq<SftpConnection>, id: int): Option<nat> {
    FirstIndexWhere(cs, ConnectionId, id)
  }

  /** `getConnection(by:)`: the first connection with the id. */
  function GetConnection(store: Store, id: int): (r: Option<SftpConnection>)
    ensures r.Some? ==> r.value in store.connections && r.value.id == id
    ensures r.None? <==> forall c | c in store.connections :: c.id != id
  {
    match IndexOf(store.connections, id)
    case None => None
    case Some(i) => Some(store.connections[i])
  }

  predicate NonEmpty(s: Option<string>) {
    s.Some? && s.value != []
  }

  /** The three keychain items kept per connection. */
  datatype KeychainItem = PasswordItem | PrivateKeyItem | PassphraseItem

  /**
   * A store after a sequence of keychain writes, and whether one of them
   * threw. The writes made before the failing one stay.
   */
  datatype Attempt = Attempt(store: Store, failed: bool)

  /**
   * The keychain's `save(key:value:)`: the old item is deleted first and
   * the new one then added; when the add is refused the entry is left
   * empty and the call throws.
   */
  function KeychainSave(entries: map<int, string>, id: int, value: string, refused: bool): (r: map<int, string>)
    ensures !refused ==> id in r && r[id] == value
    ensures refused ==> id !in r
    ensures forall k | k != id :: (k in r <==> k in entries) && (k in r ==> r[k] == entries[k])
  {
    if refused then entries - {id} else entries[id := value]
  }

  /**
   * The keychain's `saveSSHKey`: the private key is always written; the
   * passphrase only when it is given and non-empty, so an earlier one
   * otherwise stays. `refused` holds the items whose add the keychain
   * refuses; a refused key stops before the passphrase.
   */
  function SaveSshKey(store: Store, id: int, privateKey: string, passphrase: Option<string>,
                      refused: set<KeychainItem>): (r: Attempt)
    ensures r.failed <==> PrivateKeyItem in refused || (NonEmpty(passphrase) && PassphraseItem in refused)
    ensures !r.failed ==> r.store.privateKeys == store.privateKeys[id := privateKey]
    ensures !r.failed && NonEmpty(passphrase) ==> r.store.passphrases == store.passphrases[id := passphrase.value]
    ensures !r.failed && !NonEmpty(passphrase) ==> r.store.passphrases == store.passphrases
    ensures PrivateKeyItem in refused ==>
              r.store.privateKeys == store.privateKeys - {id} && r.store.passphrases == store.passphrases
    ensures PrivateKeyItem !in refused && NonEmpty(passphrase) && PassphraseItem in refused ==>
              r.store.privateKeys == store.privateKeys[id := privateKey] && r.store.passphrases == store.passphrases - {id}
    ensures r.store.connections == store.connections && r.store.favorites == store.favorites
    ensures r.store.passwords == store.passwords
  {
    var keyed := store.(privateKeys := KeychainSave(store.privateKeys, id, privateKey, PrivateKeyItem in refused));
    if PrivateKeyItem in refused then Attempt(keyed, true)
    else if NonEmpty(passphrase) then
      Attempt(keyed.(passphrases := KeychainSave(store.passphrases, id, passphrase.value, PassphraseItem in refused)),
              PassphraseItem in refused)
    else Attempt(keyed, false)
  }

  /** The keychain's `getSSHKey`: the stored key with whatever passphrase is stored, or nothing without a key. */
  function GetSshKey(store: Store, id: int): (r: Option<(string, Option<string>)>)
    ensures r.Some? <==> id in store.privateKeys
    ensures r.Some? ==> r.value.0 == store.privateKeys[id]
    ensures r.Some? ==> r.value.1 == (if id in store.passphrases then Some(store.passphrases[id]) else None)
  {
    if id !in store.privateKeys then None
    else Some((store.privateKeys[id], if id in store.passphrases then Some(store.passphrases[id]) else None))
  }

  /**
   * Saving a key reads back the key, and the new passphrase when one was
   * given; without one, the passphrase read back is the one stored before.
   */
  lemma SaveSshKeyThenGet(store: Store, id: int, privateKey: string, passphrase: Option<string>, refused: set<KeychainItem>)
    requires !SaveSshKey(store, id, privateKey, passphrase, refused).failed
    ensures GetSshKey(SaveSshKey(store, id, privateKey, passphrase, refused).store, id).Some?
    ensures GetSshKey(SaveSshKey(store, id, privateKey, passphrase, refused).store, id).value.0 == privateKey
    ensures NonEmpty(passphrase) ==>
              GetSshKey(SaveSshKey(store, id, privateKey, passphrase, refused).store, id).value.1 == passphrase
    ensures !NonEmpty(passphrase) ==>
              GetSshKey(SaveSshKey(store, id, privateKey, passphrase, refused).store, id).value.1
              == (if id in store.passphrases then Some(store.passphrases[id]) else None)
  {
  }

  /** A stored passphrase survives re-saving the key with an empty or missing one. */
  lemma OldPassphraseSurvives(store: Store, id: int, privateKey: string, refused: set<KeychainItem>)
    requires id in store.passphrases && PrivateKeyItem !in refused
    ensures GetSshKey(SaveSshKey(store, id, privateKey, None, refused).store, id).value.1 == Some(store.passphrases[id])
    ensures GetSshKey(SaveSshKey(store, id, privateKey, Some(""), refused).store, id).value.1 == Some(store.passphrases[id])
  {
  }

  /**
   * A refused key write loses the key stored before: the old item was
   * deleted ahead of the add, so afterwards no key can be read back.
   */
  lemma RefusedKeyForgetsOld(store: Store, id: int, privateKey: string, passphrase: Option<string>, refused: set<KeychainItem>)
    requires PrivateKeyItem in refused
    ensures SaveSshKey(store, id, privateKey, passphrase, refused).failed
    ensures GetSshKey(SaveSshKey(store, id, privateKey, passphrase, refused).store, id).None?
  {
  }

  /** Whether `saveConnection` writes the password: a non-empty one, for the types that use it. */
  predicate WritesPassword(c: SftpConnection, creds: Credentials) {
    || (c.authenticationType == Password && NonEmpty(creds.password))
    || (c.authenticationType == PasswordWithKey && NonEmpty(creds.password) && NonEmpty(creds.privateKey))
  }

  /** Whether `saveConnection` writes the key: a non-empty one, for the types that use it. */
  predicate WritesKey(c: SftpConnection, creds: Credentials) {
    || (c.authenticationType == SshKey && NonEmpty(creds.privateKey))
    || (c.authenticationType == PasswordWithKey && NonEmpty(creds.password) && NonEmpty(creds.privateKey))
  }

  /**
   * The keychain writes of `saveConnection`: only credentials that the
   * authentication type uses and that are non-empty, the password before
   * the key. The first refused write throws and ends the save.
   */
  function SaveCredentials(store: Store, c: SftpConnection, creds: Credentials, refused: set<KeychainItem>): (r: Attempt)
    ensures r.store.connections == store.connections && r.store.favorites == store.favorites
    ensures r.failed <==> || (WritesPassword(c, creds) && PasswordItem in refused)
                          || (WritesKey(c, creds) && PrivateKeyItem in refused)
                          || (WritesKey(c, creds) && NonEmpty(creds.passphrase) && PassphraseItem in refused)
    ensures !r.failed ==>
              r.store.passwords == if WritesPassword(c, creds) then store.passwords[c.id := creds.password.value] else store.passwords
    ensures !r.failed && WritesKey(c, creds) ==>
              && r.store.privateKeys == store.privateKeys[c.id := creds.privateKey.value]
              && r.store.passphrases == (if NonEmpty(creds.passphrase) then store.passphrases[c.id := creds.passphrase.value]
                                         else store.passphrases)
    ensures !WritesKey(c, creds) ==> r.store.privateKeys == store.privateKeys && r.store.passphrases == store.passphrases
    ensures WritesPassword(c, creds) && PasswordItem in refused ==>
              c.id !in r.store.passwords && r.store.privateKeys == store.privateKeys && r.store.passphrases == store.passphrases
  {
    match c.authenticationType
    case Password =>
      if NonEmpty(creds.password) then
        Attempt(store.(passwords := KeychainSave(store.passwords, c.id, creds.password.value, PasswordItem in refused)),
                PasswordItem in refused)
      else Attempt(store, false)
    case SshKey =>
      if NonEmpty(creds.privateKey) then SaveSshKey(store, c.id, creds.privateKey.value, creds.passphrase, refused)
      else Attempt(store, false)
    case PasswordWithKey =>
      if NonEmpty(creds.password) && NonEmpty(creds.privateKey) then
        var withPassword := store.(passwords := KeychainSave(store.passwords, c.id, creds.password.value, PasswordItem in refused));
        if PasswordItem in refused then Attempt(withPassword, true)
        else SaveSshKey(withPassword, c.id, creds.privateKey.value, creds.passphrase, refused)
      else Attempt(store, false)
  }

  /** The list update of `saveConnection`: replaces the first entry with the same id in place, else appends. */
  function PlaceConnection(cs: seq<SftpConnection>, c: SftpConnection): (r: seq<SftpConnection>)
    ensures IndexOf(cs, c.id).Some? ==> r == cs[IndexOf(cs, c.id).value := c]
    ensures IndexOf(cs, c.id).None? ==> r == cs + [c]
    ensures IndexOf(r, c.id).Some? && r[IndexOf(r, c.id).value] == c
    ensures forall d | d in cs && d.id != c.id :: d in r
  {
    match IndexOf(cs, c.id)
    case Some(i) =>
      var r := cs[i := c];
      FirstIndexWhereIsFirst(r, ConnectionId, c.id, i);
      assert forall d | d in cs && d.id != c.id :: d in r by {
        forall d | d in cs && d.id != c.id ensures d in r {
          var k :| 0 <= k < |cs| && cs[k] == d;
          assert r[k] == d;
        }
      }
      r
    case None =>
      var r := cs + [c];
      assert forall j | 0 <= j < |cs| :: r[j] == cs[j];
      FirstIndexWhereIsFirst(r, ConnectionId, c.id, |cs|);
      r
  }

  /**
   * `saveConnection(_:credentials:)`: the credentials are written first,
   * then the connection is placed in the list. A refused keychain write
   * throws before the list is touched.
   */
  function SaveConnection(store: Store, c: SftpConnection, creds: Credentials, refused: set<KeychainItem>): (r: Attempt)
    ensures r.failed <==> SaveCredentials(store, c, creds, refused).failed
    ensures r.failed ==> r.store.connections == store.connections
    ensures !r.failed && IndexOf(store.connections, c.id).Some? ==>
              r.store.connections == store.connections[IndexOf(store.connections, c.id).value := c]
    ensures !r.failed && IndexOf(store.connections, c.id).None? ==> r.store.connections == store.connections + [c]
    ensures |store.connections| <= |r.store.connections| <= |store.connections| + 1
    ensures !r.failed ==> GetConnection(r.store, c.id) == Some(c)
    ensures forall d | d in store.connections && d.id != c.id :: d in r.store.connections
    ensures r.store.favorites == store.favorites
  {
    var saved := SaveCredentials(store, c, creds, refused);
    if saved.failed then saved
    else Attempt(saved.store.(connections := PlaceConnection(store.connections, c)), false)
  }

  /**
   * Saving the same connection again changes no connection list, whether
   * the keychain accepts the credentials or refuses them both times.
   */
  lemma SaveTwice(store: Store, c: SftpConnection, creds: Credentials, refused: set<KeychainItem>)
    ensures SaveConnection(SaveConnection(store, c, creds, refused).store, c, creds, refused).store.connections
            == SaveConnection(store, c, creds, refused).store.connections
  {
    var first := SaveConnection(store, c, creds, refused);
    if !first.failed {
      var once := first.store.connections;
      var i := IndexOf(once, c.id);
      assert i.Some?;
      assert once[i.value] == c;
      assert once[i.value := c] == once;
    }
  }

  /** `deleteConnection`: every entry with the id goes, with its favourites and credentials. */
  function DeleteConnection(store: Store, c: SftpConnection): (r: Store)
    ensures forall d | d in r.connections :: d.id != c.id
    ensures forall d | d in store.connections && d.id != c.id :: d in r.connections
    ensures SubsequenceOf(r.connections, store.connections)
    ensures c.id !in r.favorites && c.id !in r.passwords && c.id !in r.privateKeys && c.id !in r.passphrases
    ensures forall k | k in store.favorites && k != c.id :: k in r.favorites && r.favorites[k] == store.favorites[k]
  {
    Store(Filter(store.connections, (d: SftpConnection) => d.id != c.id),
          store.favorites - {c.id}, store.passwords - {c.id}, store.privateKeys - {c.id}, store.passphrases - {c.id})
  }

  /** After deletion the connection can no longer be found. */
  lemma DeletedIsGone(store: Store, c: SftpConnection)
    ensures GetConnection(DeleteConnection(store, c), c.id).None?
    ensures GetFavorites(DeleteConnection(store, c), c.id) == []
  {
  }

  /** `setDefaultConnection`: exactly the entries with the id are marked default; nothing else changes. */
  function SetDefault(store: Store, c: SftpConnection): (r: Store)
    ensures |r.connections| == |store.connections|
    ensures forall i | 0 <= i < |r.connections| ::
      r.connections[i] == store.connections[i].(isDefault := store.connections[i].id == c.id)
    ensures r.favorites == store.favorites && r.passwords == store.passwords
    ensures r.privateKeys == store.privateKeys && r.passphrases == store.passphrases
  {
    var cs := store.connections;
    store.(connections := seq(|cs|, i requires 0 <= i < |cs| => cs[i].(isDefault := cs[i].id == c.id)))
  }

  /** `getDefaultConnection`: the first entry marked default. */
  function GetDefault(store: Store): (r: Option<SftpConnection>)
    ensures r.Some? ==> r.value in store.connections && r.value.isDefault
    ensures r.None? <==> forall d | d in store.connections :: !d.isDefault
  {
    FirstDefault(store.connections)
  }

  function FirstDefault(cs: seq<SftpConnection>): (r: Option<SftpConnection>)
    ensures r.Some? ==> r.value in cs && r.value.isDefault
    ensures r.None? <==> forall d | d in cs :: !d.isDefault
    ensures r.Some? ==> exists i | 0 <= i < |cs| :: cs[i] == r.value && forall j | 0 <= j < i :: !cs[j].isDefault
  {
    if cs == [] then None
    else if cs[0].isDefault then Some(cs[0])
    else
      var rest := FirstDefault(cs[1..]);
      assert forall d | d in cs :: d == cs[0] || d in cs[1..];
      if rest.Some? then
        var i :| 0 <= i < |cs[1..]| && cs[1..][i] == rest.value && forall j | 0 <= j < i :: !cs[1..][j].isDefault;
        assert cs[i + 1] == rest.value;
        rest
      else rest
  }

  /** After choosing a saved device as default, it is the one reported as default. */
  lemma SetDefaultThenGet(store: Store, c: SftpConnection)
    requires GetConnection(store, c.id).Some?
    ensures GetDefault(SetDefault(store, c)).Some?
    ensures GetDefault(SetDefault(store, c)).value.id == c.id
  {
    var r := SetDefault(store, c);
    var k := IndexOf(store.connections, c.id).value;
    assert r.connections[k].isDefault;
    assert r.connections[k] in r.connections;
  }

  /** `getCredentials(for:)`: what the keychain holds for the connection's authentication type. */
  function GetCredentials(store: Store, id: int): (r: Option<Credentials>)
    ensures r.None? <==> GetConnection(store, id).None?
    ensures r.Some? ==> r.value.host == GetConnection(store, id).value.host
    ensures r.Some? && r.value.authenticationType != SshKey ==>
              r.value.password == (if id in store.passwords then Some(store.passwords[id]) else None)
    ensures r.Some? && r.value.authenticationType == Password ==> r.value.privateKey.None?
    ensures r.Some? && r.value.authenticationType == Password ==> r.value.passphrase.None?
    ensures r.Some? && r.value.authenticationType != Password && GetSshKey(store, id).None? ==>
              r.value.privateKey.None? && r.value.passphrase.None?
    ensures r.Some? && r.value.authenticationType != Password && GetSshKey(store, id).Some? ==>
              r.value.privateKey == Some(GetSshKey(store, id).value.0) && r.value.passphrase == GetSshKey(store, id).value.1
  {
    match GetConnection(store, id)
    case None => None
    case Some(c) =>
      var base := Credentials(c.host, c.port, c.username, c.authenticationType, None, None, None);
      var password := if id in store.passwords then Some(store.passwords[id]) else None;
      var withKey :=
        match GetSshKey(store, id)
        case Some((key, passphrase)) => base.(privateKey := Some(key), passphrase := passphrase)
        case None => base;
      match c.authenticationType
      case Password => Some(base.(password := password))
      case SshKey => Some(withKey)
      case PasswordWithKey => Some(withKey.(password := password))
  }

  /** A saved non-empty password is what the credentials report afterwards. */
  lemma SavedPasswordIsReturned(store: Store, c: SftpConnection, creds: Credentials, refused: set<KeychainItem>)
    requires c.authenticationType == Password && NonEmpty(creds.password) && PasswordItem !in refused
    ensures !SaveConnection(store, c, creds, refused).failed
    ensures GetCredentials(SaveConnection(store, c, creds, refused).store, c.id).value.password == creds.password
  {
  }

  /** `getFavoriteDirectories(for:)`: the stored list, or none. */
  function GetFavorites(store: Store, id: int): seq<string> {
    if id in store.favorites then store.favorites[id] else []
  }

  /** `addFavoriteDirectory`: appends the path unless it is already listed. */
  function AddFavorite(store: Store, path: string, id: int): (r: Store)
    ensures path in GetFavorites(store, id) ==> r == store
    ensures path !in GetFavorites(store, id) ==> GetFavorites(r, id) == GetFavorites(store, id) + [path]
    ensures forall k | k != id :: GetFavorites(r, k) == GetFavorites(store, k)
    ensures r.connections == store.connections
  {
    var favorites := GetFavorites(store, id);
    if path in favorites then store
    else store.(favorites := store.favorites[id := favorites + [path]])
  }

  predicate NoDuplicates(s: seq<string>) {
    forall i, j | 0 <= i < j < |s| :: s[i] != s[j]
  }

  /** Adding a favourite twice is adding it once, and never creates a duplicate. */
  lemma AddFavoriteIdempotent(store: Store, path: string, id: int)
    ensures AddFavorite(AddFavorite(store, path, id), path, id) == AddFavorite(store, path, id)
    ensures NoDuplicates(GetFavorites(store, id)) ==> NoDuplicates(GetFavorites(AddFavorite(store, path, id), id))
    ensures path in GetFavorites(AddFavorite(store, path, id), id)
  {
    var once := AddFavorite(store, path, id);
    assert path in GetFavorites(once, id) by {
      if path !in GetFavorites(store, id) {
        assert GetFavorites(once, id)[|GetFavorites(store, id)|] == path;
      }
    }
  }

  /** `removeFavoriteDirectory`: drops every occurrence of the path, keeping the rest in order. */
  function RemoveFavorite(store: Store, path: string, id: int): (r: Store)
    ensures path !in GetFavorites(r, id)
    ensures forall p | p in GetFavorites(store, id) && p != path :: p in GetFavorites(r, id)
    ensures SubsequenceOf(GetFavorites(r, id), GetFavorites(store, id))
    ensures forall k | k != id :: GetFavorites(r, k) == GetFavorites(store, k)
  {
    store.(favorites := store.favorites[id := Filter(GetFavorites(store, id), (p: string) => p != path)])
  }

  /** Adding a new favourite and removing it again restores the list. */
  lemma AddThenRemove(store: Store, path: string, id: int)
    requires path !in GetFavorites(store, id)
    ensures GetFavorites(RemoveFavorite(AddFavorite(store, path, id), path, id), id) == GetFavorites(store, id)
  {
    var favorites := GetFavorites(store, id);
    var keep := (p: string) => p != path;
    FilterAll(favorites, keep);
    FilterAppendRejected(favorites, path, keep);
  }

  lemma {:induction false} FilterAppendRejected<T>(s: seq<T>, x: T, p: T -> bool)
    requires !p(x)
    ensures Filter(s + [x], p) == Filter(s, p)
    decreases |s|
  {
    if s == [] {
      assert Filter([x], p) == [];
    } else {
      assert (s + [x])[1..] == s[1..] + [x];
      FilterAppendRejected(s[1..], x, p);
    }
  }

  /** `persistConnections`: the stored form of every connection, in order. */
  function Persist(cs: seq<SftpConnection>): (r: seq<StoredConnection>)
    ensures |r| == |cs|
    ensures forall i | 0 <= i < |cs| :: r[i] == Encode(cs[i])
  {
    seq(|cs|, i requires 0 <= i < |cs| => Encode(cs[i]))
  }

  /** `loadConnections`: nothing stored or undecodable data gives no connections. */
  function Load(data: Option<seq<StoredConnection>>): (r: seq<SftpConnection>)
    ensures data.None? ==> r == []
    ensures data.Some? ==> |r| == |data.value| && forall i | 0 <= i < |r| :: Encode(r[i]) == data.value[i]
  {
    match data
    case None => []
    case Some(stored) => seq(|stored|, i requires 0 <= i < |stored| => Decode(stored[i]))
  }

  /** Reloading persisted connections gives them back, disconnected and without errors. */
  lemma PersistLoadRoundTrip(cs: seq<SftpConnection>)
    ensures |Load(Some(Persist(cs)))| == |cs|
    ensures forall i | 0 <= i < |cs| :: Load(Some(Persist(cs)))[i] == cs[i].(status := Disconnected, lastError := None)
  {
    forall i | 0 <= i < |cs| ensures Load(Some(Persist(cs)))[i] == cs[i].(status := Disconnected, lastError := None) {
      DecodeEncode(cs[i]);
    }
  }
}

=== FILE: sftp_service.dfy ===
/**
 * The SFTP service: error descriptions and their classification, the
 * authentication rules, directory listings, the upload progress protocol
 * and the remote operations. The server and the transfer library are
 * inputs: whether the server accepts a connection and a login, what a
 * listing returns, how many bytes each progress callback reports.
 */
module SftpService {
  import opened Base
  import opened Strings
  import opened Paths
  import opened SftpConnections
  import opened SftpRepository
  import opened Seqs

  // ---------------------------------------------------------------------
  // Errors
  // ---------------------------------------------------------------------

  datatype SftpError =
    | ConnectionFailed
    | AuthenticationFailed
    | PathNotFound
    | UploadFailed
    | DownloadFailed
    | ConnectionTimeout
    | InvalidCredentials
    | NetworkError(message: string)
    | InsufficientStorage(required: int, available: int)
    | ServiceNotConfigured
    | FileValidationFailed(message: string)
    | IncompleteDownload(actual: int, expected: int)

  /** `errorDescription`; byte counts are rendered by the formatter given. */
  function Description(e: SftpError, formatBytes: int -> string): string {
    match e
    case ConnectionFailed => "Failed to connect to SFTP server"
    case AuthenticationFailed => "Authentication failed"
    case PathNotFound => "Path not found on server"
    case UploadFailed => "Failed to upload file"
    case DownloadFailed => "Failed to download file"
    case ConnectionTimeout => "Connection timeout"
    case InvalidCredentials => "Invalid credentials"
    case NetworkError(message) => "Network error: " + message
    case InsufficientStorage(required, available) =>
      "Not enough storage space. Required: " + formatBytes(required) + ", Available: " + formatBytes(available)
    case ServiceNotConfigured => "SFTP service not configured"
    case FileValidationFailed(message) => "File validation failed: " + message
    case IncompleteDownload(actual, expected) =>
      "Incomplete download: got " + formatBytes(actual) + ", expected " + formatBytes(expected)
  }

  /** An error thrown inside an operation: one of the service's own, or a foreign one known by its description. */
  datatype Failure = Own(error: SftpError) | Foreign(description: string)

  /** Byte counts never occur in the errors the remote operations throw; any rendering serves. */
  function FailureDescription(f: Failure): string {
    match f
    case Own(e) => Description(e, (n: int) => IntToString(n))
    case Foreign(d) => d
  }

  /**
   * `mapMFTError`: classifies an error by its lower-cased description,
   * testing "connect"/"connection", then "auth", then "timeout", then
   * "path"/"directory"; anything else is a network error carrying the
   * description.
   */
  function Classify(description: string): (r: SftpError)
    ensures r == ConnectionFailed <==> Contains(Lower(description), "connect")
    ensures r == AuthenticationFailed <==>
              !Contains(Lower(description), "connect") && Contains(Lower(description), "auth")
    ensures r == ConnectionTimeout <==>
              !Contains(Lower(description), "connect") && !Contains(Lower(description), "auth")
              && Contains(Lower(description), "timeout")
    ensures r == PathNotFound <==>
              !Contains(Lower(description), "connect") && !Contains(Lower(description), "auth")
              && !Contains(Lower(description), "timeout")
              && (Contains(Lower(description), "path") || Contains(Lower(description), "directory"))
    ensures r == NetworkError(description) <==>
              !Contains(Lower(description), "connect") && !Contains(Lower(description), "auth")
              && !Contains(Lower(description), "timeout")
              && !Contains(Lower(description), "path") && !Contains(Lower(description), "directory")
    ensures r.NetworkError? ==> r.message == description
    ensures r.ConnectionFailed? || r.AuthenticationFailed? || r.ConnectionTimeout? || r.PathNotFound? || r.NetworkError?
  {
    var s := Lower(description);
    if Contains(s, "connect") || Contains(s, "connection") then
      ConnectionContainsConnect(s);
      ConnectionFailed
    else if Contains(s, "auth") then AuthenticationFailed
    else if Contains(s, "timeout") then ConnectionTimeout
    else if Contains(s, "path") || Contains(s, "directory") then PathNotFound
    else NetworkError(description)
  }

  /** "connection" contains "connect", so the second test adds nothing. */
  lemma ConnectionContainsConnect(s: string)
    ensures Contains(s, "connection") ==> Contains(s, "connect")
  {
    if Contains(s, "connection") {
      PrefixContained("connection", "connect");
      ContainsTransitive(s, "connection", "connect");
    }
  }

  /**
   * The as-written handler: every failure, the service's own included, is
   * reclassified by its description. A failed connection, a refused login
   * and a missing path keep their meaning; a timeout becomes a connection
   * failure; missing credentials and failed transfers become network
   * errors carrying their description.
   */
  function MapErrorAsWritten(f: Failure): (r: SftpError)
    ensures f.Foreign? ==> r == Classify(f.description)
    ensures f == Own(ConnectionFailed) || f == Own(AuthenticationFailed) || f == Own(PathNotFound) ==> r == f.error
    ensures f == Own(ConnectionTimeout) ==> r == ConnectionFailed
    ensures f == Own(InvalidCredentials) || f == Own(UploadFailed) || f == Own(DownloadFailed) ==>
              r == NetworkError(FailureDescription(f))
  {
    match f
    case Foreign(d) => Classify(d)
    case Own(e) =>
      if e == ConnectionFailed then ConnectionFailedAsWritten(); Classify(FailureDescription(f))
      else if e == AuthenticationFailed then AuthenticationFailedAsWritten(); Classify(FailureDescription(f))
      else if e == PathNotFound then PathNotFoundAsWritten(); Classify(FailureDescription(f))
      else if e == ConnectionTimeout then ConnectionTimeoutIsConnectionFailure(); Classify(FailureDescription(f))
      else if e == InvalidCredentials then InvalidCredentialsClassified(); Classify(FailureDescription(f))
      else if e == UploadFailed then UploadFailedAsWritten(); Classify(FailureDescription(f))
      else if e == DownloadFailed then DownloadFailedAsWritten(); Classify(FailureDescription(f))
      else Classify(FailureDescription(f))
  }

  /** The corrected handler: the service's own errors pass through; foreign ones are classified. */
  function MapError(f: Failure): (r: SftpError)
    ensures f.Own? ==> r == f.error
    ensures f.Foreign? ==> r == Classify(f.description)
  {
    match f
    case Own(e) => e
    case Foreign(d) => Classify(d)
  }

  /** The two handlers differ on a missing password: the as-written one turns it into a network error. */
  lemma InvalidCredentialsRemapped()
    ensures MapErrorAsWritten(Own(InvalidCredentials)) == NetworkError("Invalid credentials")
    ensures MapError(Own(InvalidCredentials)) == InvalidCredentials
  {
  }

  /** "Invalid credentials" mentions none of the keywords, so it classifies as a network error. */
  lemma InvalidCredentialsClassified()
    ensures Classify(FailureDescription(Own(InvalidCredentials))) == NetworkError("Invalid credentials")
  {
    var s := Lower("Invalid credentials");
    assert s == "invalid credentials";
    assert forall i | 0 <= i < |s| :: s[i] != 'o' && s[i] != 'u' && s[i] != 'p';
    AbsentCharNotContained(s, "connect", 1);
    AbsentCharNotContained(s, "auth", 1);
    AbsentCharNotContained(s, "timeout", 4);
    AbsentCharNotContained(s, "path", 0);
    AbsentCharNotContained(s, "directory", 6);
  }

  // ---------------------------------------------------------------------
  // Authentication
  // ---------------------------------------------------------------------

  function PasswordOf(creds: Option<Credentials>): Option<string> {
    if creds.Some? then creds.value.password else None
  }

  function KeyOf(creds: Option<Credentials>): Option<string> {
    if creds.Some? then creds.value.privateKey else None
  }

  /**
   * `authenticateConnection`: the credentials the authentication type
   * needs must be present and non-empty; then a password login is up to
   * the server, while key-based logins are not implemented and fail.
   */
  function Authenticate(authType: AuthenticationType, creds: Option<Credentials>, serverAccepts: bool): (r: Result<(), SftpError>)
    ensures r.Ok? <==> authType == Password && NonEmpty(PasswordOf(creds)) && serverAccepts
    ensures r == Err(InvalidCredentials) <==>
              match authType
              case Password => !NonEmpty(PasswordOf(creds))
              case SshKey => !NonEmpty(KeyOf(creds))
              case PasswordWithKey => !NonEmpty(PasswordOf(creds)) || !NonEmpty(KeyOf(creds))
    ensures r.Err? ==> r.error == InvalidCredentials || r.error == AuthenticationFailed
  {
    match authType
    case Password =>
      if !NonEmpty(PasswordOf(creds)) then Err(InvalidCredentials)
      else if serverAccepts then Ok(()) else Err(AuthenticationFailed)
    case SshKey =>
      if !NonEmpty(KeyOf(creds)) then Err(InvalidCredentials) else Err(AuthenticationFailed)
    case PasswordWithKey =>
      if !NonEmpty(PasswordOf(creds)) || !NonEmpty(KeyOf(creds)) then Err(InvalidCredentials)
      else Err(AuthenticationFailed)
  }

  /** Key-based logins never succeed, whatever the server says. */
  lemma KeyLoginsNeverSucceed(creds: Option<Credentials>, serverAccepts: bool)
    ensures Authenticate(SshKey, creds, serverAccepts).Err?
    ensures Authenticate(PasswordWithKey, creds, serverAccepts).Err?
  {
  }

  /** `testConnection` as written: connect, authenticate, and reclassify any failure. */
  function TestConnectionAsWritten(c: SftpConnection, creds: Option<Credentials>, connects: bool, accepts: bool): (r: Result<bool, SftpError>)
    ensures r.Ok? ==> r.value
    ensures r == Ok(true) <==> connects && Authenticate(c.authenticationType, creds, accepts).Ok?
  {
    if !connects then Err(MapErrorAsWritten(Own(ConnectionFailed)))
    else match Authenticate(c.authenticationType, creds, accepts)
      case Ok(_) => Ok(true)
      case Err(e) => Err(MapErrorAsWritten(Own(e)))
  }

  /** `testConnection`, keeping the service's own errors. */
  function TestConnection(c: SftpConnection, creds: Option<Credentials>, connects: bool, accepts: bool): (r: Result<bool, SftpError>)
    ensures r.Ok? ==> r.value
    ensures !connects ==> r == Err(ConnectionFailed)
    ensures connects ==> r == match Authenticate(c.authenticationType, creds, accepts)
                              case Ok(_) => Ok(true)
                              case Err(e) => Err(e)
  {
    if !connects then Err(MapError(Own(ConnectionFailed)))
    else match Authenticate(c.authenticationType, creds, accepts)
      case Ok(_) => Ok(true)
      case Err(e) => Err(MapError(Own(e)))
  }

  /** A password device with no stored password: reported as a network error as written, as invalid credentials when corrected. */
  lemma MissingPasswordReport(c: SftpConnection, accepts: bool)
    requires c.authenticationType == Password
    ensures TestConnectionAsWritten(c, None, true, accepts) == Err(NetworkError("Invalid credentials"))
    ensures TestConnection(c, None, true, accepts) == Err(InvalidCredentials)
  {
    InvalidCredentialsRemapped();
  }

  /** The corrected test reports missing credentials exactly when the type's credentials are missing. */
  lemma InvalidCredentialsExactly(c: SftpConnection, creds: Option<Credentials>, accepts: bool)
    ensures TestConnection(c, creds, true, accepts) == Err(InvalidCredentials) <==>
              match c.authenticationType
              case Password => !NonEmpty(PasswordOf(creds))
              case SshKey => !NonEmpty(KeyOf(creds))
              case PasswordWithKey => !NonEmpty(PasswordOf(creds)) || !NonEmpty(KeyOf(creds))
  {
  }

  /** A timeout whose description mentions the connection is classified as a connection failure, since that test comes first. */
  lemma ConnectionTimeoutIsConnectionFailure()
    ensures Classify(FailureDescription(Own(ConnectionTimeout))) == ConnectionFailed
  {
    var s := Lower("Connection timeout");
    assert s == "connection timeout";
    assert OccursAt(s, "connect", 0);
  }

  /** A failed connection keeps its meaning under the as-written handler. */
  lemma ConnectionFailedAsWritten()
    ensures Classify(FailureDescription(Own(ConnectionFailed))) == ConnectionFailed
  {
    var src := "Failed to connect to SFTP server";
    var c := Lower(src);
    assert src[10] == 'c' && src[11] == 'o' && src[12] == 'n' && src[13] == 'n' && src[14] == 'e' && src[15] == 'c' && src[16] == 't';
    assert c[10] == 'c' && c[11] == 'o' && c[12] == 'n' && c[13] == 'n' && c[14] == 'e' && c[15] == 'c' && c[16] == 't';
    assert c[10..17] == "connect";
    assert OccursAt(c, "connect", 10);
  }

  /** A refused login keeps its meaning under the as-written handler. */
  lemma AuthenticationFailedAsWritten()
    ensures Classify(FailureDescription(Own(AuthenticationFailed))) == AuthenticationFailed
  {
    var a := Lower("Authentication failed");
    assert a == "authentication failed";
    AbsentPairNotContained(a, "connect");
    AbsentPairNotContained(a, "connection");
    assert OccursAt(a, "auth", 0);
  }

  /** A missing path keeps its meaning under the as-written handler. */
  lemma PathNotFoundAsWritten()
    ensures Classify(FailureDescription(Own(PathNotFound))) == PathNotFound
  {
    var p := Lower("Path not found on server");
    assert p == "path not found on server";
    PathMessageKeywords(p);
  }

  /** The path message mentions "path" and none of the earlier keywords. */
  lemma PathMessageKeywords(p: string)
    requires p == "path not found on server"
    ensures !Contains(p, "connect") && !Contains(p, "connection") && !Contains(p, "auth") && !Contains(p, "timeout")
    ensures Contains(p, "path")
  {
    assert forall i | 0 <= i < |p| :: p[i] != 'c' && p[i] != 'm';
    AbsentCharNotContained(p, "connect", 0);
    AbsentCharNotContained(p, "connection", 0);
    NoAuthInPathMessage();
    AbsentCharNotContained(p, "timeout", 2);
    assert OccursAt(p, "path", 0);
  }

  lemma NoAuthInPathMessage()
    ensures !Contains("path not found on server", "auth")
  {
    var p := "path not found on server";
    assert forall i | 0 <= i < |p| - 1 :: p[i] != 'a' || p[i + 1] != 'u';
    AbsentPairNotContained(p, "auth");
  }

  /** A failed upload comes out of the as-written handler as a network error. */
  lemma UploadFailedAsWritten()
    ensures Classify(FailureDescription(Own(UploadFailed))) == NetworkError("Failed to upload file")
  {
    var u := Lower("Failed to upload file");
    assert u == "failed to upload file";
    LacksKeywordLetters(u);
    PlainDescription("Failed to upload file");
  }

  /** A failed download comes out of the as-written handler as a network error. */
  lemma DownloadFailedAsWritten()
    ensures Classify(FailureDescription(Own(DownloadFailed))) == NetworkError("Failed to download file")
  {
    var d := Lower("Failed to download file");
    assert d == "failed to download file";
    LacksKeywordLetters(d);
    PlainDescription("Failed to download file");
  }

  /** Neither 'c', 'h' nor 'm' appears in `s`. */
  predicate NoKeywordLetter(s: string) {
    forall i | 0 <= i < |s| :: s[i] != 'c' && s[i] != 'h' && s[i] != 'm'
  }

  lemma LacksKeywordLetters(s: string)
    requires s == "failed to upload file" || s == "failed to download file"
    ensures NoKeywordLetter(s)
  {
  }

  /** A description whose lower-case form lacks 'c', 'h' and 'm' matches no keyword, so it is a network error. */
  lemma PlainDescription(description: string)
    requires NoKeywordLetter(Lower(description))
    ensures Classify(description) == NetworkError(description)
  {
    var s := Lower(description);
    AbsentCharNotContained(s, "connect", 0);
    AbsentCharNotContained(s, "connection", 0);
    AbsentCharNotContained(s, "auth", 3);
    AbsentCharNotContained(s, "timeout", 2);
    AbsentCharNotContained(s, "path", 3);
    AbsentCharNotContained(s, "directory", 4);
  }

  // ---------------------------------------------------------------------
  // Sessions and listings
  // ---------------------------------------------------------------------

  /** The server's side of a session: whether it accepts the connection and the login. */
  datatype Server = Server(connects: bool, acceptsLogin: bool)

  /** Connecting and logging in with the stored password, as every remote operation does first. */
  function OpenSession(server: Server): (r: Option<SftpError>)
    ensures r.None? <==> server.connects && server.acceptsLogin
    ensures r.Some? ==> r.value == (if server.connects then AuthenticationFailed else ConnectionFailed)
  {
    if !server.connects then Some(ConnectionFailed)
    else if !server.acceptsLogin then Some(AuthenticationFailed)
    else None
  }

  /** `SFTPDirectoryItem`, without its fresh identifier; dates are seconds. */
  datatype DirectoryItem = DirectoryItem(
    name: string, path: string, isDirectory: bool, size: Option<int>, modificationDate: Option<int>)

  /** What the library reports for one directory entry; any property may be missing. */
  datatype RawEntry = RawEntry(
    filename: Option<string>, isDirectory: Option<bool>, size: Option<int>, createTime: Option<int>)

  /** The facade's reading of one entry: none without a file name; missing properties default to a file of size 0 created `now`. */
  function ItemOf(path: string, e: RawEntry, now: int): (r: Option<DirectoryItem>)
    ensures r.Some? <==> e.filename.Some?
    ensures r.Some? ==> r.value.name == e.filename.value && r.value.path == JoinPath(path, e.filename.value)
    ensures r.Some? ==> r.value.isDirectory == (e.isDirectory == Some(true))
    ensures r.Some? ==> r.value.size == Some(e.size.GetOr(0)) && r.value.modificationDate == Some(e.createTime.GetOr(now))
  {
    match e.filename
    case None => None
    case Some(name) =>
      Some(DirectoryItem(name, JoinPath(path, name), e.isDirectory.GetOr(false),
                         Some(e.size.GetOr(0)), Some(e.createTime.GetOr(now))))
  }

  /** The items of the named entries, in order. */
  function ItemsOf(path: string, entries: seq<RawEntry>, now: int): (r: seq<DirectoryItem>)
    ensures |r| <= |entries|
    ensures forall it | it in r :: it.path == JoinPath(path, it.name)
    ensures forall e | e in entries && e.filename.Some? :: exists it | it in r :: it.name == e.filename.value
    decreases |entries|
  {
    if entries == [] then []
    else
      var rest := ItemsOf(path, entries[1..], now);
      assert forall e | e in entries :: e == entries[0] || e in entries[1..];
      match ItemOf(path, entries[0], now)
      case None => rest
      case Some(it) => [it] + rest
  }

  predicate Named(e: RawEntry) {
    e.filename.Some?
  }

  /**
   * The items follow the named entries one to one and in order: the k-th
   * item is the reading of the k-th entry that has a file name.
   */
  lemma {:induction false} ItemsOfFiltered(path: string, entries: seq<RawEntry>, now: int)
    ensures |ItemsOf(path, entries, now)| == |Filter(entries, Named)|
    ensures forall k | 0 <= k < |ItemsOf(path, entries, now)| ::
              Some(ItemsOf(path, entries, now)[k]) == ItemOf(path, Filter(entries, Named)[k], now)
    decreases |entries|
  {
    if entries != [] {
      ItemsOfFiltered(path, entries[1..], now);
    }
  }

  /**
   * `listDirectory(at:connection:)`: a session, then the listing; a
   * listing the library cannot produce is reported as a missing path.
   * The service rebuilds each item's path from the listed path and name,
   * which gives the same path again.
   */
  function ListDirectory(path: string, server: Server, listing: Option<seq<RawEntry>>, now: int): (r: Result<seq<DirectoryItem>, SftpError>)
    ensures OpenSession(server).Some? ==> r == Err(OpenSession(server).value)
    ensures OpenSession(server).None? && listing.None? ==> r == Err(PathNotFound)
    ensures r.Ok? ==> listing.Some? && r.value == ItemsOf(path, listing.value, now)
    ensures OpenSession(server).None? && listing.Some? ==> r == Ok(ItemsOf(path, listing.value, now))
  {
    match OpenSession(server)
    case Some(e) =>
      Err(MapErrorAsWritten(Own(e)))
    case None =>
      match listing
      case None =>
        Err(MapErrorAsWritten(Own(PathNotFound)))
      case Some(entries) =>
        var items := ItemsOf(path, entries, now);
        Ok(seq(|items|, i requires 0 <= i < |items| => items[i].(path := JoinPath(path, items[i].name))))
  }

  /** Listed items of a directory given as "/" sit directly below the root. */
  lemma RootListingPaths(server: Server, listing: seq<RawEntry>, now: int)
    requires OpenSession(server).None?
    ensures forall it | it in ListDirectory("/", server, Some(listing), now).value :: it.path == "/" + it.name
  {
  }

  // ---------------------------------------------------------------------
  // Upload progress
  // ---------------------------------------------------------------------

  /** The upload's progress bookkeeping: whether it is complete and the (uploaded, total) pairs reported. */
  datatype Progress = Progress(completed: bool, reports: seq<(int, int)>)

  /** The completion test, with the 0.999 ratio taken exactly. */
  predicate Complete(uploaded: int, fileSize: int) {
    uploaded >= fileSize || (fileSize > 0 && uploaded * 1000 >= fileSize * 999)
  }

  /**
   * One progress callback for `bytesWritten` bytes so far: ignored once
   * complete; otherwise reports the count clamped to the file size and
   * asks for more until complete.
   */
  function OnProgress(p: Progress, bytesWritten: nat, fileSize: nat): (r: (Progress, bool))
    ensures p.completed ==> r == (p, false)
    ensures !p.completed ==> r.0.reports == p.reports + [(if bytesWritten < fileSize then bytesWritten else fileSize, fileSize)]
    ensures !p.completed ==> r.0.completed == Complete(if bytesWritten < fileSize then bytesWritten else fileSize, fileSize)
    ensures r.1 <==> !r.0.completed
  {
    if p.completed then (p, false)
    else
      var clamped := if bytesWritten < fileSize then bytesWritten else fileSize;
      var done := Complete(clamped, fileSize);
      (Progress(done, p.reports + [(clamped, fileSize)]), !done)
  }

  /** The callbacks for a run of reported byte counts, with what each returned. */
  function RunProgress(p: Progress, writes: seq<nat>, fileSize: nat): (r: (Progress, seq<bool>))
    ensures |r.1| == |writes|
    ensures p.completed ==> r.0 == p && forall i | 0 <= i < |r.1| :: !r.1[i]
    ensures r.0.completed ==> (|r.1| == 0 || !r.1[|r.1| - 1])
    decreases |writes|
  {
    if writes == [] then (p, [])
    else
      var step := OnProgress(p, writes[0], fileSize);
      var rest := RunProgress(step.0, writes[1..], fileSize);
      (rest.0, [step.1] + rest.1)
  }

  /** Every reported count stays within the file size, and every total is the file size. */
  lemma {:induction false} ReportsBounded(p: Progress, writes: seq<nat>, fileSize: nat)
    requires forall i | 0 <= i < |p.reports| :: 0 <= p.reports[i].0 <= p.reports[i].1 == fileSize
    ensures var r := RunProgress(p, writes, fileSize).0;
            forall i | 0 <= i < |r.reports| :: 0 <= r.reports[i].0 <= r.reports[i].1 == fileSize
    decreases |writes|
  {
    if writes != [] {
      var next := OnProgress(p, writes[0], fileSize).0;
      assert forall i | 0 <= i < |next.reports| :: 0 <= next.reports[i].0 <= next.reports[i].1 == fileSize by {
        if !p.completed {
          forall i | 0 <= i < |next.reports|
            ensures 0 <= next.reports[i].0 <= next.reports[i].1 == fileSize
          {
            if i < |p.reports| { assert next.reports[i] == p.reports[i]; }
          }
        }
      }
      ReportsBounded(next, writes[1..], fileSize);
      assert RunProgress(p, writes, fileSize).0 == RunProgress(next, writes[1..], fileSize).0;
    }
  }

  /** From a fresh start, every reported count stays within the file size. */
  lemma InitialReportsBounded(writes: seq<nat>, fileSize: nat)
    ensures forall i | 0 <= i < |RunProgress(Progress(false, []), writes, fileSize).0.reports| ::
              0 <= RunProgress(Progress(false, []), writes, fileSize).0.reports[i].0
              <= RunProgress(Progress(false, []), writes, fileSize).0.reports[i].1 == fileSize
  {
    ReportsBounded(Progress(false, []), writes, fileSize);
  }

  /** Once a callback has asked to stop, every later one does too. */
  lemma {:induction false} StopIsFinal(p: Progress, writes: seq<nat>, fileSize: nat, i: nat, j: nat)
    requires i <= j < |writes|
    requires !RunProgress(p, writes, fileSize).1[i]
    ensures !RunProgress(p, writes, fileSize).1[j]
    decreases |writes|
  {
    var step := OnProgress(p, writes[0], fileSize);
    if i == 0 {
      assert step.0.completed;
      if j > 0 {
        assert RunProgress(p, writes, fileSize).1[j] == RunProgress(step.0, writes[1..], fileSize).1[j - 1];
      }
    } else {
      StopIsFinal(step.0, writes[1..], fileSize, i - 1, j - 1);
    }
  }

  /**
   * `uploadFile`: a session, the local file, then the transfer. Failures
   * before the transfer are passed on unchanged; a transfer failure is
   * forgiven when the progress reached completion; on success a final
   * (size, size) report follows.
   */
  function UploadFile(server: Server, fileReadable: bool, fileSize: nat, writes: seq<nat>, transferFails: bool)
    : (r: Result<seq<(int, int)>, SftpError>)
    ensures OpenSession(server).Some? ==> r == Err(OpenSession(server).value)
    ensures OpenSession(server).None? && !fileReadable ==> r == Err(UploadFailed)
    ensures r.Ok? ==> |r.value| >= 1 && r.value[|r.value| - 1] == (fileSize, fileSize)
    ensures r.Ok? ==> forall i | 0 <= i < |r.value| :: 0 <= r.value[i].0 <= r.value[i].1 == fileSize
    ensures r.Err? && OpenSession(server).None? && fileReadable ==>
              transferFails && !RunProgress(Progress(false, []), writes, fileSize).0.completed
    ensures OpenSession(server).None? && fileReadable && transferFails
            && !RunProgress(Progress(false, []), writes, fileSize).0.completed ==>
              r == Err(NetworkError("Failed to upload file"))
  {
    match OpenSession(server)
    case Some(e) => Err(e)
    case None =>
      if !fileReadable then Err(UploadFailed)
      else
        var run := RunProgress(Progress(false, []), writes, fileSize);
        if transferFails && !run.0.completed then
          Err(MapErrorAsWritten(Own(UploadFailed)))
        else
          InitialReportsBounded(writes, fileSize);
          Ok(run.0.reports + [(fileSize, fileSize)])
  }

  /** A transfer whose library call fails still succeeds when its progress had completed. */
  lemma CompletedTransferSucceeds(server: Server, fileSize: nat)
    requires OpenSession(server).None?
    ensures UploadFile(server, true, fileSize, [fileSize], true).Ok?
  {
  }

  // ---------------------------------------------------------------------
  // Remote operations
  // ---------------------------------------------------------------------

  /** The remote file tree as far as these operations see it: each path and whether it is a directory. */
  type RemoteTree = map<string, bool>

  /** The library's directory creation: refused for a path that already exists. */
  function MakeDirectory(tree: RemoteTree, path: string): (r: Result<RemoteTree, SftpError>)
    ensures r.Ok? <==> path !in tree
    ensures r.Ok? ==> r.value == tree[path := true]
    ensures r.Err? ==> r.error == PathNotFound
  {
    if path in tree then Err(PathNotFound) else Ok(tree[path := true])
  }

  /** The facade's `removeFile` as written: it creates a directory at the path. */
  function RemoveFileAsWritten(tree: RemoteTree, path: string): (r: Result<RemoteTree, SftpError>)
    ensures r.Ok? <==> path !in tree
    ensures r.Ok? ==> r.value == tree[path := true] && r.value[path]
    ensures r.Err? ==> r.error == PathNotFound
  {
    MakeDirectory(tree, path)
  }

  /** The facade's `removeFile` as evidently intended: an existing file goes away. */
  function RemoveFile(tree: RemoteTree, path: string): (r: Result<RemoteTree, SftpError>)
    ensures r.Ok? <==> path in tree && !tree[path]
    ensures r.Ok? ==> r.value == tree - {path}
    ensures r.Err? ==> r.error == PathNotFound
  {
    if path in tree && !tree[path] then Ok(tree - {path}) else Err(PathNotFound)
  }

  /** `createDirectory(at:connection:)`: a session, then the library call. */
  function CreateDirectory(tree: RemoteTree, path: string, server: Server): (r: Result<RemoteTree, SftpError>)
    ensures OpenSession(server).Some? ==> r == Err(OpenSession(server).value)
    ensures OpenSession(server).None? ==> r == MakeDirectory(tree, path)
  {
    match OpenSession(server)
    case Some(e) =>
      Err(MapErrorAsWritten(Own(e)))
    case None =>
      match MakeDirectory(tree, path)
      case Ok(t) => Ok(t)
      case Err(e) =>
        Err(MapErrorAsWritten(Own(e)))
  }

  /** `deleteFile(at:connection:)` as written, through the facade's `removeFile`. */
  function DeleteFileAsWritten(tree: RemoteTree, path: string, server: Server): (r: Result<RemoteTree, SftpError>)
    ensures r.Ok? ==> path in r.value
  {
    match OpenSession(server)
    case Some(e) => Err(MapErrorAsWritten(Own(e)))
    case None =>
      match RemoveFileAsWritten(tree, path)
      case Ok(t) => Ok(t)
      case Err(e) => Err(MapErrorAsWritten(Own(e)))
  }

  /** `deleteFile(at:connection:)` with the intended removal. */
  function DeleteFile(tree: RemoteTree, path: string, server: Server): (r: Result<RemoteTree, SftpError>)
    ensures OpenSession(server).Some? ==> r == Err(OpenSession(server).value)
    ensures OpenSession(server).None? ==> r == RemoveFile(tree, path)
    ensures r.Ok? ==> path !in r.value && forall q | q in tree && q != path :: q in r.value && r.value[q] == tree[q]
  {
    match OpenSession(server)
    case Some(e) => Err(MapError(Own(e)))
    case None =>
      match RemoveFile(tree, path)
      case Ok(t) => Ok(t)
      case Err(e) => Err(MapError(Own(e)))
  }

  /** Deleting an existing file: as written it fails and leaves the file; corrected it removes it. */
  lemma DeleteExistingFile(server: Server)
    requires OpenSession(server).None?
    ensures var tree := map["/roms/game.zip" := false];
            && DeleteFileAsWritten(tree, "/roms/game.zip", server).Err?
            && DeleteFile(tree, "/roms/game.zip", server) == Ok(map[])
  {
    var tree := map["/roms/game.zip" := false];
    assert tree - {"/roms/game.zip"} == map[];
    var s := Lower("Path not found on server");
    assert OccursAt(s, "path", 0);
  }

  /** Deleting a path that does not exist: as written it creates a directory there. */
  lemma DeleteMissingCreatesDirectory(tree: RemoteTree, path: string, server: Server)
    requires OpenSession(server).None? && path !in tree
    ensures DeleteFileAsWritten(tree, path, server) == Ok(tree[path := true])
    ensures DeleteFile(tree, path, server) == Err(PathNotFound)
  {
  }

  /**
   * `downloadFile`: the library's read is not implemented, and an
   * unopenable local file fails the same way, so every download fails;
   * past the session the failure goes through the handler and comes out
   * as a network error.
   */
  function DownloadFile(server: Server, streamOpens: bool): (r: Result<(), SftpError>)
    ensures r.Err?
    ensures OpenSession(server).Some? ==> r == Err(OpenSession(server).value)
    ensures OpenSession(server).None? ==> r == Err(NetworkError("Failed to download file"))
  {
    match OpenSession(server)
    case Some(e) =>
      Err(MapErrorAsWritten(Own(e)))
    case None =>
      Err(MapErrorAsWritten(Own(DownloadFailed)))
  }
}

=== FILE: sort_options.dfy ===
/**
 * The server-side sort of a ROM list: the sortable fields and the two
 * directions, each carried over the wire by its raw string.
 */
module SortOptions {

  datatype SortField = Name | Size | Added | Released | Rating
  {
    /** The API's `order_by` value. */
    function Raw(): string {
      match this
      case Name => "name"
      case Size => "size"
      case Added => "created_at"
      case Released => "release_year"
      case Rating => "average_rating"
    }
  }

  datatype SortDirection = Asc | Desc
  {
    function Raw(): string {
      match this
      case Asc => "asc"
      case Desc => "desc"
    }
  }

  /** `currentSortField`: the field whose raw value matches, or `name` when none does. */
  function FieldFromRaw(raw: string): (r: SortField)
    ensures r.Raw() == raw || (r == Name && forall f: SortField :: f.Raw() != raw)
  {
    if raw == "size" then Size
    else if raw == "created_at" then Added
    else if raw == "release_year" then Released
    else if raw == "average_rating" then Rating
    else Name
  }

  /** `SortDirection(rawValue:) ?? .asc`. */
  function DirectionFromRaw(raw: string): (r: SortDirection)
    ensures r == Desc <==> raw == Desc.Raw()
  {
    if raw == "desc" then Desc else Asc
  }

  /** Every field and direction survives the trip through its raw value. */
  lemma RawRoundTrip(f: SortField, d: SortDirection)
    ensures FieldFromRaw(f.Raw()) == f
    ensures DirectionFromRaw(d.Raw()) == d
  {
  }

  /** Unknown raw values fall back to sorting by name, ascending. */
  lemma UnknownRawDefaults(raw: string)
    requires raw !in {"name", "size", "created_at", "release_year", "average_rating", "asc", "desc"}
    ensures FieldFromRaw(raw) == Name && DirectionFromRaw(raw) == Asc
  {
  }
}

=== FILE: strings.dfy ===
/**
 * Character and string helpers standing in for the Foundation calls the
 * app uses. Case mapping and character classes are the ASCII subset of the
 * Unicode behaviour Foundation implements; the whitespace class is the full
 * Unicode one.
 */
module Strings {
  import opened Base

  // ---------------------------------------------------------------------
  // Character classes and case mapping
  // ---------------------------------------------------------------------

  predicate IsDigit(c: char) {
    '0' <= c <= '9'
  }

  predicate IsAsciiLetter(c: char) {
    ('A' <= c <= 'Z') || ('a' <= c <= 'z')
  }

  /**
   * `CharacterSet.whitespacesAndNewlines`: the characters with the Unicode
   * White_Space property — tab through carriage return, space, next line,
   * no-break space, Ogham space mark, the spaces U+2000 to U+200A, the line
   * and paragraph separators, narrow no-break space, medium mathematical
   * space and ideographic space.
   */
  predicate IsWhitespace(c: char) {
    || '\U{9}' <= c <= '\U{D}'
    || c == ' '
    || c == '\U{85}'
    || c == '\U{A0}'
    || c == '\U{1680}'
    || '\U{2000}' <= c <= '\U{200A}'
    || c == '\U{2028}' || c == '\U{2029}'
    || c == '\U{202F}'
    || c == '\U{205F}'
    || c == '\U{3000}'
  }

  function LowerChar(c: char): char {
    if 'A' <= c <= 'Z' then (c as int + 32) as char else c
  }

  function UpperChar(c: char): char {
    if 'a' <= c <= 'z' then (c as int - 32) as char else c
  }

  /** `String.lowercased()` */
  function Lower(s: string): string {
    seq(|s|, i requires 0 <= i < |s| => LowerChar(s[i]))
  }

  lemma LowerIdempotent(s: string)
    ensures Lower(Lower(s)) == Lower(s)
  {
  }

  /** `String.uppercased()` */
  function Upper(s: string): string {
    seq(|s|, i requires 0 <= i < |s| => UpperChar(s[i]))
  }

  /** Some character of `s` is a decimal digit (`rangeOfCharacter(from: .decimalDigits) != nil`). */
  predicate HasDigit(s: string) {
    exists i | 0 <= i < |s| :: IsDigit(s[i])
  }

  // ---------------------------------------------------------------------
  // Prefixes, suffixes and containment
  // ---------------------------------------------------------------------

  predicate HasPrefix(s: string, p: string) {
    |p| <= |s| && s[..|p|] == p
  }

  predicate HasSuffix(s: string, p: string) {
    |p| <= |s| && s[|s| - |p|..] == p
  }

  /** `sub` occurs in `s` starting at index `i`. */
  predicate OccursAt(s: string, sub: string, i: int) {
    0 <= i && i + |sub| <= |s| && s[i..i + |sub|] == sub
  }

  /** `String.contains(_:)` for a string argument. */
  predicate Contains(s: string, sub: string) {
    exists i | 0 <= i <= |s| :: OccursAt(s, sub, i)
  }

  /** A string lacking one of the characters of `sub` does not contain `sub`. */
  lemma AbsentCharNotContained(s: string, sub: string, k: nat)
    requires k < |sub|
    requires forall i | 0 <= i < |s| :: s[i] != sub[k]
    ensures !Contains(s, sub)
  {
    forall i | 0 <= i <= |s| ensures !OccursAt(s, sub, i) {
      if i + |sub| <= |s| {
        assert s[i..i + |sub|][k] == s[i + k];
      }
    }
  }

  /** A string in which the first two characters of `sub` never appear side by side does not contain `sub`. */
  lemma AbsentPairNotContained(s: string, sub: string)
    requires 2 <= |sub|
    requires forall i | 0 <= i < |s| - 1 :: s[i] != sub[0] || s[i + 1] != sub[1]
    ensures !Contains(s, sub)
  {
    forall i | 0 <= i <= |s| ensures !OccursAt(s, sub, i) {
      if i + |sub| <= |s| {
        assert s[i..i + |sub|][0] == s[i] && s[i..i + |sub|][1] == s[i + 1];
      }
    }
  }

  lemma ContainsSelf(s: string)
    ensures Contains(s, s)
  {
    assert OccursAt(s, s, 0);
  }

  lemma PrefixContained(s: string, p: string)
    requires HasPrefix(s, p)
    ensures Contains(s, p)
  {
    assert OccursAt(s, p, 0);
  }

  /** Containment is transitive: a substring of a substring is a substring. */
  lemma ContainsTransitive(t: string, s: string, p: string)
    requires Contains(t, s) && Contains(s, p)
    ensures Contains(t, p)
  {
    var i :| 0 <= i <= |t| && OccursAt(t, s, i);
    var j :| 0 <= j <= |s| && OccursAt(s, p, j);
    var inner := t[i..i + |s|][j..j + |p|];
    var direct := t[i + j..i + j + |p|];
    forall k | 0 <= k < |p|
      ensures inner[k] == direct[k]
    {
    }
    assert inner == direct;
    assert OccursAt(t, p, i + j);
  }

  /** Text stays contained when more is written on either side. */
  lemma ContainsInConcat(a: string, b: string, p: string)
    ensures Contains(a, p) ==> Contains(a + b, p) && Contains(b + a, p)
  {
    if Contains(a, p) {
      assert OccursAt(a + b, a, 0);
      assert (b + a)[|b|..|b| + |a|] == a;
      assert OccursAt(b + a, a, |b|);
      ContainsTransitive(a + b, a, p);
      ContainsTransitive(b + a, a, p);
    }
  }

  lemma LowerConcat(a: string, b: string)
    ensures Lower(a + b) == Lower(a) + Lower(b)
  {
  }

  /** Upper-casing first does not change the lower-case form. */
  lemma LowerOfUpper(s: string)
    ensures Lower(Upper(s)) == Lower(s)
  {
  }

  lemma LowerContainsPreserved(t: string, s: string)
    requires Contains(t, s)
    ensures Contains(Lower(t), Lower(s))
  {
    var i :| 0 <= i <= |t| && OccursAt(t, s, i);
    assert Lower(t)[i..i + |s|] == Lower(s);
    assert OccursAt(Lower(t), Lower(s), i);
  }

  // ---------------------------------------------------------------------
  // Splitting, joining, trimming, replacing
  // ---------------------------------------------------------------------

  /**
   * `split(separator:)` with Swift's default of omitting empty pieces:
   * the maximal runs of characters other than `sep`, in order.
   */
  function Split(s: string, sep: char): seq<string> {
    SplitFrom(s, sep, [])
  }

  /** `Split` with the characters of the piece in progress in `cur`. */
  function SplitFrom(s: string, sep: char, cur: string): seq<string>
    decreases |s|
  {
    if s == [] then
      (if cur == [] then [] else [cur])
    else if s[0] == sep then
      (if cur == [] then [] else [cur]) + SplitFrom(s[1..], sep, [])
    else
      SplitFrom(s[1..], sep, cur + [s[0]])
  }

  predicate Free(s: string, c: char) {
    forall i | 0 <= i < |s| :: s[i] != c
  }

  /** Pieces that `Split` can produce: non-empty and separator-free. */
  predicate ValidPieces(pieces: seq<string>, sep: char) {
    forall k | 0 <= k < |pieces| :: pieces[k] != [] && Free(pieces[k], sep)
  }

  lemma {:induction false} SplitFromFree(p: string, rest: string, sep: char, cur: string)
    requires Free(p, sep)
    ensures SplitFrom(p + rest, sep, cur) == SplitFrom(rest, sep, cur + p)
    decreases |p|
  {
    if p != [] {
      assert (p + rest)[1..] == p[1..] + rest;
      assert cur + [p[0]] + p[1..] == cur + p;
      SplitFromFree(p[1..], rest, sep, cur + [p[0]]);
    } else {
      assert p + rest == rest && cur + p == cur;
    }
  }

  /** A separator-free, non-empty first piece is split off whole. */
  lemma SplitCons(p: string, rest: string, sep: char)
    requires p != [] && Free(p, sep)
    ensures Split(p + [sep] + rest, sep) == [p] + Split(rest, sep)
  {
    var tail := [sep] + rest;
    SplitFromFree(p, tail, sep, []);
    assert p + [sep] + rest == p + tail;
    assert [] + p == p;
    assert tail[0] == sep && tail[1..] == rest;
    assert SplitFrom(tail, sep, p) == [p] + SplitFrom(rest, sep, []);
  }

  /** Splitting undoes joining, for pieces that are non-empty and separator-free. */
  lemma {:induction false} SplitJoin(pieces: seq<string>, sep: char)
    requires ValidPieces(pieces, sep)
    ensures Split(Join(pieces, [sep]), sep) == pieces
    decreases |pieces|
  {
    if |pieces| == 1 {
      SplitSingle(pieces[0], sep);
    } else if |pieces| > 1 {
      assert ValidPieces(pieces[1..], sep) by {
        forall k | 0 <= k < |pieces[1..]| ensures pieces[1..][k] != [] && Free(pieces[1..][k], sep) {
          assert pieces[1..][k] == pieces[k + 1];
        }
      }
      SplitJoin(pieces[1..], sep);
      assert pieces[0] != [] && Free(pieces[0], sep);
      SplitCons(pieces[0], Join(pieces[1..], [sep]), sep);
      assert [pieces[0]] + pieces[1..] == pieces;
    }
  }

  /** Every piece `Split` produces is non-empty and free of the separator. */
  lemma {:induction false} SplitFromValid(s: string, sep: char, cur: string)
    requires Free(cur, sep)
    ensures ValidPieces(SplitFrom(s, sep, cur), sep)
    decreases |s|
  {
    if s == [] {
    } else if s[0] == sep {
      SplitFromValid(s[1..], sep, []);
    } else {
      SplitFromValid(s[1..], sep, cur + [s[0]]);
    }
  }

  lemma SplitValid(s: string, sep: char)
    ensures ValidPieces(Split(s, sep), sep)
  {
    SplitFromValid(s, sep, []);
  }

  /** A leading separator contributes no piece. */
  lemma SplitLeadingSeparator(s: string, sep: char)
    ensures Split([sep] + s, sep) == Split(s, sep)
  {
    assert ([sep] + s)[1..] == s;
  }

  /** A non-empty separator-free string splits into itself. */
  lemma SplitSingle(p: string, sep: char)
    requires p != [] && Free(p, sep)
    ensures Split(p, sep) == [p]
  {
    SplitFromFree(p, [], sep, []);
    assert p + [] == p && [] + p == p;
    assert SplitFrom([], sep, p) == [p];
  }

  /** `joined(separator:)` */
  function Join(parts: seq<string>, sep: string): string
    decreases |parts|
  {
    if parts == [] then []
    else if |parts| == 1 then parts[0]
    else parts[0] + sep + Join(parts[1..], sep)
  }

  /** The characters of `s` with every `from` replaced by `to`. */
  function ReplaceChar(s: string, from: char, to: char): string {
    seq(|s|, i requires 0 <= i < |s| => if s[i] == from then to else s[i])
  }

  function TrimStart(s: string): string
    decreases |s|
  {
    if s != [] && IsWhitespace(s[0]) then TrimStart(s[1..]) else s
  }

  function TrimEnd(s: string): string
    decreases |s|
  {
    if s != [] && IsWhitespace(s[|s| - 1]) then TrimEnd(s[..|s| - 1]) else s
  }

  /** `trimmingCharacters(in: .whitespacesAndNewlines)` */
  function Trim(s: string): string {
    TrimEnd(TrimStart(s))
  }

  predicate AllWhitespace(s: string) {
    forall i | 0 <= i < |s| :: IsWhitespace(s[i])
  }

  lemma {:induction false} TrimStartEmpty(s: string)
    ensures TrimStart(s) == [] <==> AllWhitespace(s)
    decreases |s|
  {
    if s != [] && IsWhitespace(s[0]) {
      TrimStartEmpty(s[1..]);
      assert AllWhitespace(s) <==> AllWhitespace(s[1..]) by {
        if AllWhitespace(s[1..]) {
          forall i | 0 <= i < |s| ensures IsWhitespace(s[i]) {
            if i > 0 { assert s[i] == s[1..][i - 1]; }
          }
        }
      }
    }
  }

  lemma {:induction false} TrimEndEmpty(s: string)
    ensures TrimEnd(s) == [] <==> AllWhitespace(s)
    decreases |s|
  {
    if s != [] && IsWhitespace(s[|s| - 1]) {
      TrimEndEmpty(s[..|s| - 1]);
      assert AllWhitespace(s) <==> AllWhitespace(s[..|s| - 1]) by {
        if AllWhitespace(s[..|s| - 1]) {
          forall i | 0 <= i < |s| ensures IsWhitespace(s[i]) {
            if i < |s| - 1 { assert s[i] == s[..|s| - 1][i]; }
          }
        }
      }
    } else if s != [] {
      assert !IsWhitespace(s[|s| - 1]);
    }
  }

  lemma {:induction false} TrimStartShape(s: string)
    ensures TrimStart(s) == [] || !IsWhitespace(TrimStart(s)[0])
    decreases |s|
  {
    if s != [] && IsWhitespace(s[0]) {
      TrimStartShape(s[1..]);
    }
  }

  /** A string trims to nothing exactly when all its characters are whitespace. */
  lemma TrimEmptyIffBlank(s: string)
    ensures Trim(s) == [] <==> AllWhitespace(s)
  {
    TrimStartEmpty(s);
    TrimStartShape(s);
    TrimEndEmpty(TrimStart(s));
  }

  // ---------------------------------------------------------------------
  // Decimal rendering and integer parsing
  // ---------------------------------------------------------------------

  function DigitChar(d: int): char
    requires 0 <= d < 10
  {
    ('0' as int + d) as char
  }

  /** Decimal digits of a natural number, as string interpolation prints it. */
  function NatToString(n: nat): string
    decreases n
  {
    if n < 10 then [DigitChar(n)] else NatToString(n / 10) + [DigitChar(n % 10)]
  }

  function IntToString(n: int): string {
    if n < 0 then "-" + NatToString(-n) else NatToString(n)
  }

  predicate AllDigitsIn(s: string, radix: nat)
    requires 2 <= radix <= 10
  {
    forall i | 0 <= i < |s| :: '0' <= s[i] && (s[i] as int) < '0' as int + radix
  }

  /** The value of a run of digits in the given radix. */
  function DigitsValue(s: string, radix: nat): nat
    requires 2 <= radix <= 10
    requires AllDigitsIn(s, radix)
    decreases |s|
  {
    if s == [] then 0
    else DigitsValue(s[..|s| - 1], radix) * radix + (s[|s| - 1] as int - '0' as int)
  }

  /**
   * The unbounded value of an optional `+`/`-` sign followed by one or more
   * digits of `radix`, as Swift's integer initialisers read a string; `None`
   * for anything else (empty input, a lone sign, a foreign character).
   */
  function ParseSigned(s: string, radix: nat): (r: Option<int>)
    requires 2 <= radix <= 10
  {
    if s == [] then None
    else if s[0] == '+' || s[0] == '-' then
      var digits := s[1..];
      if digits != [] && AllDigitsIn(digits, radix) then
        Some(if s[0] == '-' then -(DigitsValue(digits, radix) as int) else DigitsValue(digits, radix))
      else None
    else if AllDigitsIn(s, radix) then Some(DigitsValue(s, radix))
    else None
  }

  /** `Int(s)`: a signed 64-bit decimal integer, `None` on overflow. */
  function ParseInt(s: string): Option<int> {
    match ParseSigned(s, 10)
    case Some(v) => if -0x8000_0000_0000_0000 <= v < 0x8000_0000_0000_0000 then Some(v) else None
    case None => None
  }

  /** `UInt8(s)`: a decimal byte; `"-0"` is accepted as 0, other negatives are not. */
  function ParseByte(s: string): Option<int> {
    match ParseSigned(s, 10)
    case Some(v) => if 0 <= v < 256 then Some(v) else None
    case None => None
  }

  lemma {:induction false} DigitsValueOfNatToString(n: nat)
    ensures AllDigitsIn(NatToString(n), 10)
    ensures DigitsValue(NatToString(n), 10) == n
    decreases n
  {
    var s := NatToString(n);
    if n >= 10 {
      DigitsValueOfNatToString(n / 10);
      assert s[..|s| - 1] == NatToString(n / 10);
    }
  }

  /** Reading back a rendered natural number gives the number. */
  lemma ParseSignedNatToString(n: nat)
    ensures ParseSigned(NatToString(n), 10) == Some(n)
  {
    DigitsValueOfNatToString(n);
  }

  /** Reading back a rendered 64-bit integer gives the integer. */
  lemma ParseIntIntToString(n: int)
    requires -0x8000_0000_0000_0000 <= n < 0x8000_0000_0000_0000
    ensures ParseInt(IntToString(n)) == Some(n)
  {
    if n < 0 {
      var s := IntToString(n);
      DigitsValueOfNatToString(-n);
      assert s[1..] == NatToString(-n);
    } else {
      ParseSignedNatToString(n);
    }
  }

  lemma {:induction false} NatToStringDigits(n: nat)
    ensures NatToString(n) != []
    ensures forall i | 0 <= i < |NatToString(n)| :: IsDigit(NatToString(n)[i])
    decreases n
  {
    if n >= 10 {
      NatToStringDigits(n / 10);
    }
  }

  /** A rendered integer is a non-empty run of digits, after a minus sign for negatives. */
  lemma IntToStringChars(n: int)
    ensures IntToString(n) != []
    ensures forall i | 0 <= i < |IntToString(n)| :: IsDigit(IntToString(n)[i]) || IntToString(n)[i] == '-'
  {
    NatToStringDigits(if n < 0 then -n else n);
  }
}

=== FILE: transfer_history.dfy ===
/**
 * The history of transfers (uploads to SFTP devices, downloads to the
 * device): one record per transfer, and records grouped by platform with
 * their totals. Identifiers and dates are inputs.
 */
module TransferHistory {
  import opened Base
  import opened Seqs

  datatype TransferType = Upload | Download
  datatype DeviceType = Local | Sftp

  /** `TransferHistory`. */
  datatype Transfer = Transfer(
    id: int,
    deviceId: int,
    deviceName: string,
    deviceType: DeviceType,
    transferType: TransferType,
    romId: int,
    romName: string,
    platformName: string,
    platformSlug: Option<string>,
    fileSizeBytes: int,
    transferDate: int,
    success: bool)

  /**
   * The initializer: a new record with the given id and date (taken
   * from a fresh UUID and the clock by default), no platform slug unless
   * one is given, and marked successful unless said otherwise.
   */
  function NewTransfer(id: int, deviceId: int, deviceName: string, deviceType: DeviceType, transferType: TransferType,
                       romId: int, romName: string, platformName: string, fileSizeBytes: int, now: int,
                       platformSlug: Option<string> := None, success: bool := true): (r: Transfer)
    ensures r.id == id && r.transferDate == now && r.platformSlug == platformSlug && r.success == success
    ensures r.deviceId == deviceId && r.deviceName == deviceName && r.deviceType == deviceType
    ensures r.transferType == transferType
    ensures r.romId == romId && r.romName == romName && r.fileSizeBytes == fileSizeBytes && r.platformName == platformName
  {
    Transfer(id, deviceId, deviceName, deviceType, transferType, romId, romName, platformName, platformSlug,
             fileSizeBytes, now, success)
  }

  /**
   * Every record is the initializer's: a record's own fields, passed back
   * to it, rebuild that record, so no field is lost or mixed up.
   */
  lemma NewTransferRebuilds(t: Transfer)
    ensures NewTransfer(t.id, t.deviceId, t.deviceName, t.deviceType, t.transferType, t.romId, t.romName,
                        t.platformName, t.fileSizeBytes, t.transferDate, t.platformSlug, t.success) == t
  {
  }

  /** The custom `==`: two records are equal when their ids are. */
  predicate SameTransfer(a: Transfer, b: Transfer) {
    a.id == b.id
  }

  /** A record built without saying otherwise counts as a success. */
  lemma DefaultsToSuccess(id: int, deviceId: int, deviceName: string, deviceType: DeviceType, transferType: TransferType,
                          romId: int, romName: string, platformName: string, fileSizeBytes: int, now: int)
    ensures NewTransfer(id, deviceId, deviceName, deviceType, transferType, romId, romName, platformName, fileSizeBytes, now).success
    ensures NewTransfer(id, deviceId, deviceName, deviceType, transferType, romId, romName, platformName, fileSizeBytes, now).platformSlug.None?
  {
  }

  /** Equality ignores every field but the id: a record equals any edit of it that keeps the id, and is an equivalence. */
  lemma EqualityIsById(a: Transfer, b: Transfer, c: Transfer, size: int, ok: bool)
    ensures SameTransfer(a, a.(fileSizeBytes := size, success := ok))
    ensures SameTransfer(a, b) <==> a.id == b.id
    ensures SameTransfer(a, b) ==> SameTransfer(b, a)
    ensures SameTransfer(a, b) && SameTransfer(b, c) ==> SameTransfer(a, c)
  {
  }

  /** `TransferHistoryByPlatform`. */
  datatype PlatformGroup = PlatformGroup(platformName: string, platformSlug: Option<string>, transfers: seq<Transfer>)

  function Sizes(transfers: seq<Transfer>): (r: seq<int>)
    ensures |r| == |transfers|
    ensures forall i | 0 <= i < |transfers| :: r[i] == transfers[i].fileSizeBytes
  {
    seq(|transfers|, i requires 0 <= i < |transfers| => transfers[i].fileSizeBytes)
  }

  /** `totalSize`: `reduce(0)` over the transfers' sizes, from the front. */
  function TotalSize(g: PlatformGroup): int {
    SizesFrom(g.transfers, 0)
  }

  /** The running sum `acc` plus the sizes of `transfers`, added first to last. */
  function SizesFrom(transfers: seq<Transfer>, acc: int): int
    decreases |transfers|
  {
    if transfers == [] then acc else SizesFrom(transfers[1..], acc + transfers[0].fileSizeBytes)
  }

  /** The fold starting at `acc` is `acc` plus the sum of the sizes. */
  lemma {:induction false} SizesFromSum(transfers: seq<Transfer>, acc: int)
    ensures SizesFrom(transfers, acc) == acc + Sum(Sizes(transfers))
    decreases |transfers|
  {
    if transfers != [] {
      SizesFromSum(transfers[1..], acc + transfers[0].fileSizeBytes);
      assert Sizes(transfers) == [transfers[0].fileSizeBytes] + Sizes(transfers[1..]);
      SumAppend([transfers[0].fileSizeBytes], Sizes(transfers[1..]));
      assert Sum([transfers[0].fileSizeBytes]) == transfers[0].fileSizeBytes by {
        assert [transfers[0].fileSizeBytes][..0] == [];
      }
    }
  }

  /** A group's total is the sum of its transfers' sizes; adding a transfer adds its size. */
  lemma TotalSizeIsSum(g: PlatformGroup, t: Transfer)
    ensures TotalSize(g) == Sum(Sizes(g.transfers))
    ensures TotalSize(g.(transfers := g.transfers + [t])) == TotalSize(g) + t.fileSizeBytes
  {
    SizesFromSum(g.transfers, 0);
    SizesFromSum(g.transfers + [t], 0);
    assert Sizes(g.transfers + [t]) == Sizes(g.transfers) + [t.fileSizeBytes];
    SumAppend(Sizes(g.transfers), [t.fileSizeBytes]);
    assert Sum([t.fileSizeBytes]) == t.fileSizeBytes by {
      assert [t.fileSizeBytes][..0] == [];
    }
  }

  /** `transferCount`: the number of transfers in the group; an empty group totals nothing. */
  function TransferCount(g: PlatformGroup): (r: nat)
    ensures r == 0 ==> TotalSize(g) == 0
  {
    |g.transfers|
  }

  /** With every size between 0 and `maxSize`, the total lies between 0 and the count times `maxSize`. */
  lemma TotalWithinCount(g: PlatformGroup, maxSize: int)
    requires forall t | t in g.transfers :: 0 <= t.fileSizeBytes <= maxSize
    ensures 0 <= TotalSize(g) <= TransferCount(g) * maxSize
  {
    SizesFromSum(g.transfers, 0);
    SumWithinCount(g.transfers, maxSize);
  }

  /** The sizes of at most `maxSize` each add up to at most their number times `maxSize`. */
  lemma {:induction false} SumWithinCount(transfers: seq<Transfer>, maxSize: int)
    requires forall t | t in transfers :: 0 <= t.fileSizeBytes <= maxSize
    ensures 0 <= Sum(Sizes(transfers)) <= |transfers| * maxSize
    decreases |transfers|
  {
    if transfers != [] {
      var front := transfers[..|transfers| - 1];
      var last := transfers[|transfers| - 1];
      assert forall t | t in front :: t in transfers;
      assert last in transfers;
      SumWithinCount(front, maxSize);
      assert |transfers| * maxSize == |front| * maxSize + maxSize;
      assert Sizes(transfers) == Sizes(front) + [last.fileSizeBytes];
      SumAppend(Sizes(front), [last.fileSizeBytes]);
      assert Sum([last.fileSizeBytes]) == last.fileSizeBytes by {
        assert [last.fileSizeBytes][..0] == [];
      }
    }
  }

  /** A group of non-negative sizes totals at least each of its transfers. */
  lemma {:induction false} TotalSizeBounds(transfers: seq<Transfer>)
    requires forall t | t in transfers :: t.fileSizeBytes >= 0
    ensures Sum(Sizes(transfers)) >= 0
    ensures forall t | t in transfers :: Sum(Sizes(transfers)) >= t.fileSizeBytes
    decreases |transfers|
  {
    if transfers != [] {
      var front := transfers[..|transfers| - 1];
      var last := transfers[|transfers| - 1];
      assert transfers == front + [last];
      assert forall t | t in front :: t in transfers;
      TotalSizeBounds(front);
      assert Sizes(transfers) == Sizes(front) + [last.fileSizeBytes];
      SumAppend(Sizes(front), [last.fileSizeBytes]);
      assert Sum([last.fileSizeBytes]) == last.fileSizeBytes by {
        assert [last.fileSizeBytes][..0] == [];
      }
    }
  }
}

=== FILE: upload_view_model.dfy ===
/**
 * The screen that sends a ROM's files to an SFTP device or to local
 * storage: choosing the target, choosing files, the upload guard, the
 * error that hides itself after a success, the size estimate and the
 * check of a downloaded file's size. Transfers, the remote server and
 * the API are inputs: each step is given what they returned.
 */
module UploadViewModel {
  import opened Base
  import opened Strings
  import opened Seqs
  import opened Paths
  import opened Roms
  import opened SftpConnections

  const NoFilesForUpload: string := "No files selected for upload"
  const NoFilesForDownload: string := "No files selected for download"

  /** `RomFileInfo`: a file of the ROM, identified by its name. */
  datatype RomFileInfo = RomFileInfo(id: string, fileName: string, fileSizeBytes: int, fileExtension: string)

  /** The screen's state; progress fractions and preparation messages are left out. */
  datatype Uploader = Uploader(
    connections: seq<SftpConnection>,
    selectedConnection: Option<SftpConnection>,
    isLocalDeviceSelected: bool,
    targetPath: Option<string>,
    showingDirectoryBrowser: bool,
    isUploading: bool,
    storedError: Option<string>,
    isUploadSuccessful: bool,
    isCompleted: bool,
    uploadedBytes: int,
    totalBytes: int,
    availableFiles: seq<RomFileInfo>,
    selectedFiles: set<string>)

  /** Exactly one of the local device and an SFTP connection is the target. */
  predicate OneTarget(u: Uploader) {
    u.isLocalDeviceSelected <==> u.selectedConnection.None?
  }

  // ---------------------------------------------------------------------
  // The self-hiding error
  // ---------------------------------------------------------------------

  /** Reading `error`: nothing is shown once an upload has succeeded. */
  function VisibleError(u: Uploader): (r: Option<string>)
    ensures u.isUploadSuccessful ==> r.None?
    ensures !u.isUploadSuccessful ==> r == u.storedError
  {
    if u.isUploadSuccessful then None else u.storedError
  }

  /** Writing `error`: a message is ignored once an upload has succeeded; clearing always works. */
  function SetError(u: Uploader, e: Option<string>): (r: Uploader)
    ensures u.isUploadSuccessful && e.Some? ==> r == u
    ensures !(u.isUploadSuccessful && e.Some?) ==> r == u.(storedError := e)
  {
    if u.isUploadSuccessful && e.Some? then u else u.(storedError := e)
  }

  /** What is written is what is read, except that nothing is shown after a success. */
  lemma SetThenRead(u: Uploader, e: Option<string>)
    ensures VisibleError(SetError(u, e)) == (if u.isUploadSuccessful then None else e)
  {
  }

  // ---------------------------------------------------------------------
  // Targets
  // ---------------------------------------------------------------------

  /** A screen before anything is loaded. */
  function Blank(): Uploader {
    Uploader([], None, false, None, false, false, None, false, false, 0, 0, [], {})
  }

  /**
   * `loadConnections`: with no connections the local device is chosen;
   * otherwise the default connection, or else the first one.
   */
  function LoadConnections(u: Uploader, connections: seq<SftpConnection>, defaultConnection: Option<SftpConnection>): (r: Uploader)
    ensures OneTarget(r) && r.connections == connections
    ensures r.isLocalDeviceSelected <==> connections == []
    ensures connections != [] ==> r.selectedConnection == Some(defaultConnection.GetOr(connections[0]))
  {
    if connections == [] then u.(connections := connections, isLocalDeviceSelected := true, selectedConnection := None)
    else u.(connections := connections, selectedConnection := Some(defaultConnection.GetOr(connections[0])), isLocalDeviceSelected := false)
  }

  /** `selectConnection`: the connection becomes the target and the folder is forgotten. */
  function SelectConnection(u: Uploader, c: SftpConnection): (r: Uploader)
    ensures OneTarget(r) && !r.isLocalDeviceSelected && r.selectedConnection == Some(c) && r.targetPath.None?
    ensures r.(selectedConnection := u.selectedConnection, isLocalDeviceSelected := u.isLocalDeviceSelected, targetPath := u.targetPath) == u
  {
    u.(selectedConnection := Some(c), isLocalDeviceSelected := false, targetPath := None)
  }

  /** `selectLocalDevice`: local storage becomes the target and the folder is forgotten. */
  function SelectLocalDevice(u: Uploader): (r: Uploader)
    ensures OneTarget(r) && r.isLocalDeviceSelected && r.targetPath.None?
    ensures r.(selectedConnection := u.selectedConnection, isLocalDeviceSelected := u.isLocalDeviceSelected, targetPath := u.targetPath) == u
  {
    u.(selectedConnection := None, isLocalDeviceSelected := true, targetPath := None)
  }

  /** `browseDirectories`: the browser opens only for an SFTP target. */
  function BrowseDirectories(u: Uploader): (r: Uploader)
    ensures r.showingDirectoryBrowser <==> u.showingDirectoryBrowser || u.selectedConnection.Some?
    ensures r.(showingDirectoryBrowser := u.showingDirectoryBrowser) == u
  {
    if u.selectedConnection.None? then u else u.(showingDirectoryBrowser := true)
  }

  /** `selectTargetPath`: the folder is chosen and the browser closes. */
  function SelectTargetPath(u: Uploader, path: string): (r: Uploader)
    ensures r.targetPath == Some(path) && !r.showingDirectoryBrowser
    ensures r.(targetPath := u.targetPath, showingDirectoryBrowser := u.showingDirectoryBrowser) == u
  {
    u.(targetPath := Some(path), showingDirectoryBrowser := false)
  }

  // ---------------------------------------------------------------------
  // Files
  // ---------------------------------------------------------------------

  /**
   * `loadAvailableFiles`: the files of the ROM's details with the first
   * one selected; when the details cannot be fetched, a single file
   * named after the ROM's file (or its name with ".rom") and sized by
   * the ROM. The path extension of a name is given by `extensionOf`.
   */
  function LoadAvailableFiles(u: Uploader, rom: Rom, details: Option<seq<RomFileInfo>>, extensionOf: string -> string): (r: Uploader)
    ensures details.Some? ==> r.availableFiles == details.value
    ensures details.Some? && details.value != [] ==> r.selectedFiles == {details.value[0].id}
    ensures details.Some? && details.value == [] ==> r.selectedFiles == u.selectedFiles
    ensures details.None? ==> |r.availableFiles| == 1 && r.selectedFiles == {r.availableFiles[0].id}
    ensures details.None? ==> r.availableFiles[0].fileName == rom.fileName.GetOr(rom.name + ".rom")
    ensures details.None? ==> r.availableFiles[0].fileSizeBytes == rom.sizeBytes.GetOr(0)
    ensures r.storedError.None?
    ensures r.(availableFiles := u.availableFiles, selectedFiles := u.selectedFiles, storedError := u.storedError) == u
  {
    var cleared := u.(storedError := None);
    match details
    case Some(files) =>
      if files == [] then cleared.(availableFiles := files)
      else cleared.(availableFiles := files, selectedFiles := {files[0].id})
    case None =>
      var name := rom.fileName.GetOr(rom.name + ".rom");
      var fallback := RomFileInfo(name, name, rom.sizeBytes.GetOr(0), extensionOf(name));
      cleared.(availableFiles := [fallback], selectedFiles := {fallback.id})
  }

  /** `toggleFileSelection`: the file's id joins or leaves the selection. */
  function ToggleFileSelection(u: Uploader, fileId: string): (r: Uploader)
    ensures fileId in r.selectedFiles <==> fileId !in u.selectedFiles
    ensures forall other | other != fileId :: other in r.selectedFiles <==> other in u.selectedFiles
    ensures r.(selectedFiles := u.selectedFiles) == u
  {
    if fileId in u.selectedFiles then u.(selectedFiles := u.selectedFiles - {fileId})
    else u.(selectedFiles := u.selectedFiles + {fileId})
  }

  /** Toggling the same file twice restores the selection. */
  lemma ToggleTwice(u: Uploader, fileId: string)
    ensures ToggleFileSelection(ToggleFileSelection(u, fileId), fileId) == u
  {
    var r := ToggleFileSelection(ToggleFileSelection(u, fileId), fileId);
    assert r.selectedFiles == u.selectedFiles;
  }

  /** `selectAllFiles`: every available file's id. */
  function SelectAllFiles(u: Uploader): (r: Uploader)
    ensures forall id :: id in r.selectedFiles <==> exists f | f in u.availableFiles :: f.id == id
    ensures r.(selectedFiles := u.selectedFiles) == u
  {
    u.(selectedFiles := set f | f in u.availableFiles :: f.id)
  }

  /** `deselectAllFiles`. */
  function DeselectAllFiles(u: Uploader): (r: Uploader)
    ensures r.selectedFiles == {} && r.(selectedFiles := u.selectedFiles) == u
  {
    u.(selectedFiles := {})
  }

  function IsSelected(ids: set<string>): RomFileInfo -> bool {
    (f: RomFileInfo) => f.id in ids
  }

  /** `selectedFilesList`: the available files whose id is selected, in their listed order. */
  function SelectedFilesList(u: Uploader): (r: seq<RomFileInfo>)
    ensures SubsequenceOf(r, u.availableFiles)
    ensures forall f :: f in r <==> f in u.availableFiles && f.id in u.selectedFiles
  {
    Filter(u.availableFiles, IsSelected(u.selectedFiles))
  }

  /** After selecting everything, every available file is in the list, in order. */
  lemma SelectAllListsEverything(u: Uploader)
    ensures SelectedFilesList(SelectAllFiles(u)) == u.availableFiles
  {
    var all := SelectAllFiles(u);
    assert forall f | f in u.availableFiles :: IsSelected(all.selectedFiles)(f);
    FilterAll(u.availableFiles, IsSelected(all.selectedFiles));
  }

  /** `canUpload`: not busy, something selected, and for SFTP a connection and a folder. */
  predicate CanUpload(u: Uploader) {
    if u.isLocalDeviceSelected then !u.isUploading && u.selectedFiles != {}
    else u.selectedConnection.Some? && u.targetPath.Some? && !u.isUploading && u.selectedFiles != {}
  }

  /** Changing the target always forgets the folder, so an SFTP upload needs a folder chosen again. */
  lemma NewConnectionNeedsFolder(u: Uploader, c: SftpConnection)
    ensures !CanUpload(SelectConnection(u, c))
    ensures CanUpload(SelectLocalDevice(u)) <==> !u.isUploading && u.selectedFiles != {}
  {
  }

  // ---------------------------------------------------------------------
  // Uploading
  // ---------------------------------------------------------------------

  function Sizes(files: seq<RomFileInfo>): (r: seq<int>)
    ensures |r| == |files| && forall i | 0 <= i < |files| :: r[i] == files[i].fileSizeBytes
  {
    seq(|files|, i requires 0 <= i < |files| => files[i].fileSizeBytes)
  }

  /** Where each file goes: the folder joined with the file's name by a single '/'. */
  function RemotePaths(targetPath: string, files: seq<RomFileInfo>): (r: seq<string>)
    ensures |r| == |files|
    ensures forall i | 0 <= i < |files| :: r[i] == JoinPath(targetPath, files[i].fileName)
  {
    seq(|files|, i requires 0 <= i < |files| => JoinPath(targetPath, files[i].fileName))
  }

  /**
   * `startUpload` towards an SFTP device: with the local device chosen
   * it is the local download instead. Without a connection or a folder,
   * or while busy, nothing happens. With nothing selected an error is
   * set. Otherwise the selected files are sent in order to
   * `RemotePaths`; `failure` is the description of the first failing
   * step, if any. The second component lists the remote paths used.
   */
  function StartUpload(u: Uploader, failure: Option<string>): (r: (Uploader, seq<string>))
    requires !u.isLocalDeviceSelected
    ensures u.selectedConnection.None? || u.targetPath.None? || u.isUploading ==> r == (u, [])
    ensures CanUpload(u) && SelectedFilesList(u) != [] ==>
              r.1 == RemotePaths(u.targetPath.value, SelectedFilesList(u))
              && r.0.totalBytes == Sum(Sizes(SelectedFilesList(u)))
              && (failure.None? ==> r.0.isUploadSuccessful && r.0.isCompleted && r.0.uploadedBytes == r.0.totalBytes
                                    && VisibleError(r.0).None?)
              && (failure.Some? && !u.isUploadSuccessful ==> VisibleError(r.0) == failure && !r.0.isCompleted)
    ensures CanUpload(u) && SelectedFilesList(u) == [] ==>
              r.1 == [] && VisibleError(r.0) == (if u.isUploadSuccessful then None else Some(NoFilesForUpload))
    ensures r.0.isUploading == u.isUploading
  {
    if u.selectedConnection.None? || u.targetPath.None? || u.isUploading then (u, [])
    else
      var started := SetError(u.(isUploading := true, uploadedBytes := 0), None).(isCompleted := false);
      var files := SelectedFilesList(u);
      if files == [] then (SetError(started, Some(NoFilesForUpload)).(isUploading := false), [])
      else
        var sized := started.(totalBytes := Sum(Sizes(files)));
        var paths := RemotePaths(u.targetPath.value, files);
        match failure
        case None =>
          (SetError(sized.(isUploadSuccessful := true, isCompleted := true, uploadedBytes := sized.totalBytes), None)
             .(isUploading := false), paths)
        case Some(message) => (SetError(sized, Some(message)).(isUploading := false), paths)
  }

  /**
   * A success is never reset by a later upload: when that one fails, its
   * error is swallowed and the screen shows none.
   */
  lemma FailureAfterSuccessIsSilent(u: Uploader, message: string)
    requires !u.isLocalDeviceSelected && u.isUploadSuccessful
    ensures VisibleError(StartUpload(u, Some(message)).0).None?
  {
  }

  /** The local download: the same guards and bookkeeping, with the download's own message. */
  function StartLocalDownload(u: Uploader, failure: Option<string>): (r: Uploader)
    ensures u.isUploading ==> r == u
    ensures !u.isUploading && SelectedFilesList(u) == [] ==>
              VisibleError(r) == (if u.isUploadSuccessful then None else Some(NoFilesForDownload))
    ensures !u.isUploading && SelectedFilesList(u) != [] ==>
              r.totalBytes == Sum(Sizes(SelectedFilesList(u)))
              && (failure.None? ==> r.isUploadSuccessful && r.isCompleted && r.uploadedBytes == r.totalBytes)
    ensures !u.isUploading && SelectedFilesList(u) != [] && failure.Some? ==>
              !r.isCompleted && r.isUploadSuccessful == u.isUploadSuccessful
              && VisibleError(r) == (if u.isUploadSuccessful then None else failure)
    ensures r.isUploading == u.isUploading
  {
    if u.isUploading then u
    else
      var started := SetError(u.(isUploading := true, uploadedBytes := 0), None).(isCompleted := false);
      var files := SelectedFilesList(u);
      if files == [] then SetError(started, Some(NoFilesForDownload)).(isUploading := false)
      else
        var sized := started.(totalBytes := Sum(Sizes(files)));
        match failure
        case None =>
          SetError(sized.(isUploadSuccessful := true, isCompleted := true, uploadedBytes := sized.totalBytes), None)
            .(isUploading := false)
        case Some(message) => SetError(sized, Some(message)).(isUploading := false)
  }

  /**
   * The local download is the remote upload without the remote paths: for
   * the same selection and the same outcome it leaves the screen in the
   * same state, and with nothing selected the two differ only in which
   * message they set.
   */
  lemma LocalDownloadMatchesUpload(u: Uploader, failure: Option<string>)
    requires !u.isLocalDeviceSelected && u.selectedConnection.Some? && u.targetPath.Some?
    ensures SelectedFilesList(u) != [] ==> StartLocalDownload(u, failure) == StartUpload(u, failure).0
    ensures SelectedFilesList(u) == [] && !u.isUploading ==>
              StartLocalDownload(u, failure).(storedError := None) == StartUpload(u, failure).0.(storedError := None)
  {
  }

  /** `resetUpload`: clears the success first, so errors show again; forgets the selection and the folder. */
  function ResetUpload(u: Uploader): (r: Uploader)
    ensures !r.isUploadSuccessful && !r.isCompleted && !r.isUploading && VisibleError(r).None?
    ensures r.selectedFiles == {} && r.targetPath.None? && r.uploadedBytes == 0 && r.totalBytes == 0
    ensures r.connections == u.connections && r.selectedConnection == u.selectedConnection
    ensures r.availableFiles == u.availableFiles
  {
    u.(isUploading := false, uploadedBytes := 0, totalBytes := 0, isUploadSuccessful := false, storedError := None,
       isCompleted := false, selectedFiles := {}, targetPath := None, showingDirectoryBrowser := false)
  }

  /** After a reset a failing upload's error is shown again. */
  lemma ResetRestoresErrors(u: Uploader, message: string)
    requires !u.isLocalDeviceSelected
    ensures VisibleError(SetError(ResetUpload(u), Some(message))) == Some(message)
  {
  }

  // ---------------------------------------------------------------------
  // Sizes
  // ---------------------------------------------------------------------

  const MiB: int := 1024 * 1024
  const CdEstimate: int := 700 * MiB
  const DvdEstimate: int := 4 * 1024 * MiB
  const CartridgeEstimate: int := 32 * MiB

  /** `estimateRomSize`: disc images by name, then DVD systems, else a cartridge. */
  function EstimateRomSize(romName: string): (r: int)
    ensures var n := Lower(romName);
            && (r == CdEstimate <==> Contains(n, "cd") || Contains(n, "iso") || Contains(n, "chd"))
            && (r == DvdEstimate <==> !(Contains(n, "cd") || Contains(n, "iso") || Contains(n, "chd"))
                                      && (Contains(n, "dvd") || Contains(n, "wii") || Contains(n, "ps2")))
            && (r == CartridgeEstimate || r == CdEstimate || r == DvdEstimate)
  {
    var n := Lower(romName);
    if Contains(n, "cd") || Contains(n, "iso") || Contains(n, "chd") then CdEstimate
    else if Contains(n, "dvd") || Contains(n, "wii") || Contains(n, "ps2") then DvdEstimate
    else CartridgeEstimate
  }

  /** A name tagged "(CD)" is estimated as a CD image. */
  lemma DiscNamesAreCds()
    ensures EstimateRomSize("Game (CD).chd") == CdEstimate
  {
    var n := Lower("Game (CD).chd");
    assert n[6..8] == "cd" by {
      assert n[6] == 'c' && n[7] == 'd';
    }
    assert OccursAt(n, "cd", 6);
  }

  /** The estimate reads the name without regard to case. */
  lemma EstimateIgnoresCase(romName: string)
    ensures EstimateRomSize(Lower(romName)) == EstimateRomSize(romName)
    ensures EstimateRomSize(Upper(romName)) == EstimateRomSize(romName)
  {
    LowerIdempotent(romName);
    LowerOfUpper(romName);
  }

  /**
   * More text around a name never takes a disc estimate away: a CD stays a
   * CD, and a disc of either kind never becomes a cartridge.
   */
  lemma {:induction false} EstimateKeepsDiscs(romName: string, more: string)
    ensures EstimateRomSize(romName) == CdEstimate ==>
              EstimateRomSize(romName + more) == CdEstimate && EstimateRomSize(more + romName) == CdEstimate
    ensures EstimateRomSize(romName) != CartridgeEstimate ==>
              EstimateRomSize(romName + more) != CartridgeEstimate && EstimateRomSize(more + romName) != CartridgeEstimate
  {
    var n, m := Lower(romName), Lower(more);
    LowerConcat(romName, more);
    LowerConcat(more, romName);
    forall tag | tag in ["cd", "iso", "chd", "dvd", "wii", "ps2"]
      ensures Contains(n, tag) ==> Contains(n + m, tag) && Contains(m + n, tag)
    {
      ContainsInConcat(n, m, tag);
    }
  }

  /** The bytes a transfer needs: the selected files' sizes, or an estimate when none is selected. */
  function RequiredBytes(u: Uploader, romName: string): (r: int)
    ensures SelectedFilesList(u) != [] ==> r == Sum(Sizes(SelectedFilesList(u)))
    ensures SelectedFilesList(u) == [] ==> r == EstimateRomSize(romName)
  {
    var files := SelectedFilesList(u);
    if files != [] then Sum(Sizes(files)) else EstimateRomSize(romName)
  }

  datatype FileValidation = FileValidation(isValid: bool, actualSize: int, expectedSize: Option<int>, errorMessage: Option<string>)

  const ValidationFailedPrefix: string := "Validation failed: "

  /** The message for a size that differs from the expected one. */
  function MismatchMessage(expected: int, actual: int): string {
    "File size mismatch: expected " + IntToString(expected) + ", got " + IntToString(actual)
  }

  /**
   * `validateDownloadedFile`: reading the size either gives it or fails
   * with the file system's description. A file whose size cannot be read
   * is invalid, with that description in the message; otherwise it is
   * invalid exactly when a positive expected size differs from the actual
   * one, and the message names both sizes.
   */
  function ValidateDownloadedFile(actualSize: Result<int, string>, expectedSize: Option<int>): (r: FileValidation)
    ensures !r.isValid <==> actualSize.Err? || (expectedSize.Some? && expectedSize.value > 0 && actualSize.value != expectedSize.value)
    ensures r.isValid <==> r.errorMessage.None?
    ensures actualSize.Ok? ==> r.actualSize == actualSize.value && r.expectedSize == expectedSize
    ensures actualSize.Err? ==>
              r.actualSize == 0 && r.expectedSize.None? && r.errorMessage == Some(ValidationFailedPrefix + actualSize.error)
    ensures actualSize.Ok? && !r.isValid ==>
              r.errorMessage == Some(MismatchMessage(expectedSize.value, actualSize.value))
  {
    match actualSize
    case Err(description) => FileValidation(false, 0, None, Some(ValidationFailedPrefix + description))
    case Ok(actual) =>
      if expectedSize.Some? && expectedSize.value > 0 && actual != expectedSize.value then
        FileValidation(false, actual, expectedSize, Some(MismatchMessage(expectedSize.value, actual)))
      else FileValidation(true, actual, expectedSize, None)
  }

  /**
   * The two failures read differently: a rejected file's message starts
   * with "Validation failed: " exactly when its size could not be read,
   * and then ends with the read error's description.
   */
  lemma FailureMessagesDistinguish(actualSize: Result<int, string>, expectedSize: Option<int>)
    requires !ValidateDownloadedFile(actualSize, expectedSize).isValid
    ensures var message := ValidateDownloadedFile(actualSize, expectedSize).errorMessage.value;
      && (HasPrefix(message, ValidationFailedPrefix) <==> actualSize.Err?)
      && (actualSize.Err? ==> HasSuffix(message, actualSize.error))
  {
    var message := ValidateDownloadedFile(actualSize, expectedSize).errorMessage.value;
    if actualSize.Ok? {
      assert message[0] == 'F';
    } else {
      assert message[|ValidationFailedPrefix|..] == actualSize.error;
    }
  }

  /** A file of the expected size always passes, and without an expected size every readable file does. */
  lemma MatchingSizePasses(size: int, expected: Option<int>)
    requires expected.None? || expected.value <= 0 || expected.value == size
    ensures ValidateDownloadedFile(Ok(size), expected).isValid
  {
  }
}
